=== FILE: README.md ===
# Jellyfin image normaliser — a verified model

The normaliser reads a TOML configuration and discovers the movies and series of a Jellyfin
server's libraries. It then rewrites their logo, thumb, backdrop and profile images to a fixed
canvas size and format.

For every image it does the following:

- plans a resize: "fit" for logos, "cover" otherwise, with upscaling and downscaling each
  allowed or forbidden;
- skips the image, counts it or force-uploads it when no scaling is needed (the NO_SCALE
  policy);
- backs the original up under `<root>/<id[:2]>/<id>/<stem><ext>` when the backup mode asks
  for it;
- renders and encodes the image (PNG for logos, JPEG for thumbs and backdrops, WEBP for
  profiles) and uploads it.

An item's backdrops are replaced as a set by a five-phase protocol: fetch all of them, then
normalise all, delete all, verify they are gone, and upload all in order. A run keeps
counters, a failure list and an API-failure list.

The model has one module per source file:

| module | models |
|---|---|
| `Constants` | `jfin_core/constants.py`: the mode, image-type and filename tables |
| `State` | `jfin_core/state.py`: the `RunStats` counter class and the module-level lists (class `Globals`) |
| `Imaging` | `jfin_core/imaging.py`: scale plans, the NO_SCALE policy, EXIF, palette, crop and pad geometry, mode and format dispatch |
| `Backup` | `jfin_core/backup.py`: extension and content-type mapping, the backup path, the backup-mode policy, and `save_backup` on a `FileSystem` class holding a map from paths to bytes |
| `Client` | the media-server calls the core makes, as a `MediaClient` class with scripted replies and a call log |
| `Pipeline` | `jfin_core/pipeline.py`, single-image path: `_plan_and_backup_image`, `_normalize_image_bytes`, `_process_item_image_payload` |
| `Backdrops` | `jfin_core/pipeline.py`: `normalize_item_backdrops_api`, one method per phase, plus a pure description of the calls a run makes (`ProtocolCalls`) |
| `Driver` | `jfin_core/pipeline.py`: `normalize_item_image_api` and `process_discovered_items` |
| `Discovery` | `jfin_core/discovery.py`: library-name normalisation, user lookup, library filtering and the paginated item merge |
| `Config` | `jfin_core/config.py`: the list parsers, size overrides, runtime and discovery settings, and `validate_config_types` over a typed TOML value |
| `Cli` | `jfin.py`: `parse_size_pair`, the three standalone-command scanners and `warn_unused_cli_overrides` |

Python's own operations are helper modules:

- `Text`: `strip`, `lower`, `split`, decimal `int()`/`str()` and string ordering;
- `Numbers`: `round()` as half-to-even on exact values;
- `Wrappers`: `Option` stands for `None` and `Result` for a raised exception.

Where the source mutates state, the model does too:

- `RunStats`, the module-level lists, the file system and the client are classes whose
  methods say exactly what they change;
- the loops (the list parsers, the argument scanners, the backdrop phases, pagination, the
  run over discovered items) are methods with loop invariants;
- each such method states its results and its new state through pure functions and
  predicates of its inputs and old state, and the properties are proved about those. The
  backdrop phases give the counter changes as an effect (successes, warnings, failure entries,
  API failures) applied to the old counters. Discovery characterises the pages it read by a
  predicate over the server's replies, which determines them (`Discovery.ScanOfUnique`).

Some behaviour of the code as it stands, each proved as a lemma:

- `IMAGE_TYPE_TO_MODE` has no `"Backdrop"` entry. With the shipped tables,
  `normalize_item_backdrops_api` therefore stops at its "unsupported image type" warning
  before any fetch (`Driver.StandardRoutes`). The protocol is modelled with the mode table as a
  parameter, so its phases are modelled and proved for a table that maps `"Backdrop"`.
- `"backdrop"` is not in `VALID_MODES`, so `--backdrop-jpeg-quality` and
  `--backdrop-target-size` always draw their "no effect" warning
  (`Cli.BackdropOverridesAlwaysIgnored`).

## Model

| member | source | states |
|---|---|---|
| Numbers.RoundHalfEven | jfin_core/imaging.py:54-55 | the rounded value is within one half of the exact value, and an exact tie goes to the even neighbour (Python's `round`) |
| Numbers.RoundMonotone | jfin_core/imaging.py:54-55 | rounding never reverses the order of two values |
| Numbers.RoundOfInt | jfin_core/imaging.py:54-55 | rounding a whole number gives that number back |
| Numbers.RoundBounds | jfin_core/imaging.py:54-55 | a value at or below (at or above) an integer bound rounds to a value at or below (at or above) that bound |
| Constants.FilenameStems | jfin_core/constants.py:36-40 | the stem table maps exactly the declared image types, each to its declared stem |
| Constants.ModeTablesInverse | jfin_core/constants.py:18-28 | the image-type-to-mode table and the mode-to-image-type table are inverse to each other |
| Constants.ModesAreConfigured | jfin_core/constants.py:3-28 | the valid modes are exactly logo, thumb and profile, which are both the values of the image-type table and the keys of the mode table |
| Constants.StemsDistinct | jfin_core/constants.py:36-40 | no two image types share a backup stem, and no image type is listed twice |
| Constants.StemDomainIsModeDomain | jfin_core/constants.py:18-40 | the stem table and the image-type-to-mode table cover the same image types |
| State.RunStats.constructor | jfin_core/state.py:8-25 | a new run starts with every counter at zero, no failed items and no processed ids, and the run invariant holds |
| State.RunStats.RecordItemProcessed | jfin_core/state.py:27-34 | a non-empty id is added to the processed set and counted once only; an empty id changes nothing; the run invariant (processed count equals the number of distinct ids) is kept |
| State.RunStats.RecordSuccess | jfin_core/state.py:36-38 | only the success counter grows, by one; the run invariant is kept |
| State.RunStats.RecordWarning | jfin_core/state.py:40-42 | only the warning counter grows, by one; the run invariant is kept |
| State.RunStats.RecordSkip | jfin_core/state.py:44-46 | only the skip counter grows, by one; the run invariant is kept |
| State.RunStats.RecordImagesFound | jfin_core/state.py:48-52 | the images-found counter grows by the count, and a negative count adds nothing |
| State.RunStats.RecordError | jfin_core/state.py:54-57 | the error counter grows by one and the (identifier, reason) pair is appended, so errors always equal the number of failed items |
| State.LatestApiError | jfin_core/state.py:71-75 | an error is reported exactly when a failure was recorded after the given mark and the newest one carries a non-empty error, and then it is that error |
| State.Globals.constructor | jfin_core/state.py:60-65 | module state starts with fresh zero statistics, empty failure and scaling lists, and dry run off |
| State.Globals.Reset | jfin_core/state.py:78-87 | reset installs fresh zero statistics, empties the API-failure and scaling lists and clears dry run |
| Imaging.DecisionName | jfin_core/imaging.py:14-27 | a decision's name is one of SCALE_UP, SCALE_DOWN, NO_SCALE, and it is NO_SCALE exactly for the no-scale decision |
| Imaging.RawScale | jfin_core/imaging.py:39-45 | the fit scale keeps both sides inside the target, the cover scale makes both reach it, and either way one side meets the target exactly |
| Imaging.Clamp | jfin_core/imaging.py:49-52 | with upscaling off the scale is at most 1, with downscaling off at least 1; it is either the raw scale or 1, and the raw scale when the flags allow it |
| Imaging.ScaleAxisBounds | jfin_core/imaging.py:54-55 | a scaled side whose exact length is within a bound still is after rounding |
| Imaging.ComputeScaledSize | jfin_core/imaging.py:29-57 | an unknown fit mode is an error; otherwise the scale is the clamped fit/cover scale and the new sides are the rounded scaled sides |
| Imaging.MakeScalePlan | jfin_core/imaging.py:60-94 | the plan keeps the original size, and its decision is SCALE_UP exactly when the scale exceeds 1, SCALE_DOWN when below, NO_SCALE when equal |
| Imaging.PlanSizes | jfin_core/imaging.py:60-94 | a successful plan carries exactly the scale, new width and new height that the scaled-size computation gives for the same inputs |
| Imaging.NoScaleKeepsSize | jfin_core/imaging.py:54-94 | a NO_SCALE plan leaves the width and height unchanged |
| Imaging.NeitherDirectionMeansNoScale | jfin_core/imaging.py:49-52 | with both upscaling and downscaling disabled every plan is NO_SCALE |
| Imaging.DecisionBoundsSize | jfin_core/imaging.py:49-94 | a downscale never enlarges a side and an upscale never shrinks one |
| Imaging.FitAxisInside | jfin_core/imaging.py:42-55 | a side that fits the bound before rounding still fits after clamping and rounding when downscaling is allowed |
| Imaging.CoverAxisReaches | jfin_core/imaging.py:44-55 | a side that reaches the bound before rounding still reaches it after clamping and rounding when upscaling is allowed |
| Imaging.FitStaysInsideTarget | jfin_core/imaging.py:29-94 | a fit plan with downscaling allowed yields a size inside the target box |
| Imaging.CoverFillsTarget | jfin_core/imaging.py:29-94 | a cover plan with upscaling allowed yields a size that covers the target box |
| Imaging.RecordScaleDecision | jfin_core/imaging.py:96-106 | an upscale is appended to the upscaled list, a downscale to the downscaled list, NO_SCALE to neither; nothing else changes |
| Imaging.NoScaleRule | jfin_core/imaging.py:132-170 | processing continues exactly for a scaling plan; a NO_SCALE plan counts an error only when a forced upload was made and failed (with the upload's message or the default), otherwise a skip or a success as the caller asked |
| Imaging.DryRunNoScaleSucceeds | jfin_core/imaging.py:147-152 | in a dry run a NO_SCALE plan never uploads and never counts an error |
| Imaging.HandleNoScale | jfin_core/imaging.py:132-170 | the result, the upload call and the counter changes follow the NO_SCALE rule; only the selected counter moves and an error appends its reason |
| Imaging.ApplyExifOrientation | jfin_core/imaging.py:173-192 | a quarter-turn orientation on an already-portrait image leaves it alone, on a landscape image swaps width and height; other orientations keep the size; the pixel mode is kept |
| Imaging.QuarterTurnEndsPortrait | jfin_core/imaging.py:185-192 | after honouring a quarter-turn orientation the image is never wider than tall |
| Imaging.PaletteColorCount | jfin_core/imaging.py:195-203 | a colour count exists exactly when the colours could be listed, and it is capped at 256 |
| Imaging.PaletteColors | jfin_core/imaging.py:230-233 | the palette size is the colour count clamped to 2..256, and 256 when the count is missing or zero |
| Imaging.HalfGap | jfin_core/imaging.py:226-227 | the offset splits the gap in two halves differing by at most one, the larger after the image |
| Imaging.PadOffsets | jfin_core/imaging.py:222-228 | a logo no larger than the canvas is pasted inside it and centred to within one pixel |
| Imaging.LogoCanvasSize | jfin_core/imaging.py:220-228 | a padded logo has the target size; an unpadded one has the scaled size |
| Imaging.CropBox | jfin_core/imaging.py:272-277 | the crop box has exactly the target size, starts at non-negative offsets and is centred to within one pixel on the scaled image |
| Imaging.CoverCropInsideImage | jfin_core/imaging.py:244-284 | the crop of a cover-scaled image lies inside the scaled image |
| Imaging.BuildNormalizedImage | jfin_core/imaging.py:286-348 | only logo, thumb, profile and backdrop are accepted, anything else failing with its mode named; a logo is fitted and padded and becomes PNG (image/png), a thumb or backdrop is cover-cropped in RGB and becomes JPEG (image/jpeg), a profile is cover-cropped in RGBA and becomes WEBP (image/webp); cropped modes have the target size, logos the padded or unpadded canvas |
| Imaging.EncodeOptionsFor | jfin_core/imaging.py:351-377 | only PNG, JPEG and WEBP encode, anything else failing with the quoted format name; PNG is optimised, JPEG optimised and progressive at the JPEG quality, WEBP at the WEBP quality with compression method 6 |
| Imaging.BuiltFormatsEncode | jfin_core/imaging.py:286-377 | every image the builder produces has a format the encoder accepts |
| Backup.GuessExtension | jfin_core/backup.py:10-19 | the extension is one of .png, .jpg, .webp, .img |
| Backup.GuessExtensionPriority | jfin_core/backup.py:10-19 | png wins over jpeg/jpg, which win over webp; .img exactly when none of them occurs in the lower-cased content type |
| Backup.ContentTypeFromExtension | jfin_core/backup.py:22-31 | each content type is chosen exactly for its extensions, case-insensitively; anything else is application/octet-stream |
| Backup.ExtensionRoundTrip | jfin_core/backup.py:10-31 | each of the three image extensions survives the round trip |
| Backup.ContentTypeRoundTrip | jfin_core/backup.py:10-31 | each of the three image content types survives content type to extension and back |
| Backup.BackupStem | jfin_core/backup.py:38 | a configured image type uses its configured stem, any other its lower-cased name |
| Backup.Prefix2 | jfin_core/backup.py:36 | the shard directory is the first two characters of the id, or the whole id when shorter |
| Backup.BackupPath | jfin_core/backup.py:34-39 | the backup path is root / first two characters of the id / id / stem plus extension, so it lies in the item's backup directory |
| Backup.BackupPathsSeparate | jfin_core/backup.py:34-39 | two configured image types of one item never share a backup path |
| Backup.NormalizeBackupMode | jfin_core/backup.py:42-48 | the mode is always full or partial, partial when missing, and full exactly when the stripped, lower-cased input is full |
| Backup.ShouldBackupForPlan | jfin_core/backup.py:51-61 | an image is backed up exactly when the mode is full or it is being rescaled |
| Backup.NormalizedModeOf | jfin_core/backup.py:42-48 | a known mode after strip and lower is kept, anything else becomes partial |
| Backup.BackupModeDefaults | jfin_core/backup.py:44-47 | an unknown or missing mode falls back to partial |
| Backup.BackupModeSpacingAndCase | jfin_core/backup.py:44 | surrounding spaces and letter case do not hide full |
| Backup.ValidModeNormal | jfin_core/backup.py:42-48 | full and partial normalise to themselves |
| Backup.BaseName | jfin_core/backup.py:103 | the file name is the last component of the path once trailing separators are dropped, as a path's name is: it holds no separator, a separator precedes it when the path is longer, a plain name is kept, and it is empty only for a path of separators |
| Backup.TrimTrailingSlashes | jfin_core/backup.py:103 | the trimmed path is a prefix of the path that does not end in a separator, and only separators were dropped |
| Backup.LastComponent | jfin_core/backup.py:103 | the last component is a suffix without a separator, preceded by a separator when it is not the whole path |
| Backup.LastDot | jfin_core/backup.py:103 | the suffix dot found is a dot with no dot after it, and none is found only when there is no dot |
| Backup.ImageTypeFromFilename | jfin_core/backup.py:102-107 | an image type is returned only when its configured stem equals the file's stem case-insensitively, and none exactly when no configured stem does |
| Backup.FindStem | jfin_core/backup.py:104-107 | the scan returns a type whose stem matches, and nothing exactly when no entry matches |
| Backup.LastDotBeforeSuffix | jfin_core/backup.py:103 | in stem.suffix the last dot is the one after the stem |
| Backup.StemOfFileName | jfin_core/backup.py:103 | the stem of stem.suffix is the stem |
| Backup.FindConfiguredStem | jfin_core/backup.py:104-107 | each configured stem is found and maps back to its own image type |
| Backup.ImageTypeOfBackupName | jfin_core/backup.py:34-107 | the file name of a backup leads back to the image type it was saved for |
| Backup.ConfiguredStemIsPlain | jfin_core/constants.py:36-40 | every configured stem is non-empty, lower-case and free of dots and separators |
| Backup.BackupsAreNotStaged | jfin_core/backup.py:34-39 | the backup directory of an item is never a staging directory |
| Backup.StagingDir | jfin_core/pipeline.py:404 | the staging directory of an item is two levels under the root and is never any item's backup directory |
| Backup.StagedFile | jfin_core/pipeline.py:430 | a staged file lies directly in its item's staging directory and is never any backup path |
| Backup.StoreBackup | jfin_core/backup.py:80-99 | a missing backup is written, an existing one is replaced only when overwriting, and no other file changes |
| Backup.StoreBackupIdempotent | jfin_core/backup.py:80-99 | saving the same backup twice is the same as saving it once |
| Backup.StoreBackupUpToDate | jfin_core/backup.py:88-90 | overwriting a backup that already holds the bytes changes nothing |
| Backup.FileSystem.constructor | jfin_core/backup.py:34-99 | the file system starts with the given files and directories |
| Backup.FileSystem.MakeDirs | jfin_core/backup.py:37 | every ancestor of the new directory is created and no file changes |
| Backup.FileSystem.BackupPathForImage | jfin_core/backup.py:34-39 | returns the backup path, creates its directory and leaves files alone |
| Backup.FileSystem.SaveBackup | jfin_core/backup.py:64-99 | the backup lands at the path for the guessed extension and the files change exactly as the store rule says |
| Backup.FileSystem.WriteFile | jfin_core/backup.py:92-97 | exactly the one file is written |
| Backup.FileSystem.RemoveTree | jfin_core/pipeline.py:407-410 | every file and directory under the removed directory is gone and everything else is kept |
| Client.MediaClient.constructor | jfin_core/client.py:15-31 | a client starts with an empty call log and the given scripted replies |
| Client.MediaClient.Fetch | jfin_core/client.py:188-195 | a fetch is logged and answers with the next scripted image, or nothing once the script is exhausted; no other script moves |
| Client.MediaClient.Head | jfin_core/pipeline.py:535-545 | a head probe is logged and reports presence only when the next scripted reply says so |
| Client.MediaClient.Delete | jfin_core/pipeline.py:526-533 | a delete is logged and succeeds only when the next scripted reply says so |
| Client.MediaClient.Upload | jfin_core/client.py:212-310 | an upload is logged; it succeeds exactly when the server accepts it, and a rejection (Unknown error when the script is exhausted) is appended to the API failures with its error; nothing else in the run state changes |
| Client.MediaClient.ListUserLibraries | jfin_core/client.py:143-152 | the library listing is logged and answers with the next scripted reply |
| Client.MediaClient.QueryLibraryItems | jfin_core/client.py:154-186 | an item query is logged with its parent, start index and limit and answers with the next scripted page |
| Discovery.NormalizeLibraryName | jfin_core/discovery.py:38-41 | the normalised name holds only lower-case letters and digits and is never longer than the input |
| Discovery.NormalizeConcat | jfin_core/discovery.py:38-41 | normalising works character by character: the name of a concatenation is the concatenation of the names |
| Discovery.NormalizeIdempotent | jfin_core/discovery.py:38-41 | normalising twice is normalising once |
| Discovery.NormalizeIgnoresCase | jfin_core/discovery.py:38-41 | letter case does not affect the normalised name |
| Discovery.NormalizeDropsSeparators | jfin_core/discovery.py:38-41 | punctuation, spaces and emoji between two parts of a name are ignored |
| Discovery.NoNameChars | jfin_core/discovery.py:38-41 | a string of separators normalises to the empty name |
| Discovery.OrDefault | jfin_core/discovery.py:95 | a present, non-empty value is used, otherwise the default |
| Discovery.FindUserByName | jfin_core/discovery.py:255-262 | a user returned is in the list and its name equals the wanted name case-insensitively |
| Discovery.FindUserByNameFirst | jfin_core/discovery.py:255-262 | a user is found exactly when some user's name matches, and it is the first such user |
| Discovery.ProfileDisplayName | jfin_core/discovery.py:248-252 | the label is at least four characters and ends with the closing parenthesis round the id |
| Discovery.DisplayNameReadBack | jfin_core/discovery.py:248-252 | the label reads back as the name (or <unknown>) and the id (or ?) whenever the name holds no opening parenthesis |
| Discovery.ResolveOperatorUser | jfin_core/discovery.py:44-64 | with a username the first matching user is returned, without one the first user; it fails exactly when there are no users or the name matches none, and then counts one error and appends the no-users or name-not-found failure entry |
| Discovery.NameFilter | jfin_core/discovery.py:81 | the name filter is empty exactly when no library names are configured |
| Discovery.SelectLibrary | jfin_core/discovery.py:91-110 | a listed entry is kept exactly when it has an id, passes the name filter when one is set and has no collection type or an allowed one; the kept reference carries the id, the name or <unknown>, and the lower-cased collection type |
| Discovery.SelectLibraries | jfin_core/discovery.py:91-110 | every selected library has an id, passes the name filter and has an allowed collection type |
| Discovery.SelectLibrariesComplete | jfin_core/discovery.py:91-110 | every entry that passes the filters is selected |
| Discovery.DiscoverLibraries | jfin_core/discovery.py:67-133 | one listing call is made and one listing reply consumed; a failed listing, or a name filter that matches nothing, fails with one error and its failure entry; otherwise the result is exactly the selected libraries and no failure is recorded |
| Discovery.MatchSet | jfin_core/discovery.py:136-139 | the matching types are exactly the enabled types the item carries a tag for |
| Discovery.Find | jfin_core/discovery.py:193 | the lookup finds an item with the id, and nothing exactly when no item has it |
| Discovery.MergeRaw | jfin_core/discovery.py:184-203 | merging one entry adds at most one item and changes existing items only in their image types |
| Discovery.MergeRawWellFormed | jfin_core/discovery.py:184-203 | merging keeps the found items distinct by id, each with an id, at least one enabled image type and the library's id and name |
| Discovery.MergeRawTypes | jfin_core/discovery.py:189-203 | after a merge an item's image types are its old ones plus the enabled types the entry carries |
| Discovery.MergeRawIds | jfin_core/discovery.py:185-201 | an entry adds its id to the found set exactly when it has an id and carries an enabled type |
| Discovery.MergePage | jfin_core/discovery.py:184-203 | a page adds at most one item per entry and keeps every earlier item in place, changed only in its image types |
| Discovery.FindIgnoresTypes | jfin_core/discovery.py:193-201 | adding image types never moves an item, and a new item is found at the end |
| Discovery.MergePageTypes | jfin_core/discovery.py:184-203 | after a page an item's image types are its old ones plus everything its entries on the page contribute |
| Discovery.MergePageWellFormed | jfin_core/discovery.py:184-203 | a whole page keeps the found items well formed |
| Discovery.ScanContinuedPrefixes | jfin_core/discovery.py:213-224 | a scan that reached a page never met the stop rule on an earlier page |
| Discovery.QueryLog | jfin_core/discovery.py:164-181 | there is one query per page received, plus one for a failed request |
| Discovery.QueryLogStarts | jfin_core/discovery.py:172-217 | each query starts at the number of items received on the earlier pages and asks for a page of 200 |
| Discovery.MergePagesWellFormed | jfin_core/discovery.py:164-224 | any number of pages keeps the found items well formed |
| Discovery.MergePages | jfin_core/discovery.py:164-224 | pages only add items, keeping every earlier item in place and changed only in its image types |
| Discovery.ScanOfUnique | jfin_core/discovery.py:164-224 | the server's replies decide the scan: two scans of the same replies read the same pages and fail alike |
| Discovery.PageStep | jfin_core/discovery.py:216-217 | a new page moves the start index by its size, updates the known total when it carries one, and adds one query to the log |
| Discovery.FailedStep | jfin_core/discovery.py:176-181 | a failed request adds one query at the current start index |
| Discovery.MergeEntries | jfin_core/discovery.py:184-203 | merging the entries of a page in order gives the page merge, so every item gains exactly its entries' matching types |
| Discovery.ScanPage | jfin_core/discovery.py:164-224 | one query at the current start index consumes one reply; a missing reply is a failed request, counting one error with a failure entry naming the library, the enabled image types and the start index; otherwise the page appended is that reply, and an empty page, reaching the known total, or a short page without a total stops the scan |
| Discovery.DiscoverLibraryItems | jfin_core/discovery.py:141-231 | the pages read are the server's replies in order, up to the stop rule or the first failed request; no types requested means no queries; the items merge those pages and are well formed; the log has one query per page plus one for a failed request; exactly the unread replies remain; a failed request counts one error with its entry |
| Discovery.DiscoverAllLibraryItems | jfin_core/discovery.py:234-245 | library after library, each scan reads the replies the previous one left; the result is each library's merged pages in order, each well formed for its library; the log is every library's queries in turn; each failed scan counts one error with its entry |
| Discovery.DiscoverNext | jfin_core/discovery.py:238-244 | one more library is scanned from where the previous scan stopped; its merged items, queries and failure entries are appended |
| Discovery.DiscoveredAt | jfin_core/discovery.py:238-244 | the items discovered for library k are the merge of library k's pages |
| Discovery.FlattenAppend | jfin_core/discovery.py:242-244 | extending with one more library's items appends them at the end |
| Pipeline.OrOctet | jfin_core/pipeline.py:188 | a missing or empty content type becomes application/octet-stream; a present one is kept |
| Pipeline.FitMode | jfin_core/pipeline.py:132 | logos are fitted and every other mode is covered |
| Pipeline.Prepare | jfin_core/pipeline.py:129-166 | preparation fails exactly when the bytes do not decode; otherwise the image is oriented by its EXIF tag (unless logo padding is being removed), keeps its original pixel mode, and a palette colour count (at most 256) is taken only for paletted logos |
| Pipeline.PlanImage | jfin_core/pipeline.py:60-68 | planning fails for an empty image or an unknown fit mode and is otherwise the scale plan for the mode's target size and scaling permissions |
| Pipeline.Render | jfin_core/pipeline.py:183-209 | a rendered result carries the plan it was rendered from |
| Pipeline.NormalizeResult | jfin_core/pipeline.py:103-209 | undecodable bytes fail with cannot identify image file, and a success carries the scale plan computed for the image |
| Pipeline.NoScaleKeepsOriginalBytes | jfin_core/pipeline.py:183-189 | a NO_SCALE image that was not cropped is passed through as its original bytes and content type (octet-stream when missing) |
| Pipeline.RebuiltContentType | jfin_core/pipeline.py:191-209 | a rescaled image is re-encoded in its mode's format: PNG for logos, WEBP for profiles, JPEG for thumbs and backdrops |
| Pipeline.NormalizeFailures | jfin_core/pipeline.py:103-209 | undecodable bytes fail, a rescaled image of an unsupported mode fails, and any success had a plan |
| Pipeline.AfterBackupKeepsPaths | jfin_core/pipeline.py:70-79 | a backup never removes a file; a dry run or a run without backups changes no file; every path other than the image's backup path keeps its presence and its contents |
| Pipeline.PlanAndBackup | jfin_core/pipeline.py:41-100 | the plan is the scale plan; the original bytes are backed up (overwriting) exactly when backups are on, the run is live and the policy asks for it; the scaling decision is recorded; counters are untouched |
| Pipeline.BackupIfNeeded | jfin_core/pipeline.py:70-79 | the file system changes exactly by the backup rule |
| Pipeline.NormalizeImageBytes | jfin_core/pipeline.py:103-209 | the result is the normalisation of the bytes; the only counter change is one warning when logo padding removal warns; the files change exactly by the backup rule; the upscaled (downscaled) list gains the image's record exactly when its plan scales up (down); the dry-run flag is unchanged |
| Pipeline.SkipWhenNoScale | jfin_core/pipeline.py:261-265 | an unscaled image is skipped only for logo and thumb without forced upload, never for backdrops |
| Pipeline.UploadCallsFor | jfin_core/pipeline.py:249-292 | at most one upload is made, and none in a dry run or after a failed normalisation |
| Pipeline.Count | jfin_core/pipeline.py:267-304 | each image outcome adds exactly one success, skip or error, and an error exactly for a failed outcome |
| Pipeline.ImageOutcome | jfin_core/pipeline.py:233-304 | a failed normalisation is an error with its message; a skip only happens to an unscaled image whose mode skips; dry runs and accepted uploads never fail; a failure after normalisation needs an upload that was rejected |
| Pipeline.Deliver | jfin_core/pipeline.py:249-299 | the upload calls, counters, failed items and API failures change exactly as the image outcome says, and the result is true exactly when the outcome is not an error |
| Pipeline.ProcessItemImagePayload | jfin_core/pipeline.py:212-305 | normalisation, backup, upload and counting of one image payload: calls, counters (one warning when padding removal warns, then one outcome), failed items, API failures and files all change as the outcome and backup rules say; the upscaled (downscaled) list gains the image's record exactly when its plan scales up (down); the dry-run flag is unchanged |
| Backdrops.LeadingSome | jfin_core/pipeline.py:414-422 | the number of backdrops fetched before the first failed fetch, capped at the backdrop count |
| Backdrops.LeadingTrue | jfin_core/pipeline.py:527-532 | the number of deletes that succeed before the first failed one, capped at the backdrop count |
| Backdrops.LeadingTrueIs | jfin_core/pipeline.py:527-532 | the successful-delete count is the only count with those two properties |
| Backdrops.RejectedUploads | jfin_core/pipeline.py:558-578 | the number of rejected uploads is at most the number attempted |
| Backdrops.NoRejections | jfin_core/pipeline.py:569-578 | no upload was rejected exactly when the server accepted every one |
| Backdrops.StagedShapeAt | jfin_core/pipeline.py:426-451 | each staged entry keeps its content type and, in a live run, is staged at staging/id/index plus a dotted extension |
| Backdrops.GuessedAt | jfin_core/pipeline.py:429 | each staged extension is the one guessed from the backdrop's content type |
| Backdrops.ExtensionIsDotted | jfin_core/backup.py:10-19 | every guessed extension starts with a dot |
| Backdrops.StagedFilesDistinct | jfin_core/pipeline.py:430 | two backdrops of one item are never staged to the same file |
| Backdrops.StagedIsUnderStaging | jfin_core/pipeline.py:404-430 | a staged file lies in the item's staging directory and a backup never does |
| Backdrops.FetchCalls | jfin_core/pipeline.py:417 | the fetch phase makes one call per attempt, at successive source indices |
| Backdrops.DeleteCalls | jfin_core/pipeline.py:528 | the delete phase makes one call per attempt, always at index 0 |
| Backdrops.UploadCalls | jfin_core/pipeline.py:561-568 | the upload phase makes one call per payload, at successive upload indices |
| Backdrops.PhasesInOrder | jfin_core/pipeline.py:401-585 | the server sees all fetches, then all deletes, then the 404 probe, then all uploads |
| Backdrops.CallAt | jfin_core/pipeline.py:401-585 | the protocol's i-th call is the fetch, delete, probe or upload that the phase counts put at that position |
| Backdrops.CallIndices | jfin_core/pipeline.py:414-568 | fetch k asks for source index k, every delete targets index 0, and upload k goes to index k with payload k |
| Backdrops.Images | jfin_core/pipeline.py:414-451 | the fetched images are, in order, the first replies of the fetch script |
| Backdrops.WritesStage | jfin_core/pipeline.py:426-451 | staging writes every fetched image to its own staged file, touches nothing outside the staging directory, and writes nothing in a dry run |
| Backdrops.FetchPhase | jfin_core/pipeline.py:414-457 | fetches run until the first failure or the count; a failure counts one fetch-failed error for its label; staged files hold the fetched bytes and nothing outside staging changes |
| Backdrops.FetchLoop | jfin_core/pipeline.py:414-451 | the loop fetches in index order up to the first failure, consumes exactly that many replies and stages what it got |
| Backdrops.FetchStep | jfin_core/pipeline.py:417-451 | one fetch either stops the loop on a failed reply or extends the staged prefix by one |
| Backdrops.FetchOne | jfin_core/pipeline.py:417-443 | one fetch is logged, consumes one reply, and a received image is written to its staged file (live runs only) |
| Backdrops.Outcomes | jfin_core/pipeline.py:462-510 | there is one normalisation outcome per fetched backdrop |
| Backdrops.OutcomeAt | jfin_core/pipeline.py:489-503 | outcome k is the normalisation of backdrop k |
| Backdrops.PlanAt | jfin_core/pipeline.py:129-180 | entry k of the plan list is the scale plan normalisation computes for backdrop k |
| Backdrops.WarnedAt | jfin_core/pipeline.py:141-165 | entry k of the warning list says whether backdrop k draws the padding warning |
| Backdrops.Normalized | jfin_core/pipeline.py:462-510 | the number of backdrops normalised before the first failure |
| Backdrops.NormalizedStopsAt | jfin_core/pipeline.py:504-508 | the first failure ends normalisation at that index |
| Backdrops.NormalizedAll | jfin_core/pipeline.py:462-510 | with no failure every backdrop is normalised |
| Backdrops.Payloads | jfin_core/pipeline.py:510 | one payload per normalised backdrop |
| Backdrops.PayloadAt | jfin_core/pipeline.py:510 | payload j is the bytes and content type of normalisation j |
| Backdrops.DryPayloads | jfin_core/pipeline.py:465-473 | a dry run prepares empty payloads carrying the original content type (octet-stream when empty) |
| Backdrops.PaddingWarnings | jfin_core/pipeline.py:141-165 | the padding warnings counted over the first k backdrops never exceed k |
| Backdrops.BackupKeepsStaged | jfin_core/pipeline.py:426-451 | backing up an original never disturbs a staged file |
| Backdrops.NormalizeStaged | jfin_core/pipeline.py:475-510 | staged backdrops are normalised in order until the first failure; the statistics change by the normalisation effect: the padding warnings of the backdrops tried and, on failure, one error and one failure entry under its label; the files change exactly by the backups of the backdrops tried and the scale reports gain exactly their records; staged files survive |
| Backdrops.NormalizeLoop | jfin_core/pipeline.py:462-510 | the loop stops at the first failed normalisation and returns the payloads before it; the padding warnings, backups and scale reports are those of the backdrops tried, up to and including the failing one |
| Backdrops.NormalizeEffectAt | jfin_core/pipeline.py:475-510 | a live run that stopped at backdrop k, failing there or after the last one, normalised k backdrops, tried k + 1 on failure, and has the normalisation effect with the warnings of the backdrops tried and the failing backdrop's error |
| Backdrops.NormalizeAt | jfin_core/pipeline.py:489-510 | one step normalises backdrop k, adding its padding warning, its backup and its scale report |
| Backdrops.NormalizeDry | jfin_core/pipeline.py:465-473 | a dry run counts one success per staged backdrop, changes nothing else in the statistics, and returns the dry payloads |
| Backdrops.BackupsAfterKeepsPaths | jfin_core/pipeline.py:70-79 | the backups made during normalisation never remove a file |
| Backdrops.AfterBackupOutside | jfin_core/pipeline.py:70-79 | one backup keeps two stores that agree outside the staging directory agreeing there |
| Backdrops.BackupsAfterOutside | jfin_core/pipeline.py:70-79 | the backups of the backdrops tried keep two stores that agree outside the staging directory agreeing there |
| Backdrops.TriedOutsideAround | jfin_core/pipeline.py:401-516 | changes confined to the staging directory before or after normalisation keep the statement that the files changed by the backups of the backdrops tried and the scale reports by their records |
| Backdrops.NormalizePhase | jfin_core/pipeline.py:459-516 | a dry run succeeds once per backdrop; a live run fails exactly when some backdrop does not normalise, and otherwise yields every payload in order; the statistics change by exactly the phase's effect: padding warnings, and one error with its failure entry on failure; the files change exactly by the backups of the backdrops tried and the scale reports gain exactly their records |
| Backdrops.StagedRetained | jfin_core/pipeline.py:426-451 | each fetched backdrop's bytes are at its staged path |
| Backdrops.CleanupOnFailure | jfin_core/pipeline.py:407-410 | before deletions a live failure removes the staging directory and nothing else; a dry run changes nothing |
| Backdrops.StagePhase | jfin_core/pipeline.py:394-457 | the fetch phase succeeds exactly when the count is not negative and every fetch succeeds; the statistics change by exactly the fetch effect: nothing on success, else one error with a fetch-failed or count-mismatch entry; a failure leaves no staging directory |
| Backdrops.StageAndNormalize | jfin_core/pipeline.py:401-516 | the item is ready for deletion exactly when every fetch succeeds and (in a live run) every backdrop normalises; then the payloads are all normalisations in order and the originals are still staged; otherwise no staging directory remains; the statistics change by the fetch effect followed, when every fetch succeeded, by the normalisation effect; outside the staging directory the files change only by the backups of the backdrops normalised, and the scale reports gain exactly their records |
| Backdrops.NormalizeOrCleanup | jfin_core/pipeline.py:459-516 | a failed normalisation removes the staging directory; a successful one keeps the staged originals; the statistics change by exactly the normalisation effect; outside the staging directory the files change only by the backups of the backdrops tried, and the scale reports gain exactly their records |
| Backdrops.DeleteLoop | jfin_core/pipeline.py:527-532 | deletes at index 0 repeat until the first failure or the count |
| Backdrops.DeletePhase | jfin_core/pipeline.py:518-546 | after all deletes succeed the 404 probe is made once; the phase is verified exactly when the probe finds nothing; a failed delete or probe counts one error under the item id |
| Backdrops.UploadReply | jfin_core/pipeline.py:561-569 | the upload reply is empty exactly when the upload was accepted |
| Backdrops.RejectionsRecorded | jfin_core/pipeline.py:569-578 | every rejected upload appears once among the failed items and once among the API failures, with its error |
| Backdrops.UploadedStateStep | jfin_core/pipeline.py:558-585 | one upload extends the log, consumes one reply and adds a success or, when rejected, an error, a failed item and an API failure |
| Backdrops.UploadCountersStep | jfin_core/pipeline.py:575-580 | after k uploads successes grew by the accepted ones and errors by the rejected ones |
| Backdrops.UploadPhase | jfin_core/pipeline.py:548-585 | every payload is uploaded in order even after a rejection; successes and errors split by the replies, each rejection is recorded, and the result reports whether any was rejected |
| Backdrops.UploadStep | jfin_core/pipeline.py:558-585 | one upload keeps the upload-phase invariant |
| Backdrops.ServerPhases | jfin_core/pipeline.py:518-600 | uploads happen only after every delete succeeded and the probe found nothing; the item succeeds exactly then with no rejection, and then the staging directory is removed; otherwise the staged originals are kept; the statistics change by exactly the server effect: one error and entry for a failed delete or probe, one success per accepted upload, one error, entry and API failure per rejected one; the scale reports are unchanged |
| Backdrops.ReplaceBackdrops | jfin_core/pipeline.py:394-603 | the call log is fetch, delete, probe, upload in that order; the server is called only after every backdrop was fetched and normalised outside a dry run; then deletes at index 0 run up to and including the first refused one, the probe runs exactly when every delete was accepted, and the normalised payloads are uploaded in order exactly when the probe found nothing; the result is true exactly when no error was counted, and then every backdrop counted a success; the statistics change by exactly the protocol's effect; outside the staging directory the files change only by the backups of the backdrops normalised, and the scale reports gain exactly their records; staged originals are kept once deletions began and the run failed; a dry run never touches the server beyond fetching, nor the files |
| Backdrops.NormalizeItemBackdrops | jfin_core/pipeline.py:369-603 | no backdrop mode or settings means one warning and no call; a count of zero means one skip and no call; neither records a failure, a scale report or a file; otherwise the whole fetch-normalise-delete-upload protocol as ReplaceBackdrops states it under the configured mode and settings: call order and delete rule, statistics changed by its effect, backups and scale reports of the backdrops normalised |
| Backdrops.AppliedThen | jfin_core/pipeline.py:394-603 | counting one effect and then another is counting their combination |
| Backdrops.PrepareApplied | jfin_core/pipeline.py:401-516 | the fetch effect followed, when every fetch succeeded, by the normalisation effect is the effect of preparing the item |
| Backdrops.ProtocolApplied | jfin_core/pipeline.py:394-603 | the preparation effect followed, in a live run of a ready item, by the server effect is the effect of the whole protocol |
| Backdrops.PrepareEffectBounds | jfin_core/pipeline.py:401-516 | fetching and normalising record no API failure, at most one failure entry and at most one padding warning per backdrop, and count successes only in a dry run that fetched everything, one per backdrop |
| Backdrops.ServerEffectBounds | jfin_core/pipeline.py:518-600 | deleting and uploading add no warning and at most one success per payload, all of them when nothing failed; with rejected uploads every failure entry has its API failure, without them there is at most one entry |
| Backdrops.ProtocolEffectBounds | jfin_core/pipeline.py:394-603 | over the whole protocol there is at most one failure entry unless uploads were rejected, each with its API failure; with no failure every backdrop counts one success; successes and warnings never exceed the backdrop count |
| Backdrops.ProtocolOk | jfin_core/pipeline.py:394-603 | when the statistics change by the protocol's effect, no error is recorded exactly when the effect has no failure, and then every backdrop was fetched and counted one success |
| Backdrops.ProtocolCalls | jfin_core/pipeline.py:401-585 | the protocol makes one call per fetch attempt, per delete attempt, for the probe when made, and per upload |
| Driver.RouteOf | jfin_core/pipeline.py:320-343 | backdrops go to the backdrop protocol; an image type without a mode is unsupported; a mode without settings has no settings; otherwise the image is normalised alone with its mode's settings |
| Driver.StandardRoutes | jfin_core/constants.py:18-22 | with the shipped table and settings for every valid mode, exactly Logo, Thumb and Primary are normalised alone, other non-backdrop types are unsupported, and the backdrop protocol finds no mode for Backdrop |
| Driver.NormalizeFetched | jfin_core/pipeline.py:351-366 | a fetched image goes through the shared payload processing under the label name (type) [image type], without a backdrop index: its upload calls, counters, failure entry, API failure, backup and scale reports are exactly those Processed gives |
| Driver.SettleFetched | jfin_core/pipeline.py:351-366 | processing a fetched image counts exactly one success, skip or error, and the result is true exactly when no error was counted; the state changes exactly as Processed gives |
| Driver.NormalizeSingleImage | jfin_core/pipeline.py:345-366 | one fetch, then at most one upload; exactly one outcome is counted; a failed fetch counts the error Failed to fetch image bytes and touches nothing else; a delivered image changes calls, counters, failure entries, API failures, files and scale reports exactly as Processed gives |
| Driver.UploadSeg | jfin_core/pipeline.py:346-366 | the calls for one image are its fetch followed by at most one upload to the same item and type |
| Driver.CountedOnce | jfin_core/pipeline.py:267-304 | a padding warning plus one outcome still counts exactly one success, skip or error |
| Driver.NormalizeItemImage | jfin_core/pipeline.py:307-366 | the calls made fit the image type's route; an unsupported type or missing settings counts one warning and changes nothing else; a single image is fetched and processed as NormalizeSingleImage states; for backdrops, a missing configuration or a zero count changes only one counter, and otherwise the result is true exactly when the protocol's effect has no failure, the statistics change by that effect, and backups and scale reports follow the backdrops normalised |
| Driver.EnabledSet | jfin_core/pipeline.py:619 | the enabled set holds exactly the enabled image types |
| Driver.Increment | jfin_core/pipeline.py:623-626 | a non-backdrop type weighs 1; a backdrop weighs its count when positive (and 1 when the count is missing or zero) |
| Driver.ItemWeightStep | jfin_core/pipeline.py:622-627 | adding one more matched type adds its weight |
| Driver.NothingMatched | jfin_core/pipeline.py:621-635 | with non-negative backdrop counts the total is never negative, and it is zero exactly when no item has an enabled type |
| Driver.ItemImageCount | jfin_core/pipeline.py:623-627 | the loop over an item's matched types computes its weight |
| Driver.CountImages | jfin_core/pipeline.py:621-627 | the counting loop computes the total image count |
| Driver.TypeVisitsMembers | jfin_core/pipeline.py:641-643 | an item's visits are exactly its enabled types |
| Driver.TypeVisitsOrdered | jfin_core/pipeline.py:641 | types are visited in increasing order |
| Driver.ItemVisitsSorted | jfin_core/pipeline.py:641-643 | each item is visited once per enabled image type it carries, in sorted order |
| Driver.ProcessedIds | jfin_core/pipeline.py:637-640 | the empty id is never recorded as processed |
| Driver.ProcessedIdsMembers | jfin_core/pipeline.py:637-640 | an id is recorded exactly when it is non-empty and some item with it has an enabled type |
| Driver.ProcessedIdsStep | jfin_core/pipeline.py:637-640 | each item adds its id to the processed set when it has an enabled type |
| Driver.AllFitAt | jfin_core/pipeline.py:637-656 | each visit's calls fit its route |
| Driver.AllFitAppend | jfin_core/pipeline.py:637-656 | the fit of visits to call segments composes across items |
| Driver.FlattenConcat | jfin_core/pipeline.py:637-656 | the call log of consecutive runs is their logs one after the other |
| Driver.VisitLeast | jfin_core/pipeline.py:641-656 | visiting the least remaining type keeps the per-item invariant and shrinks what remains |
| Driver.VisitStep | jfin_core/pipeline.py:641-656 | one visited type extends the sorted prefix, the weight, the visits and the call log consistently |
| Driver.SortedProgress | jfin_core/pipeline.py:641 | taking the least remaining type extends the sorted prefix by that type |
| Driver.WeightProgress | jfin_core/pipeline.py:644-656 | the weight grows by the visited type's increment when it is enabled |
| Driver.ProcessItem | jfin_core/pipeline.py:637-656 | an item with an enabled type is recorded as processed once and visited type by type in sorted order, each visit's calls fitting its route, for its full weight |
| Driver.VisitTypes | jfin_core/pipeline.py:641-656 | the per-item loop visits every enabled type in sorted order and adds up its weight |
| Driver.ItemProgressDone | jfin_core/pipeline.py:641-656 | when no type remains the item's weight and visits are complete |
| Driver.VisitItem | jfin_core/pipeline.py:637-656 | one item keeps the run invariant: processed images, visits, call log and processed ids |
| Driver.ItemContribution | jfin_core/pipeline.py:637-656 | an item without an enabled type is skipped without a call; otherwise it contributes its weight, visits and calls |
| Driver.RunStep | jfin_core/pipeline.py:637-656 | one item's contribution extends the run invariant to the next item |
| Driver.TotalStep | jfin_core/pipeline.py:622-627 | the total over one more item grows by that item's weight |
| Driver.VisitsStep | jfin_core/pipeline.py:637-643 | the visits over one more item grow by that item's sorted visits |
| Driver.ProcessItems | jfin_core/pipeline.py:637-656 | the run visits every enabled type of every item, item by item in sorted type order, each visit's calls fitting its route; processed images equal the total; each processed id is counted once |
| Driver.ProcessDiscoveredItems | jfin_core/pipeline.py:606-663 | the total is recorded as images found (negative counts as zero); a zero total makes no call and leaves the counters, failure and API failure lists, scale reports and files unchanged; otherwise every enabled image is processed as above; the dry-run flag is unchanged |
| Config.ParseStrList | jfin_core/config.py:318-337 | the loop computes the kept list of the raw parts: a string is split at commas and bars, a list is taken item by item, anything else gives no parts |
| Config.KeepParts | jfin_core/config.py:329-337 | the loop keeps each stripped, non-empty part the first time it appears, in order |
| Config.StrippedSource | jfin_core/config.py:331-332 | every stripped text comes from some part |
| Config.StrippedHas | jfin_core/config.py:331-332 | every part's stripped text is among the stripped texts |
| Config.KeptFacts | jfin_core/config.py:318-337 | the kept entries are non-empty, carry no surrounding whitespace, are pairwise distinct, and are exactly the non-empty stripped parts |
| Config.KeptClean | jfin_core/config.py:332-336 | every kept entry is non-empty and stripped |
| Config.KeptDistinct | jfin_core/config.py:333-336 | no entry is kept twice |
| Config.KeptMembers | jfin_core/config.py:331-336 | an entry is kept exactly when it is the non-empty stripped text of some part |
| Config.KeptPrefix | jfin_core/config.py:331-336 | the entries kept from a prefix of the parts stay at the front of the result |
| Config.KeptOfClean | jfin_core/config.py:329-337 | a list that is already distinct and stripped is kept unchanged |
| Config.KeptAddsNew | jfin_core/config.py:333-336 | a new, non-empty stripped part is appended at the end |
| Config.KeptIdempotent | jfin_core/config.py:318-337 | normalising a normalised list changes nothing |
| Config.KeptOfStringHasNoSeparator | jfin_core/config.py:322-323 | entries parsed from a string never contain a comma or a bar |
| Config.IntOf | jfin_core/config.py:559-561 | an integer is itself, a float truncates toward zero, a string parses as a decimal integer or fails, a list or table fails |
| Config.CanonicalItemType | jfin_core/config.py:358-366 | an accepted token maps to Movie or Series |
| Config.Canonical | jfin_core/config.py:357-371 | a rejected token always gives the unknown-item-type message |
| Config.ParseItemTypes | jfin_core/config.py:340-371 | the result is the item-type parse: a wrong shape or an unknown token is an error, no tokens give the defaults, otherwise the canonical names |
| Config.CanonicalizeParts | jfin_core/config.py:357-371 | the loop maps each token and keeps each canonical name once, stopping at the first unknown token |
| Config.CanonicalSticky | jfin_core/config.py:364-366 | once a token is rejected the whole parse is rejected with that error |
| Config.CanonicalFacts | jfin_core/config.py:357-371 | canonicalising succeeds exactly when every token names movies or series; the names are distinct, exactly those named, only Movie or Series, and non-empty for non-empty input |
| Config.CanonicalAccepts | jfin_core/config.py:358-366 | canonicalising succeeds exactly when every token is movie, movies or series in any case |
| Config.CanonicalDistinct | jfin_core/config.py:368-369 | no canonical name appears twice |
| Config.CanonicalMembers | jfin_core/config.py:357-371 | the canonical names are exactly the ones the tokens name |
| Config.ItemTypesFacts | jfin_core/config.py:340-371 | a missing value gives Movie, Series; the parse succeeds exactly for a string or list whose tokens all name movies or series; a success is one or two distinct names from Movie and Series; errors are the shape or the token message |
| Config.ItemTypes | jfin_core/config.py:340-371 | a missing value gives the defaults Movie, Series; a rejection is the shape error or the token error |
| Config.ParseOperations | jfin_core/config.py:374-414 | the result is the operations parse of the command-line mode or, when that is empty, the configured operations |
| Config.CollectOperations | jfin_core/config.py:395-408 | the loop adds each stripped, valid mode once, stops at the first invalid one and fails on a non-string entry |
| Config.CollectSticky | jfin_core/config.py:400-406 | once an entry is rejected the whole list is rejected with that error |
| Config.CollectFacts | jfin_core/config.py:395-408 | collecting succeeds exactly when every entry is a string that strips to nothing or to a valid mode; the result is distinct, exactly the modes named, all valid |
| Config.CollectAccepts | jfin_core/config.py:396-406 | collecting succeeds exactly when every entry is blank or a valid mode |
| Config.CollectDistinct | jfin_core/config.py:407-408 | no operation appears twice |
| Config.CollectMembers | jfin_core/config.py:395-408 | the operations are exactly the modes the entries name |
| Config.CollectValid | jfin_core/config.py:400-406 | every operation is a valid mode |
| Config.OperationsFacts | jfin_core/config.py:374-414 | a command-line mode takes precedence over the configuration; with neither the run is refused; a success is a non-empty, distinct list of valid modes |
| Config.Operations | jfin_core/config.py:374-414 | with no command-line mode and no configured operations the run is refused with the mode message; an accepted list is never empty |
| Config.ModeIsWord | jfin_core/constants.py:3-16 | every valid mode is a stripped word with no list separator in it |
| Config.Entries | jfin_core/config.py:385 | splitting gives one entry per text |
| Config.CollectOfModes | jfin_core/config.py:395-408 | a distinct list of valid modes collects to itself |
| Config.EntriesInit | jfin_core/config.py:385 | the entries of a shorter text list are a prefix of the longer list's entries |
| Config.CollectAddsMode | jfin_core/config.py:400-408 | a new valid mode is appended at the end |
| Config.OperationsRoundTrip | jfin_core/config.py:374-414 | joining a distinct list of valid modes with bars and parsing it gives the list back, whatever the configuration says |
| Config.ValidatePositiveOverride | jfin_core/config.py:488-495 | a missing override is no override; a positive integer is accepted as itself; anything else is rejected with the label and the value's repr |
| Config.DeriveCanvasSizeFacts | jfin_core/config.py:498-524 | an invalid width override is reported first; the derivation succeeds exactly when both overrides are valid; with no overrides the base size is kept; with both they are used as given |
| Config.DeriveCanvasSize | jfin_core/config.py:498-524 | the derivation succeeds exactly when both overrides are valid; an override with a positive base side, or two overrides, give a size of at least 1 by 1 |
| Config.DeriveCanvasSizeFromWidth | jfin_core/config.py:515-518 | with only a width override and a positive base width the height follows the base aspect ratio, rounded, and at least 1 |
| Config.DeriveCanvasSizeFromHeight | jfin_core/config.py:519-522 | with only a height override and a positive base height the width follows the base aspect ratio, rounded, and at least 1 |
| Config.InferSideProportional | jfin_core/config.py:516-522 | an inferred side is at least 1 and within one half of the exact proportional length (or below it when clamped to 1) |
| Config.BuildModeRuntimeSettingsFacts | jfin_core/config.py:527-573 | a non-positive command-line target size is refused; otherwise the target is the command-line size or the configured size; qualities default to 85 and 80 and are clamped to 1..95 and 1..100; upscaling and downscaling are allowed unless config or command line disables them; padding is off when configured or asked for a logo |
| Config.BuildModeRuntimeSettings | jfin_core/config.py:527-573 | the JPEG quality is in 1..95 and the WEBP quality in 1..100; a command-line target size is positive and used as given |
| Config.ImageTypesForFacts | jfin_core/config.py:588-592 | each operation with an image type contributes that type, in order; for valid modes there is one type per operation; distinct operations give distinct types |
| Config.ImageTypesForMembers | jfin_core/config.py:588-592 | the image types are exactly the types of the operations that have one |
| Config.ImageTypesForTotal | jfin_core/config.py:588-592 | when every operation has an image type, the types follow the operations one to one |
| Config.ImageTypesForDistinct | jfin_core/config.py:588-592 | distinct operations give distinct image types |
| Config.BuildDiscoverySettingsFacts | jfin_core/config.py:576-599 | discovery settings fail exactly when the item types fail; library names are distinct and stripped, one or two item types, image types follow the operations, and scanning is recursive |
| Config.BuildDiscoverySettings | jfin_core/config.py:576-599 | discovery settings fail only when the item types fail, with their error; a success scans recursively for one or two item types |
| Config.ValidateConfigTypes | jfin_core/config.py:158-315 | the configuration is accepted exactly when it is well typed, and a rejection lists every error found, joined by semicolons after the fixed prefix |
| Config.CollectConfigErrors | jfin_core/config.py:166-312 | the collected errors are the required-key, scalar, operations, item-type, logging, libraries and mode-section errors in that order |
| Config.CheckRequired | jfin_core/config.py:212-217 | jf_url and jf_api_key each report missing, not a string, or empty |
| Config.CheckSections | jfin_core/config.py:268-312 | every present mode section is checked in the order logo, thumb, profile, backdrop |
| Config.ExpectAllEmpty | jfin_core/config.py:168-201 | a batch of type checks reports nothing exactly when every present key has its expected kind |
| Config.RequiredErrorsEmpty | jfin_core/config.py:212-217 | the required keys report nothing exactly when both are non-empty strings |
| Config.SectionErrorsEmpty | jfin_core/config.py:272-312 | a mode section reports nothing exactly when it is a table of well-typed keys with positive sizes and qualities in range |
| Config.SectionsErrorsEmpty | jfin_core/config.py:268-312 | the mode sections report nothing exactly when every present one is well formed |
| Config.ConfigErrors | jfin_core/config.py:158-315 | no error is collected exactly when the configuration is well typed |
| Config.OperationsErrorsEmpty | jfin_core/config.py:230-231 | operations report nothing exactly when absent or a string or list of strings |
| Config.ItemTypeErrorsEmpty | jfin_core/config.py:232-235 | item types report nothing exactly when they parse |
| Config.LoggingErrorsEmpty | jfin_core/config.py:237-246 | logging reports nothing exactly when absent or a table of well-typed keys |
| Config.LibrariesErrorsEmpty | jfin_core/config.py:248-266 | libraries report nothing exactly when absent, a list, a string, an empty table, or a table whose names are a string or a list of strings |
| Config.SectionsErrorsInclude | jfin_core/config.py:268-312 | every error of a present section is reported |
| Config.ConfigErrorsReport | jfin_core/config.py:212-312 | a missing required key, a non-positive width or height, and an out-of-range JPEG or WEBP quality are each reported with their message |
| Cli.ParseSizePair | jfin.py:8-26 | a parsed size has a positive width and height |
| Cli.ParseSizePairFormat | jfin.py:10-13 | the format error is raised exactly when the lower-cased text has no x |
| Cli.SizeMessagesDiffer | jfin.py:10-25 | the three rejections carry different messages, so a caller can tell them apart |
| Cli.ParseSizePairReads | jfin.py:14-26 | an accepted size is the two integers on either side of the first x of the lower-cased text |
| Cli.ParseSizePairRoundTrip | jfin.py:8-26 | printing a width and height around x or X and parsing gives the pair back when both are positive, and the positivity error otherwise |
| Cli.ScanSound | jfin.py:263-362 | every reported extra is an argument that is neither a value flag, nor a flag with an inline value, nor allowed |
| Cli.ScanOfAccepted | jfin.py:263-362 | arguments that are all allowed, value flags or inline values give no extras |
| Cli.ScanAppend | jfin.py:272-287 | scanning two argument lists in a row is scanning each, the second starting with whether the first ended on a value flag |
| Cli.ScanExtras | jfin.py:272-287 | the loop collects exactly the extras: a token after a value flag is skipped, inline values and allowed tokens pass |
| Cli.Scan | jfin.py:272-287 | at most one extra per argument, and every extra is one of the arguments |
| Cli.RejectExtras | jfin.py:263-362 | the command exits exactly when there are extras, with the combined message, one error and one failed "arguments" entry recorded, and nothing else changed |
| Cli.ValidateGenerateConfigArgs | jfin.py:263-292 | --generate-config exits exactly when an argument other than --config (with its value), --silent, -s, --verbose or -v is given, recording one error |
| Cli.ValidateRestoreAllArgs | jfin.py:295-323 | --restore-all exits exactly when an argument other than --config (with its value), --silent, -s, --verbose or -v is given, recording one error |
| Cli.ValidateTestJfArgs | jfin.py:326-362 | --test-jf exits exactly when an argument other than the config and connection flags (with their values) and the logging flags is given, recording one error |
| Cli.RestoreAllWithConfig | tests/test_jfin.py:9-11 | --restore-all with --config, its value and -s has no extras |
| Cli.ModeBesideStandalone | tests/test_jfin.py:14-23 | --mode logo beside --restore-all or --generate-config is reported as the two extras |
| Cli.TestJfWithConnection | jfin.py:326-362 | --test-jf with a connection flag and its value, an inline key and -v has no extras |
| Cli.WarnUnusedCliOverrides | jfin.py:370-412 | the warnings logged are exactly the scaling, flag, size and item-type warnings in source order, each counted once, nothing else changed |
| Cli.WarnSizeOverrides | jfin.py:398-406 | the loop warns for each given target size whose mode is not selected, in logo, thumb, backdrop, profile order |
| Cli.WarnItemTypes | jfin.py:407-412 | --item-types warns exactly when it is non-empty and none of logo, thumb and backdrop is selected |
| Cli.WarnFlagOverrides | jfin.py:384-397 | thumb and backdrop JPEG quality, profile WEBP quality and logo padding each warn when given without their mode |
| Cli.WarnIfIgnored | jfin.py:384-406 | one override warns, and counts one warning, exactly when it is given and its mode is not selected |
| Cli.IgnoredOfFour | jfin.py:384-406 | the warnings of four overrides are their warnings one after the other |
| Cli.IgnoredAppend | jfin.py:384-406 | the warnings of two override lists are the first list's then the second's |
| Cli.IgnoredNone | jfin.py:384-406 | no override warns exactly when none is given without its mode |
| Cli.IgnoredPositions | jfin.py:384-406 | the ignored overrides are positions in the list |
| Cli.IgnoredPositionsSnoc | jfin.py:384-406 | extending the list adds the last position exactly when that override is ignored |
| Cli.IgnoredCount | jfin.py:384-406 | the number of warnings is the number of ignored overrides |
| Cli.Ignored | jfin.py:384-406 | at most one warning per override |
| Cli.WarningsNone | jfin.py:370-412 | nothing is warned exactly when scaling is not fully disabled, no override is given without its mode, and --item-types is not ignored |
| Cli.WarningsCount | jfin.py:370-412 | the warning count is one for disabled scaling, plus one per ignored override, plus one for ignored item types |
| Cli.Warnings | jfin.py:370-412 | at most ten warnings: disabled scaling, four flag overrides, four target sizes and the item types |
| Cli.BackdropOverridesAlwaysIgnored | jfin.py:386-406 | because backdrop is not a selectable mode, a backdrop JPEG quality or target size always draws its warning |

## Left out

- HTTP and the client internals of `jfin_core/client.py` are left out, because the client is
  the network. This covers headers, timeouts, retries and backoff, base64 bodies,
  `fail_fast`, `test_connection`, the user queries and the user profile-image calls.
  - The client is modelled only by what the core calls: fetch, head probe, delete, upload,
    library listing and item query.
  - The dry-run short-circuit inside `_post_image` is not modelled. The modelled core never
    uploads in dry-run.
  - The indexed `get_item_image`, `delete_image` and `get_item_image_head` that the pipeline
    calls are not part of this model's client source. They are modelled from how the pipeline
    uses them.
- Pixel work is left out, because it is foreign code in the image library. This covers
  decoding, resizing, palette conversion and quantisation, EXIF transposition, pasting,
  trimming and encoding.
  - `Pipeline.Codec` stands in for it with abstract functions.
  - Only sizes, offsets, colour modes and format tags are computed.
  - `remove_padding_from_logo` is not part of this model. It is an abstract `trimPadding`
    that reports whether it cropped.
- Rounding is not float rounding. `round(orig * scale)` and `round(base * ratio)` are
  computed on exact rationals with ties to even. Binary floating point can differ from this
  at rounding ties.
- `lower()` and `casefold()` change only ASCII letters, and `int()` accepts only ASCII
  digits. Python also maps non-ASCII letters and digits.
- `warn_unrecommended_aspect_ratios` (jfin.py) is left out. It compares float ratios rounded
  to two decimals.
- Logging output is left out, because it is I/O. This covers all of
  `jfin_core/logging_utils.py`, the log lines and `log_processing_summary`. Only the
  counters, lists and returned messages that accompany each log line are modelled.
- Command-line and file plumbing is left out: `parse_args`, `main`, `run_preflight_check`,
  TOML loading, `default_config_path`, `generate_default_config` and
  `build_jellyfin_client_from_config`.
  - `apply_cli_overrides`, `validate_config_for_mode` and `_merge_section_keys` prepare the
    configuration before the modelled builders run. They are not modelled.
- The profile path (`normalize_profile_user`, `process_profiles`, `process_single_profile`)
  and the thin orchestration `process_libraries_via_api` and `process_single_item_api` are
  left out. They are orchestration over the modelled pieces: discovery, settings, the
  single-image path and the statistics.
- Restore and staging helpers are not part of this model. `restore_from_backups` and
  `restore_single_item_from_backup` (imported by `jfin.py`) and `get_staging_dir` and
  `cleanup_staging_dir` (imported by `jfin_core/pipeline.py`) come from `jfin_core.backup`,
  and `jfin_core/backup.py` does not define them. The two staging helpers are modelled only as
  staging paths `<root>/staging/<id>/<index><ext>` and as the removal of that directory.
- The pipeline passes a `backdrop_index` to `save_backup` (`jfin_core/pipeline.py:78`, `180`
  and `246`), but `backup_path_for_image` takes no index, so the model computes the backup
  path without it.
- Exceptions raised inside `_process_item_image_payload` are only those of the modelled
  failure paths: undecodable bytes, an image of zero width or height, and an unknown mode or
  format. Each becomes one recorded error and a `false` result. Other exceptions are not
  modelled, including file-system write errors: backup and staging writes always succeed.
- Pipeline helper calls with extra parameters that the shown helpers do not take are
  modelled by their use in the pipeline. These are `make_scale_plan(pad_to_canvas=…)`,
  `logo_padding` and `backdrop_index`.
  - `DiscoveredItem` has a `backdropCount` field because the pipeline reads
    `item.backdrop_count`.
  - Discovery never sets it, so it is `None` for discovered items.
- The `no_padding` command-line flag is not defined by `parse_args`. `Config.Args.noPadding`
  models the `getattr` default and is the only way to set it.
- Python `repr` escaping is not modelled. `Config.Repr` and `Text.StrListRepr` (the image
  types in a discovery failure reason) quote each string with single quotes and no escapes.
- Config.Show: a table nested inside a list is shown as `{...}`, where Python's `str` of a
  dict lists its keys and values in insertion order. Dafny maps have no order, so that text is
  not reproduced; such a list entry is kept as `{...}` by the list parsers.
- BaseName: `.` components, repeated separators inside the path and the other normalisations
  `pathlib` applies before taking a name are not modelled; the name is the text after the
  last separator once trailing separators are dropped.
- All backdrops of one item share a single backup path, because `Backup.BackupPath` does not
  take the backdrop index: a later backdrop's backup replaces an earlier one's.
- `int()` failures in `Config.BuildModeRuntimeSettings` are returned as failures. In the
  source they are `ValueError`/`TypeError`, not `ConfigError`.
- Config.BuildModeRuntimeSettings and Config.BuildModeRuntimeSettingsFacts require the
  section to hold integer `width` and `height`. The source raises `KeyError` when a key is
  missing and passes other values on unchecked. Type validation and the per-mode check
  establish integers before the call, so this case is not modelled.
- ProcessDiscoveredItems: with a non-zero total the contract gives the visits, the processed
  ids and count, and the calls each image makes, but not the run-level counters, failure
  entries, API failures, files or scale reports in closed form. Those are stated per image by
  `Driver.NormalizeItemImage`, not folded over the whole run.
- ProcessItems, VisitItem, ItemContribution, ProcessItem, VisitTypes and VisitLeast: the
  loops beneath `Driver.ProcessDiscoveredItems` state the same things and leave the same
  run-level values open, for the same reason.
- KnownTotal: a page's `TotalRecordCount` is `None` both when the key is missing and when the
  server sends an explicit null. `resp.get("TotalRecordCount", total_records)` at
  `jfin_core/discovery.py:216` resets the known total to `None` on an explicit null; the
  model keeps the earlier total in both cases.

=== FILE: backdrops.dfy ===
/**
 * The backdrop replacement protocol of `normalize_item_backdrops_api`: every backdrop of an item
 * is fetched and staged, normalised, then all originals are deleted at index 0, their absence is
 * probed, and the normalised payloads are uploaded at indices 0, 1, ... in source order. The
 * staging directory is removed after a failure that comes before any delete, and after a run
 * whose uploads all succeeded; otherwise it is kept for inspection.
 */
module Backdrops {
  import opened Wrappers
  import opened Backup
  import Text
  import State
  import Client
  import Discovery
  import Pipeline
  import Imaging

  const BackdropType := "Backdrop"

  // ---------------------------------------------------------------- the reply scripts

  /** The number of leading replies that delivered an image, at most `n`: the fetches that succeed. */
  function LeadingSome(replies: seq<Option<Client.Image>>, n: nat): (k: nat)
    ensures k <= n && k <= |replies|
    ensures forall j :: 0 <= j < k ==> replies[j].Some?
    ensures k < n ==> k == |replies| || replies[k].None?
  {
    if n == 0 || replies == [] || replies[0].None? then 0
    else
      var rest := LeadingSome(replies[1..], n - 1);
      assert forall j :: 1 <= j < rest + 1 ==> replies[j] == replies[1..][j - 1];
      1 + rest
  }

  /** The number of leading delete replies that report success, at most `n`. */
  function LeadingTrue(replies: seq<bool>, n: nat): (k: nat)
    ensures k <= n && k <= |replies|
    ensures forall j :: 0 <= j < k ==> replies[j]
    ensures k < n ==> k == |replies| || !replies[k]
  {
    if n == 0 || replies == [] || !replies[0] then 0
    else
      var rest := LeadingTrue(replies[1..], n - 1);
      assert forall j :: 1 <= j < rest + 1 ==> replies[j] == replies[1..][j - 1];
      1 + rest
  }

  /** A run of `k` successes that ends at a refusal, at the end of the script or at `n` is the leading run. */
  lemma LeadingTrueIs(replies: seq<bool>, n: nat, k: nat)
    requires k <= n && k <= |replies| && forall j :: 0 <= j < k ==> replies[j]
    requires k < n ==> k == |replies| || !replies[k]
    ensures LeadingTrue(replies, n) == k
  {
  }

  /** Whether upload number `k` of the script is accepted; an exhausted script rejects. */
  predicate UploadAccepted(replies: seq<Option<string>>, k: nat) {
    k < |replies| && replies[k].None?
  }

  /** How many of the first `n` uploads are rejected. */
  function RejectedUploads(replies: seq<Option<string>>, n: nat): (c: nat)
    ensures c <= n
  {
    if n == 0 then 0 else RejectedUploads(replies, n - 1) + if UploadAccepted(replies, n - 1) then 0 else 1
  }

  /** No upload is rejected exactly when each of the first `n` is accepted. */
  lemma {:induction false} NoRejections(replies: seq<Option<string>>, n: nat)
    ensures RejectedUploads(replies, n) == 0 <==> forall k :: 0 <= k < n ==> UploadAccepted(replies, k)
  {
    if n > 0 {
      NoRejections(replies, n - 1);
    }
  }

  // ---------------------------------------------------------------- the item

  /** `item.backdrop_count or 0`. */
  function Total(item: Discovery.DiscoveredItem): int {
    if item.backdropCount.None? then 0 else item.backdropCount.value
  }

  /** The number of indices `range(total)` visits. */
  function Count(item: Discovery.DiscoveredItem): nat {
    if Total(item) < 0 then 0 else Total(item)
  }

  function Label(item: Discovery.DiscoveredItem, index: nat): string {
    item.name + " [" + item.id + "] backdrop #" + Text.NatToString(index)
  }

  function UploadLabel(item: Discovery.DiscoveredItem, index: nat): string {
    Label(item, index) + " -> upload index " + Text.NatToString(index)
  }

  /** The mode and settings the protocol runs under, when the mode table and settings supply them. */
  function Configuration(modeTable: map<string, string>, settingsByMode: map<string, Pipeline.Settings>)
    : Option<(string, Pipeline.Settings)>
  {
    if BackdropType !in modeTable || modeTable[BackdropType] == "" then None
    else if modeTable[BackdropType] !in settingsByMode then None
    else Some((modeTable[BackdropType], settingsByMode[modeTable[BackdropType]]))
  }

  // ---------------------------------------------------------------- staging

  predicate Under(p: Path, dir: Path) {
    |dir| <= |p| && p[..|dir|] == dir
  }

  /** Nothing is stored at or below `dir`. */
  predicate NothingUnder(files: map<Path, Bytes>, dir: Path) {
    forall p :: p in files ==> !Under(p, dir)
  }

  /** The two stores agree at and below `dir`. */
  ghost predicate SameUnder(a: map<Path, Bytes>, b: map<Path, Bytes>, dir: Path) {
    forall p :: Under(p, dir) ==> (p in a <==> p in b) && (p in a ==> a[p] == b[p])
  }

  /** The two stores agree outside `dir`. */
  ghost predicate SameOutside(a: map<Path, Bytes>, b: map<Path, Bytes>, dir: Path) {
    forall p :: !Under(p, dir) ==> (p in a <==> p in b) && (p in a ==> a[p] == b[p])
  }

  /** A fetched backdrop as the protocol keeps it: its staged file (none in a dry run) and content type. */
  datatype Staged = Staged(path: Option<Path>, contentType: string)

  /**
   * Entry `k` of the staged list for a fetched image: it keeps the image's content type and,
   * outside a dry run, names file `k` of the staging directory with the dotted extension `ext`.
   */
  predicate StagedEntry(root: Path, itemId: string, k: nat, entry: Staged, image: Client.Image, ext: string, dryRun: bool) {
    && entry.contentType == image.contentType
    && |ext| > 0 && ext[0] == '.'
    && if dryRun then entry.path.None? else entry.path == Some(StagedFile(root, itemId, k, ext))
  }

  /** Every entry of the staged list is the `StagedEntry` of its image and extension. */
  predicate StagedShape(root: Path, itemId: string, staged: seq<Staged>, images: seq<Client.Image>, exts: seq<string>,
                        dryRun: bool)
    decreases |staged|
  {
    && |staged| == |images| == |exts|
    && (staged == [] ||
        var m := |staged| - 1;
        && StagedShape(root, itemId, staged[..m], images[..m], exts[..m], dryRun)
        && StagedEntry(root, itemId, m, staged[m], images[m], exts[m], dryRun))
  }

  /** Each extension is the one guessed from its image's content type. */
  predicate Guessed(exts: seq<string>, images: seq<Client.Image>)
    decreases |exts|
  {
    && |exts| == |images|
    && (exts == [] ||
        var m := |exts| - 1;
        Guessed(exts[..m], images[..m]) && exts[m] == GuessExtension(Some(images[m].contentType)))
  }

  lemma {:induction false} StagedShapeAt(root: Path, itemId: string, staged: seq<Staged>, images: seq<Client.Image>,
                                         exts: seq<string>, dryRun: bool, k: nat)
    requires StagedShape(root, itemId, staged, images, exts, dryRun) && k < |staged|
    ensures StagedEntry(root, itemId, k, staged[k], images[k], exts[k], dryRun)
    decreases |staged|
  {
    var m := |staged| - 1;
    if k < m {
      StagedShapeAt(root, itemId, staged[..m], images[..m], exts[..m], dryRun, k);
      assert staged[..m][k] == staged[k] && images[..m][k] == images[k] && exts[..m][k] == exts[k];
    }
  }

  /** Staged file `k` carries the extension guessed from image `k`'s content type. */
  lemma {:induction false} GuessedAt(exts: seq<string>, images: seq<Client.Image>, k: nat)
    requires Guessed(exts, images) && k < |exts|
    ensures exts[k] == GuessExtension(Some(images[k].contentType))
    decreases |exts|
  {
    var m := |exts| - 1;
    if k < m {
      GuessedAt(exts[..m], images[..m], k);
      assert exts[..m][k] == exts[k] && images[..m][k] == images[k];
    }
  }

  /** The store after the staged files were written, in order. */
  function Writes(files: map<Path, Bytes>, staged: seq<Staged>, images: seq<Client.Image>): map<Path, Bytes>
    requires |staged| == |images|
  {
    if staged == [] then files
    else
      var before := Writes(files, staged[..|staged| - 1], images[..|images| - 1]);
      var last := staged[|staged| - 1];
      if last.path.Some? then before[last.path.value := images[|images| - 1].data] else before
  }

  /**
   * What later phases rely on: each entry keeps its image's content type; a dry run has no files;
   * otherwise each file lies in `dir` and holds the bytes that were fetched.
   */
  predicate StagedHolds(files: map<Path, Bytes>, staged: seq<Staged>, images: seq<Client.Image>, dir: Path, dryRun: bool) {
    && |staged| == |images|
    && forall k :: 0 <= k < |staged| ==>
         && staged[k].contentType == images[k].contentType
         && (dryRun <==> staged[k].path.None?)
         && (staged[k].path.Some? ==>
               Under(staged[k].path.value, dir) && staged[k].path.value in files && files[staged[k].path.value] == images[k].data)
  }

  lemma ExtensionIsDotted(contentType: Option<string>)
    ensures |GuessExtension(contentType)| > 0 && GuessExtension(contentType)[0] == '.'
  {
  }

  lemma CharOfConcat(x: string, y: string, i: nat)
    requires i < |x| + |y|
    ensures (x + y)[i] == if i < |x| then x[i] else y[i - |x|]
  {
  }

  /** Two backdrops of one item never share a staged file, whatever their extensions. */
  lemma StagedFilesDistinct(root: Path, itemId: string, i: nat, j: nat, e1: string, e2: string)
    requires i != j
    requires |e1| > 0 && e1[0] == '.' && |e2| > 0 && e2[0] == '.'
    ensures StagedFile(root, itemId, i, e1) != StagedFile(root, itemId, j, e2)
  {
    var a, b := Text.NatToString(i), Text.NatToString(j);
    if StagedFile(root, itemId, i, e1) == StagedFile(root, itemId, j, e2) {
      var last := |root| + 2;
      assert StagedFile(root, itemId, i, e1)[last] == a + e1;
      assert StagedFile(root, itemId, j, e2)[last] == b + e2;
      assert a + e1 == b + e2;
      if |a| < |b| {
        CharOfConcat(a, e1, |a|);
        assert false;
      } else if |b| < |a| {
        CharOfConcat(b, e2, |b|);
        assert false;
      } else {
        assert a == (a + e1)[..|a|];
        assert b == (b + e2)[..|b|];
        Text.DigitsOfNatToString(i);
        Text.DigitsOfNatToString(j);
      }
    }
  }

  /** Staged files lie in the item's staging directory, where no backup is ever written. */
  lemma StagedIsUnderStaging(root: Path, itemId: string, index: nat, ext: string, imageType: string, backupExt: string)
    ensures Under(StagedFile(root, itemId, index, ext), StagingDir(root, itemId))
    ensures !Under(BackupPath(root, itemId, imageType, backupExt), StagingDir(root, itemId))
  {
    var p := StagedFile(root, itemId, index, ext);
    assert p[..|root| + 2] == StagingDir(root, itemId);
    BackupsAreNotStaged(root, itemId, imageType, backupExt, itemId);
  }

  // ---------------------------------------------------------------- the call log

  /** The calls one run issues: its fetches, its deletes, the optional probe and its uploads. */
  datatype Trace = Trace(fetchCalls: nat, deleteCalls: nat, probed: bool, uploads: seq<(Bytes, string)>)

  function FetchCalls(itemId: string, n: nat): (calls: seq<Client.Call>)
    ensures |calls| == n
  {
    seq(n, k => Client.FetchImage(itemId, BackdropType, Some(k)))
  }

  function DeleteCalls(itemId: string, n: nat): (calls: seq<Client.Call>)
    ensures |calls| == n
  {
    seq(n, k => Client.DeleteImage(itemId, BackdropType, 0))
  }

  function UploadCalls(itemId: string, uploads: seq<(Bytes, string)>): (calls: seq<Client.Call>)
    ensures |calls| == |uploads|
  {
    seq(|uploads|, k requires 0 <= k < |uploads| => Client.UploadImage(itemId, BackdropType, Some(k), uploads[k].0, uploads[k].1))
  }

  function ProbeCalls(itemId: string, probed: bool): seq<Client.Call> {
    if probed then [Client.HeadImage(itemId, BackdropType, 0)] else []
  }

  function ProtocolCalls(itemId: string, t: Trace): (calls: seq<Client.Call>)
    ensures |calls| == t.fetchCalls + t.deleteCalls + (if t.probed then 1 else 0) + |t.uploads|
  {
    FetchCalls(itemId, t.fetchCalls) + DeleteCalls(itemId, t.deleteCalls) + ProbeCalls(itemId, t.probed)
    + UploadCalls(itemId, t.uploads)
  }

  /** The phase a call belongs to. */
  function Phase(c: Client.Call): nat {
    match c
    case FetchImage(_, _, _) => 0
    case DeleteImage(_, _, _) => 1
    case HeadImage(_, _, _) => 2
    case UploadImage(_, _, _, _, _) => 3
    case _ => 4
  }

  /** The phases never go back: no fetch after a delete, no delete after the probe, no probe after an upload. */
  lemma {:induction false} PhasesInOrder(itemId: string, t: Trace, i: nat, j: nat)
    requires i <= j < |ProtocolCalls(itemId, t)|
    ensures Phase(ProtocolCalls(itemId, t)[i]) <= Phase(ProtocolCalls(itemId, t)[j])
  {
    CallAt(itemId, t, i);
    CallAt(itemId, t, j);
  }

  /**
   * The call at position `i`: fetch `k` asks for index `k`, every delete and the probe target
   * index 0, and upload `k` sends payload `k` to index `k`.
   */
  lemma CallAt(itemId: string, t: Trace, i: nat)
    requires i < |ProtocolCalls(itemId, t)|
    ensures var f, d, p := t.fetchCalls, t.deleteCalls, |ProbeCalls(itemId, t.probed)|;
      ProtocolCalls(itemId, t)[i] ==
        if i < f then Client.FetchImage(itemId, BackdropType, Some(i))
        else if i < f + d then Client.DeleteImage(itemId, BackdropType, 0)
        else if i < f + d + p then Client.HeadImage(itemId, BackdropType, 0)
        else Client.UploadImage(itemId, BackdropType, Some(i - f - d - p), t.uploads[i - f - d - p].0, t.uploads[i - f - d - p].1)
  {
    var calls := ProtocolCalls(itemId, t);
    var f, d := t.fetchCalls, t.deleteCalls;
    var fd := FetchCalls(itemId, f) + DeleteCalls(itemId, d);
    var fdp := fd + ProbeCalls(itemId, t.probed);
    assert calls == fdp + UploadCalls(itemId, t.uploads);
    if i < |fdp| {
      assert calls[i] == fdp[i];
      if i < f + d {
        assert fdp[i] == fd[i];
      }
    }
  }

  /** A run's calls, phase by phase: the uploads come last, payload `k` at index `k`. */
  lemma CallIndices(itemId: string, t: Trace)
    ensures forall k :: 0 <= k < t.fetchCalls ==> ProtocolCalls(itemId, t)[k] == Client.FetchImage(itemId, BackdropType, Some(k))
    ensures forall k :: t.fetchCalls <= k < t.fetchCalls + t.deleteCalls ==>
      ProtocolCalls(itemId, t)[k] == Client.DeleteImage(itemId, BackdropType, 0)
    ensures var start := |ProtocolCalls(itemId, t)| - |t.uploads|;
      forall k :: 0 <= k < |t.uploads| ==>
        ProtocolCalls(itemId, t)[start + k] == Client.UploadImage(itemId, BackdropType, Some(k), t.uploads[k].0, t.uploads[k].1)
  {
    forall k | 0 <= k < t.fetchCalls + t.deleteCalls {
      CallAt(itemId, t, k);
    }
    var start := |ProtocolCalls(itemId, t)| - |t.uploads|;
    forall k | 0 <= k < |t.uploads|
      ensures ProtocolCalls(itemId, t)[start + k] == Client.UploadImage(itemId, BackdropType, Some(k), t.uploads[k].0, t.uploads[k].1)
    {
      CallAt(itemId, t, start + k);
    }
  }

  // ---------------------------------------------------------------- what the run's statistics record

  /** What a phase adds to the run's statistics: successes and warnings, failure entries and API failures. */
  datatype Effect = Effect(successes: nat, warnings: nat, failures: seq<(string, string)>, api: seq<State.ApiFailure>)

  const NoEffect := Effect(0, 0, [], [])

  /** Two effects, one after the other. */
  function Then(a: Effect, b: Effect): Effect {
    Effect(a.successes + b.successes, a.warnings + b.warnings, a.failures + b.failures, a.api + b.api)
  }

  /**
   * The statistics `after` are those `before` with the effect applied: its successes and
   * warnings counted, one error per failure entry, its entries and API failures appended.
   */
  predicate Applied(before: State.Counters, failures: seq<(string, string)>, api: seq<State.ApiFailure>, e: Effect,
                    after: State.Counters, failuresAfter: seq<(string, string)>, apiAfter: seq<State.ApiFailure>) {
    && after == before.(successes := before.successes + e.successes, warnings := before.warnings + e.warnings,
                        errors := before.errors + |e.failures|)
    && failuresAfter == failures + e.failures
    && apiAfter == api + e.api
  }

  /** Applying two effects in turn applies the two effects one after the other. */
  lemma AppliedThen(c0: State.Counters, f0: seq<(string, string)>, a0: seq<State.ApiFailure>, e1: Effect,
                    c1: State.Counters, f1: seq<(string, string)>, a1: seq<State.ApiFailure>, e2: Effect,
                    c2: State.Counters, f2: seq<(string, string)>, a2: seq<State.ApiFailure>)
    requires Applied(c0, f0, a0, e1, c1, f1, a1) && Applied(c1, f1, a1, e2, c2, f2, a2)
    ensures Applied(c0, f0, a0, Then(e1, e2), c2, f2, a2)
  {
    State.AppendAssoc(f0, e1.failures, e2.failures);
    State.AppendAssoc(a0, e1.api, e2.api);
  }

  /** The count-mismatch error of phase 1, with the number of backdrops fetched. */
  function CountMismatch(item: Discovery.DiscoveredItem, got: nat): (string, string) {
    (item.id, "Fetch failed: expected " + Text.IntToString(Total(item)) + ", got " + Text.NatToString(got))
  }

  /**
   * Phase 1: a fetch that fails is recorded against its index. A negative backdrop count
   * fetches nothing and is recorded as a count mismatch.
   */
  function StageEffect(item: Discovery.DiscoveredItem, replies: seq<Option<Client.Image>>): Effect {
    var got := LeadingSome(replies, Count(item));
    if got < Count(item) then Effect(0, 0, [(Label(item, got), "fetch failed")], [])
    else if Total(item) < 0 then Effect(0, 0, [CountMismatch(item, got)], [])
    else NoEffect
  }

  /**
   * Phase 2 over the staged images: a dry run counts one success each; otherwise the padding
   * warnings of the images tried, and the first failure against its backdrop.
   */
  function NormalizeEffect(codec: Pipeline.Codec, item: Discovery.DiscoveredItem, images: seq<Client.Image>, mode: string,
                           settings: Pipeline.Settings, dryRun: bool): Effect {
    if dryRun then Effect(|images|, 0, [], [])
    else
      var rs := Outcomes(codec, images, mode, settings);
      var m := Normalized(rs, |rs|);
      if m < |rs| then Effect(0, PaddingWarnings(Warned(codec, images, mode, settings), m + 1), [(Label(item, m), rs[m].error)], [])
      else Effect(0, PaddingWarnings(Warned(codec, images, mode, settings), m), [], [])
  }

  /** Phases 1 and 2: phase 2 runs only when every backdrop was staged. */
  function PrepareEffect(codec: Pipeline.Codec, item: Discovery.DiscoveredItem, mode: string, settings: Pipeline.Settings,
                         dryRun: bool, fetchReplies: seq<Option<Client.Image>>): Effect {
    var stage := StageEffect(item, fetchReplies);
    if stage.failures != [] then stage
    else NormalizeEffect(codec, item, Fetched(fetchReplies, Count(item)), mode, settings, dryRun)
  }

  /**
   * Phases 3 and 4 for `n` payloads: a refused delete, or a backdrop still answering the probe,
   * is one failure against the item; otherwise every upload is counted, a rejected one as a
   * failure and an API failure.
   */
  function ServerEffect(item: Discovery.DiscoveredItem, n: nat, deleteReplies: seq<bool>, headReplies: seq<bool>,
                        uploadReplies: seq<Option<string>>): Effect {
    if LeadingTrue(deleteReplies, n) < n then Effect(0, 0, [(item.id, "delete phase failed")], [])
    else if headReplies != [] && headReplies[0] then Effect(0, 0, [(item.id, "404 verification failed")], [])
    else Effect(n - RejectedUploads(uploadReplies, n), 0, UploadFailures(item, uploadReplies, n),
                RejectedCalls(item.id, uploadReplies, n))
  }

  /** The whole protocol: the server phases run only after phases 1 and 2 succeeded outside a dry run. */
  function ProtocolEffect(codec: Pipeline.Codec, item: Discovery.DiscoveredItem, mode: string, settings: Pipeline.Settings,
                          dryRun: bool, fetchReplies: seq<Option<Client.Image>>, deleteReplies: seq<bool>,
                          headReplies: seq<bool>, uploadReplies: seq<Option<string>>): Effect {
    var prepare := PrepareEffect(codec, item, mode, settings, dryRun, fetchReplies);
    if prepare.failures != [] || dryRun then prepare
    else Then(prepare, ServerEffect(item, Count(item), deleteReplies, headReplies, uploadReplies))
  }

  /** Phases 1 and 2 record at most one failure and no API failure; outside a dry run they count no success. */
  lemma PrepareEffectBounds(codec: Pipeline.Codec, item: Discovery.DiscoveredItem, mode: string, settings: Pipeline.Settings,
                            dryRun: bool, fetchReplies: seq<Option<Client.Image>>)
    ensures var e := PrepareEffect(codec, item, mode, settings, dryRun, fetchReplies);
      && e.api == [] && |e.failures| <= 1 && e.warnings <= Count(item)
      && e.successes == (if dryRun && e.failures == [] then Count(item) else 0)
  {
    var images := Fetched(fetchReplies, Count(item));
    assert |images| == LeadingSome(fetchReplies, Count(item));
  }

  /** Phases 3 and 4: each rejected upload is one failure entry and one API failure; the others are successes. */
  lemma ServerEffectBounds(item: Discovery.DiscoveredItem, n: nat, deleteReplies: seq<bool>, headReplies: seq<bool>,
                           uploadReplies: seq<Option<string>>)
    ensures var e := ServerEffect(item, n, deleteReplies, headReplies, uploadReplies);
      && e.warnings == 0 && e.successes <= n && (e.failures == [] ==> e.successes == n)
      && (e.api != [] ==> |e.api| == |e.failures|)
      && (e.api == [] ==> |e.failures| <= 1)
  {
    RejectionsRecorded(item, uploadReplies, n);
  }

  /**
   * The protocol aborts at its first failure except in the upload phase: every API failure comes
   * with a failure entry, and without a rejected upload at most one error is recorded. When
   * nothing fails, every backdrop is counted as one success; a backdrop draws at most one
   * padding warning.
   */
  lemma ProtocolEffectBounds(codec: Pipeline.Codec, item: Discovery.DiscoveredItem, mode: string,
                             settings: Pipeline.Settings, dryRun: bool,
                             fetchReplies: seq<Option<Client.Image>>, deleteReplies: seq<bool>,
                             headReplies: seq<bool>, uploadReplies: seq<Option<string>>)
    ensures var e := ProtocolEffect(codec, item, mode, settings, dryRun, fetchReplies, deleteReplies, headReplies, uploadReplies);
      && |e.api| <= |e.failures|
      && (e.api == [] ==> |e.failures| <= 1)
      && (e.failures == [] ==> e.successes == Count(item))
      && e.successes <= Count(item) && e.warnings <= Count(item)
  {
    PrepareEffectBounds(codec, item, mode, settings, dryRun, fetchReplies);
    ServerEffectBounds(item, Count(item), deleteReplies, headReplies, uploadReplies);
  }

  // ---------------------------------------------------------------- phase 1: fetch and stage

  /** The images of the first `k` replies, all of which delivered one. */
  function Images(replies: seq<Option<Client.Image>>, k: nat): (images: seq<Client.Image>)
    requires k <= |replies| && forall j :: 0 <= j < k ==> replies[j].Some?
    ensures |images| == k && forall j :: 0 <= j < k ==> images[j] == replies[j].value
  {
    seq(k, j requires 0 <= j < k => replies[j].value)
  }

  /** The images a fetch phase over `n` indices obtains before its first failure. */
  function Fetched(replies: seq<Option<Client.Image>>, n: nat): seq<Client.Image> {
    Images(replies, LeadingSome(replies, n))
  }

  /**
   * Writing the staged files in order leaves each of them holding its image (the files are
   * distinct), and touches nothing outside the staging directory; a dry run writes nothing.
   */
  lemma {:induction false} WritesStage(files: map<Path, Bytes>, root: Path, itemId: string, staged: seq<Staged>,
                                       images: seq<Client.Image>, exts: seq<string>, dryRun: bool)
    requires StagedShape(root, itemId, staged, images, exts, dryRun)
    ensures StagedHolds(Writes(files, staged, images), staged, images, StagingDir(root, itemId), dryRun)
    ensures SameOutside(files, Writes(files, staged, images), StagingDir(root, itemId))
    ensures dryRun ==> Writes(files, staged, images) == files
  {
    if staged != [] {
      var m := |staged| - 1;
      WritesStage(files, root, itemId, staged[..m], images[..m], exts[..m], dryRun);
      assert forall k :: 0 <= k < m ==> staged[..m][k] == staged[k] && images[..m][k] == images[k];
      if !dryRun {
        StagedIsUnderStaging(root, itemId, m, exts[m], BackdropType, "");
        forall k | 0 <= k < m
          ensures staged[k].path.value != staged[m].path.value
        {
          StagedShapeAt(root, itemId, staged, images, exts, dryRun, k);
          StagedFilesDistinct(root, itemId, k, m, exts[k], exts[m]);
        }
      }
    }
  }

  /**
   * Phase 1: fetch indices 0 .. n-1 in order and stage each image; stop at the first fetch that
   * fails. A failure records `fetch failed` against the index that failed. Only the staging
   * directory is written, and a dry run writes nothing.
   */
  method FetchPhase(g: State.Globals, fs: FileSystem, client: Client.MediaClient, item: Discovery.DiscoveredItem,
                    n: nat, dryRun: bool, root: Path)
    returns (staged: seq<Staged>, failed: bool, ghost exts: seq<string>)
    modifies g.stats, fs, client
    ensures var replies := old(client.fetchReplies);
      var got := LeadingSome(replies, n);
      var calls := if failed then got + 1 else got;
      && (failed <==> got < n)
      && client.log == old(client.log) + FetchCalls(item.id, calls)
      && client.fetchReplies == Client.Drop(replies, calls)
      && StagedShape(root, item.id, staged, Fetched(replies, n), exts, dryRun) && Guessed(exts, Fetched(replies, n))
      && StagedHolds(fs.files, staged, Fetched(replies, n), StagingDir(root, item.id), dryRun)
    ensures client.headReplies == old(client.headReplies) && client.deleteReplies == old(client.deleteReplies)
    ensures client.uploadReplies == old(client.uploadReplies)
    ensures SameOutside(old(fs.files), fs.files, StagingDir(root, item.id))
    ensures dryRun ==> fs.files == old(fs.files)
    ensures g.stats.Snapshot() == old(g.stats.Snapshot()).(errors := old(g.stats.errors) + if failed then 1 else 0)
    ensures g.stats.failedItems == old(g.stats.failedItems) + if failed then [(Label(item, |staged|), "fetch failed")] else []
    ensures g.stats.processedIds == old(g.stats.processedIds)
  {
    ghost var images;
    staged, images, exts := FetchLoop(fs, client, item, n, dryRun, root);
    WritesStage(old(fs.files), root, item.id, staged, images, exts, dryRun);
    failed := |staged| < n;
    if failed {
      g.stats.RecordError(Label(item, |staged|), "fetch failed");
    }
  }

  /**
   * The state after `i` successful rounds of phase 1: the first `i` replies delivered images, the
   * client logged `i` fetches and consumed `i` replies, and the images are staged and written.
   */
  ghost predicate FetchedUpTo(fs: FileSystem, client: Client.MediaClient, itemId: string, root: Path, dryRun: bool,
                              replies: seq<Option<Client.Image>>, log: seq<Client.Call>, files: map<Path, Bytes>,
                              i: nat, staged: seq<Staged>, images: seq<Client.Image>, exts: seq<string>)
    reads fs, client
  {
    && i <= |replies| && (forall j :: 0 <= j < i ==> replies[j].Some?)
    && images == Images(replies, i)
    && client.fetchReplies == Client.Drop(replies, i) && client.log == log + FetchCalls(itemId, i)
    && StagedShape(root, itemId, staged, images, exts, dryRun) && Guessed(exts, images)
    && fs.files == Writes(files, staged, images)
  }

  /** The loop of phase 1: it fetches and writes, and leaves the bookkeeping to `FetchPhase`. */
  method FetchLoop(fs: FileSystem, client: Client.MediaClient, item: Discovery.DiscoveredItem, n: nat, dryRun: bool,
                   root: Path)
    returns (staged: seq<Staged>, ghost images: seq<Client.Image>, ghost exts: seq<string>)
    modifies fs, client
    ensures var replies := old(client.fetchReplies);
      var got := LeadingSome(replies, n);
      var calls := if got < n then got + 1 else got;
      && images == Fetched(replies, n)
      && client.log == old(client.log) + FetchCalls(item.id, calls)
      && client.fetchReplies == Client.Drop(replies, calls)
    ensures client.headReplies == old(client.headReplies) && client.deleteReplies == old(client.deleteReplies)
    ensures client.uploadReplies == old(client.uploadReplies)
    ensures StagedShape(root, item.id, staged, images, exts, dryRun) && Guessed(exts, images)
    ensures fs.files == Writes(old(fs.files), staged, images)
  {
    ghost var replies := client.fetchReplies;
    staged, images, exts := [], [], [];
    var i := 0;
    while i < n
      invariant i <= n
      invariant FetchedUpTo(fs, client, item.id, root, dryRun, replies, old(client.log), old(fs.files), i, staged, images, exts)
      invariant client.headReplies == old(client.headReplies) && client.deleteReplies == old(client.deleteReplies)
      invariant client.uploadReplies == old(client.uploadReplies)
      modifies fs, client
    {
      var done;
      done, staged, images, exts := FetchStep(fs, client, item, i, dryRun, root, staged, images, exts, replies,
                                              old(client.log), old(fs.files));
      if done {
        assert LeadingSome(replies, n) == i;
        return;
      }
      i := i + 1;
    }
    assert LeadingSome(replies, n) == n;
  }

  /**
   * One round of phase 1: fetch index `i` and, when the image arrives, stage it; `done` reports
   * a failed fetch, after which only the client has moved on.
   */
  method FetchStep(fs: FileSystem, client: Client.MediaClient, item: Discovery.DiscoveredItem, i: nat, dryRun: bool,
                   root: Path, staged: seq<Staged>, ghost images: seq<Client.Image>, ghost exts: seq<string>,
                   ghost replies: seq<Option<Client.Image>>, ghost log: seq<Client.Call>, ghost files: map<Path, Bytes>)
    returns (done: bool, staged': seq<Staged>, ghost images': seq<Client.Image>, ghost exts': seq<string>)
    requires FetchedUpTo(fs, client, item.id, root, dryRun, replies, log, files, i, staged, images, exts)
    modifies fs, client
    ensures done <==> i == |replies| || replies[i].None?
    ensures client.headReplies == old(client.headReplies) && client.deleteReplies == old(client.deleteReplies)
    ensures client.uploadReplies == old(client.uploadReplies)
    ensures done ==> client.fetchReplies == Client.Drop(replies, i + 1) && client.log == log + FetchCalls(item.id, i + 1)
    ensures done ==> staged' == staged && images' == images && exts' == exts && fs.files == Writes(files, staged, images)
    ensures !done ==> FetchedUpTo(fs, client, item.id, root, dryRun, replies, log, files, i + 1, staged', images', exts')
  {
    var r, entry, ext := FetchOne(fs, client, item, i, dryRun, root);
    FetchCallsSnoc(log, item.id, i);
    Client.DropTwice(replies, i, 1);
    done := r.None?;
    if done {
      staged', images', exts' := staged, images, exts;
      return;
    }
    ShapeSnoc(root, item.id, staged, images, exts, entry, r.value, ext, dryRun);
    WritesSnoc(files, staged, images, entry, r.value);
    ImagesSnoc(replies, i);
    staged', images', exts' := staged + [entry], images + [r.value], exts + [ext];
  }

  /** One fetch at `index`; an image that arrives is staged (written, outside a dry run). */
  method FetchOne(fs: FileSystem, client: Client.MediaClient, item: Discovery.DiscoveredItem, index: nat, dryRun: bool,
                  root: Path)
    returns (got: Option<Client.Image>, entry: Staged, ghost ext: string)
    modifies fs, client
    ensures got == if old(client.fetchReplies) == [] then None else old(client.fetchReplies)[0]
    ensures client.log == old(client.log) + [Client.FetchImage(item.id, BackdropType, Some(index))]
    ensures client.fetchReplies == Client.Drop(old(client.fetchReplies), 1)
    ensures client.headReplies == old(client.headReplies) && client.deleteReplies == old(client.deleteReplies)
    ensures client.uploadReplies == old(client.uploadReplies)
    ensures got.None? ==> fs.files == old(fs.files)
    ensures got.Some? ==>
      && ext == GuessExtension(Some(got.value.contentType))
      && StagedEntry(root, item.id, index, entry, got.value, ext, dryRun)
      && fs.files == if entry.path.Some? then old(fs.files)[entry.path.value := got.value.data] else old(fs.files)
  {
    got := client.Fetch(item.id, BackdropType, Some(index));
    entry, ext := Staged(None, ""), "";
    if got.Some? {
      var guessed := GuessExtension(Some(got.value.contentType));
      ExtensionIsDotted(Some(got.value.contentType));
      ext := guessed;
      if dryRun {
        entry := Staged(None, got.value.contentType);
      } else {
        var path := StagedFile(root, item.id, index, guessed);
        fs.WriteFile(path, got.value.data);
        entry := Staged(Some(path), got.value.contentType);
      }
    }
  }

  lemma FetchCallsSnoc(log: seq<Client.Call>, itemId: string, i: nat)
    ensures log + FetchCalls(itemId, i) + [Client.FetchImage(itemId, BackdropType, Some(i))] == log + FetchCalls(itemId, i + 1)
  {
    assert FetchCalls(itemId, i) + [Client.FetchImage(itemId, BackdropType, Some(i))] == FetchCalls(itemId, i + 1);
  }

  lemma ImagesSnoc(replies: seq<Option<Client.Image>>, i: nat)
    requires i < |replies| && forall j :: 0 <= j <= i ==> replies[j].Some?
    ensures Images(replies, i + 1) == Images(replies, i) + [replies[i].value]
  {
  }

  /** Appending the entry for the next image extends the shape and the guessed extensions. */
  lemma ShapeSnoc(root: Path, itemId: string, staged: seq<Staged>, images: seq<Client.Image>, exts: seq<string>,
                  entry: Staged, image: Client.Image, ext: string, dryRun: bool)
    requires StagedShape(root, itemId, staged, images, exts, dryRun) && Guessed(exts, images)
    requires StagedEntry(root, itemId, |staged|, entry, image, ext, dryRun) && ext == GuessExtension(Some(image.contentType))
    ensures StagedShape(root, itemId, staged + [entry], images + [image], exts + [ext], dryRun)
    ensures Guessed(exts + [ext], images + [image])
  {
    var s, i, e := staged + [entry], images + [image], exts + [ext];
    assert s[..|staged|] == staged && i[..|images|] == images && e[..|exts|] == exts;
    assert s[|staged|] == entry && i[|images|] == image && e[|exts|] == ext;
  }

  /** Appending one staged entry adds its one write. */
  lemma WritesSnoc(files: map<Path, Bytes>, staged: seq<Staged>, images: seq<Client.Image>, entry: Staged, image: Client.Image)
    requires |staged| == |images|
    ensures Writes(files, staged + [entry], images + [image])
         == if entry.path.Some? then Writes(files, staged, images)[entry.path.value := image.data] else Writes(files, staged, images)
  {
    var s, i := staged + [entry], images + [image];
    assert s[..|staged|] == staged && i[..|images|] == images;
  }

  // ---------------------------------------------------------------- phase 2: normalise

  /** What normalising one fetched image gives. */
  function Outcome(codec: Pipeline.Codec, image: Client.Image, mode: string, settings: Pipeline.Settings)
    : Result<Pipeline.Normalization, string>
  {
    Pipeline.NormalizeResult(codec, image.data, Some(image.contentType), mode, settings)
  }

  /** The outcomes of normalising each fetched image, in source order. */
  function Outcomes(codec: Pipeline.Codec, images: seq<Client.Image>, mode: string, settings: Pipeline.Settings)
    : (rs: seq<Result<Pipeline.Normalization, string>>)
    ensures |rs| == |images|
  {
    if images == [] then []
    else Outcomes(codec, images[..|images| - 1], mode, settings) + [Outcome(codec, images[|images| - 1], mode, settings)]
  }

  /** Outcome `k` is the result of normalising image `k`. */
  lemma {:induction false} OutcomeAt(codec: Pipeline.Codec, images: seq<Client.Image>, mode: string, settings: Pipeline.Settings, k: nat)
    requires k < |images|
    ensures Outcomes(codec, images, mode, settings)[k] == Outcome(codec, images[k], mode, settings)
  {
    if k < |images| - 1 {
      OutcomeAt(codec, images[..|images| - 1], mode, settings, k);
    }
  }

  /** The first `k` outcomes are successes. */
  predicate NormalizedUpTo(rs: seq<Result<Pipeline.Normalization, string>>, k: nat)
    requires k <= |rs|
  {
    k == 0 || (NormalizedUpTo(rs, k - 1) && rs[k - 1].Success?)
  }

  /** The number of outcomes, among the first `n`, that succeed before the first failure. */
  function Normalized(rs: seq<Result<Pipeline.Normalization, string>>, n: nat): (c: nat)
    requires n <= |rs|
    ensures c <= n && NormalizedUpTo(rs, c)
    ensures c < n ==> rs[c].Failure?
  {
    if n == 0 then 0
    else
      var c := Normalized(rs, n - 1);
      if c == n - 1 && rs[n - 1].Success? then n else c
  }

  /** A failure at `k` after `k` successes fixes the count at `k`. */
  lemma {:induction false} NormalizedStopsAt(rs: seq<Result<Pipeline.Normalization, string>>, k: nat, n: nat)
    requires k < n <= |rs| && NormalizedUpTo(rs, k) && rs[k].Failure?
    ensures Normalized(rs, n) == k
    decreases n
  {
    if n - 1 > k {
      NormalizedStopsAt(rs, k, n - 1);
    } else {
      NormalizedAll(rs, k);
    }
  }

  /** When all of the first `n` outcomes succeed, all `n` count. */
  lemma {:induction false} NormalizedAll(rs: seq<Result<Pipeline.Normalization, string>>, n: nat)
    requires n <= |rs| && NormalizedUpTo(rs, n)
    ensures Normalized(rs, n) == n
  {
    if n > 0 {
      NormalizedAll(rs, n - 1);
    }
  }

  /** The payloads of the first `k` outcomes, all successes: the bytes and content type each upload sends. */
  function Payloads(rs: seq<Result<Pipeline.Normalization, string>>, k: nat): (ps: seq<(Bytes, string)>)
    requires k <= |rs| && NormalizedUpTo(rs, k)
    ensures |ps| == k
  {
    if k == 0 then [] else Payloads(rs, k - 1) + [(rs[k - 1].value.payload, rs[k - 1].value.contentType)]
  }

  /** Payload `j` is outcome `j`'s bytes and content type. */
  lemma {:induction false} PayloadAt(rs: seq<Result<Pipeline.Normalization, string>>, k: nat, j: nat)
    requires k <= |rs| && NormalizedUpTo(rs, k) && j < k
    ensures NormalizedUpTo(rs, j + 1)
    ensures Payloads(rs, k)[j] == (rs[j].value.payload, rs[j].value.contentType)
  {
    if j < k - 1 {
      PayloadAt(rs, k - 1, j);
    }
  }

  /** A dry run's placeholders: empty bytes under the original content type, or octet-stream. */
  function DryPayloads(staged: seq<Staged>): (ps: seq<(Bytes, string)>)
    ensures |ps| == |staged|
    ensures forall j :: 0 <= j < |staged| ==> ps[j] == ([], Pipeline.OrOctet(Some(staged[j].contentType)))
  {
    seq(|staged|, j requires 0 <= j < |staged| => ([], Pipeline.OrOctet(Some(staged[j].contentType))))
  }

  /** The scale plan normalisation computes for each image, in order. */
  function Plans(codec: Pipeline.Codec, images: seq<Client.Image>, mode: string, settings: Pipeline.Settings)
    : (ps: seq<Option<Imaging.ScalePlan>>)
    ensures |ps| == |images|
  {
    if images == [] then []
    else Plans(codec, images[..|images| - 1], mode, settings) + [Pipeline.PlanOf(codec, images[|images| - 1].data, mode, settings)]
  }

  /** Plan `k` is the plan of image `k`. */
  lemma {:induction false} PlanAt(codec: Pipeline.Codec, images: seq<Client.Image>, mode: string, settings: Pipeline.Settings, k: nat)
    requires k < |images|
    ensures Plans(codec, images, mode, settings)[k] == Pipeline.PlanOf(codec, images[k].data, mode, settings)
  {
    if k < |images| - 1 {
      PlanAt(codec, images[..|images| - 1], mode, settings, k);
    }
  }

  /** Whether normalising each image draws the padding warning, in order. */
  function Warned(codec: Pipeline.Codec, images: seq<Client.Image>, mode: string, settings: Pipeline.Settings)
    : (ws: seq<bool>)
    ensures |ws| == |images|
  {
    if images == [] then []
    else Warned(codec, images[..|images| - 1], mode, settings) + [Pipeline.PaddingWarning(codec, images[|images| - 1].data, mode, settings)]
  }

  /** Entry `k` says whether image `k` draws the padding warning. */
  lemma {:induction false} WarnedAt(codec: Pipeline.Codec, images: seq<Client.Image>, mode: string, settings: Pipeline.Settings, k: nat)
    requires k < |images|
    ensures Warned(codec, images, mode, settings)[k] == Pipeline.PaddingWarning(codec, images[k].data, mode, settings)
  {
    if k < |images| - 1 {
      WarnedAt(codec, images[..|images| - 1], mode, settings, k);
    }
  }

  /** How many of the first `k` images draw the padding warning, given which ones do. */
  function PaddingWarnings(warned: seq<bool>, k: nat): (c: nat)
    requires k <= |warned|
    ensures c <= k
  {
    if k == 0 then 0 else PaddingWarnings(warned, k - 1) + if warned[k - 1] then 1 else 0
  }

  /** The store after the first `k` images, planned as `plans` says, went through the backup step of normalisation. */
  function BackupsAfter(files: map<Path, Bytes>, images: seq<Client.Image>, plans: seq<Option<Imaging.ScalePlan>>, k: nat,
                        makeBackup: bool, backupMode: string, root: Path, itemId: string): map<Path, Bytes>
    requires k <= |images| && k <= |plans|
  {
    if k == 0 then files
    else
      var image := images[k - 1];
      Pipeline.AfterBackup(BackupsAfter(files, images, plans, k - 1, makeBackup, backupMode, root, itemId),
                           plans[k - 1], makeBackup, false, backupMode, root, itemId, BackdropType, image.data, Some(image.contentType))
  }

  /** How many staged images phase 2 normalises: none in a dry run, otherwise up to and including the first failure. */
  function Tried(rs: seq<Result<Pipeline.Normalization, string>>, dryRun: bool): (k: nat)
    ensures k <= |rs|
  {
    if dryRun then 0
    else
      var m := Normalized(rs, |rs|);
      if m < |rs| then m + 1 else m
  }

  /** How many fetched backdrops phases 1 and 2 normalise: none unless every backdrop was staged. */
  function Prepared(codec: Pipeline.Codec, item: Discovery.DiscoveredItem, mode: string, settings: Pipeline.Settings,
                    dryRun: bool, fetchReplies: seq<Option<Client.Image>>): (k: nat)
    ensures k <= |Fetched(fetchReplies, Count(item))|
  {
    if StageEffect(item, fetchReplies).failures != [] then 0
    else Tried(Outcomes(codec, Fetched(fetchReplies, Count(item)), mode, settings), dryRun)
  }

  /** A scale report list after the first `k` images, planned as `plans` says, each under its backdrop's label. */
  function ScaleReports(list: seq<State.ScaleRecord>, item: Discovery.DiscoveredItem, plans: seq<Option<Imaging.ScalePlan>>,
                        k: nat, d: Imaging.Decision): seq<State.ScaleRecord>
    requires k <= |plans|
  {
    if k == 0 then list
    else Pipeline.Reported(ScaleReports(list, item, plans, k - 1, d), Label(item, k - 1), plans[k - 1], d)
  }

  /**
   * The store and the scale report lists once the first `k` images of phase 2 were tried,
   * starting from `files`, `up` and `down`: each image's backup and its scale record, in order.
   */
  ghost predicate TriedState(codec: Pipeline.Codec, item: Discovery.DiscoveredItem, images: seq<Client.Image>, mode: string,
                             settings: Pipeline.Settings, makeBackup: bool, backupMode: string, root: Path, k: nat,
                             files: map<Path, Bytes>, up: seq<State.ScaleRecord>, down: seq<State.ScaleRecord>,
                             files': map<Path, Bytes>, up': seq<State.ScaleRecord>, down': seq<State.ScaleRecord>)
    requires k <= |images|
  {
    var plans := Plans(codec, images, mode, settings);
    && files' == BackupsAfter(files, images, plans, k, makeBackup, backupMode, root, item.id)
    && up' == ScaleReports(up, item, plans, k, Imaging.ScaleUp)
    && down' == ScaleReports(down, item, plans, k, Imaging.ScaleDown)
  }

  /**
   * Phase 2 seen from outside the staging directory: there the store agrees with `files` after
   * the backups of the first `k` images, and the scale report lists gained their records.
   */
  ghost predicate TriedOutside(codec: Pipeline.Codec, item: Discovery.DiscoveredItem, images: seq<Client.Image>, mode: string,
                               settings: Pipeline.Settings, makeBackup: bool, backupMode: string, root: Path, k: nat,
                               files: map<Path, Bytes>, up: seq<State.ScaleRecord>, down: seq<State.ScaleRecord>,
                               files': map<Path, Bytes>, up': seq<State.ScaleRecord>, down': seq<State.ScaleRecord>)
    requires k <= |images|
  {
    var plans := Plans(codec, images, mode, settings);
    && SameOutside(BackupsAfter(files, images, plans, k, makeBackup, backupMode, root, item.id), files', StagingDir(root, item.id))
    && up' == ScaleReports(up, item, plans, k, Imaging.ScaleUp)
    && down' == ScaleReports(down, item, plans, k, Imaging.ScaleDown)
  }

  /** A backup lands outside the staging directory, so it acts alike on two stores that agree outside it. */
  lemma AfterBackupOutside(a: map<Path, Bytes>, b: map<Path, Bytes>, plan: Option<Imaging.ScalePlan>, makeBackup: bool,
                           backupMode: string, root: Path, itemId: string, data: Bytes, contentType: Option<string>)
    requires SameOutside(a, b, StagingDir(root, itemId))
    ensures SameOutside(Pipeline.AfterBackup(a, plan, makeBackup, false, backupMode, root, itemId, BackdropType, data, contentType),
                        Pipeline.AfterBackup(b, plan, makeBackup, false, backupMode, root, itemId, BackdropType, data, contentType),
                        StagingDir(root, itemId))
  {
    var dir, path := StagingDir(root, itemId), BackupPath(root, itemId, BackdropType, GuessExtension(contentType));
    StagedIsUnderStaging(root, itemId, 0, "", BackdropType, GuessExtension(contentType));
    if plan.Some? && Pipeline.BackupGate(plan.value, makeBackup, false, backupMode) {
      var a', b' := StoreBackup(a, path, data, true), StoreBackup(b, path, data, true);
      forall p | !Under(p, dir)
        ensures (p in a' <==> p in b') && (p in a' ==> a'[p] == b'[p])
      {
        if p != path {
          assert (p in a' <==> p in a) && (p in b' <==> p in b);
        }
      }
    }
  }

  /** Backups land outside the staging directory, so they act alike on two stores that agree outside it. */
  lemma {:induction false} BackupsAfterOutside(a: map<Path, Bytes>, b: map<Path, Bytes>, images: seq<Client.Image>,
                                               plans: seq<Option<Imaging.ScalePlan>>, k: nat, makeBackup: bool,
                                               backupMode: string, root: Path, itemId: string)
    requires k <= |images| && k <= |plans| && SameOutside(a, b, StagingDir(root, itemId))
    ensures SameOutside(BackupsAfter(a, images, plans, k, makeBackup, backupMode, root, itemId),
                        BackupsAfter(b, images, plans, k, makeBackup, backupMode, root, itemId), StagingDir(root, itemId))
  {
    if k > 0 {
      BackupsAfterOutside(a, b, images, plans, k - 1, makeBackup, backupMode, root, itemId);
      AfterBackupOutside(BackupsAfter(a, images, plans, k - 1, makeBackup, backupMode, root, itemId),
                         BackupsAfter(b, images, plans, k - 1, makeBackup, backupMode, root, itemId),
                         plans[k - 1], makeBackup, backupMode, root, itemId, images[k - 1].data, Some(images[k - 1].contentType));
    }
  }

  /**
   * Phase 2 seen from outside the staging directory is unaffected by changes confined to that
   * directory, whether they come before phase 2 (staging) or after it (clean-up, the server phases).
   */
  lemma TriedOutsideAround(codec: Pipeline.Codec, item: Discovery.DiscoveredItem, images: seq<Client.Image>, mode: string,
                           settings: Pipeline.Settings, makeBackup: bool, backupMode: string, root: Path, k: nat,
                           files0: map<Path, Bytes>, files: map<Path, Bytes>, up: seq<State.ScaleRecord>, down: seq<State.ScaleRecord>,
                           files': map<Path, Bytes>, files'': map<Path, Bytes>, up': seq<State.ScaleRecord>, down': seq<State.ScaleRecord>)
    requires k <= |images|
    requires SameOutside(files0, files, StagingDir(root, item.id))
    requires TriedOutside(codec, item, images, mode, settings, makeBackup, backupMode, root, k, files, up, down, files', up', down')
    requires SameOutside(files', files'', StagingDir(root, item.id))
    ensures TriedOutside(codec, item, images, mode, settings, makeBackup, backupMode, root, k, files0, up, down, files'', up', down')
  {
    BackupsAfterOutside(files0, files, images, Plans(codec, images, mode, settings), k, makeBackup, backupMode, root, item.id);
  }

  /** The run's counters once the first `k` images of phase 2 were tried: only the padding warnings changed. */
  ghost predicate TriedCounters(codec: Pipeline.Codec, images: seq<Client.Image>, mode: string, settings: Pipeline.Settings,
                                k: nat, counters: State.Counters, counters': State.Counters)
    requires k <= |images|
  {
    counters' == counters.(warnings := counters.warnings + PaddingWarnings(Warned(codec, images, mode, settings), k))
  }

  /** Phase 2 outside a dry run, evaluated at the point `k` where the loop stopped. */
  lemma NormalizeEffectAt(codec: Pipeline.Codec, item: Discovery.DiscoveredItem, images: seq<Client.Image>, mode: string,
                          settings: Pipeline.Settings, rs: seq<Result<Pipeline.Normalization, string>>, k: nat, failed: bool)
    requires rs == Outcomes(codec, images, mode, settings) && k <= |rs| && NormalizedUpTo(rs, k)
    requires failed ==> k < |rs| && rs[k].Failure?
    requires !failed ==> k == |rs|
    ensures Normalized(rs, |rs|) == k && Tried(rs, false) == if failed then k + 1 else k
    ensures NormalizeEffect(codec, item, images, mode, settings, false)
         == if failed then Effect(0, PaddingWarnings(Warned(codec, images, mode, settings), k + 1), [(Label(item, k), rs[k].error)], [])
            else Effect(0, PaddingWarnings(Warned(codec, images, mode, settings), k), [], [])
  {
    if failed {
      NormalizedStopsAt(rs, k, |rs|);
    } else {
      NormalizedAll(rs, k);
    }
  }

  /** Backups never land in the staging directory, so the staged files survive them. */
  lemma BackupKeepsStaged(files: map<Path, Bytes>, staged: seq<Staged>, images: seq<Client.Image>, root: Path, itemId: string,
                          plan: Option<Imaging.ScalePlan>, makeBackup: bool, backupMode: string, data: Bytes, contentType: Option<string>)
    requires StagedHolds(files, staged, images, StagingDir(root, itemId), false)
    ensures StagedHolds(Pipeline.AfterBackup(files, plan, makeBackup, false, backupMode, root, itemId, BackdropType, data, contentType),
                        staged, images, StagingDir(root, itemId), false)
  {
    StagedIsUnderStaging(root, itemId, 0, "", BackdropType, GuessExtension(contentType));
  }

  /**
   * Phase 2 outside a dry run: read each staged file and normalise it like a single image (with
   * its backup), stopping at the first failure, which records its error against the backdrop.
   */
  method NormalizeStaged(codec: Pipeline.Codec, g: State.Globals, fs: FileSystem, item: Discovery.DiscoveredItem,
                         staged: seq<Staged>, ghost images: seq<Client.Image>, mode: string, settings: Pipeline.Settings,
                         makeBackup: bool, root: Path, backupMode: string)
    returns (payloads: seq<(Bytes, string)>, failed: bool)
    requires StagedHolds(fs.files, staged, images, StagingDir(root, item.id), false)
    modifies g, g.stats, fs
    ensures var rs := Outcomes(codec, images, mode, settings);
      var m := Normalized(rs, |rs|);
      && (failed <==> m < |rs|)
      && payloads == Payloads(rs, m)
      && TriedState(codec, item, images, mode, settings, makeBackup, backupMode, root, Tried(rs, false),
                    old(fs.files), old(g.upscaled), old(g.downscaled), fs.files, g.upscaled, g.downscaled)
    ensures g.dryRun == old(g.dryRun)
    ensures Applied(old(g.stats.Snapshot()), old(g.stats.failedItems), old(g.apiFailures), NormalizeEffect(codec, item, images, mode, settings, false),
                    g.stats.Snapshot(), g.stats.failedItems, g.apiFailures)
    ensures g.stats == old(g.stats) && g.stats.processedIds == old(g.stats.processedIds)
    ensures StagedHolds(fs.files, staged, images, StagingDir(root, item.id), false)
  {
    ghost var rs := Outcomes(codec, images, mode, settings);
    var k, error;
    payloads, k, error := NormalizeLoop(codec, g, fs, item, staged, images, rs, mode, settings, makeBackup, root, backupMode);
    failed := error.Some?;
    NormalizeEffectAt(codec, item, images, mode, settings, rs, k, failed);
    if failed {
      g.stats.RecordError(Label(item, k), error.value);
    }
  }

  /** The loop of phase 2: it stops at the first failure and reports where, and with what error. */
  method NormalizeLoop(codec: Pipeline.Codec, g: State.Globals, fs: FileSystem, item: Discovery.DiscoveredItem,
                       staged: seq<Staged>, ghost images: seq<Client.Image>, ghost rs: seq<Result<Pipeline.Normalization, string>>,
                       mode: string, settings: Pipeline.Settings, makeBackup: bool, root: Path, backupMode: string)
    returns (payloads: seq<(Bytes, string)>, k: nat, error: Option<string>)
    requires StagedHolds(fs.files, staged, images, StagingDir(root, item.id), false)
    requires rs == Outcomes(codec, images, mode, settings)
    modifies g, g.stats, fs
    ensures k <= |rs| && NormalizedUpTo(rs, k) && payloads == Payloads(rs, k)
    ensures error.Some? ==> k < |rs| && rs[k] == Failure(error.value)
    ensures error.None? ==> k == |rs|
    ensures var tried := if error.Some? then k + 1 else k;
      && TriedCounters(codec, images, mode, settings, tried, old(g.stats.Snapshot()), g.stats.Snapshot())
      && TriedState(codec, item, images, mode, settings, makeBackup, backupMode, root, tried,
                    old(fs.files), old(g.upscaled), old(g.downscaled), fs.files, g.upscaled, g.downscaled)
    ensures g.stats == old(g.stats) && g.stats.processedIds == old(g.stats.processedIds) && g.apiFailures == old(g.apiFailures)
    ensures g.stats.failedItems == old(g.stats.failedItems) && g.dryRun == old(g.dryRun)
    ensures StagedHolds(fs.files, staged, images, StagingDir(root, item.id), false)
  {
    payloads, k, error := [], 0, None;
    while k < |staged|
      invariant k <= |staged| && NormalizedUpTo(rs, k)
      invariant payloads == Payloads(rs, k)
      invariant g.stats == old(g.stats) && g.stats.processedIds == old(g.stats.processedIds)
      invariant g.apiFailures == old(g.apiFailures) && g.stats.failedItems == old(g.stats.failedItems)
      invariant TriedCounters(codec, images, mode, settings, k, old(g.stats.Snapshot()), g.stats.Snapshot())
      invariant TriedState(codec, item, images, mode, settings, makeBackup, backupMode, root, k,
                           old(fs.files), old(g.upscaled), old(g.downscaled), fs.files, g.upscaled, g.downscaled)
      invariant g.dryRun == old(g.dryRun)
      invariant StagedHolds(fs.files, staged, images, StagingDir(root, item.id), false)
    {
      var r := NormalizeAt(codec, g, fs, item, staged, images, rs, k, mode, settings, makeBackup, root, backupMode,
                           old(g.stats.Snapshot()), old(fs.files), old(g.upscaled), old(g.downscaled));
      if r.Failure? {
        error := Some(r.error);
        return;
      }
      payloads := payloads + [(r.value.payload, r.value.contentType)];
      k := k + 1;
    }
  }

  /** One step of phase 2: read staged file `k` and normalise it; its warning and backup extend the run's. */
  method NormalizeAt(codec: Pipeline.Codec, g: State.Globals, fs: FileSystem, item: Discovery.DiscoveredItem,
                     staged: seq<Staged>, ghost images: seq<Client.Image>, ghost rs: seq<Result<Pipeline.Normalization, string>>,
                     k: nat, mode: string, settings: Pipeline.Settings,
                     makeBackup: bool, root: Path, backupMode: string, ghost counters: State.Counters, ghost files: map<Path, Bytes>,
                     ghost up: seq<State.ScaleRecord>, ghost down: seq<State.ScaleRecord>)
    returns (r: Result<Pipeline.Normalization, string>)
    requires k < |staged| && StagedHolds(fs.files, staged, images, StagingDir(root, item.id), false)
    requires rs == Outcomes(codec, images, mode, settings)
    requires TriedCounters(codec, images, mode, settings, k, counters, g.stats.Snapshot())
    requires TriedState(codec, item, images, mode, settings, makeBackup, backupMode, root, k,
                        files, up, down, fs.files, g.upscaled, g.downscaled)
    modifies g, g.stats, fs
    ensures r == rs[k]
    ensures TriedCounters(codec, images, mode, settings, k + 1, counters, g.stats.Snapshot())
    ensures TriedState(codec, item, images, mode, settings, makeBackup, backupMode, root, k + 1,
                       files, up, down, fs.files, g.upscaled, g.downscaled)
    ensures g.dryRun == old(g.dryRun)
    ensures g.stats == old(g.stats) && g.stats.processedIds == old(g.stats.processedIds) && g.apiFailures == old(g.apiFailures)
    ensures g.stats.failedItems == old(g.stats.failedItems)
    ensures StagedHolds(fs.files, staged, images, StagingDir(root, item.id), false)
  {
    OutcomeAt(codec, images, mode, settings, k);
    PlanAt(codec, images, mode, settings, k);
    WarnedAt(codec, images, mode, settings, k);
    var data := fs.files[staged[k].path.value];
    var ct := staged[k].contentType;
    assert data == images[k].data && ct == images[k].contentType;
    BackupKeepsStaged(fs.files, staged, images, root, item.id, Pipeline.PlanOf(codec, data, mode, settings),
                      makeBackup, backupMode, data, Some(ct));
    r := Pipeline.NormalizeImageBytes(codec, g, fs, item.id, Label(item, k), BackdropType, data, Some(ct), mode,
                                      settings, makeBackup, root, backupMode, false);
  }

  /** Phase 2 in a dry run: one success per backdrop and a placeholder payload, nothing read or written. */
  method NormalizeDry(g: State.Globals, staged: seq<Staged>) returns (payloads: seq<(Bytes, string)>)
    modifies g.stats
    ensures payloads == DryPayloads(staged)
    ensures Applied(old(g.stats.Snapshot()), old(g.stats.failedItems), old(g.apiFailures), Effect(|staged|, 0, [], []),
                    g.stats.Snapshot(), g.stats.failedItems, g.apiFailures)
    ensures g.stats.processedIds == old(g.stats.processedIds)
  {
    payloads := [];
    var k := 0;
    while k < |staged|
      invariant k <= |staged| && payloads == DryPayloads(staged[..k])
      invariant g.stats.Snapshot() == old(g.stats.Snapshot()).(successes := old(g.stats.successes) + k)
      invariant g.stats.failedItems == old(g.stats.failedItems) && g.stats.processedIds == old(g.stats.processedIds)
    {
      g.stats.RecordSuccess();
      payloads := payloads + [([], Pipeline.OrOctet(Some(staged[k].contentType)))];
      k := k + 1;
    }
    assert staged[..k] == staged;
  }

  /** A backup step never removes a file, so every path present before the first `k` backups is present after. */
  lemma {:induction false} BackupsAfterKeepsPaths(files: map<Path, Bytes>, images: seq<Client.Image>,
                                                  plans: seq<Option<Imaging.ScalePlan>>, k: nat, makeBackup: bool,
                                                  backupMode: string, root: Path, itemId: string)
    requires k <= |images| && k <= |plans|
    ensures files.Keys <= BackupsAfter(files, images, plans, k, makeBackup, backupMode, root, itemId).Keys
  {
    if k > 0 {
      var image := images[k - 1];
      var before := BackupsAfter(files, images, plans, k - 1, makeBackup, backupMode, root, itemId);
      BackupsAfterKeepsPaths(files, images, plans, k - 1, makeBackup, backupMode, root, itemId);
      Pipeline.AfterBackupKeepsPaths(before, plans[k - 1], makeBackup, false, backupMode,
                                     root, itemId, BackdropType, image.data, Some(image.contentType));
    }
  }

  /**
   * Phase 2, either way: a dry run only counts successes; otherwise the staged files are
   * normalised in order up to the first failure. Backups only add files, and the staged
   * originals stay in place.
   */
  method NormalizePhase(codec: Pipeline.Codec, g: State.Globals, fs: FileSystem, item: Discovery.DiscoveredItem,
                        staged: seq<Staged>, ghost images: seq<Client.Image>, mode: string, settings: Pipeline.Settings,
                        dryRun: bool, makeBackup: bool, root: Path, backupMode: string)
    returns (payloads: seq<(Bytes, string)>, failed: bool)
    requires StagedHolds(fs.files, staged, images, StagingDir(root, item.id), dryRun)
    modifies g, g.stats, fs
    ensures var rs := Outcomes(codec, images, mode, settings);
      && (failed <==> !dryRun && Normalized(rs, |rs|) < |rs|)
      && (!failed && !dryRun ==> NormalizedUpTo(rs, |rs|) && payloads == Payloads(rs, |rs|))
    ensures failed <==> NormalizeEffect(codec, item, images, mode, settings, dryRun).failures != []
    ensures Applied(old(g.stats.Snapshot()), old(g.stats.failedItems), old(g.apiFailures), NormalizeEffect(codec, item, images, mode, settings, dryRun),
                    g.stats.Snapshot(), g.stats.failedItems, g.apiFailures)
    ensures TriedState(codec, item, images, mode, settings, makeBackup, backupMode, root, Tried(Outcomes(codec, images, mode, settings), dryRun),
                       old(fs.files), old(g.upscaled), old(g.downscaled), fs.files, g.upscaled, g.downscaled)
    ensures g.stats == old(g.stats) && g.stats.processedIds == old(g.stats.processedIds) && g.dryRun == old(g.dryRun)
    ensures old(fs.files).Keys <= fs.files.Keys
    ensures dryRun ==> fs.files == old(fs.files)
    ensures StagedHolds(fs.files, staged, images, StagingDir(root, item.id), dryRun)
  {
    if dryRun {
      payloads := NormalizeDry(g, staged);
      failed := false;
    } else {
      payloads, failed := NormalizeStaged(codec, g, fs, item, staged, images, mode, settings, makeBackup, root, backupMode);
      BackupsAfterKeepsPaths(old(fs.files), images, Plans(codec, images, mode, settings),
                             Tried(Outcomes(codec, images, mode, settings), false), makeBackup, backupMode, root, item.id);
    }
  }

  /**
   * What a run that deleted the originals keeps for inspection: image `k`'s bytes in staged file
   * `k`, named with the extension guessed from its content type.
   */
  predicate Retained(files: map<Path, Bytes>, root: Path, itemId: string, images: seq<Client.Image>) {
    forall k :: 0 <= k < |images| ==>
      var p := StagedFile(root, itemId, k, GuessExtension(Some(images[k].contentType)));
      p in files && files[p] == images[k].data
  }

  lemma StagedRetained(files: map<Path, Bytes>, root: Path, itemId: string, staged: seq<Staged>, images: seq<Client.Image>,
                       exts: seq<string>)
    requires StagedShape(root, itemId, staged, images, exts, false) && Guessed(exts, images)
    requires StagedHolds(files, staged, images, StagingDir(root, itemId), false)
    ensures Retained(files, root, itemId, images)
  {
    forall k | 0 <= k < |images|
      ensures var p := StagedFile(root, itemId, k, GuessExtension(Some(images[k].contentType)));
        p in files && files[p] == images[k].data
    {
      StagedShapeAt(root, itemId, staged, images, exts, false, k);
      GuessedAt(exts, images, k);
    }
  }

  /** `cleanup_staging_on_failure` before any delete: the staging directory goes, except in a dry run. */
  method CleanupOnFailure(fs: FileSystem, dryRun: bool, root: Path, itemId: string)
    modifies fs
    ensures dryRun ==> fs.files == old(fs.files)
    ensures !dryRun ==> NothingUnder(fs.files, StagingDir(root, itemId))
    ensures SameOutside(old(fs.files), fs.files, StagingDir(root, itemId))
  {
    if !dryRun {
      fs.RemoveTree(StagingDir(root, itemId));
    }
  }

  /**
   * Phase 1 with its failure handling: the staging directory is created (outside a dry run) and
   * every backdrop is fetched and staged. A failed fetch, or a count that does not match the
   * item's backdrop count, records one error and removes the staging directory.
   */
  method StagePhase(g: State.Globals, fs: FileSystem, client: Client.MediaClient, item: Discovery.DiscoveredItem,
                    dryRun: bool, root: Path)
    returns (staged: seq<Staged>, ok: bool, ghost fetchCalls: nat, ghost exts: seq<string>)
    modifies g.stats, fs, client
    ensures var replies, n := old(client.fetchReplies), Count(item);
      var got := LeadingSome(replies, n);
      && fetchCalls == (if got < n then got + 1 else n)
      && client.log == old(client.log) + FetchCalls(item.id, fetchCalls)
      && client.fetchReplies == Client.Drop(replies, fetchCalls)
      && (ok <==> Total(item) >= 0 && got == n)
      && (ok ==> StagedShape(root, item.id, staged, Fetched(replies, n), exts, dryRun) && Guessed(exts, Fetched(replies, n))
                 && StagedHolds(fs.files, staged, Fetched(replies, n), StagingDir(root, item.id), dryRun))
    ensures client.headReplies == old(client.headReplies) && client.deleteReplies == old(client.deleteReplies)
    ensures client.uploadReplies == old(client.uploadReplies)
    ensures ok <==> StageEffect(item, old(client.fetchReplies)).failures == []
    ensures Applied(old(g.stats.Snapshot()), old(g.stats.failedItems), old(g.apiFailures), StageEffect(item, old(client.fetchReplies)),
                    g.stats.Snapshot(), g.stats.failedItems, g.apiFailures)
    ensures g.stats.processedIds == old(g.stats.processedIds)
    ensures SameOutside(old(fs.files), fs.files, StagingDir(root, item.id))
    ensures dryRun ==> fs.files == old(fs.files)
    ensures !dryRun && !ok ==> NothingUnder(fs.files, StagingDir(root, item.id))
  {
    if !dryRun {
      fs.MakeDirs(root, ["staging", item.id]);
    }
    var failed;
    staged, failed, exts := FetchPhase(g, fs, client, item, Count(item), dryRun, root);
    fetchCalls := if failed then |staged| + 1 else |staged|;
    ok := !failed && |staged| == Total(item);
    if failed {
      CleanupOnFailure(fs, dryRun, root, item.id);
    } else if !ok {
      g.stats.RecordError(CountMismatch(item, |staged|).0, CountMismatch(item, |staged|).1);
      CleanupOnFailure(fs, dryRun, root, item.id);
    }
  }

  /** Phase 1's effect followed, when it recorded no failure, by phase 2's is the effect of both. */
  lemma PrepareApplied(codec: Pipeline.Codec, item: Discovery.DiscoveredItem, mode: string, settings: Pipeline.Settings,
                       dryRun: bool, replies: seq<Option<Client.Image>>,
                       c0: State.Counters, f0: seq<(string, string)>, a0: seq<State.ApiFailure>,
                       c1: State.Counters, f1: seq<(string, string)>, a1: seq<State.ApiFailure>,
                       c2: State.Counters, f2: seq<(string, string)>, a2: seq<State.ApiFailure>)
    requires Applied(c0, f0, a0, StageEffect(item, replies), c1, f1, a1)
    requires StageEffect(item, replies).failures != [] ==> c2 == c1 && f2 == f1 && a2 == a1
    requires StageEffect(item, replies).failures == [] ==>
      Applied(c1, f1, a1, NormalizeEffect(codec, item, Fetched(replies, Count(item)), mode, settings, dryRun), c2, f2, a2)
    ensures Applied(c0, f0, a0, PrepareEffect(codec, item, mode, settings, dryRun, replies), c2, f2, a2)
  {
    if StageEffect(item, replies).failures == [] {
      AppliedThen(c0, f0, a0, StageEffect(item, replies), c1, f1, a1,
                  NormalizeEffect(codec, item, Fetched(replies, Count(item)), mode, settings, dryRun), c2, f2, a2);
    }
  }

  /**
   * Phases 1 and 2 with their failure handling: every backdrop is fetched and staged, then
   * normalised. Any failure records one error and removes the staging directory; `ready` says
   * the server phases may start.
   */
  method StageAndNormalize(codec: Pipeline.Codec, g: State.Globals, fs: FileSystem, client: Client.MediaClient,
                           item: Discovery.DiscoveredItem, mode: string, settings: Pipeline.Settings, dryRun: bool,
                           makeBackup: bool, root: Path, backupMode: string)
    returns (payloads: seq<(Bytes, string)>, ready: bool, ghost fetchCalls: nat)
    modifies g, g.stats, fs, client
    ensures var replies, n := old(client.fetchReplies), Count(item);
      var got := LeadingSome(replies, n);
      var rs := Outcomes(codec, Fetched(replies, n), mode, settings);
      && fetchCalls == (if got < n then got + 1 else n)
      && client.log == old(client.log) + FetchCalls(item.id, fetchCalls)
      && client.fetchReplies == Client.Drop(replies, fetchCalls)
      && (ready <==> Total(item) >= 0 && got == n && (dryRun || Normalized(rs, n) == n))
      && (ready && !dryRun ==> NormalizedUpTo(rs, n) && payloads == Payloads(rs, n))
      && (ready && !dryRun ==> Retained(fs.files, root, item.id, Fetched(replies, n)))
    ensures client.headReplies == old(client.headReplies) && client.deleteReplies == old(client.deleteReplies)
    ensures client.uploadReplies == old(client.uploadReplies)
    ensures ready <==> PrepareEffect(codec, item, mode, settings, dryRun, old(client.fetchReplies)).failures == []
    ensures Applied(old(g.stats.Snapshot()), old(g.stats.failedItems), old(g.apiFailures), PrepareEffect(codec, item, mode, settings, dryRun, old(client.fetchReplies)),
                    g.stats.Snapshot(), g.stats.failedItems, g.apiFailures)
    ensures TriedOutside(codec, item, Fetched(old(client.fetchReplies), Count(item)), mode, settings, makeBackup, backupMode, root,
                         Prepared(codec, item, mode, settings, dryRun, old(client.fetchReplies)),
                         old(fs.files), old(g.upscaled), old(g.downscaled), fs.files, g.upscaled, g.downscaled)
    ensures g.stats == old(g.stats) && g.stats.processedIds == old(g.stats.processedIds) && g.dryRun == old(g.dryRun)
    ensures forall p :: p in old(fs.files) && !Under(p, StagingDir(root, item.id)) ==> p in fs.files
    ensures dryRun ==> fs.files == old(fs.files)
    ensures !dryRun && !ready ==> NothingUnder(fs.files, StagingDir(root, item.id))
  {
    ghost var images := Fetched(old(client.fetchReplies), Count(item));
    var staged, staging;
    ghost var exts;
    staged, staging, fetchCalls, exts := StagePhase(g, fs, client, item, dryRun, root);
    ghost var c1, f1, a1 := g.stats.Snapshot(), g.stats.failedItems, g.apiFailures;
    if staging {
      ghost var files := fs.files;
      payloads, ready := NormalizeOrCleanup(codec, g, fs, item, staged, images, exts, mode, settings, dryRun, makeBackup,
                                            root, backupMode);
      TriedOutsideAround(codec, item, images, mode, settings, makeBackup, backupMode, root,
                         Tried(Outcomes(codec, images, mode, settings), dryRun), old(fs.files), files,
                         old(g.upscaled), old(g.downscaled), fs.files, fs.files, g.upscaled, g.downscaled);
    } else {
      payloads, ready := [], false;
    }
    PrepareApplied(codec, item, mode, settings, dryRun, old(client.fetchReplies), old(g.stats.Snapshot()),
                   old(g.stats.failedItems), old(g.apiFailures), c1, f1, a1,
                   g.stats.Snapshot(), g.stats.failedItems, g.apiFailures);
  }

  /**
   * Phase 2 with its failure handling, once every backdrop is staged: a failed normalisation
   * removes the staging directory; otherwise the staged originals are kept for inspection.
   */
  method NormalizeOrCleanup(codec: Pipeline.Codec, g: State.Globals, fs: FileSystem, item: Discovery.DiscoveredItem,
                            staged: seq<Staged>, ghost images: seq<Client.Image>, ghost exts: seq<string>,
                            mode: string, settings: Pipeline.Settings, dryRun: bool, makeBackup: bool, root: Path,
                            backupMode: string)
    returns (payloads: seq<(Bytes, string)>, ready: bool)
    requires StagedShape(root, item.id, staged, images, exts, dryRun) && Guessed(exts, images)
    requires StagedHolds(fs.files, staged, images, StagingDir(root, item.id), dryRun)
    modifies g, g.stats, fs
    ensures var rs := Outcomes(codec, images, mode, settings);
      && (ready <==> dryRun || Normalized(rs, |images|) == |images|)
      && (ready && !dryRun ==> NormalizedUpTo(rs, |images|) && payloads == Payloads(rs, |images|))
      && (ready && !dryRun ==> Retained(fs.files, root, item.id, images))
    ensures ready <==> NormalizeEffect(codec, item, images, mode, settings, dryRun).failures == []
    ensures Applied(old(g.stats.Snapshot()), old(g.stats.failedItems), old(g.apiFailures), NormalizeEffect(codec, item, images, mode, settings, dryRun),
                    g.stats.Snapshot(), g.stats.failedItems, g.apiFailures)
    ensures TriedOutside(codec, item, images, mode, settings, makeBackup, backupMode, root, Tried(Outcomes(codec, images, mode, settings), dryRun),
                         old(fs.files), old(g.upscaled), old(g.downscaled), fs.files, g.upscaled, g.downscaled)
    ensures g.stats == old(g.stats) && g.stats.processedIds == old(g.stats.processedIds) && g.dryRun == old(g.dryRun)
    ensures forall p :: p in old(fs.files) && !Under(p, StagingDir(root, item.id)) ==> p in fs.files
    ensures dryRun ==> fs.files == old(fs.files)
    ensures !dryRun && !ready ==> NothingUnder(fs.files, StagingDir(root, item.id))
  {
    var failed;
    payloads, failed := NormalizePhase(codec, g, fs, item, staged, images, mode, settings, dryRun, makeBackup, root, backupMode);
    ghost var files := fs.files;
    ready := !failed;
    if failed {
      CleanupOnFailure(fs, dryRun, root, item.id);
    } else if !dryRun {
      StagedRetained(fs.files, root, item.id, staged, images, exts);
    }
    TriedOutsideAround(codec, item, images, mode, settings, makeBackup, backupMode, root, Tried(Outcomes(codec, images, mode, settings), dryRun),
                       old(fs.files), old(fs.files), old(g.upscaled), old(g.downscaled), files, fs.files, g.upscaled, g.downscaled);
  }

  // ---------------------------------------------------------------- phase 3: delete and verify

  lemma DeleteCallsSnoc(log: seq<Client.Call>, itemId: string, i: nat)
    ensures log + DeleteCalls(itemId, i) + [Client.DeleteImage(itemId, BackdropType, 0)] == log + DeleteCalls(itemId, i + 1)
  {
    assert DeleteCalls(itemId, i) + [Client.DeleteImage(itemId, BackdropType, 0)] == DeleteCalls(itemId, i + 1);
  }

  /**
   * The delete loop: `n` deletes at index 0, each removing the current first backdrop; it stops
   * at the first refusal. Its result is the number of deletes that succeeded.
   */
  method DeleteLoop(client: Client.MediaClient, itemId: string, n: nat) returns (deleted: nat)
    modifies client
    ensures deleted == LeadingTrue(old(client.deleteReplies), n)
    ensures var calls := if deleted < n then deleted + 1 else n;
      && client.log == old(client.log) + DeleteCalls(itemId, calls)
      && client.deleteReplies == Client.Drop(old(client.deleteReplies), calls)
    ensures client.fetchReplies == old(client.fetchReplies) && client.headReplies == old(client.headReplies)
    ensures client.uploadReplies == old(client.uploadReplies)
    ensures client.libraryReplies == old(client.libraryReplies) && client.queryReplies == old(client.queryReplies)
  {
    ghost var replies := old(client.deleteReplies);
    deleted := 0;
    while deleted < n
      invariant deleted <= n && deleted <= |replies| && forall j :: 0 <= j < deleted ==> replies[j]
      invariant client.log == old(client.log) + DeleteCalls(itemId, deleted)
      invariant client.deleteReplies == Client.Drop(replies, deleted)
      invariant client.fetchReplies == old(client.fetchReplies) && client.headReplies == old(client.headReplies)
      invariant client.uploadReplies == old(client.uploadReplies)
      invariant client.libraryReplies == old(client.libraryReplies) && client.queryReplies == old(client.queryReplies)
    {
      var ok := client.Delete(itemId, BackdropType, 0);
      DeleteCallsSnoc(old(client.log), itemId, deleted);
      Client.DropTwice(replies, deleted, 1);
      if !ok {
        LeadingTrueIs(replies, n, deleted);
        return;
      }
      deleted := deleted + 1;
    }
    LeadingTrueIs(replies, n, deleted);
  }

  /**
   * Phase 3 outside a dry run: delete the `n` originals, then probe index 0 once. A refused delete,
   * or a backdrop still answering the probe, records an error against the item and stops the
   * protocol before any upload. `verified` holds when the probe ran and found nothing.
   */
  method DeletePhase(g: State.Globals, client: Client.MediaClient, itemId: string, n: nat)
    returns (verified: bool, ghost deleteCalls: nat, ghost probed: bool)
    modifies g.stats, client
    ensures var d := LeadingTrue(old(client.deleteReplies), n);
      && deleteCalls == (if d < n then d + 1 else n)
      && (probed <==> d == n)
      && (verified <==> probed && !(old(client.headReplies) != [] && old(client.headReplies)[0]))
      && client.log == old(client.log) + DeleteCalls(itemId, deleteCalls) + ProbeCalls(itemId, probed)
      && client.deleteReplies == Client.Drop(old(client.deleteReplies), deleteCalls)
      && client.headReplies == Client.Drop(old(client.headReplies), if probed then 1 else 0)
    ensures client.fetchReplies == old(client.fetchReplies) && client.uploadReplies == old(client.uploadReplies)
    ensures client.libraryReplies == old(client.libraryReplies) && client.queryReplies == old(client.queryReplies)
    ensures g.stats.Snapshot() == old(g.stats.Snapshot()).(errors := old(g.stats.errors) + if verified then 0 else 1)
    ensures g.stats.failedItems == old(g.stats.failedItems)
      + if verified then [] else if probed then [(itemId, "404 verification failed")] else [(itemId, "delete phase failed")]
    ensures g.stats.processedIds == old(g.stats.processedIds)
  {
    var deleted := DeleteLoop(client, itemId, n);
    deleteCalls := if deleted < n then deleted + 1 else n;
    probed := deleted == n;
    if deleted < n {
      g.stats.RecordError(itemId, "delete phase failed");
      return false, deleteCalls, probed;
    }
    var present := client.Head(itemId, BackdropType, 0);
    verified := !present;
    if present {
      g.stats.RecordError(itemId, "404 verification failed");
    }
  }

  // ---------------------------------------------------------------- phase 4: upload

  /** The server's answer to upload number `k`: the scripted one, or a rejection once the script is exhausted. */
  function UploadReply(replies: seq<Option<string>>, k: nat): (reply: Option<string>)
    ensures reply.None? <==> UploadAccepted(replies, k)
  {
    if k < |replies| then replies[k] else Some("Unknown error")
  }

  /** The failures the first `n` uploads add to the run's list, labelled by source and upload index. */
  function UploadFailures(item: Discovery.DiscoveredItem, replies: seq<Option<string>>, n: nat): seq<(string, string)> {
    if n == 0 then []
    else UploadFailures(item, replies, n - 1)
         + if UploadAccepted(replies, n - 1) then [] else [(UploadLabel(item, n - 1), "upload failed")]
  }

  /** The API failures the client records for the first `n` uploads, each with the server's error text. */
  function RejectedCalls(itemId: string, replies: seq<Option<string>>, n: nat): seq<State.ApiFailure> {
    if n == 0 then []
    else RejectedCalls(itemId, replies, n - 1)
         + if UploadAccepted(replies, n - 1) then [] else [State.ApiFailure(itemId, BackdropType, UploadReply(replies, n - 1))]
  }

  /** Each rejected upload adds one entry to the run's failure list and one to the API failures, with the server's text. */
  lemma {:induction false} RejectionsRecorded(item: Discovery.DiscoveredItem, replies: seq<Option<string>>, n: nat)
    ensures |UploadFailures(item, replies, n)| == |RejectedCalls(item.id, replies, n)| == RejectedUploads(replies, n)
    ensures forall j :: 0 <= j < |RejectedCalls(item.id, replies, n)| ==>
      RejectedCalls(item.id, replies, n)[j].error.Some? && RejectedCalls(item.id, replies, n)[j].itemId == item.id
  {
    if n > 0 {
      RejectionsRecorded(item, replies, n - 1);
    }
  }

  lemma UploadCallsSnoc(log: seq<Client.Call>, itemId: string, payloads: seq<(Bytes, string)>, k: nat)
    requires k < |payloads|
    ensures log + UploadCalls(itemId, payloads[..k]) + [Client.UploadImage(itemId, BackdropType, Some(k), payloads[k].0, payloads[k].1)]
         == log + UploadCalls(itemId, payloads[..k + 1])
  {
    assert UploadCalls(itemId, payloads[..k]) + [Client.UploadImage(itemId, BackdropType, Some(k), payloads[k].0, payloads[k].1)]
        == UploadCalls(itemId, payloads[..k + 1]);
  }

  /** The state after the first `k` uploads of `payloads`, starting from the given log, scripts, counters and lists. */
  ghost predicate UploadedUpTo(g: State.Globals, client: Client.MediaClient, item: Discovery.DiscoveredItem,
                               payloads: seq<(Bytes, string)>, replies: seq<Option<string>>, log: seq<Client.Call>,
                               stats: State.RunStats, counters: State.Counters, failures: seq<(string, string)>,
                               api: seq<State.ApiFailure>, processed: set<string>, k: nat)
    reads g, g.stats, client
  {
    && g.stats == stats && g.stats.processedIds == processed
    && UploadedState(item, payloads, replies, log, counters, failures, api, k,
                     client.log, client.uploadReplies, g.stats.Snapshot(), g.stats.failedItems, g.apiFailures)
  }

  /** `UploadedUpTo` on the observed values: log, remaining script, counters, failure list and API failures. */
  ghost predicate UploadedState(item: Discovery.DiscoveredItem, payloads: seq<(Bytes, string)>, replies: seq<Option<string>>,
                                log: seq<Client.Call>, counters: State.Counters, failures: seq<(string, string)>,
                                api: seq<State.ApiFailure>, k: nat, logNow: seq<Client.Call>,
                                repliesNow: seq<Option<string>>, countersNow: State.Counters,
                                failuresNow: seq<(string, string)>, apiNow: seq<State.ApiFailure>)
  {
    && k <= |payloads|
    && logNow == log + UploadCalls(item.id, payloads[..k])
    && repliesNow == Client.Drop(replies, k)
    && countersNow == counters.(successes := counters.successes + (k - RejectedUploads(replies, k)),
                                errors := counters.errors + RejectedUploads(replies, k))
    && failuresNow == failures + UploadFailures(item, replies, k)
    && apiNow == api + RejectedCalls(item.id, replies, k)
  }

  /** One upload, answered from the head of the remaining script, moves the observed values from `k` to `k + 1`. */
  lemma UploadedStateStep(item: Discovery.DiscoveredItem, payloads: seq<(Bytes, string)>, replies: seq<Option<string>>,
                          log: seq<Client.Call>, counters: State.Counters, failures: seq<(string, string)>,
                          api: seq<State.ApiFailure>, k: nat, ok: bool,
                          logA: seq<Client.Call>, repliesA: seq<Option<string>>, countersA: State.Counters,
                          failuresA: seq<(string, string)>, apiA: seq<State.ApiFailure>,
                          logB: seq<Client.Call>, repliesB: seq<Option<string>>, countersB: State.Counters,
                          failuresB: seq<(string, string)>, apiB: seq<State.ApiFailure>)
    requires k < |payloads|
    requires UploadedState(item, payloads, replies, log, counters, failures, api, k, logA, repliesA, countersA, failuresA, apiA)
    requires logB == logA + [Client.UploadImage(item.id, BackdropType, Some(k), payloads[k].0, payloads[k].1)]
    requires repliesB == if repliesA == [] then [] else repliesA[1..]
    requires var reply := if repliesA == [] then Some("Unknown error") else repliesA[0];
      && ok == reply.None?
      && (ok ==> countersB == countersA.(successes := countersA.successes + 1) && failuresB == failuresA && apiB == apiA)
      && (!ok ==> && countersB == countersA.(errors := countersA.errors + 1)
                  && failuresB == failuresA + [(UploadLabel(item, k), "upload failed")]
                  && apiB == apiA + [State.ApiFailure(item.id, BackdropType, reply)])
    ensures ok <==> UploadAccepted(replies, k)
    ensures UploadedState(item, payloads, replies, log, counters, failures, api, k + 1, logB, repliesB, countersB, failuresB, apiB)
  {
    UploadCallsSnoc(log, item.id, payloads, k);
    NextScriptReply(replies, k, repliesA);
    var reply := UploadReply(replies, k);
    UploadCountersStep(replies, k, counters, countersA, countersB);
    if ok {
      assert failuresB == failures + UploadFailures(item, replies, k + 1);
      assert apiB == api + RejectedCalls(item.id, replies, k + 1);
    } else {
      AppendOne(failures, UploadFailures(item, replies, k), (UploadLabel(item, k), "upload failed"));
      AppendOne(api, RejectedCalls(item.id, replies, k), State.ApiFailure(item.id, BackdropType, reply));
    }
  }

  /** The head of the remaining script is the reply to upload `k`; an exhausted script answers with an error. */
  lemma NextScriptReply(replies: seq<Option<string>>, k: nat, rest: seq<Option<string>>)
    requires rest == Client.Drop(replies, k)
    ensures UploadReply(replies, k) == if rest == [] then Some("Unknown error") else rest[0]
    ensures (if rest == [] then [] else rest[1..]) == Client.Drop(replies, k + 1)
  {
    Client.DropTwice(replies, k, 1);
  }

  lemma UploadCountersStep(replies: seq<Option<string>>, k: nat, counters: State.Counters, countersA: State.Counters,
                           countersB: State.Counters)
    requires countersA == counters.(successes := counters.successes + (k - RejectedUploads(replies, k)),
                                    errors := counters.errors + RejectedUploads(replies, k))
    requires UploadAccepted(replies, k) ==> countersB == countersA.(successes := countersA.successes + 1)
    requires !UploadAccepted(replies, k) ==> countersB == countersA.(errors := countersA.errors + 1)
    ensures countersB == counters.(successes := counters.successes + (k + 1 - RejectedUploads(replies, k + 1)),
                                   errors := counters.errors + RejectedUploads(replies, k + 1))
  {
  }

  lemma AppendOne<T>(a: seq<T>, b: seq<T>, x: T)
    ensures (a + b) + [x] == a + (b + [x])
  {
  }

  /**
   * Phase 4 outside a dry run: upload payload `k` to index `k`, in order. A rejected upload
   * records an error and the loop goes on; an accepted one records a success.
   */
  method UploadPhase(g: State.Globals, client: Client.MediaClient, item: Discovery.DiscoveredItem,
                     payloads: seq<(Bytes, string)>)
    returns (anyFailed: bool)
    modifies g, g.stats, client
    ensures var replies, n := old(client.uploadReplies), |payloads|;
      var c := RejectedUploads(replies, n);
      && (anyFailed <==> c > 0)
      && client.log == old(client.log) + UploadCalls(item.id, payloads)
      && client.uploadReplies == Client.Drop(replies, n)
      && g.stats.Snapshot() == old(g.stats.Snapshot()).(successes := old(g.stats.successes) + (n - c),
                                                         errors := old(g.stats.errors) + c)
      && g.stats.failedItems == old(g.stats.failedItems) + UploadFailures(item, replies, n)
      && g.apiFailures == old(g.apiFailures) + RejectedCalls(item.id, replies, n)
    ensures client.fetchReplies == old(client.fetchReplies) && client.headReplies == old(client.headReplies)
    ensures client.deleteReplies == old(client.deleteReplies)
    ensures client.libraryReplies == old(client.libraryReplies) && client.queryReplies == old(client.queryReplies)
    ensures g.stats == old(g.stats) && g.stats.processedIds == old(g.stats.processedIds)
    ensures g.upscaled == old(g.upscaled) && g.downscaled == old(g.downscaled) && g.dryRun == old(g.dryRun)
  {
    ghost var replies, log, stats := old(client.uploadReplies), old(client.log), old(g.stats);
    ghost var counters, failures, api, processed :=
      old(g.stats.Snapshot()), old(g.stats.failedItems), old(g.apiFailures), old(g.stats.processedIds);
    anyFailed := false;
    var k := 0;
    while k < |payloads|
      invariant anyFailed <==> RejectedUploads(replies, k) > 0
      invariant UploadedUpTo(g, client, item, payloads, replies, log, stats, counters, failures, api, processed, k)
      invariant client.fetchReplies == old(client.fetchReplies) && client.headReplies == old(client.headReplies)
      invariant client.deleteReplies == old(client.deleteReplies)
      invariant client.libraryReplies == old(client.libraryReplies) && client.queryReplies == old(client.queryReplies)
      invariant g.upscaled == old(g.upscaled) && g.downscaled == old(g.downscaled) && g.dryRun == old(g.dryRun)
    {
      var ok := UploadStep(g, client, item, payloads, replies, log, stats, counters, failures, api, processed, k);
      anyFailed := anyFailed || !ok;
      k := k + 1;
    }
    assert payloads[..k] == payloads;
  }

  /** Upload number `k`: the payload goes to index `k`; the answer is counted as a success or an error. */
  method UploadStep(g: State.Globals, client: Client.MediaClient, item: Discovery.DiscoveredItem,
                    payloads: seq<(Bytes, string)>, ghost replies: seq<Option<string>>, ghost log: seq<Client.Call>,
                    ghost stats: State.RunStats, ghost counters: State.Counters, ghost failures: seq<(string, string)>,
                    ghost api: seq<State.ApiFailure>, ghost processed: set<string>, k: nat)
    returns (ok: bool)
    requires k < |payloads|
    requires UploadedUpTo(g, client, item, payloads, replies, log, stats, counters, failures, api, processed, k)
    modifies g, g.stats, client
    ensures ok <==> UploadAccepted(replies, k)
    ensures UploadedUpTo(g, client, item, payloads, replies, log, stats, counters, failures, api, processed, k + 1)
    ensures g.upscaled == old(g.upscaled) && g.downscaled == old(g.downscaled) && g.dryRun == old(g.dryRun)
    ensures client.fetchReplies == old(client.fetchReplies) && client.headReplies == old(client.headReplies)
    ensures client.deleteReplies == old(client.deleteReplies)
    ensures client.libraryReplies == old(client.libraryReplies) && client.queryReplies == old(client.queryReplies)
  {
    ghost var logA, repliesA, countersA := client.log, client.uploadReplies, g.stats.Snapshot();
    ghost var failuresA, apiA := g.stats.failedItems, g.apiFailures;
    ok := client.Upload(g, item.id, BackdropType, Some(k), payloads[k].0, payloads[k].1);
    if ok {
      g.stats.RecordSuccess();
    } else {
      g.stats.RecordError(UploadLabel(item, k), "upload failed");
    }
    UploadedStateStep(item, payloads, replies, log, counters, failures, api, k, ok,
                      logA, repliesA, countersA, failuresA, apiA,
                      client.log, client.uploadReplies, g.stats.Snapshot(), g.stats.failedItems, g.apiFailures);
  }

  // ---------------------------------------------------------------- phases 3 to 5 and the whole protocol

  /**
   * The server phases outside a dry run: delete and verify, then upload every payload; the
   * staging directory is removed only when every upload was accepted, and kept otherwise.
   */
  method ServerPhases(g: State.Globals, fs: FileSystem, client: Client.MediaClient, item: Discovery.DiscoveredItem,
                      payloads: seq<(Bytes, string)>, root: Path)
    returns (ok: bool, ghost deleteCalls: nat, ghost probed: bool, ghost uploads: seq<(Bytes, string)>)
    modifies g, g.stats, fs, client
    ensures var n := |payloads|;
      var d := LeadingTrue(old(client.deleteReplies), n);
      var verified := d == n && !(old(client.headReplies) != [] && old(client.headReplies)[0]);
      var c := RejectedUploads(old(client.uploadReplies), n);
      && deleteCalls == (if d < n then d + 1 else n)
      && (probed <==> d == n)
      && uploads == (if verified then payloads else [])
      && client.log == old(client.log) + DeleteCalls(item.id, deleteCalls) + ProbeCalls(item.id, probed) + UploadCalls(item.id, uploads)
      && (ok <==> verified && c == 0)
    ensures var e := ServerEffect(item, |payloads|, old(client.deleteReplies), old(client.headReplies), old(client.uploadReplies));
      && (ok <==> e.failures == [])
      && Applied(old(g.stats.Snapshot()), old(g.stats.failedItems), old(g.apiFailures), e,
                    g.stats.Snapshot(), g.stats.failedItems, g.apiFailures)
    ensures client.fetchReplies == old(client.fetchReplies)
    ensures g.stats == old(g.stats) && g.stats.processedIds == old(g.stats.processedIds)
    ensures g.upscaled == old(g.upscaled) && g.downscaled == old(g.downscaled) && g.dryRun == old(g.dryRun)
    ensures ok ==> NothingUnder(fs.files, StagingDir(root, item.id)) && SameOutside(old(fs.files), fs.files, StagingDir(root, item.id))
    ensures !ok ==> fs.files == old(fs.files)
  {
    var verified;
    verified, deleteCalls, probed := DeletePhase(g, client, item.id, |payloads|);
    if !verified {
      return false, deleteCalls, probed, [];
    }
    RejectionsRecorded(item, client.uploadReplies, |payloads|);
    var anyFailed := UploadPhase(g, client, item, payloads);
    uploads := payloads;
    ok := !anyFailed;
    if ok {
      fs.RemoveTree(StagingDir(root, item.id));
    }
  }

  /** A run's log is its phases' calls, appended one phase after another. */
  lemma ProtocolLog(log: seq<Client.Call>, itemId: string, t: Trace)
    ensures log + ProtocolCalls(itemId, t)
         == log + FetchCalls(itemId, t.fetchCalls) + DeleteCalls(itemId, t.deleteCalls) + ProbeCalls(itemId, t.probed)
            + UploadCalls(itemId, t.uploads)
  {
  }

  /** Phases 1 and 2, followed outside a dry run and after no failure by phases 3 and 4, have the protocol's effect. */
  lemma ProtocolApplied(codec: Pipeline.Codec, item: Discovery.DiscoveredItem, mode: string, settings: Pipeline.Settings,
                        dryRun: bool, fetchReplies: seq<Option<Client.Image>>, deleteReplies: seq<bool>,
                        headReplies: seq<bool>, uploadReplies: seq<Option<string>>,
                        c0: State.Counters, f0: seq<(string, string)>, a0: seq<State.ApiFailure>,
                        c1: State.Counters, f1: seq<(string, string)>, a1: seq<State.ApiFailure>,
                        c2: State.Counters, f2: seq<(string, string)>, a2: seq<State.ApiFailure>)
    requires Applied(c0, f0, a0, PrepareEffect(codec, item, mode, settings, dryRun, fetchReplies), c1, f1, a1)
    requires PrepareEffect(codec, item, mode, settings, dryRun, fetchReplies).failures != [] || dryRun ==>
      c2 == c1 && f2 == f1 && a2 == a1
    requires PrepareEffect(codec, item, mode, settings, dryRun, fetchReplies).failures == [] && !dryRun ==>
      Applied(c1, f1, a1, ServerEffect(item, Count(item), deleteReplies, headReplies, uploadReplies), c2, f2, a2)
    ensures Applied(c0, f0, a0, ProtocolEffect(codec, item, mode, settings, dryRun, fetchReplies, deleteReplies,
                                               headReplies, uploadReplies), c2, f2, a2)
  {
    var prepare := PrepareEffect(codec, item, mode, settings, dryRun, fetchReplies);
    if prepare.failures == [] && !dryRun {
      AppliedThen(c0, f0, a0, prepare, c1, f1, a1,
                  ServerEffect(item, Count(item), deleteReplies, headReplies, uploadReplies), c2, f2, a2);
    }
  }

  /** The protocol records no error exactly when it has no failure; then every backdrop was fetched and counted once. */
  lemma ProtocolOk(codec: Pipeline.Codec, item: Discovery.DiscoveredItem, mode: string, settings: Pipeline.Settings,
                   dryRun: bool, fetchReplies: seq<Option<Client.Image>>, deleteReplies: seq<bool>,
                   headReplies: seq<bool>, uploadReplies: seq<Option<string>>,
                   c0: State.Counters, f0: seq<(string, string)>, a0: seq<State.ApiFailure>,
                   c2: State.Counters, f2: seq<(string, string)>, a2: seq<State.ApiFailure>)
    requires Applied(c0, f0, a0, ProtocolEffect(codec, item, mode, settings, dryRun, fetchReplies, deleteReplies,
                                                 headReplies, uploadReplies), c2, f2, a2)
    ensures var e := ProtocolEffect(codec, item, mode, settings, dryRun, fetchReplies, deleteReplies, headReplies, uploadReplies);
      && (e.failures == [] <==> c2.errors == c0.errors)
      && (e.failures == [] ==> LeadingSome(fetchReplies, Count(item)) == Count(item) && c2.successes == c0.successes + Count(item))
  {
    ProtocolEffectBounds(codec, item, mode, settings, dryRun, fetchReplies, deleteReplies, headReplies, uploadReplies);
  }

  /**
   * The five phases for a configured item with a non-zero backdrop count. A dry run stops after
   * phase 2; a failure before any delete removes the staging directory, one after the deletes
   * keeps the staged originals. The result is true exactly when no error was recorded.
   */
  method ReplaceBackdrops(codec: Pipeline.Codec, g: State.Globals, fs: FileSystem, client: Client.MediaClient,
                          item: Discovery.DiscoveredItem, mode: string, settings: Pipeline.Settings, dryRun: bool,
                          makeBackup: bool, root: Path, backupMode: string)
    returns (ok: bool, ghost t: Trace)
    requires Total(item) != 0
    modifies g, g.stats, fs, client
    ensures client.log == old(client.log) + ProtocolCalls(item.id, t)
    ensures var replies, n := old(client.fetchReplies), Count(item);
      var got := LeadingSome(replies, n);
      var rs := Outcomes(codec, Fetched(replies, n), mode, settings);
      var absent := !(old(client.headReplies) != [] && old(client.headReplies)[0]);
      var d := LeadingTrue(old(client.deleteReplies), n);
      var deleting := !dryRun && Total(item) > 0 && got == n && Normalized(rs, n) == n;
      && t.fetchCalls == (if got < n then got + 1 else n)
      && (ok <==> g.stats.errors == old(g.stats.errors))
      && (t.deleteCalls > 0 || t.probed || t.uploads != [] ==> deleting)
      && (deleting ==> && t.deleteCalls == (if d < n then d + 1 else n)
                       && (t.probed <==> d == n)
                       && t.uploads == (if d == n && absent then Payloads(rs, n) else []))
      && (ok ==> got == n && g.stats.successes == old(g.stats.successes) + n)
      && (!dryRun && (ok || t.deleteCalls == 0) ==> NothingUnder(fs.files, StagingDir(root, item.id)))
      && (t.deleteCalls > 0 && !ok ==> Retained(fs.files, root, item.id, Fetched(replies, n)))
    ensures var e := ProtocolEffect(codec, item, mode, settings, dryRun, old(client.fetchReplies), old(client.deleteReplies),
                                    old(client.headReplies), old(client.uploadReplies));
      && (ok <==> e.failures == [])
      && Applied(old(g.stats.Snapshot()), old(g.stats.failedItems), old(g.apiFailures), e,
                 g.stats.Snapshot(), g.stats.failedItems, g.apiFailures)
    ensures TriedOutside(codec, item, Fetched(old(client.fetchReplies), Count(item)), mode, settings, makeBackup, backupMode, root,
                         Prepared(codec, item, mode, settings, dryRun, old(client.fetchReplies)),
                         old(fs.files), old(g.upscaled), old(g.downscaled), fs.files, g.upscaled, g.downscaled)
    ensures dryRun ==> t.deleteCalls == 0 && !t.probed && t.uploads == [] && fs.files == old(fs.files)
    ensures forall p :: p in old(fs.files) && !Under(p, StagingDir(root, item.id)) ==> p in fs.files
    ensures g.stats == old(g.stats) && g.stats.processedIds == old(g.stats.processedIds) && g.dryRun == old(g.dryRun)
  {
    ghost var e := ProtocolEffect(codec, item, mode, settings, dryRun, old(client.fetchReplies), old(client.deleteReplies),
                                  old(client.headReplies), old(client.uploadReplies));
    ghost var c0, f0, a0 := g.stats.Snapshot(), g.stats.failedItems, g.apiFailures;
    var payloads, ready;
    ghost var fetchCalls;
    payloads, ready, fetchCalls := StageAndNormalize(codec, g, fs, client, item, mode, settings, dryRun, makeBackup, root, backupMode);
    ghost var c1, f1, a1 := g.stats.Snapshot(), g.stats.failedItems, g.apiFailures;
    ghost var files := fs.files;
    if !ready || dryRun {
      t := Trace(fetchCalls, 0, false, []);
      ok := ready;
    } else {
      assert |payloads| == Count(item);
      ghost var deleteCalls, probed, uploads;
      ok, deleteCalls, probed, uploads := ServerPhases(g, fs, client, item, payloads, root);
      t := Trace(fetchCalls, deleteCalls, probed, uploads);
    }
    TriedOutsideAround(codec, item, Fetched(old(client.fetchReplies), Count(item)), mode, settings, makeBackup, backupMode, root,
                       Prepared(codec, item, mode, settings, dryRun, old(client.fetchReplies)), old(fs.files), old(fs.files),
                       old(g.upscaled), old(g.downscaled), files, fs.files, g.upscaled, g.downscaled);
    ProtocolLog(old(client.log), item.id, t);
    ProtocolApplied(codec, item, mode, settings, dryRun, old(client.fetchReplies), old(client.deleteReplies),
                    old(client.headReplies), old(client.uploadReplies), c0, f0, a0, c1, f1, a1,
                    g.stats.Snapshot(), g.stats.failedItems, g.apiFailures);
    ProtocolOk(codec, item, mode, settings, dryRun, old(client.fetchReplies), old(client.deleteReplies),
               old(client.headReplies), old(client.uploadReplies), c0, f0, a0,
               g.stats.Snapshot(), g.stats.failedItems, g.apiFailures);
  }

  /**
   * `normalize_item_backdrops_api`: replace all backdrops of an item with normalised ones, in
   * their original order. Without a configured mode or settings it warns, and without backdrops
   * it skips; either way it calls nothing and returns false.
   */
  method NormalizeItemBackdrops(codec: Pipeline.Codec, g: State.Globals, fs: FileSystem, client: Client.MediaClient,
                                item: Discovery.DiscoveredItem, settingsByMode: map<string, Pipeline.Settings>,
                                modeTable: map<string, string>, dryRun: bool, makeBackup: bool, root: Path, backupMode: string)
    returns (ok: bool, ghost t: Trace)
    modifies g, g.stats, fs, client
    ensures client.log == old(client.log) + ProtocolCalls(item.id, t)
    ensures Configuration(modeTable, settingsByMode).None? ==>
      && !ok && t == Trace(0, 0, false, []) && fs.files == old(fs.files)
      && g.stats.Snapshot() == old(g.stats.Snapshot()).(warnings := old(g.stats.warnings) + 1)
      && g.stats.failedItems == old(g.stats.failedItems) && g.apiFailures == old(g.apiFailures)
      && g.upscaled == old(g.upscaled) && g.downscaled == old(g.downscaled)
    ensures Configuration(modeTable, settingsByMode).Some? && Total(item) == 0 ==>
      && !ok && t == Trace(0, 0, false, []) && fs.files == old(fs.files)
      && g.stats.Snapshot() == old(g.stats.Snapshot()).(skipped := old(g.stats.skipped) + 1)
      && g.stats.failedItems == old(g.stats.failedItems) && g.apiFailures == old(g.apiFailures)
      && g.upscaled == old(g.upscaled) && g.downscaled == old(g.downscaled)
    ensures Configuration(modeTable, settingsByMode).Some? && Total(item) != 0 ==>
      var replies, n := old(client.fetchReplies), Count(item);
      var got := LeadingSome(replies, n);
      var rs := Outcomes(codec, Fetched(replies, n), Configuration(modeTable, settingsByMode).value.0,
                         Configuration(modeTable, settingsByMode).value.1);
      var absent := !(old(client.headReplies) != [] && old(client.headReplies)[0]);
      var d := LeadingTrue(old(client.deleteReplies), n);
      var deleting := !dryRun && Total(item) > 0 && got == n && Normalized(rs, n) == n;
      && t.fetchCalls == (if got < n then got + 1 else n)
      && (ok <==> g.stats.errors == old(g.stats.errors))
      && (t.deleteCalls > 0 || t.probed || t.uploads != [] ==> deleting)
      && (deleting ==> && t.deleteCalls == (if d < n then d + 1 else n)
                       && (t.probed <==> d == n)
                       && t.uploads == (if d == n && absent then Payloads(rs, n) else []))
      && (ok ==> got == n && g.stats.successes == old(g.stats.successes) + n)
      && (!dryRun && (ok || t.deleteCalls == 0) ==> NothingUnder(fs.files, StagingDir(root, item.id)))
      && (t.deleteCalls > 0 && !ok ==> Retained(fs.files, root, item.id, Fetched(replies, n)))
    ensures Configuration(modeTable, settingsByMode).Some? && Total(item) != 0 ==>
      var cfg := Configuration(modeTable, settingsByMode).value;
      var e := ProtocolEffect(codec, item, cfg.0, cfg.1, dryRun, old(client.fetchReplies), old(client.deleteReplies),
                              old(client.headReplies), old(client.uploadReplies));
      && (ok <==> e.failures == [])
      && Applied(old(g.stats.Snapshot()), old(g.stats.failedItems), old(g.apiFailures), e,
                 g.stats.Snapshot(), g.stats.failedItems, g.apiFailures)
    ensures Configuration(modeTable, settingsByMode).Some? && Total(item) != 0 ==>
      var cfg := Configuration(modeTable, settingsByMode).value;
      TriedOutside(codec, item, Fetched(old(client.fetchReplies), Count(item)), cfg.0, cfg.1, makeBackup, backupMode, root,
                   Prepared(codec, item, cfg.0, cfg.1, dryRun, old(client.fetchReplies)),
                   old(fs.files), old(g.upscaled), old(g.downscaled), fs.files, g.upscaled, g.downscaled)
    ensures dryRun ==> t.deleteCalls == 0 && !t.probed && t.uploads == [] && fs.files == old(fs.files)
    ensures forall p :: p in old(fs.files) && !Under(p, StagingDir(root, item.id)) ==> p in fs.files
    ensures g.stats == old(g.stats) && g.stats.processedIds == old(g.stats.processedIds) && g.dryRun == old(g.dryRun)
    ensures g.stats.processed == old(g.stats.processed) && g.stats.imagesFound == old(g.stats.imagesFound)
  {
    var cfg := Configuration(modeTable, settingsByMode);
    if cfg.None? {
      g.stats.RecordWarning();
      return false, Trace(0, 0, false, []);
    }
    if Total(item) == 0 {
      g.stats.RecordSkip();
      return false, Trace(0, 0, false, []);
    }
    ok, t := ReplaceBackdrops(codec, g, fs, client, item, cfg.value.0, cfg.value.1, dryRun, makeBackup, root, backupMode);
  }
}

=== FILE: backup.dfy ===
/**
 * The backup store: extension and content-type mapping, the `<root>/<id[:2]>/<id>/<stem><ext>`
 * layout, the backup-mode policy and `save_backup`'s write/keep/overwrite rules. The disk is a
 * map from paths (sequences of path components) to file contents plus a set of directories.
 */
module Backup {
  import opened Wrappers
  import opened Text
  import Constants
  import Imaging

  type Bytes = seq<bv8>
  type Path = seq<string>

  // ---------------------------------------------------------------- extensions

  /** Picks a backup extension from a content type by substring tests, png first; an absent type is "". */
  function GuessExtension(contentType: Option<string>): (ext: string)
    ensures ext in {".png", ".jpg", ".webp", ".img"}
  {
    var ct := Lower(contentType.GetOr(""));
    if Contains(ct, "png") then ".png"
    else if Contains(ct, "jpeg") || Contains(ct, "jpg") then ".jpg"
    else if Contains(ct, "webp") then ".webp"
    else ".img"
  }

  /** The extension is decided by the first of the substring tests that holds, in priority order. */
  lemma GuessExtensionPriority(contentType: Option<string>)
    ensures var ct := Lower(contentType.GetOr(""));
      var ext := GuessExtension(contentType);
      && (ext == ".png" <==> Contains(ct, "png"))
      && (ext == ".jpg" <==> !Contains(ct, "png") && (Contains(ct, "jpeg") || Contains(ct, "jpg")))
      && (ext == ".webp" <==> !Contains(ct, "png") && !Contains(ct, "jpeg") && !Contains(ct, "jpg") && Contains(ct, "webp"))
      && (ext == ".img" <==> !Contains(ct, "png") && !Contains(ct, "jpeg") && !Contains(ct, "jpg") && !Contains(ct, "webp"))
  {
  }

  const OctetStream := "application/octet-stream"

  /** The content type for an extension, compared case-insensitively; unknown extensions are octet streams. */
  function ContentTypeFromExtension(extension: string): (ct: string)
    ensures ct in {"image/png", "image/jpeg", "image/webp", OctetStream}
    ensures ct == "image/png" <==> Lower(extension) == ".png"
    ensures ct == "image/jpeg" <==> Lower(extension) in {".jpg", ".jpeg"}
    ensures ct == "image/webp" <==> Lower(extension) == ".webp"
  {
    var ext := Lower(extension);
    if ext == ".png" then "image/png"
    else if ext == ".jpg" || ext == ".jpeg" then "image/jpeg"
    else if ext == ".webp" then "image/webp"
    else OctetStream
  }

  /** A string without upper-case ASCII letters is its own lower-casing. */
  lemma LowerOfLowercase(s: string)
    requires forall i :: 0 <= i < |s| ==> !('A' <= s[i] <= 'Z')
    ensures Lower(s) == s
  {
  }

  // The guesses below take the content type as a variable: with literal arguments the verifier
  // unfolds `Contains` on every literal it meets, which costs far more than these proofs need.

  lemma GuessPng(ct: string)
    requires ct == "image/png"
    ensures GuessExtension(Some(ct)) == ".png"
  {
    LowerOfLowercase(ct);
    ContainsSuffix(ct, 6, "png");
  }

  lemma GuessJpeg(ct: string)
    requires ct == "image/jpeg"
    ensures GuessExtension(Some(ct)) == ".jpg"
  {
    LowerOfLowercase(ct);
    NotContains(ct, "png", 'n');
    ContainsSuffix(ct, 6, "jpeg");
  }

  lemma GuessWebp(ct: string)
    requires ct == "image/webp"
    ensures GuessExtension(Some(ct)) == ".webp"
  {
    LowerOfLowercase(ct);
    NotContains(ct, "png", 'n');
    NotContains(ct, "jpeg", 'j');
    NotContains(ct, "jpg", 'j');
    ContainsSuffix(ct, 6, "webp");
  }

  lemma PngRoundTrip()
    ensures GuessExtension(Some(ContentTypeFromExtension(".png"))) == ".png"
  {
    LowerOfLowercase(".png");
    GuessPng(ContentTypeFromExtension(".png"));
  }

  lemma JpgRoundTrip()
    ensures GuessExtension(Some(ContentTypeFromExtension(".jpg"))) == ".jpg"
  {
    LowerOfLowercase(".jpg");
    GuessJpeg(ContentTypeFromExtension(".jpg"));
  }

  lemma WebpRoundTrip()
    ensures GuessExtension(Some(ContentTypeFromExtension(".webp"))) == ".webp"
  {
    LowerOfLowercase(".webp");
    GuessWebp(ContentTypeFromExtension(".webp"));
  }

  /** Each backup extension survives the trip through its content type. */
  lemma ExtensionRoundTrip(ext: string)
    requires ext in {".png", ".jpg", ".webp"}
    ensures GuessExtension(Some(ContentTypeFromExtension(ext))) == ext
  {
    if ext == ".png" { PngRoundTrip(); }
    else if ext == ".jpg" { JpgRoundTrip(); }
    else { WebpRoundTrip(); }
  }

  /** Each normalised content type maps to an extension that maps back to it. */
  lemma ContentTypeRoundTrip(ct: string)
    requires ct in {"image/png", "image/jpeg", "image/webp"}
    ensures ContentTypeFromExtension(GuessExtension(Some(ct))) == ct
  {
    var ext := if ct == "image/png" then ".png" else if ct == "image/jpeg" then ".jpg" else ".webp";
    LowerOfLowercase(ext);
    ExtensionRoundTrip(ext);
    assert ContentTypeFromExtension(ext) == ct;
  }

  lemma {:induction false} ContainsSuffix(s: string, k: nat, sub: string)
    requires k <= |s| && StartsWith(s[k..], sub)
    ensures Contains(s, sub)
  {
    if k > 0 {
      assert s[1..][k - 1..] == s[k..];
      ContainsSuffix(s[1..], k - 1, sub);
    }
  }

  /** `sub` is not in `s` when one of its characters is missing from `s`. */
  lemma {:induction false} NotContains(s: string, sub: string, c: char)
    requires c in sub && c !in s
    ensures !Contains(s, sub)
  {
    if s != [] {
      NotContains(s[1..], sub, c);
    }
  }

  // ---------------------------------------------------------------- layout

  /** The file stem for an image type: its configured stem, else the lower-cased type. */
  function BackupStem(imageType: string): (stem: string)
    ensures imageType in Constants.FilenameStems() ==> stem == Constants.FilenameStems()[imageType]
    ensures imageType !in Constants.FilenameStems() ==> stem == Lower(imageType)
  {
    var stems := Constants.FilenameStems();
    if imageType in stems then stems[imageType] else Lower(imageType)
  }

  /** Python's `s[:2]`. */
  function Prefix2(s: string): (p: string)
    ensures |p| <= 2 && |p| <= |s| && p == s[..|p|]
    ensures |s| >= 2 ==> |p| == 2
  {
    if |s| <= 2 then s else s[..2]
  }

  /** The directory holding an item's backups. */
  function BackupDir(root: Path, itemId: string): Path {
    root + [Prefix2(itemId), itemId]
  }

  /** Where the backup of one image lives: two directory levels keyed by the item id, then the file name. */
  function BackupPath(root: Path, itemId: string, imageType: string, extension: string): (p: Path)
    ensures |p| == |root| + 3 && p[..|root|] == root
    ensures p[|root|] == Prefix2(itemId) && p[|root| + 1] == itemId
    ensures p[..|root| + 2] == BackupDir(root, itemId)
    ensures p[|root| + 2] == BackupStem(imageType) + extension
  {
    BackupDir(root, itemId) + [BackupStem(imageType) + extension]
  }

  /** Two images of one item share a backup path only if they share stem and extension. */
  lemma BackupPathsSeparate(root: Path, itemId: string, t1: string, t2: string, ext: string)
    requires t1 in Constants.FilenameStems() && t2 in Constants.FilenameStems() && t1 != t2
    ensures BackupPath(root, itemId, t1, ext) != BackupPath(root, itemId, t2, ext)
  {
    Constants.StemsDistinct();
    var stems := Constants.FilenameStems();
    var i :| 0 <= i < |Constants.FilenameConfig| && Constants.FilenameConfig[i].0 == t1;
    var j :| 0 <= j < |Constants.FilenameConfig| && Constants.FilenameConfig[j].0 == t2;
    assert stems[t1] != stems[t2];
    var n := |root| + 2;
    var a, b := stems[t1] + ext, stems[t2] + ext;
    assert a != b by {
      if |stems[t1]| == |stems[t2]| {
        assert a[..|stems[t1]|] == stems[t1] && b[..|stems[t2]|] == stems[t2];
      }
    }
    assert BackupPath(root, itemId, t1, ext)[n] != BackupPath(root, itemId, t2, ext)[n];
  }

  // ---------------------------------------------------------------- backup mode

  const ValidBackupModes := {"full", "partial"}

  /** `str(raw).strip().lower()` when it is a valid mode, else "partial"; an absent mode is "partial". */
  function NormalizeBackupMode(raw: Option<string>): (mode: string)
    ensures mode in ValidBackupModes
    ensures raw.None? ==> mode == "partial"
    ensures mode == "full" <==> raw.Some? && Lower(Strip(raw.value)) == "full"
  {
    var m := if raw.None? then "partial" else Lower(Strip(raw.value));
    if m !in ValidBackupModes then "partial" else m
  }

  /** Full mode backs up every image; partial mode only those that are rescaled. */
  function ShouldBackupForPlan(decision: Imaging.Decision, backupMode: string): (b: bool)
    ensures b <==> NormalizeBackupMode(Some(backupMode)) == "full" || decision != Imaging.NoScale
  {
    if NormalizeBackupMode(Some(backupMode)) == "full" then true
    else decision != Imaging.NoScale
  }

  /** The mode is decided by the stripped, lower-cased text alone. */
  lemma NormalizedModeOf(raw: string, m: string)
    requires Lower(Strip(raw)) == m
    ensures NormalizeBackupMode(Some(raw)) == if m in ValidBackupModes then m else "partial"
  {
  }

  /** Absent and unrecognised modes fall back to partial. */
  lemma BackupModeDefaults(raw: string)
    requires Lower(Strip(raw)) !in ValidBackupModes
    ensures NormalizeBackupMode(None) == "partial"
    ensures NormalizeBackupMode(Some(raw)) == "partial"
  {
    NormalizedModeOf(raw, Lower(Strip(raw)));
  }

  /** Surrounding spaces and case are ignored: any spelling of "full" between two spaces is full mode. */
  lemma BackupModeSpacingAndCase(core: string)
    requires core != [] && !IsSpace(core[0]) && !IsSpace(core[|core| - 1]) && Lower(core) == "full"
    ensures NormalizeBackupMode(Some([' '] + core + [' '])) == "full"
  {
    StripSpaced(core);
    NormalizedModeOf([' '] + core + [' '], "full");
  }

  /** Each valid mode is its own normal form. */
  lemma ValidModeNormal(m: string)
    requires m in ValidBackupModes
    ensures NormalizeBackupMode(Some(m)) == m
  {
    LowerOfLowercase(m);
    StripNoop(m);
    NormalizedModeOf(m, m);
  }

  // ---------------------------------------------------------------- file names

  /** `s` without its trailing slashes. */
  function TrimTrailingSlashes(s: string): (t: string)
    ensures |t| <= |s| && t == s[..|t|]
    ensures t == [] || t[|t| - 1] != '/'
    ensures forall i :: |t| <= i < |s| ==> s[i] == '/'
  {
    if s != [] && s[|s| - 1] == '/' then TrimTrailingSlashes(s[..|s| - 1]) else s
  }

  /** The text after the last "/" of `t`. */
  function LastComponent(t: string): (name: string)
    ensures |name| <= |t| && name == t[|t| - |name|..]
    ensures '/' !in name
    ensures |name| < |t| ==> t[|t| - |name| - 1] == '/'
  {
    if t == [] || t[|t| - 1] == '/' then []
    else
      var r := LastComponent(t[..|t| - 1]);
      assert t[|t| - |r| - 1..] == r + [t[|t| - 1]];
      r + [t[|t| - 1]]
  }

  /**
   * `Path(filename).name`: the last component of the path once trailing slashes are dropped.
   * It is empty only for a path made of slashes alone.
   */
  function BaseName(filename: string): (name: string)
    ensures '/' !in name
    ensures '/' !in filename ==> name == filename
    ensures var t := TrimTrailingSlashes(filename);
      && |name| <= |t| && name == t[|t| - |name|..]
      && (|name| < |t| ==> t[|t| - |name| - 1] == '/')
    ensures name == [] <==> forall i :: 0 <= i < |filename| ==> filename[i] == '/'
  {
    NameFacts(filename);
    LastComponent(TrimTrailingSlashes(filename))
  }

  /** The facts `BaseName` promises, about the last component of the trimmed path. */
  lemma {:induction false} NameFacts(filename: string)
    ensures var t := TrimTrailingSlashes(filename);
      var name := LastComponent(t);
      && '/' !in name
      && ('/' !in filename ==> name == filename)
      && |name| <= |t| && name == t[|t| - |name|..]
      && (|name| < |t| ==> t[|t| - |name| - 1] == '/')
      && (name == [] <==> forall i :: 0 <= i < |filename| ==> filename[i] == '/')
  {
    TrimmedEmpty(filename);
    ComponentEmpty(TrimTrailingSlashes(filename));
    PlainName(filename);
  }

  /** Only a path of slashes alone trims to nothing. */
  lemma {:induction false} TrimmedEmpty(s: string)
    ensures TrimTrailingSlashes(s) == [] <==> forall i :: 0 <= i < |s| ==> s[i] == '/'
  {
    var t := TrimTrailingSlashes(s);
    if t != [] {
      assert s[|t| - 1] == t[|t| - 1];
    }
  }

  /** A path that does not end in a slash has a non-empty last component unless it is empty. */
  lemma {:induction false} ComponentEmpty(t: string)
    requires t == [] || t[|t| - 1] != '/'
    ensures LastComponent(t) == [] <==> t == []
  {
    if t != [] && LastComponent(t) == [] {
      assert false;
    }
  }

  /** A name without slashes is its own last component. */
  lemma {:induction false} PlainName(s: string)
    ensures '/' !in s ==> LastComponent(TrimTrailingSlashes(s)) == s
  {
    if '/' !in s {
      var t := TrimTrailingSlashes(s);
      if |t| < |s| {
        assert false;
      }
      assert t == s;
      var name := LastComponent(t);
      if |name| < |t| {
        assert false;
      }
    }
  }

  /** The index of the last "." in `s`, if any. */
  function LastDot(s: string): (i: Option<nat>)
    ensures i.Some? ==> i.value < |s| && s[i.value] == '.' && '.' !in s[i.value + 1..]
    ensures i.None? ==> '.' !in s
  {
    if s == [] then None
    else if s[|s| - 1] == '.' then Some(|s| - 1)
    else
      var init := s[..|s| - 1];
      var r := LastDot(init);
      if r.None? then None
      else
        assert s[r.value + 1..] == init[r.value + 1..] + [s[|s| - 1]];
        r
  }

  /** `Path(filename).stem`: the name without its last suffix; a leading or trailing dot is not a suffix. */
  function Stem(filename: string): (stem: string)
  {
    var name := BaseName(filename);
    match LastDot(name)
    case Some(i) => if 0 < i < |name| - 1 then name[..i] else name
    case None => name
  }

  /** The image type whose configured stem matches the file's stem, ignoring case. */
  function ImageTypeFromFilename(filename: string): (t: Option<string>)
    ensures t.Some? ==> t.value in Constants.FilenameStems() && Lower(Constants.FilenameStems()[t.value]) == Lower(Stem(filename))
    ensures t.None? <==> forall i :: 0 <= i < |Constants.FilenameConfig| ==> Lower(Constants.FilenameConfig[i].1) != Lower(Stem(filename))
  {
    FindStem(Constants.FilenameConfig, Lower(Stem(filename)))
  }

  /** The first entry of `table` whose lower-cased stem is `stem`. */
  function FindStem(table: seq<(string, string)>, stem: string): (t: Option<string>)
    requires |table| <= |Constants.FilenameConfig| && table == Constants.FilenameConfig[|Constants.FilenameConfig| - |table|..]
    ensures t.Some? ==> exists i :: 0 <= i < |table| && table[i].0 == t.value && Lower(table[i].1) == stem
    ensures t.None? <==> forall i :: 0 <= i < |table| ==> Lower(table[i].1) != stem
    ensures t.Some? ==> t.value in Constants.FilenameStems() && Lower(Constants.FilenameStems()[t.value]) == stem
  {
    if table == [] then None
    else if Lower(table[0].1) == stem then
      assert table[0] == Constants.FilenameConfig[|Constants.FilenameConfig| - |table|];
      Some(table[0].0)
    else FindStem(table[1..], stem)
  }

  /** The last dot of `stem + "." + suffix` is the one before the suffix when neither part has a dot. */
  lemma {:induction false} LastDotBeforeSuffix(stem: string, suffix: string)
    requires '.' !in stem && '.' !in suffix
    ensures LastDot(stem + "." + suffix) == Some(|stem|)
  {
    var name := stem + "." + suffix;
    if suffix != [] {
      var init := suffix[..|suffix| - 1];
      LastDotBeforeSuffix(stem, init);
      assert name[..|name| - 1] == stem + "." + init;
    }
  }

  /** The stem of a plain file name with a non-empty stem and suffix. */
  lemma StemOfFileName(stem: string, suffix: string)
    requires '.' !in stem && '.' !in suffix && '/' !in stem && '/' !in suffix
    requires stem != [] && suffix != []
    ensures Stem(stem + "." + suffix) == stem
  {
    var name := stem + "." + suffix;
    assert '/' !in name;
    assert BaseName(name) == name;
    LastDotBeforeSuffix(stem, suffix);
    assert name[..|stem|] == stem;
  }

  /** Looking up a configured stem finds its image type. */
  lemma FindConfiguredStem(k: nat)
    requires k < |Constants.FilenameConfig|
    ensures FindStem(Constants.FilenameConfig, Constants.FilenameConfig[k].1) == Some(Constants.FilenameConfig[k].0)
  {
    var table := Constants.FilenameConfig;
    LowerOfLowercase("logo");
    LowerOfLowercase("landscape");
    LowerOfLowercase("profile");
    assert table[1..][1..] == [table[2]];
  }

  /** A backup file name of a configured image type resolves back to that type. */
  lemma ImageTypeOfBackupName(imageType: string, suffix: string)
    requires imageType in Constants.FilenameStems()
    requires suffix != [] && '.' !in suffix && '/' !in suffix
    ensures ImageTypeFromFilename(BackupStem(imageType) + "." + suffix) == Some(imageType)
  {
    var k :| 0 <= k < |Constants.FilenameConfig| && Constants.FilenameConfig[k].0 == imageType;
    var stem := Constants.FilenameConfig[k].1;
    assert BackupStem(imageType) == stem;
    ConfiguredStemIsPlain(k);
    StemOfFileName(stem, suffix);
    FindConfiguredStem(k);
  }

  /** The configured stems are non-empty lower-case names without dots or slashes. */
  lemma ConfiguredStemIsPlain(k: nat)
    requires k < |Constants.FilenameConfig|
    ensures var stem := Constants.FilenameConfig[k].1;
      stem != [] && '.' !in stem && '/' !in stem && Lower(stem) == stem
  {
    var stem := Constants.FilenameConfig[k].1;
    assert stem in ["logo", "landscape", "profile"];
    LowerOfLowercase(stem);
  }

  // ---------------------------------------------------------------- staging

  /** The per-item staging directory of the backdrop protocol, below the backup root. */
  function StagingDir(root: Path, itemId: string): (dir: Path)
    ensures |dir| == |root| + 2 && dir[..|root|] == root
    ensures forall other :: dir != BackupDir(root, other)
  {
    var dir := root + ["staging", itemId];
    assert |"staging"| == 7;
    assert forall other :: BackupDir(root, other)[|root|] == Prefix2(other);
    dir
  }

  /** Staged backdrop `index` of an item: a file directly in its staging directory, never a backup file. */
  function StagedFile(root: Path, itemId: string, index: nat, ext: string): (p: Path)
    ensures |p| == |root| + 3 && p[..|root| + 2] == StagingDir(root, itemId)
    ensures forall other, t, e :: p != BackupPath(root, other, t, e)
  {
    var p := StagingDir(root, itemId) + [NatToString(index) + ext];
    assert forall other, t, e :: BackupPath(root, other, t, e)[..|root| + 2] == BackupDir(root, other);
    p
  }

  /** No backup file ever lies inside a staging directory. */
  lemma BackupsAreNotStaged(root: Path, itemId: string, imageType: string, ext: string, other: string)
    ensures StagingDir(root, other) != BackupPath(root, itemId, imageType, ext)[..|root| + 2]
  {
    var b := BackupPath(root, itemId, imageType, ext);
    assert b[|root|] == Prefix2(itemId);
    assert StagingDir(root, other)[|root|] == "staging";
    assert |"staging"| == 7;
  }

  // ---------------------------------------------------------------- the filesystem

  /** The state `save_backup` leaves at `path`: write when absent, keep unless overwriting, replace differing bytes. */
  function StoreBackup(files: map<Path, Bytes>, path: Path, data: Bytes, overwrite: bool): (r: map<Path, Bytes>)
    ensures path in r
    ensures path !in files ==> r[path] == data
    ensures path in files && !overwrite ==> r == files
    ensures overwrite ==> r[path] == data
    ensures forall q :: q != path ==> (q in r <==> q in files) && (q in files ==> r[q] == files[q])
  {
    if path !in files then files[path := data]
    else if !overwrite then files
    else if files[path] == data then files
    else files[path := data]
  }

  /** Saving the same bytes twice leaves the store as saving once. */
  lemma StoreBackupIdempotent(files: map<Path, Bytes>, path: Path, data: Bytes, overwrite: bool)
    ensures StoreBackup(StoreBackup(files, path, data, overwrite), path, data, overwrite) == StoreBackup(files, path, data, overwrite)
  {
  }

  /** An up-to-date backup is left as it is even when overwriting. */
  lemma StoreBackupUpToDate(files: map<Path, Bytes>, path: Path, data: Bytes)
    requires path in files && files[path] == data
    ensures StoreBackup(files, path, data, true) == files
  {
  }

  class FileSystem {
    var files: map<Path, Bytes>
    var dirs: set<Path>

    constructor(files0: map<Path, Bytes>, dirs0: set<Path>)
      ensures files == files0 && dirs == dirs0
    {
      files, dirs := files0, dirs0;
    }

    /** `mkdir(parents=True, exist_ok=True)`: the directory and its ancestors below `root` exist afterwards. */
    method MakeDirs(root: Path, rel: seq<string>)
      modifies this
      ensures dirs == old(dirs) + (set k | 0 <= k <= |rel| :: root + rel[..k])
      ensures files == old(files)
    {
      dirs := dirs + (set k | 0 <= k <= |rel| :: root + rel[..k]);
    }

    /** `backup_path_for_image`: creates the item's backup directory and returns the file path. */
    method BackupPathForImage(root: Path, itemId: string, imageType: string, extension: string) returns (p: Path)
      modifies this
      ensures p == BackupPath(root, itemId, imageType, extension)
      ensures BackupDir(root, itemId) in dirs && old(dirs) <= dirs
      ensures dirs == old(dirs) + {root, root + [Prefix2(itemId)], BackupDir(root, itemId)}
      ensures files == old(files)
    {
      var rel := [Prefix2(itemId), itemId];
      MakeDirs(root, rel);
      assert root + rel[..0] == root && root + rel[..1] == root + [Prefix2(itemId)];
      assert root + rel[..2] == BackupDir(root, itemId);
      assert (set k | 0 <= k <= |rel| :: root + rel[..k]) == {root, root + [Prefix2(itemId)], BackupDir(root, itemId)};
      p := BackupPath(root, itemId, imageType, extension);
    }

    /** `save_backup`: writes the original bytes under the backup layout and returns the path. */
    method SaveBackup(root: Path, itemId: string, imageType: string, data: Bytes, contentType: Option<string>, overwrite: bool)
      returns (p: Path)
      modifies this
      ensures p == BackupPath(root, itemId, imageType, GuessExtension(contentType))
      ensures files == StoreBackup(old(files), p, data, overwrite)
      ensures BackupDir(root, itemId) in dirs && old(dirs) <= dirs
      ensures dirs == old(dirs) + {root, root + [Prefix2(itemId)], BackupDir(root, itemId)}
    {
      var extension := GuessExtension(contentType);
      p := BackupPathForImage(root, itemId, imageType, extension);
      if p in files {
        if overwrite {
          var current := files[p];
          if current == data {
            return;
          }
          files := files[p := data];
        }
      } else {
        files := files[p := data];
      }
    }

    method WriteFile(p: Path, data: Bytes)
      modifies this
      ensures files == old(files)[p := data] && dirs == old(dirs)
    {
      files := files[p := data];
    }

    /** Removes a directory tree: every file and directory at or below `dir`. */
    method RemoveTree(dir: Path)
      modifies this
      ensures files == map q | q in old(files) && !(|dir| <= |q| && q[..|dir|] == dir) :: old(files)[q]
      ensures dirs == set q | q in old(dirs) && !(|dir| <= |q| && q[..|dir|] == dir)
    {
      files := map q | q in files && !(|dir| <= |q| && q[..|dir|] == dir) :: files[q];
      dirs := set q | q in dirs && !(|dir| <= |q| && q[..|dir|] == dir);
    }
  }
}

=== FILE: cli.dfy ===
/**
 * The command-line front end of `jfin.py`: the WIDTHxHEIGHT size parser, the three
 * scanners that refuse operational flags beside a standalone command, and the warnings
 * for overrides that the selected modes ignore.
 */
module Cli {
  import opened Wrappers
  import Text
  import State
  import Config
  import Constants

  // ---------------------------------------------------------------- parse_size_pair

  const SizeFormatMessage := "Expected WIDTHxHEIGHT (e.g., 1000x562)."
  const SizeIntegerMessage := "Width and height must be integers (e.g., 1000x562)."
  const SizePositiveMessage := "Width and height must be positive integers."

  /**
   * `parse_size_pair`: split the lower-cased text at its first `x`, read both sides with
   * `int()`, and insist that both are positive. A failure is the `ArgumentTypeError` message.
   */
  function ParseSizePair(value: string): (r: Result<(int, int), string>)
    ensures r.Success? ==> r.value.0 > 0 && r.value.1 > 0
  {
    match Text.SplitFirst(Text.Lower(value), 'x')
    case None => Failure(SizeFormatMessage)
    case Some((widthText, heightText)) =>
      match (Text.ParseInt(widthText), Text.ParseInt(heightText))
      case (Some(width), Some(height)) =>
        if width <= 0 || height <= 0 then Failure(SizePositiveMessage) else Success((width, height))
      case _ => Failure(SizeIntegerMessage)
  }

  /** The format message is given exactly when the lower-cased value has no `x`. */
  lemma ParseSizePairFormat(value: string)
    ensures ParseSizePair(value) == Failure(SizeFormatMessage) <==> 'x' !in Text.Lower(value)
  {
    if 'x' in Text.Lower(value) {
      SizeMessagesDiffer();
    }
  }

  lemma SizeMessagesDiffer()
    ensures SizeFormatMessage != SizeIntegerMessage && SizeFormatMessage != SizePositiveMessage
  {
    assert |SizeFormatMessage| == 39 && |SizeIntegerMessage| == 51 && |SizePositiveMessage| == 43;
  }

  /** A success reads the texts on either side of the first `x` of the lower-cased value. */
  lemma ParseSizePairReads(value: string)
    requires ParseSizePair(value).Success?
    ensures exists widthText, heightText ::
      && Text.Lower(value) == widthText + "x" + heightText && 'x' !in widthText
      && Text.ParseInt(widthText) == Some(ParseSizePair(value).value.0)
      && Text.ParseInt(heightText) == Some(ParseSizePair(value).value.1)
  {
    var (widthText, heightText) := Text.SplitFirst(Text.Lower(value), 'x').value;
    assert Text.Lower(value) == widthText + "x" + heightText;
  }

  /** No ASCII capital letter: `lower()` leaves the text as it is. */
  predicate NoUpper(s: string) {
    forall i :: 0 <= i < |s| ==> !('A' <= s[i] <= 'Z')
  }

  lemma LowerNoop(s: string)
    requires NoUpper(s)
    ensures Text.Lower(s) == s
  {
  }

  /** `lower()` works character by character. */
  lemma LowerAppend(a: string, b: string)
    ensures Text.Lower(a + b) == Text.Lower(a) + Text.Lower(b)
  {
  }

  /** A decimal numeral has no capital letter. */
  lemma IntToStringNoUpper(n: int)
    ensures NoUpper(Text.IntToString(n))
  {
    var r := Text.IntToString(n);
    if n < 0 {
      var digits := Text.NatToString(-n);
      assert r == "-" + digits;
      forall i | 1 <= i < |r|
        ensures !('A' <= r[i] <= 'Z')
      {
        assert r[i] == digits[i - 1];
      }
    }
  }

  /**
   * Writing a size back as `WxH` (or `WXH`) and parsing it gives the size again when both
   * sides are positive, and the positivity message otherwise.
   */
  lemma ParseSizePairRoundTrip(width: int, height: int, separator: char)
    requires separator == 'x' || separator == 'X'
    ensures ParseSizePair(Text.IntToString(width) + [separator] + Text.IntToString(height)) ==
      if width > 0 && height > 0 then Success((width, height)) else Failure(SizePositiveMessage)
  {
    var widthText, heightText := Text.IntToString(width), Text.IntToString(height);
    var value := widthText + [separator] + heightText;
    IntToStringNoUpper(width);
    IntToStringNoUpper(height);
    assert Text.Lower(value) == widthText + ['x'] + heightText by {
      LowerNoop(widthText);
      LowerNoop(heightText);
      LowerAppend(widthText + [separator], heightText);
      LowerAppend(widthText, [separator]);
    }
    Text.SplitFirstAt(widthText, 'x', heightText);
    Text.ParseIntOfIntToString(width);
    Text.ParseIntOfIntToString(height);
  }

  // ---------------------------------------------------------------- exclusive commands

  /** `token.startswith(flag + "=")` for some value-taking flag. */
  predicate HasInlineValue(token: string, valueFlags: seq<string>) {
    exists k :: 0 <= k < |valueFlags| && Text.StartsWith(token, valueFlags[k] + "=")
  }

  /**
   * The tokens the scan reports, from `argv` on, when `skip` says whether the previous token
   * was a value-taking flag: the value after such a flag, an inline `flag=value` and an allowed
   * token pass; everything else is an extra.
   */
  function Scan(argv: seq<string>, skip: bool, allowed: set<string>, valueFlags: seq<string>): (extras: seq<string>)
    ensures |extras| <= |argv|
    ensures forall t :: t in extras ==> t in argv
  {
    if argv == [] then []
    else if skip then Scan(argv[1..], false, allowed, valueFlags)
    else if argv[0] in valueFlags then Scan(argv[1..], true, allowed, valueFlags)
    else if HasInlineValue(argv[0], valueFlags) || argv[0] in allowed then Scan(argv[1..], false, allowed, valueFlags)
    else [argv[0]] + Scan(argv[1..], false, allowed, valueFlags)
  }

  /** Whether the token after `argv` is skipped as a flag's value. */
  function SkipAfter(argv: seq<string>, skip: bool, valueFlags: seq<string>): bool {
    if argv == [] then skip
    else SkipAfter(argv[1..], !skip && argv[0] in valueFlags, valueFlags)
  }

  /** The tokens of a whole command line that the command does not accept beside it. */
  function Extras(argv: seq<string>, allowed: set<string>, valueFlags: seq<string>): seq<string> {
    Scan(argv, false, allowed, valueFlags)
  }

  /** A token the scan reports when it is not a flag's value. */
  predicate Offending(token: string, allowed: set<string>, valueFlags: seq<string>) {
    token !in valueFlags && !HasInlineValue(token, valueFlags) && token !in allowed
  }

  /** Every extra is a token of the command line, neither allowed nor a value-taking flag. */
  lemma {:induction false} ScanSound(argv: seq<string>, skip: bool, allowed: set<string>, valueFlags: seq<string>)
    ensures forall k :: 0 <= k < |Scan(argv, skip, allowed, valueFlags)| ==>
      Scan(argv, skip, allowed, valueFlags)[k] in argv && Offending(Scan(argv, skip, allowed, valueFlags)[k], allowed, valueFlags)
  {
    if argv != [] {
      ScanSound(argv[1..], false, allowed, valueFlags);
      ScanSound(argv[1..], true, allowed, valueFlags);
      var rest := Scan(argv[1..], false, allowed, valueFlags);
      assert forall t :: t in argv[1..] ==> t in argv;
      if !skip && Offending(argv[0], allowed, valueFlags) {
        assert forall k :: 1 <= k < |[argv[0]] + rest| ==> ([argv[0]] + rest)[k] == rest[k - 1];
      }
    }
  }

  /** A command line made of accepted tokens only has no extras, whatever follows a value flag. */
  lemma {:induction false} ScanOfAccepted(argv: seq<string>, skip: bool, allowed: set<string>, valueFlags: seq<string>)
    requires forall k :: 0 <= k < |argv| ==> !Offending(argv[k], allowed, valueFlags)
    ensures Scan(argv, skip, allowed, valueFlags) == []
  {
    if argv != [] {
      assert forall k :: 0 <= k < |argv[1..]| ==> argv[1..][k] == argv[k + 1];
      ScanOfAccepted(argv[1..], false, allowed, valueFlags);
      ScanOfAccepted(argv[1..], true, allowed, valueFlags);
    }
  }

  /** The scan of a joined command line is the scan of each part, the skip flag carried over. */
  lemma {:induction false} ScanAppend(a: seq<string>, b: seq<string>, skip: bool, allowed: set<string>, valueFlags: seq<string>)
    ensures Scan(a + b, skip, allowed, valueFlags) ==
      Scan(a, skip, allowed, valueFlags) + Scan(b, SkipAfter(a, skip, valueFlags), allowed, valueFlags)
  {
    if a != [] {
      assert (a + b)[1..] == a[1..] + b;
      ScanAppend(a[1..], b, !skip && a[0] in valueFlags, allowed, valueFlags);
    } else {
      assert a + b == b;
    }
  }

  /**
   * The scan loop of the `validate_*_args` functions, with its `skip_next` flag.
   */
  method ScanExtras(argv: seq<string>, allowed: set<string>, valueFlags: seq<string>) returns (extras: seq<string>)
    ensures extras == Extras(argv, allowed, valueFlags)
  {
    extras := [];
    var skipNext := false;
    for i := 0 to |argv|
      invariant Extras(argv, allowed, valueFlags) == extras + Scan(argv[i..], skipNext, allowed, valueFlags)
    {
      var token := argv[i];
      assert argv[i..][1..] == argv[i + 1..];
      if skipNext {
        skipNext := false;
        continue;
      }
      if token in valueFlags {
        skipNext := true;
        continue;
      }
      if HasInlineValue(token, valueFlags) {
        continue;
      }
      if token in allowed {
        continue;
      }
      extras := extras + [token];
    }
  }

  /**
   * Refuses a standalone command mixed with other arguments: with extras, one error is recorded
   * under "arguments" and the critical message comes back (the process then exits with status 1).
   */
  method RejectExtras(stats: State.RunStats, argv: seq<string>, allowed: set<string>, valueFlags: seq<string>,
                      command: string, reason: string)
    returns (exit: Option<string>)
    modifies stats
    ensures exit.Some? <==> Extras(argv, allowed, valueFlags) != []
    ensures exit.Some? ==> exit.value == CombinedMessage(command, Extras(argv, allowed, valueFlags))
    ensures stats.Snapshot() == old(stats.Snapshot()).(errors := old(stats.errors) + if exit.Some? then 1 else 0)
    ensures stats.failedItems == old(stats.failedItems) + (if exit.Some? then [("arguments", reason)] else [])
    ensures stats.processedIds == old(stats.processedIds)
    ensures old(stats.Valid()) ==> stats.Valid()
  {
    var extras := ScanExtras(argv, allowed, valueFlags);
    if extras == [] {
      return None;
    }
    stats.RecordError("arguments", reason);
    exit := Some(CombinedMessage(command, extras));
  }

  /** The critical message naming the refused tokens. */
  function CombinedMessage(command: string, extras: seq<string>): string {
    command + " cannot be combined with other arguments (found: " + Text.Join(extras, ", ") + ")."
  }

  const GenerateConfigAllowed: set<string> := {"--generate-config", "--config", "--silent", "-s", "--verbose", "-v"}
  const RestoreAllAllowed: set<string> := {"--restore-all", "--config", "--silent", "-s", "--verbose", "-v"}
  const TestJfAllowed: set<string> :=
    {"--test-jf", "--config", "--silent", "-s", "--verbose", "-v", "--jf-url", "--jf-api-key", "--jf-delay-ms"}
  const ConfigFlag: seq<string> := ["--config"]
  const ConnectionFlags: seq<string> := ["--config", "--jf-url", "--jf-api-key", "--jf-delay-ms"]

  /** `validate_generate_config_args`. */
  method ValidateGenerateConfigArgs(stats: State.RunStats, argv: seq<string>) returns (exit: Option<string>)
    modifies stats
    ensures exit.Some? <==> Extras(argv, GenerateConfigAllowed, ConfigFlag) != []
    ensures stats.Snapshot() == old(stats.Snapshot()).(errors := old(stats.errors) + if exit.Some? then 1 else 0)
    ensures stats.failedItems == old(stats.failedItems) +
      (if exit.Some? then [("arguments", "generate-config combined with other args")] else [])
    ensures stats.processedIds == old(stats.processedIds)
  {
    exit := RejectExtras(stats, argv, GenerateConfigAllowed, ConfigFlag, "--generate-config",
      "generate-config combined with other args");
  }

  /** `validate_restore_all_args`. */
  method ValidateRestoreAllArgs(stats: State.RunStats, argv: seq<string>) returns (exit: Option<string>)
    modifies stats
    ensures exit.Some? <==> Extras(argv, RestoreAllAllowed, ConfigFlag) != []
    ensures stats.Snapshot() == old(stats.Snapshot()).(errors := old(stats.errors) + if exit.Some? then 1 else 0)
    ensures stats.failedItems == old(stats.failedItems) +
      (if exit.Some? then [("arguments", "restore-all combined with other args")] else [])
    ensures stats.processedIds == old(stats.processedIds)
  {
    exit := RejectExtras(stats, argv, RestoreAllAllowed, ConfigFlag, "--restore-all",
      "restore-all combined with other args");
  }

  /** `validate_test_jf_args`: the connection flags also take a value. */
  method ValidateTestJfArgs(stats: State.RunStats, argv: seq<string>) returns (exit: Option<string>)
    modifies stats
    ensures exit.Some? <==> Extras(argv, TestJfAllowed, ConnectionFlags) != []
    ensures stats.Snapshot() == old(stats.Snapshot()).(errors := old(stats.errors) + if exit.Some? then 1 else 0)
    ensures stats.failedItems == old(stats.failedItems) +
      (if exit.Some? then [("arguments", "test-jf combined with other args")] else [])
    ensures stats.processedIds == old(stats.processedIds)
  {
    exit := RejectExtras(stats, argv, TestJfAllowed, ConnectionFlags, "--test-jf",
      "test-jf combined with other args");
  }

  /** A config path and a logging flag beside --restore-all are accepted. */
  lemma RestoreAllWithConfig()
    ensures Extras(["--restore-all", "--config", "myconfig.toml", "-s"], RestoreAllAllowed, ConfigFlag) == []
  {
    var argv := ["--restore-all", "--config", "myconfig.toml", "-s"];
    assert argv[1..][1..][1..][1..] == [];
  }

  /** A mode beside --restore-all or --generate-config is refused, flag and value both reported. */
  lemma ModeBesideStandalone()
    ensures Extras(["--restore-all", "--mode", "logo"], RestoreAllAllowed, ConfigFlag) == ["--mode", "logo"]
    ensures Extras(["--generate-config", "--mode", "logo"], GenerateConfigAllowed, ConfigFlag) == ["--mode", "logo"]
  {
  }

  // ---------------------------------------------------------------- warn_unused_cli_overrides

  /** A command-line override, the mode it configures, and whether it was given. */
  datatype Override = Override(flag: string, mode: string, given: bool)

  /** The quality and padding overrides, checked one by one. */
  function FlagOverrides(args: Config.Args): seq<Override> {
    [ Override("--thumb-jpeg-quality", "thumb", args.thumbJpegQuality.Some?),
      Override("--backdrop-jpeg-quality", "backdrop", args.backdropJpegQuality.Some?),
      Override("--profile-webp-quality", "profile", args.profileWebpQuality.Some?),
      Override("--logo-padding", "logo", args.logoPadding.Some?) ]
  }

  /** The target-size overrides, checked in a loop. */
  function SizeOverrides(args: Config.Args): seq<Override> {
    [ Override("--logo-target-size", "logo", args.logoTargetSize.Some?),
      Override("--thumb-target-size", "thumb", args.thumbTargetSize.Some?),
      Override("--backdrop-target-size", "backdrop", args.backdropTargetSize.Some?),
      Override("--profile-target-size", "profile", args.profileTargetSize.Some?) ]
  }

  function Overrides(args: Config.Args): seq<Override> {
    FlagOverrides(args) + SizeOverrides(args)
  }

  const ScalingMessage := "--no-upscale and --no-downscale together disable all scaling."
  const ItemTypesMessage := "--item-types has no effect without 'logo', 'thumb', or 'backdrop' modes selected."

  function NoEffectMessage(flag: string, mode: string): string {
    flag + " has no effect because '" + mode + "' mode is not selected."
  }

  predicate IgnoredBy(o: Override, operations: seq<string>) {
    o.given && o.mode !in operations
  }

  /** The warning for one override, if its mode is not selected. */
  function Warn(o: Override, operations: seq<string>): seq<string> {
    if IgnoredBy(o, operations) then [NoEffectMessage(o.flag, o.mode)] else []
  }

  /** The warnings for the given overrides whose mode is not selected, in order. */
  function Ignored(overrides: seq<Override>, operations: seq<string>): (warnings: seq<string>)
    ensures |warnings| <= |overrides|
  {
    if overrides == [] then []
    else Ignored(overrides[..|overrides| - 1], operations) + Warn(overrides[|overrides| - 1], operations)
  }

  /** A non-empty item-type filter with none of the modes it applies to. */
  predicate ItemTypesIgnored(args: Config.Args, operations: seq<string>) {
    && args.itemTypes.Some? && args.itemTypes.value != ""
    && "logo" !in operations && "thumb" !in operations && "backdrop" !in operations
  }

  /** Every warning `warn_unused_cli_overrides` logs, in order. */
  function Warnings(args: Config.Args, operations: seq<string>): (warnings: seq<string>)
    ensures |warnings| <= 10
  {
    (if args.noUpscale && args.noDownscale then [ScalingMessage] else [])
    + Ignored(FlagOverrides(args), operations)
    + Ignored(SizeOverrides(args), operations)
    + (if ItemTypesIgnored(args, operations) then [ItemTypesMessage] else [])
  }

  /**
   * `warn_unused_cli_overrides`: logs each warning and counts it; nothing else changes.
   */
  method WarnUnusedCliOverrides(stats: State.RunStats, args: Config.Args, operations: seq<string>)
    returns (logged: seq<string>)
    modifies stats
    ensures logged == Warnings(args, operations)
    ensures stats.Snapshot() == old(stats.Snapshot()).(warnings := old(stats.warnings) + |logged|)
    ensures stats.failedItems == old(stats.failedItems) && stats.processedIds == old(stats.processedIds)
    ensures old(stats.Valid()) ==> stats.Valid()
  {
    var scaling := [];
    if args.noUpscale && args.noDownscale {
      stats.RecordWarning();
      scaling := [ScalingMessage];
    }
    var flags := WarnFlagOverrides(stats, args, operations);
    var sizes := WarnSizeOverrides(stats, args, operations);
    var itemTypes := WarnItemTypes(stats, args, operations);
    logged := scaling + flags + sizes + itemTypes;
  }

  /** The loop over the target-size overrides. */
  method WarnSizeOverrides(stats: State.RunStats, args: Config.Args, operations: seq<string>)
    returns (logged: seq<string>)
    modifies stats
    ensures logged == Ignored(SizeOverrides(args), operations)
    ensures stats.Snapshot() == old(stats.Snapshot()).(warnings := old(stats.warnings) + |logged|)
    ensures stats.failedItems == old(stats.failedItems) && stats.processedIds == old(stats.processedIds)
    ensures old(stats.Valid()) ==> stats.Valid()
  {
    var sizes := SizeOverrides(args);
    logged := [];
    for i := 0 to |sizes|
      invariant logged == Ignored(sizes[..i], operations)
      invariant stats.Snapshot() == old(stats.Snapshot()).(warnings := old(stats.warnings) + |logged|)
      invariant stats.failedItems == old(stats.failedItems) && stats.processedIds == old(stats.processedIds)
      invariant old(stats.Valid()) ==> stats.Valid()
    {
      assert sizes[..i + 1][..i] == sizes[..i];
      var warning := WarnIfIgnored(stats, sizes[i], operations);
      logged := logged + warning;
    }
    assert sizes[..|sizes|] == sizes;
  }

  /** The item-type filter only matters to the logo, thumb and backdrop modes. */
  method WarnItemTypes(stats: State.RunStats, args: Config.Args, operations: seq<string>)
    returns (logged: seq<string>)
    modifies stats
    ensures logged == if ItemTypesIgnored(args, operations) then [ItemTypesMessage] else []
    ensures stats.Snapshot() == old(stats.Snapshot()).(warnings := old(stats.warnings) + |logged|)
    ensures stats.failedItems == old(stats.failedItems) && stats.processedIds == old(stats.processedIds)
    ensures old(stats.Valid()) ==> stats.Valid()
  {
    logged := [];
    if args.itemTypes.Some? && args.itemTypes.value != ""
      && "logo" !in operations && "thumb" !in operations && "backdrop" !in operations {
      stats.RecordWarning();
      logged := [ItemTypesMessage];
    }
  }

  /** The four separate checks of the quality and padding overrides. */
  method WarnFlagOverrides(stats: State.RunStats, args: Config.Args, operations: seq<string>)
    returns (logged: seq<string>)
    modifies stats
    ensures logged == Ignored(FlagOverrides(args), operations)
    ensures stats.Snapshot() == old(stats.Snapshot()).(warnings := old(stats.warnings) + |logged|)
    ensures stats.failedItems == old(stats.failedItems) && stats.processedIds == old(stats.processedIds)
    ensures old(stats.Valid()) ==> stats.Valid()
  {
    var flags := FlagOverrides(args);
    var thumb := WarnIfIgnored(stats, flags[0], operations);
    var backdrop := WarnIfIgnored(stats, flags[1], operations);
    var profile := WarnIfIgnored(stats, flags[2], operations);
    var logo := WarnIfIgnored(stats, flags[3], operations);
    logged := thumb + backdrop + profile + logo;
    IgnoredOfFour(flags, operations);
  }

  /** One check: a given override whose mode is not selected is logged and counted. */
  method WarnIfIgnored(stats: State.RunStats, o: Override, operations: seq<string>) returns (logged: seq<string>)
    modifies stats
    ensures logged == Warn(o, operations)
    ensures stats.Snapshot() == old(stats.Snapshot()).(warnings := old(stats.warnings) + |logged|)
    ensures stats.failedItems == old(stats.failedItems) && stats.processedIds == old(stats.processedIds)
    ensures old(stats.Valid()) ==> stats.Valid()
  {
    logged := [];
    if o.given && o.mode !in operations {
      stats.RecordWarning();
      logged := [NoEffectMessage(o.flag, o.mode)];
    }
  }

  /** The warnings for four overrides, written out. */
  lemma IgnoredOfFour(overrides: seq<Override>, operations: seq<string>)
    requires |overrides| == 4
    ensures Ignored(overrides, operations) ==
      Warn(overrides[0], operations) + Warn(overrides[1], operations) + Warn(overrides[2], operations) + Warn(overrides[3], operations)
  {
    var first, two, three := overrides[..1], overrides[..2], overrides[..3];
    assert three[..2] == two && two[..1] == first && first[..0] == [];
    assert Ignored(first, operations) == Warn(overrides[0], operations);
    assert Ignored(two, operations) == Ignored(first, operations) + Warn(overrides[1], operations);
    assert Ignored(three, operations) == Ignored(two, operations) + Warn(overrides[2], operations);
  }

  /** The warnings of two runs of overrides are those of each run, in order. */
  lemma {:induction false} IgnoredAppend(a: seq<Override>, b: seq<Override>, operations: seq<string>)
    ensures Ignored(a + b, operations) == Ignored(a, operations) + Ignored(b, operations)
  {
    if b != [] {
      var init := b[..|b| - 1];
      IgnoredAppend(a, init, operations);
      assert (a + b)[..|a + b| - 1] == a + init;
      assert (a + b)[|a + b| - 1] == b[|b| - 1];
    } else {
      assert a + b == a;
    }
  }

  /** No warning exactly when every given override has its mode selected. */
  lemma {:induction false} IgnoredNone(overrides: seq<Override>, operations: seq<string>)
    ensures Ignored(overrides, operations) == [] <==> forall k :: 0 <= k < |overrides| ==> !IgnoredBy(overrides[k], operations)
  {
    if overrides != [] {
      var init := overrides[..|overrides| - 1];
      IgnoredNone(init, operations);
      assert forall k :: 0 <= k < |init| ==> init[k] == overrides[k];
    }
  }

  /** The positions of the overrides that are ignored. */
  function IgnoredPositions(overrides: seq<Override>, operations: seq<string>): (r: set<int>)
    ensures forall k :: k in r ==> 0 <= k < |overrides|
  {
    set k | 0 <= k < |overrides| && IgnoredBy(overrides[k], operations)
  }

  lemma IgnoredPositionsSnoc(overrides: seq<Override>, operations: seq<string>)
    requires overrides != []
    ensures var n := |overrides| - 1;
      IgnoredPositions(overrides, operations) ==
        IgnoredPositions(overrides[..n], operations) + if IgnoredBy(overrides[n], operations) then {n} else {}
  {
    var n := |overrides| - 1;
    assert forall k :: 0 <= k < n ==> overrides[..n][k] == overrides[k];
  }

  /** One warning per ignored override: the count is the number of positions ignored. */
  lemma {:induction false} IgnoredCount(overrides: seq<Override>, operations: seq<string>)
    ensures |Ignored(overrides, operations)| == |IgnoredPositions(overrides, operations)|
  {
    if overrides != [] {
      var n := |overrides| - 1;
      IgnoredCount(overrides[..n], operations);
      IgnoredPositionsSnoc(overrides, operations);
      assert n !in IgnoredPositions(overrides[..n], operations);
    }
  }

  /**
   * `warn_unused_cli_overrides` is silent exactly when scaling is not disabled both ways, every
   * given override has its mode selected, and an item-type filter has a mode it applies to.
   */
  lemma WarningsNone(args: Config.Args, operations: seq<string>)
    ensures Warnings(args, operations) == [] <==>
      && !(args.noUpscale && args.noDownscale)
      && (forall k :: 0 <= k < |Overrides(args)| ==> !IgnoredBy(Overrides(args)[k], operations))
      && !ItemTypesIgnored(args, operations)
  {
    IgnoredAppend(FlagOverrides(args), SizeOverrides(args), operations);
    IgnoredNone(Overrides(args), operations);
  }

  /**
   * One warning per ignored override, one more when both scaling directions are disabled and
   * one more for an item-type filter without a mode it applies to.
   */
  lemma WarningsCount(args: Config.Args, operations: seq<string>)
    ensures |Warnings(args, operations)| ==
      (if args.noUpscale && args.noDownscale then 1 else 0)
      + |IgnoredPositions(Overrides(args), operations)|
      + (if ItemTypesIgnored(args, operations) then 1 else 0)
  {
    IgnoredAppend(FlagOverrides(args), SizeOverrides(args), operations);
    IgnoredCount(Overrides(args), operations);
  }

  /**
   * "backdrop" is not a mode `parse_operations` accepts, so a given backdrop override is
   * always reported as having no effect.
   */
  lemma BackdropOverridesAlwaysIgnored(args: Config.Args, operations: seq<string>)
    requires forall m :: m in operations ==> m in Constants.ValidModes
    ensures args.backdropJpegQuality.Some? ==>
      NoEffectMessage("--backdrop-jpeg-quality", "backdrop") in Warnings(args, operations)
    ensures args.backdropTargetSize.Some? ==>
      NoEffectMessage("--backdrop-target-size", "backdrop") in Warnings(args, operations)
  {
    Constants.ModesAreConfigured();
    assert "backdrop" !in operations;
    IgnoredOfFour(FlagOverrides(args), operations);
    IgnoredOfFour(SizeOverrides(args), operations);
  }

  /** The connection flags beside --test-jf take a value, separate or inline. */
  lemma TestJfWithConnection()
    ensures Extras(["--test-jf", "--jf-url", "http://host:8096", "--jf-api-key=secret", "-v"], TestJfAllowed, ConnectionFlags) == []
  {
    var argv := ["--test-jf", "--jf-url", "http://host:8096", "--jf-api-key=secret", "-v"];
    assert Text.StartsWith(argv[3], ConnectionFlags[2] + "=");
  }
}

=== FILE: client.dfy ===
/**
 * The media-server client as the normaliser sees it: image fetch, head probe, delete and
 * upload, plus the two discovery queries. The network is replaced by scripted replies that
 * each call consumes in order, and every call is appended to a call log; an exhausted script
 * answers like a failed request.
 */
module Client {
  import opened Wrappers
  import State
  import Backup

  datatype Image = Image(data: Backup.Bytes, contentType: string)

  /** A JSON object as the discovery code reads it: absent keys are None. */
  datatype RawItem = RawItem(id: Option<string>, name: Option<string>, itemType: Option<string>,
                             parentId: Option<string>, collectionType: Option<string>, imageTags: set<string>)

  /** One page of an item query: its items and its `TotalRecordCount`, if the server sent one. */
  datatype Page = Page(items: seq<RawItem>, totalRecordCount: Option<int>)

  /** What is left of a script after `k` calls; calls on an exhausted script consume nothing. */
  function Drop<T>(replies: seq<T>, k: nat): (r: seq<T>)
    ensures |r| == if k <= |replies| then |replies| - k else 0
  {
    if k <= |replies| then replies[k..] else []
  }

  lemma DropTwice<T>(replies: seq<T>, i: nat, k: nat)
    ensures Drop(Drop(replies, i), k) == Drop(replies, i + k)
  {
  }

  datatype Call =
    | FetchImage(itemId: string, imageType: string, fetchIndex: Option<int>)
    | HeadImage(itemId: string, imageType: string, index: int)
    | DeleteImage(itemId: string, imageType: string, index: int)
    | UploadImage(itemId: string, imageType: string, uploadIndex: Option<int>, data: Backup.Bytes, contentType: string)
    | ListLibraries(userId: string)
    | QueryItems(userId: string, parentId: string, startIndex: int, limit: int)

  class MediaClient {
    var log: seq<Call>
    var fetchReplies: seq<Option<Image>>
    /** true: an image still answers at the probed index. */
    var headReplies: seq<bool>
    var deleteReplies: seq<bool>
    /** None: the upload was accepted; Some(e): it was rejected with error text e. */
    var uploadReplies: seq<Option<string>>
    var libraryReplies: seq<Option<seq<RawItem>>>
    var queryReplies: seq<Option<Page>>

    constructor(fetches: seq<Option<Image>>, heads: seq<bool>, deletes: seq<bool>, uploads: seq<Option<string>>,
                libraries: seq<Option<seq<RawItem>>>, queries: seq<Option<Page>>)
      ensures log == [] && fetchReplies == fetches && headReplies == heads && deleteReplies == deletes
      ensures uploadReplies == uploads && libraryReplies == libraries && queryReplies == queries
    {
      log := [];
      fetchReplies, headReplies, deleteReplies, uploadReplies := fetches, heads, deletes, uploads;
      libraryReplies, queryReplies := libraries, queries;
    }

    method Fetch(itemId: string, imageType: string, index: Option<int>) returns (r: Option<Image>)
      modifies this
      ensures log == old(log) + [FetchImage(itemId, imageType, index)]
      ensures r == (if old(fetchReplies) == [] then None else old(fetchReplies)[0])
      ensures fetchReplies == (if old(fetchReplies) == [] then [] else old(fetchReplies)[1..])
      ensures headReplies == old(headReplies) && deleteReplies == old(deleteReplies) && uploadReplies == old(uploadReplies)
      ensures libraryReplies == old(libraryReplies) && queryReplies == old(queryReplies)
    {
      log := log + [FetchImage(itemId, imageType, index)];
      if fetchReplies == [] {
        r := None;
      } else {
        r := fetchReplies[0];
        fetchReplies := fetchReplies[1..];
      }
    }

    /** A probe without retries; returns whether an image still exists at `index`. */
    method Head(itemId: string, imageType: string, index: int) returns (present: bool)
      modifies this
      ensures log == old(log) + [HeadImage(itemId, imageType, index)]
      ensures present == (old(headReplies) != [] && old(headReplies)[0])
      ensures headReplies == (if old(headReplies) == [] then [] else old(headReplies)[1..])
      ensures fetchReplies == old(fetchReplies) && deleteReplies == old(deleteReplies) && uploadReplies == old(uploadReplies)
      ensures libraryReplies == old(libraryReplies) && queryReplies == old(queryReplies)
    {
      log := log + [HeadImage(itemId, imageType, index)];
      if headReplies == [] {
        present := false;
      } else {
        present := headReplies[0];
        headReplies := headReplies[1..];
      }
    }

    method Delete(itemId: string, imageType: string, index: int) returns (ok: bool)
      modifies this
      ensures log == old(log) + [DeleteImage(itemId, imageType, index)]
      ensures ok == (old(deleteReplies) != [] && old(deleteReplies)[0])
      ensures deleteReplies == (if old(deleteReplies) == [] then [] else old(deleteReplies)[1..])
      ensures fetchReplies == old(fetchReplies) && headReplies == old(headReplies) && uploadReplies == old(uploadReplies)
      ensures libraryReplies == old(libraryReplies) && queryReplies == old(queryReplies)
    {
      log := log + [DeleteImage(itemId, imageType, index)];
      if deleteReplies == [] {
        ok := false;
      } else {
        ok := deleteReplies[0];
        deleteReplies := deleteReplies[1..];
      }
    }

    /** An upload; a rejected one appends an entry carrying its error text to the run's failure list. */
    method Upload(g: State.Globals, itemId: string, imageType: string, index: Option<int>, data: Backup.Bytes, contentType: string)
      returns (ok: bool)
      modifies this, g
      ensures log == old(log) + [UploadImage(itemId, imageType, index, data, contentType)]
      ensures var reply := if old(uploadReplies) == [] then Some("Unknown error") else old(uploadReplies)[0];
        && ok == reply.None?
        && g.apiFailures == (if ok then old(g.apiFailures) else old(g.apiFailures) + [State.ApiFailure(itemId, imageType, reply)])
      ensures uploadReplies == (if old(uploadReplies) == [] then [] else old(uploadReplies)[1..])
      ensures fetchReplies == old(fetchReplies) && headReplies == old(headReplies) && deleteReplies == old(deleteReplies)
      ensures libraryReplies == old(libraryReplies) && queryReplies == old(queryReplies)
      ensures g.stats == old(g.stats) && g.upscaled == old(g.upscaled) && g.downscaled == old(g.downscaled) && g.dryRun == old(g.dryRun)
    {
      log := log + [UploadImage(itemId, imageType, index, data, contentType)];
      var reply := Some("Unknown error");
      if uploadReplies != [] {
        reply := uploadReplies[0];
        uploadReplies := uploadReplies[1..];
      }
      ok := reply.None?;
      if !ok {
        g.apiFailures := g.apiFailures + [State.ApiFailure(itemId, imageType, reply)];
      }
    }

    /** The user's top-level items (libraries); None when the request or its `Items` key failed. */
    method ListUserLibraries(userId: string) returns (r: Option<seq<RawItem>>)
      modifies this
      ensures log == old(log) + [ListLibraries(userId)]
      ensures r == (if old(libraryReplies) == [] then None else old(libraryReplies)[0])
      ensures libraryReplies == (if old(libraryReplies) == [] then [] else old(libraryReplies)[1..])
      ensures fetchReplies == old(fetchReplies) && headReplies == old(headReplies) && deleteReplies == old(deleteReplies)
      ensures uploadReplies == old(uploadReplies) && queryReplies == old(queryReplies)
    {
      log := log + [ListLibraries(userId)];
      if libraryReplies == [] {
        r := None;
      } else {
        r := libraryReplies[0];
        libraryReplies := libraryReplies[1..];
      }
    }

    method QueryLibraryItems(userId: string, parentId: string, startIndex: int, limit: int) returns (r: Option<Page>)
      modifies this
      ensures log == old(log) + [QueryItems(userId, parentId, startIndex, limit)]
      ensures r == (if old(queryReplies) == [] then None else old(queryReplies)[0])
      ensures queryReplies == (if old(queryReplies) == [] then [] else old(queryReplies)[1..])
      ensures fetchReplies == old(fetchReplies) && headReplies == old(headReplies) && deleteReplies == old(deleteReplies)
      ensures uploadReplies == old(uploadReplies) && libraryReplies == old(libraryReplies)
    {
      log := log + [QueryItems(userId, parentId, startIndex, limit)];
      if queryReplies == [] {
        r := None;
      } else {
        r := queryReplies[0];
        queryReplies := queryReplies[1..];
      }
    }
  }
}

=== FILE: config.dfy ===
/**
 * Configuration normalisation: the typed values of a loaded TOML document, the list parsers
 * (`parse_str_list`, `parse_item_types`, `parse_operations`), the size-override checks, the
 * per-mode runtime settings, the discovery settings and the type and range validation of a
 * whole configuration.
 */
module Config {
  import opened Wrappers
  import Text
  import Numbers
  import Constants

  // ---------------------------------------------------------------- values

  /** A value of a parsed TOML document; a float carries its exact value and its `str()` text. */
  datatype Value =
    | Str(s: string)
    | Int(i: int)
    | Float(x: real, text: string)
    | Bool(b: bool)
    | List(items: seq<Value>)
    | Table(entries: map<string, Value>)

  /** A configuration table. A key that is absent and a key bound to `None` look the same. */
  type Section = map<string, Value>

  function Get(t: Section, key: string): Option<Value> {
    if key in t then Some(t[key]) else None
  }

  /** Python truthiness. */
  predicate Truthy(v: Value) {
    match v
    case Str(s) => s != ""
    case Int(i) => i != 0
    case Float(x, _) => x != 0.0
    case Bool(b) => b
    case List(items) => items != []
    case Table(entries) => entries != map[]
  }

  /** `t.get(key, False)` used as a condition. */
  predicate Flag(t: Section, key: string) {
    key in t && Truthy(t[key])
  }

  predicate Distinct<T(==)>(s: seq<T>) {
    forall i, j :: 0 <= i < j < |s| ==> s[i] != s[j]
  }

  /** A non-empty sequence is its prefix followed by its last element. */
  lemma SnocLast<T>(s: seq<T>)
    requires s != []
    ensures s[..|s| - 1] + [s[|s| - 1]] == s
  {
  }

  /** Appending an element that does not occur keeps a sequence free of duplicates. */
  lemma DistinctSnoc<T>(s: seq<T>, x: T)
    requires Distinct(s) && x !in s
    ensures Distinct(s + [x])
  {
    forall i, j | 0 <= i < j < |s + [x]|
      ensures (s + [x])[i] != (s + [x])[j]
    {
      assert (s + [x])[i] == s[i];
    }
  }

  /** `str(v)`; a table inside a list is shown as `{...}`. */
  function Show(v: Value): string
    decreases v, 0
  {
    match v
    case Str(s) => s
    case Int(i) => Text.IntToString(i)
    case Float(_, text) => text
    case Bool(b) => if b then "True" else "False"
    case List(items) => "[" + Text.Join(seq(|items|, k requires 0 <= k < |items| => Repr(items[k])), ", ") + "]"
    case Table(_) => "{...}"
  }

  /** `repr(v)`: strings are quoted. */
  function Repr(v: Value): string
    decreases v, 1
  {
    if v.Str? then "'" + v.s + "'" else Show(v)
  }

  /** The Python type name of a value, as error messages print it. */
  function TypeName(v: Value): string {
    match v
    case Str(_) => "str"
    case Int(_) => "int"
    case Float(_, _) => "float"
    case Bool(_) => "bool"
    case List(_) => "list"
    case Table(_) => "dict"
  }

  /** Python's `int(v)`: floats truncate toward zero, strings are parsed as decimal. */
  function IntOf(v: Value): (r: Option<int>)
    ensures r.None? <==> v.List? || v.Table? || (v.Str? && Text.ParseInt(v.s).None?)
    ensures v.Int? ==> r == Some(v.i)
    ensures v.Float? ==>
      && r.Some? && v.x - 1.0 < r.value as real < v.x + 1.0
      && (if v.x >= 0.0 then 0.0 <= r.value as real <= v.x else v.x <= r.value as real <= 0.0)
  {
    match v
    case Int(i) => Some(i)
    case Bool(b) => Some(if b then 1 else 0)
    case Float(x, _) => Some(if x >= 0.0 then x.Floor else -((-x).Floor))
    case Str(s) => Text.ParseInt(s)
    case _ => None
  }

  /** The message of the exception `int(v)` raises when `IntOf(v)` is `None`. */
  function IntOfError(v: Value): string {
    if v.Str? then "invalid literal for int() with base 10: " + Repr(v)
    else "int() argument must be a string, a bytes-like object or a real number, not '" + TypeName(v) + "'"
  }

  // ---------------------------------------------------------------- parse_str_list

  const ListSeparators: set<char> := {'|', ','}

  /** The parts `parse_str_list` walks: a string split at `|` and `,`, or a list's items as text. */
  function RawParts(value: Option<Value>): seq<string> {
    match value
    case Some(Str(s)) => Text.SplitOn(s, ListSeparators)
    case Some(List(items)) => seq(|items|, k requires 0 <= k < |items| => Show(items[k]))
    case _ => []
  }

  /** The parts kept: stripped, non-empty, each text at its first occurrence only. */
  function Kept(parts: seq<string>): seq<string> {
    if parts == [] then []
    else
      var kept := Kept(parts[..|parts| - 1]);
      var text := Text.Strip(parts[|parts| - 1]);
      if text == "" || text in kept then kept else kept + [text]
  }

  /** A non-empty text with no whitespace at either end. */
  predicate Clean(e: string) {
    e != "" && !Text.IsSpace(e[0]) && !Text.IsSpace(e[|e| - 1])
  }

  /** `parse_str_list`: a loop over the raw parts with a set of texts already kept. */
  method ParseStrList(value: Option<Value>) returns (result: seq<string>)
    ensures result == Kept(RawParts(value))
  {
    if value.None? {
      return [];
    }
    var rawParts: seq<string>;
    match value.value {
      case Str(s) => rawParts := Text.SplitOn(s, ListSeparators);
      case List(items) => rawParts := seq(|items|, k requires 0 <= k < |items| => Show(items[k]));
      case _ => return [];
    }
    result := KeepParts(rawParts);
  }

  /** The loop of `parse_str_list`, with the set of texts already kept. */
  method KeepParts(parts: seq<string>) returns (result: seq<string>)
    ensures result == Kept(parts)
  {
    var seen: set<string> := {};
    result := [];
    for i := 0 to |parts|
      invariant result == Kept(parts[..i])
      invariant seen == set e | e in result
    {
      var text := Text.Strip(parts[i]);
      assert parts[..i + 1][..i] == parts[..i];
      if text == "" || text in seen {
        continue;
      }
      seen := seen + {text};
      result := result + [text];
    }
    assert parts[..|parts|] == parts;
  }

  /** The strips of all parts. */
  function Stripped(parts: seq<string>): set<string> {
    if parts == [] then {} else Stripped(parts[..|parts| - 1]) + {Text.Strip(parts[|parts| - 1])}
  }

  /** Every stripped text comes from some part. */
  lemma {:induction false} StrippedSource(parts: seq<string>, e: string) returns (k: nat)
    requires e in Stripped(parts)
    ensures k < |parts| && Text.Strip(parts[k]) == e
  {
    var init := parts[..|parts| - 1];
    if e == Text.Strip(parts[|parts| - 1]) {
      k := |parts| - 1;
    } else {
      k := StrippedSource(init, e);
      assert init[k] == parts[k];
    }
  }

  /** Every part's strip is among the stripped texts. */
  lemma {:induction false} StrippedHas(parts: seq<string>, k: nat)
    requires k < |parts|
    ensures Text.Strip(parts[k]) in Stripped(parts)
  {
    if k < |parts| - 1 {
      var init := parts[..|parts| - 1];
      StrippedHas(init, k);
      assert init[k] == parts[k];
    }
  }

  /**
   * What `parse_str_list` keeps: clean texts, no two equal, and exactly the non-empty strips
   * of the parts.
   */
  lemma {:induction false} KeptFacts(parts: seq<string>)
    ensures forall e :: e in Kept(parts) ==> Clean(e)
    ensures Distinct(Kept(parts))
    ensures forall e :: e in Kept(parts) <==> e in Stripped(parts) && e != ""
  {
    KeptClean(parts);
    KeptDistinct(parts);
    KeptMembers(parts);
  }

  lemma {:induction false} KeptClean(parts: seq<string>)
    ensures forall e :: e in Kept(parts) ==> Clean(e)
  {
    if parts != [] {
      var init := parts[..|parts| - 1];
      var text := Text.Strip(parts[|parts| - 1]);
      KeptClean(init);
      if text != "" && text !in Kept(init) {
        assert Kept(parts) == Kept(init) + [text];
        assert Clean(text);
        forall e | e in Kept(parts)
          ensures Clean(e)
        {
          if e != text {
            assert e in Kept(init);
          }
        }
      } else {
        assert Kept(parts) == Kept(init);
      }
    }
  }

  lemma {:induction false} KeptDistinct(parts: seq<string>)
    ensures Distinct(Kept(parts))
  {
    if parts != [] {
      var kept := Kept(parts[..|parts| - 1]);
      var text := Text.Strip(parts[|parts| - 1]);
      KeptDistinct(parts[..|parts| - 1]);
      if text != "" && text !in kept {
        DistinctSnoc(kept, text);
      }
    }
  }

  lemma {:induction false} KeptMembers(parts: seq<string>)
    ensures forall e :: e in Kept(parts) <==> e in Stripped(parts) && e != ""
  {
    if parts != [] {
      KeptMembers(parts[..|parts| - 1]);
    }
  }

  /** Parts seen earlier keep their place: the result for a prefix is a prefix of the result. */
  lemma {:induction false} KeptPrefix(parts: seq<string>, i: nat)
    requires i <= |parts|
    ensures Kept(parts[..i]) <= Kept(parts)
    decreases |parts| - i
  {
    if i < |parts| {
      KeptPrefix(parts, i + 1);
      assert parts[..i + 1][..i] == parts[..i];
    } else {
      assert parts[..i] == parts;
    }
  }

  /** A list of distinct clean texts is kept as it is. */
  lemma {:induction false} KeptOfClean(r: seq<string>)
    requires forall k :: 0 <= k < |r| ==> Clean(r[k])
    requires Distinct(r)
    ensures Kept(r) == r
  {
    if r != [] {
      var init := r[..|r| - 1];
      var last := r[|r| - 1];
      assert (forall k :: 0 <= k < |init| ==> Clean(init[k])) && Distinct(init) && last !in init by {
        assert forall k :: 0 <= k < |init| ==> init[k] == r[k];
      }
      KeptOfClean(init);
      assert Text.Strip(last) == last by {
        Text.StripNoop(last);
      }
      KeptAddsNew(r, last);
      SnocLast(r);
    }
  }

  /** A last part whose strip is new and not empty has that strip appended. */
  lemma KeptAddsNew(parts: seq<string>, text: string)
    requires parts != [] && text == Text.Strip(parts[|parts| - 1]) && text != "" && text !in Kept(parts[..|parts| - 1])
    ensures Kept(parts) == Kept(parts[..|parts| - 1]) + [text]
  {
  }

  /** `parse_str_list` is idempotent. */
  lemma KeptIdempotent(parts: seq<string>)
    ensures Kept(Kept(parts)) == Kept(parts)
  {
    KeptFacts(parts);
    var r := Kept(parts);
    assert forall k :: 0 <= k < |r| ==> r[k] in r;
    KeptOfClean(r);
  }

  /** A string is split at both separators: no kept text holds a `|` or a `,`. */
  lemma KeptOfStringHasNoSeparator(s: string)
    ensures forall e, c :: e in Kept(RawParts(Some(Str(s)))) && c in e ==> c !in ListSeparators
  {
    var parts := Text.SplitOn(s, ListSeparators);
    Text.SplitOnParts(s, ListSeparators);
    KeptFacts(parts);
    forall e, c | e in Kept(parts) && c in e ensures c !in ListSeparators {
      var k := StrippedSource(parts, e);
      Text.StripChars(parts[k]);
      assert parts[k] in parts;
    }
  }

  // ---------------------------------------------------------------- parse_item_types

  const ItemTypesShapeError := "item_types must be a string or a list of strings."
  const ItemTypesTokenError := "item_types must contain only movies and/or series."

  /** The Jellyfin item type a filter token names, case-insensitively. */
  function CanonicalItemType(part: string): (r: Option<string>)
    ensures r.Some? ==> r.value == "Movie" || r.value == "Series"
  {
    var token := Text.Lower(Text.Strip(part));
    if token == "movie" || token == "movies" then Some("Movie")
    else if token == "series" then Some("Series")
    else None
  }

  /** The canonical types of `parts`, first occurrence first; the first unknown token fails. */
  function Canonical(parts: seq<string>): (r: Result<seq<string>, string>)
    ensures r.Failure? ==> r.error == ItemTypesTokenError
  {
    if parts == [] then Success([])
    else match Canonical(parts[..|parts| - 1])
      case Failure(e) => Failure(e)
      case Success(types) =>
        match CanonicalItemType(parts[|parts| - 1])
        case None => Failure(ItemTypesTokenError)
        case Some(m) => Success(if m in types then types else types + [m])
  }

  /** `parse_item_types`: the default for no filter, otherwise every part mapped. */
  function ItemTypes(value: Option<Value>): (r: Result<seq<string>, string>)
    ensures value.None? ==> r == Success(Constants.DefaultItemTypes)
    ensures r.Failure? ==> r.error == ItemTypesShapeError || r.error == ItemTypesTokenError
  {
    if value.Some? && !(value.value.Str? || value.value.List?) then Failure(ItemTypesShapeError)
    else
      var parts := Kept(RawParts(value));
      if parts == [] then Success(Constants.DefaultItemTypes) else Canonical(parts)
  }

  method ParseItemTypes(value: Option<Value>) returns (r: Result<seq<string>, string>)
    ensures r == ItemTypes(value)
  {
    var rawParts: seq<string>;
    if value.None? {
      rawParts := [];
    } else if value.value.Str? || value.value.List? {
      rawParts := ParseStrList(value);
    } else {
      return Failure(ItemTypesShapeError);
    }
    if rawParts == [] {
      return Success(Constants.DefaultItemTypes);
    }
    r := CanonicalizeParts(rawParts);
  }

  /** The mapping loop of `parse_item_types`; the first unknown token raises. */
  method CanonicalizeParts(parts: seq<string>) returns (r: Result<seq<string>, string>)
    ensures r == Canonical(parts)
  {
    var canonical: seq<string> := [];
    for i := 0 to |parts|
      invariant Canonical(parts[..i]) == Success(canonical)
    {
      assert parts[..i + 1][..i] == parts[..i];
      var mapped := CanonicalItemType(parts[i]);
      if mapped.None? {
        CanonicalSticky(parts, i + 1);
        return Failure(ItemTypesTokenError);
      }
      if mapped.value !in canonical {
        canonical := canonical + [mapped.value];
      }
    }
    assert parts[..|parts|] == parts;
    r := Success(canonical);
  }

  /** Once a prefix of the parts fails, all of them fail the same way. */
  lemma {:induction false} CanonicalSticky(parts: seq<string>, i: nat)
    requires i <= |parts| && Canonical(parts[..i]).Failure?
    ensures Canonical(parts) == Canonical(parts[..i])
    decreases |parts| - i
  {
    if i < |parts| {
      assert parts[..i + 1][..i] == parts[..i];
      CanonicalSticky(parts, i + 1);
    } else {
      assert parts[..i] == parts;
    }
  }

  /** Every part names an item type. */
  predicate AllNamed(parts: seq<string>) {
    parts == [] || (AllNamed(parts[..|parts| - 1]) && CanonicalItemType(parts[|parts| - 1]).Some?)
  }

  /** The item types the parts name. */
  function Named(parts: seq<string>): set<string> {
    if parts == [] then {}
    else
      var m := CanonicalItemType(parts[|parts| - 1]);
      Named(parts[..|parts| - 1]) + (if m.Some? then {m.value} else {})
  }

  /**
   * The mapping succeeds iff every part names a type; it then lists each named type once.
   */
  lemma CanonicalFacts(parts: seq<string>)
    ensures Canonical(parts).Success? <==> AllNamed(parts)
    ensures Canonical(parts).Success? ==>
      var types := Canonical(parts).value;
      && Distinct(types)
      && (forall m :: m in types <==> m in Named(parts))
      && (forall m :: m in types ==> m == "Movie" || m == "Series")
      && (parts != [] ==> types != [])
  {
    CanonicalAccepts(parts);
    CanonicalDistinct(parts);
    CanonicalMembers(parts);
  }

  lemma {:induction false} CanonicalAccepts(parts: seq<string>)
    ensures Canonical(parts).Success? <==> AllNamed(parts)
  {
    if parts != [] {
      CanonicalAccepts(parts[..|parts| - 1]);
    }
  }

  lemma {:induction false} CanonicalDistinct(parts: seq<string>)
    ensures Canonical(parts).Success? ==> Distinct(Canonical(parts).value)
  {
    if parts != [] {
      CanonicalDistinct(parts[..|parts| - 1]);
      match Canonical(parts[..|parts| - 1])
      case Failure(_) =>
      case Success(types) =>
        match CanonicalItemType(parts[|parts| - 1])
        case None =>
        case Some(m) =>
          if m !in types {
            DistinctSnoc(types, m);
          }
    }
  }

  lemma {:induction false} CanonicalMembers(parts: seq<string>)
    ensures Canonical(parts).Success? ==>
      && (forall m :: m in Canonical(parts).value <==> m in Named(parts))
      && (forall m :: m in Canonical(parts).value ==> m == "Movie" || m == "Series")
      && (parts != [] ==> Canonical(parts).value != [])
  {
    if parts != [] {
      CanonicalMembers(parts[..|parts| - 1]);
    }
  }

  /**
   * `parse_item_types` yields one or two distinct types among Movie and Series, the default
   * when no filter is given, and fails exactly on a wrong shape or an unknown token.
   */
  lemma ItemTypesFacts(value: Option<Value>)
    ensures ItemTypes(value).Success? <==>
      (value.None? || value.value.Str? || value.value.List?) && AllNamed(Kept(RawParts(value)))
    ensures ItemTypes(value).Success? ==>
      var types := ItemTypes(value).value;
      && 1 <= |types| <= 2 && Distinct(types)
      && forall t :: t in types ==> t == "Movie" || t == "Series"
  {
    var parts := Kept(RawParts(value));
    if value.Some? && !(value.value.Str? || value.value.List?) {
    } else if parts == [] {
      assert ItemTypes(value) == Success(Constants.DefaultItemTypes);
      assert "Movie" != "Series" by { assert "Movie"[0] != "Series"[0]; }
    } else {
      assert ItemTypes(value) == Canonical(parts);
      CanonicalFacts(parts);
      if Canonical(parts).Success? {
        var types := Canonical(parts).value;
        DistinctWithin(types, {"Movie", "Series"});
        assert |{"Movie", "Series"}| <= 2;
      }
    }
  }

  /** A sequence without duplicates drawn from a finite set is no longer than the set is large. */
  lemma {:induction false} DistinctWithin<T>(s: seq<T>, allowed: set<T>)
    requires Distinct(s) && forall x :: x in s ==> x in allowed
    ensures |s| <= |allowed|
  {
    if s != [] {
      var rest := s[1..];
      assert Distinct(rest) by {
        assert forall k :: 0 <= k < |rest| ==> rest[k] == s[k + 1];
      }
      forall x | x in rest
        ensures x in allowed - {s[0]}
      {
        var k :| 0 <= k < |rest| && rest[k] == x;
        assert s[k + 1] == x;
      }
      DistinctWithin(rest, allowed - {s[0]});
      assert s[0] in allowed;
    }
  }

  // ---------------------------------------------------------------- parse_operations

  const SpecifyModeMessage := "Specify --mode or set 'operations' in config (e.g., operations = \"logo|thumb\" or [\"logo\", \"thumb\"])."
  const OperationsShapeMessage := "Operations must be a string like 'logo|thumb' or a list of modes in config."
  const NoOperationsMessage := "No valid operations specified."

  function InvalidModeMessage(mode: string): string {
    "Invalid mode '" + mode + "'. Valid modes: logo, profile, thumb"
  }

  /** The `AttributeError` raised when a listed operation is not a string. */
  function NoStripMessage(v: Value): string {
    "'" + TypeName(v) + "' object has no attribute 'strip'"
  }

  /** A non-empty command-line value takes precedence over the configured operations. */
  function OperationSource(argMode: Option<string>, cfgOps: Option<Value>): Option<Value> {
    if argMode.Some? && argMode.value != "" then Some(Str(argMode.value)) else cfgOps
  }

  /** The entries of a string or list source; a string is split at `,` and `|`. */
  function RawOps(source: Value): seq<Value> {
    match source
    case Str(s) =>
      Entries(Text.SplitOn(s, ListSeparators))
    case List(items) => items
    case _ => []
  }

  /** One entry folded into the operations so far. */
  function AddOperation(ops: seq<string>, entry: Value): Result<seq<string>, string> {
    match entry
    case Str(t) =>
      var mode := Text.Strip(t);
      if mode == "" then Success(ops)
      else if mode !in Constants.ValidModes then Failure(InvalidModeMessage(mode))
      else if mode in ops then Success(ops)
      else Success(ops + [mode])
    case _ => Failure(NoStripMessage(entry))
  }

  /** The entries folded in order; the first bad entry decides the failure. */
  function Collect(raw: seq<Value>): Result<seq<string>, string> {
    if raw == [] then Success([])
    else match Collect(raw[..|raw| - 1])
      case Failure(e) => Failure(e)
      case Success(ops) => AddOperation(ops, raw[|raw| - 1])
  }

  /** `parse_operations`; each failure is the critical message logged before exiting with 1. */
  function Operations(argMode: Option<string>, cfgOps: Option<Value>): (r: Result<seq<string>, string>)
    ensures (argMode.None? || argMode.value == "") && cfgOps.None? ==> r == Failure(SpecifyModeMessage)
    ensures r.Success? ==> r.value != []
  {
    match OperationSource(argMode, cfgOps)
    case None => Failure(SpecifyModeMessage)
    case Some(source) =>
      if !(source.Str? || source.List?) then Failure(OperationsShapeMessage)
      else match Collect(RawOps(source))
        case Failure(e) => Failure(e)
        case Success(ops) => if ops == [] then Failure(NoOperationsMessage) else Success(ops)
  }

  method ParseOperations(argMode: Option<string>, cfgOps: Option<Value>) returns (r: Result<seq<string>, string>)
    ensures r == Operations(argMode, cfgOps)
  {
    var source := if argMode.Some? && argMode.value != "" then Some(Str(argMode.value)) else cfgOps;
    if source.None? {
      return Failure(SpecifyModeMessage);
    }
    if !(source.value.Str? || source.value.List?) {
      return Failure(OperationsShapeMessage);
    }
    var collected := CollectOperations(RawOps(source.value));
    if collected.Failure? {
      return Failure(collected.error);
    }
    if collected.value == [] {
      return Failure(NoOperationsMessage);
    }
    r := Success(collected.value);
  }

  /** The loop of `parse_operations`: strip, skip empties, reject unknown modes, drop repeats. */
  method CollectOperations(raw: seq<Value>) returns (r: Result<seq<string>, string>)
    ensures r == Collect(raw)
  {
    var operations: seq<string> := [];
    for i := 0 to |raw|
      invariant Collect(raw[..i]) == Success(operations)
    {
      assert raw[..i + 1][..i] == raw[..i];
      var op := raw[i];
      if !op.Str? {
        CollectSticky(raw, i + 1);
        return Failure(NoStripMessage(op));
      }
      var mode := Text.Strip(op.s);
      if mode == "" {
        continue;
      }
      if mode !in Constants.ValidModes {
        CollectSticky(raw, i + 1);
        return Failure(InvalidModeMessage(mode));
      }
      if mode !in operations {
        operations := operations + [mode];
      }
    }
    assert raw[..|raw|] == raw;
    r := Success(operations);
  }

  /** Once a prefix of the entries fails, the whole fold fails the same way. */
  lemma {:induction false} CollectSticky(raw: seq<Value>, i: nat)
    requires i <= |raw| && Collect(raw[..i]).Failure?
    ensures Collect(raw) == Collect(raw[..i])
    decreases |raw| - i
  {
    if i < |raw| {
      assert raw[..i + 1][..i] == raw[..i];
      CollectSticky(raw, i + 1);
    } else {
      assert raw[..i] == raw;
    }
  }

  /** An entry that `parse_operations` accepts: a string that strips to nothing or to a mode. */
  predicate Accepted(entry: Value) {
    entry.Str? && (Text.Strip(entry.s) == "" || Text.Strip(entry.s) in Constants.ValidModes)
  }

  predicate AllAccepted(raw: seq<Value>) {
    raw == [] || (AllAccepted(raw[..|raw| - 1]) && Accepted(raw[|raw| - 1]))
  }

  /** The non-empty stripped string entries. */
  function Modes(raw: seq<Value>): set<string> {
    if raw == [] then {}
    else
      var last := raw[|raw| - 1];
      Modes(raw[..|raw| - 1]) + (if last.Str? && Text.Strip(last.s) != "" then {Text.Strip(last.s)} else {})
  }

  /**
   * The fold succeeds iff every entry is accepted, and then lists, once each, exactly the
   * non-empty stripped entries, all of them valid modes.
   */
  lemma CollectFacts(raw: seq<Value>)
    ensures Collect(raw).Success? <==> AllAccepted(raw)
    ensures Collect(raw).Success? ==>
      var ops := Collect(raw).value;
      && Distinct(ops)
      && (forall m :: m in ops <==> m in Modes(raw))
      && (forall m :: m in ops ==> m in Constants.ValidModes)
  {
    CollectAccepts(raw);
    CollectDistinct(raw);
    CollectMembers(raw);
    CollectValid(raw);
  }

  lemma {:induction false} CollectAccepts(raw: seq<Value>)
    ensures Collect(raw).Success? <==> AllAccepted(raw)
  {
    if raw != [] {
      CollectAccepts(raw[..|raw| - 1]);
    }
  }

  lemma {:induction false} CollectDistinct(raw: seq<Value>)
    ensures Collect(raw).Success? ==> Distinct(Collect(raw).value)
  {
    if raw != [] {
      CollectDistinct(raw[..|raw| - 1]);
      match Collect(raw[..|raw| - 1])
      case Failure(_) =>
      case Success(ops) =>
        var entry := raw[|raw| - 1];
        if entry.Str? && Text.Strip(entry.s) !in ops {
          DistinctSnoc(ops, Text.Strip(entry.s));
        }
    }
  }

  lemma {:induction false} CollectMembers(raw: seq<Value>)
    ensures Collect(raw).Success? ==> forall m :: m in Collect(raw).value <==> m in Modes(raw)
  {
    if raw != [] {
      var init := raw[..|raw| - 1];
      CollectMembers(init);
      match Collect(init)
      case Failure(_) =>
      case Success(ops) =>
        var entry := raw[|raw| - 1];
        assert Modes(raw) == Modes(init) + (if entry.Str? && Text.Strip(entry.s) != "" then {Text.Strip(entry.s)} else {});
    }
  }

  lemma {:induction false} CollectValid(raw: seq<Value>)
    ensures Collect(raw).Success? ==> forall m :: m in Collect(raw).value ==> m in Constants.ValidModes
  {
    if raw != [] {
      CollectValid(raw[..|raw| - 1]);
    }
  }

  /**
   * A non-empty command-line value decides alone; a successful result is non-empty, free of
   * duplicates and made of valid modes only.
   */
  lemma OperationsFacts(argMode: Option<string>, cfgOps: Option<Value>)
    ensures argMode.Some? && argMode.value != "" ==> Operations(argMode, cfgOps) == Operations(argMode, None)
    ensures (argMode.None? || argMode.value == "") && cfgOps.None? ==> Operations(argMode, cfgOps) == Failure(SpecifyModeMessage)
    ensures Operations(argMode, cfgOps).Success? ==>
      var ops := Operations(argMode, cfgOps).value;
      ops != [] && Distinct(ops) && forall m :: m in ops ==> m in Constants.ValidModes
  {
    var source := OperationSource(argMode, cfgOps);
    if source.Some? && (source.value.Str? || source.value.List?) {
      CollectFacts(RawOps(source.value));
    }
  }

  /** A mode is a clean word with no list separator in it. */
  lemma ModeIsWord(m: string)
    requires m in Constants.ValidModes
    ensures Clean(m) && forall c :: c in m ==> c !in ListSeparators
  {
    Constants.ModesAreConfigured();
  }

  /** Each text as a string entry. */
  function Entries(texts: seq<string>): (r: seq<Value>)
    ensures |r| == |texts|
  {
    if texts == [] then [] else Entries(texts[..|texts| - 1]) + [Str(texts[|texts| - 1])]
  }

  /** Distinct modes fold to themselves. */
  lemma {:induction false} CollectOfModes(ops: seq<string>)
    requires Distinct(ops) && forall k :: 0 <= k < |ops| ==> ops[k] in Constants.ValidModes
    ensures Collect(Entries(ops)) == Success(ops)
  {
    if ops != [] {
      var init := ops[..|ops| - 1];
      var last := ops[|ops| - 1];
      assert Distinct(init) && (forall k :: 0 <= k < |init| ==> init[k] in Constants.ValidModes) && last !in init by {
        assert forall k :: 0 <= k < |init| ==> init[k] == ops[k];
      }
      CollectOfModes(init);
      EntriesInit(ops);
      CollectAddsMode(Entries(ops), init, last);
      SnocLast(ops);
    }
  }

  lemma EntriesInit(texts: seq<string>)
    requires texts != []
    ensures Entries(texts)[..|texts| - 1] == Entries(texts[..|texts| - 1])
    ensures Entries(texts)[|texts| - 1] == Str(texts[|texts| - 1])
  {
  }


  /** A new valid mode, written as a string entry, is appended to the operations collected so far. */
  lemma CollectAddsMode(raw: seq<Value>, ops: seq<string>, mode: string)
    requires raw != [] && Collect(raw[..|raw| - 1]) == Success(ops) && raw[|raw| - 1] == Str(mode)
    requires mode in Constants.ValidModes && mode !in ops
    ensures Collect(raw) == Success(ops + [mode])
  {
    ModeIsWord(mode);
    Text.StripNoop(mode);
  }

  /** `"|".join(ops)` given as `--mode` is parsed back to `ops`. */
  lemma OperationsRoundTrip(ops: seq<string>, cfgOps: Option<Value>)
    requires ops != [] && Distinct(ops) && forall m :: m in ops ==> m in Constants.ValidModes
    ensures Operations(Some(Text.Join(ops, "|")), cfgOps) == Success(ops)
  {
    forall p, c | p in ops && c in p ensures c !in ListSeparators {
      ModeIsWord(p);
    }
    Text.SplitOnJoin(ops, '|', ListSeparators);
    var line := Text.Join(ops, "|");
    assert RawOps(Str(line)) == Entries(ops);
    assert forall k :: 0 <= k < |ops| ==> ops[k] in ops;
    CollectOfModes(ops);
  }

  // ---------------------------------------------------------------- size overrides

  const WidthLabel := "CLI width override"
  const HeightLabel := "CLI height override"

  /** `_validate_positive_override`: absent, or a positive integer (a boolean is not one). */
  function ValidatePositiveOverride(value: Option<Value>, name: string): (r: Result<Option<int>, string>)
    ensures r == Success(None) <==> value.None?
    ensures r.Success? && r.value.Some? <==> value.Some? && value.value.Int? && value.value.i > 0
    ensures r.Success? && r.value.Some? ==> value == Some(Int(r.value.value))
    ensures r.Failure? ==> r.error == name + " must be a positive integer (got " + Repr(value.value) + ")."
  {
    match value
    case None => Success(None)
    case Some(v) =>
      if v.Int? && v.i > 0 then Success(Some(v.i))
      else Failure(name + " must be a positive integer (got " + Repr(v) + ").")
  }

  /** The side inferred from one override: the proportional length rounded, at least 1. */
  function InferSide(base: int, overridden: int, baseOther: int): int
    requires baseOther > 0
  {
    var exact := base as real * (overridden as real / baseOther as real);
    var n := Numbers.RoundHalfEven(exact);
    if n < 1 then 1 else n
  }

  /** `_derive_canvas_size`. */
  function DeriveCanvasSize(baseWidth: int, baseHeight: int, argWidth: Option<Value>, argHeight: Option<Value>)
    : (r: Result<(int, int), string>)
    ensures r.Success? <==>
      ValidatePositiveOverride(argWidth, WidthLabel).Success? && ValidatePositiveOverride(argHeight, HeightLabel).Success?
    ensures r.Success? && ((argWidth.Some? && (argHeight.Some? || baseWidth > 0)) || (argHeight.Some? && baseHeight > 0)) ==>
      r.value.0 >= 1 && r.value.1 >= 1
  {
    match ValidatePositiveOverride(argWidth, WidthLabel)
    case Failure(e) => Failure(e)
    case Success(ow) =>
      match ValidatePositiveOverride(argHeight, HeightLabel)
      case Failure(e) => Failure(e)
      case Success(oh) =>
        if ow.Some? && oh.Some? then Success((ow.value, oh.value))
        else if ow.Some? && baseWidth > 0 then Success((ow.value, InferSide(baseHeight, ow.value, baseWidth)))
        else if oh.Some? && baseHeight > 0 then Success((InferSide(baseWidth, oh.value, baseHeight), oh.value))
        else Success((baseWidth, baseHeight))
  }

  /** The inferred side is at least 1 and within half a pixel of the proportional length unless clamped. */
  predicate Proportional(side: int, exact: real) {
    side >= 1 && exact - side as real <= 0.5 && (side > 1 ==> side as real - exact <= 0.5)
  }

  /**
   * Overrides are checked width first; two overrides are used as given, one override keeps the
   * aspect ratio of the base size, and no override (or a single one against a non-positive
   * base side) keeps the base size.
   */
  lemma DeriveCanvasSizeFacts(baseWidth: int, baseHeight: int, argWidth: Option<Value>, argHeight: Option<Value>)
    ensures ValidatePositiveOverride(argWidth, WidthLabel).Failure? ==>
      DeriveCanvasSize(baseWidth, baseHeight, argWidth, argHeight) == Failure(ValidatePositiveOverride(argWidth, WidthLabel).error)
    ensures DeriveCanvasSize(baseWidth, baseHeight, argWidth, argHeight).Success? <==>
      ValidatePositiveOverride(argWidth, WidthLabel).Success? && ValidatePositiveOverride(argHeight, HeightLabel).Success?
    ensures argWidth.None? && argHeight.None? ==> DeriveCanvasSize(baseWidth, baseHeight, argWidth, argHeight) == Success((baseWidth, baseHeight))
    ensures argWidth.Some? && argHeight.Some? && DeriveCanvasSize(baseWidth, baseHeight, argWidth, argHeight).Success? ==>
      DeriveCanvasSize(baseWidth, baseHeight, argWidth, argHeight).value == (argWidth.value.i, argHeight.value.i)
  {
  }

  /**
   * With only a width override, the width is taken as given and the height follows the base
   * aspect ratio, rounded half to even and at least 1; without a positive base width nothing changes.
   */
  lemma DeriveCanvasSizeFromWidth(baseWidth: int, baseHeight: int, argWidth: Option<Value>)
    requires DeriveCanvasSize(baseWidth, baseHeight, argWidth, None).Success? && argWidth.Some?
    ensures var (w, h) := DeriveCanvasSize(baseWidth, baseHeight, argWidth, None).value;
      if baseWidth > 0 then w == argWidth.value.i && Proportional(h, baseHeight as real * (w as real / baseWidth as real))
      else (w, h) == (baseWidth, baseHeight)
  {
    if baseWidth > 0 {
      var w := argWidth.value.i;
      assert DeriveCanvasSize(baseWidth, baseHeight, argWidth, None) == Success((w, InferSide(baseHeight, w, baseWidth)));
      InferSideProportional(baseHeight, w, baseWidth);
    }
  }

  /** The same with only a height override: the width follows the base aspect ratio. */
  lemma DeriveCanvasSizeFromHeight(baseWidth: int, baseHeight: int, argHeight: Option<Value>)
    requires DeriveCanvasSize(baseWidth, baseHeight, None, argHeight).Success? && argHeight.Some?
    ensures var (w, h) := DeriveCanvasSize(baseWidth, baseHeight, None, argHeight).value;
      if baseHeight > 0 then h == argHeight.value.i && Proportional(w, baseWidth as real * (h as real / baseHeight as real))
      else (w, h) == (baseWidth, baseHeight)
  {
    if baseHeight > 0 {
      var h := argHeight.value.i;
      assert DeriveCanvasSize(baseWidth, baseHeight, None, argHeight) == Success((InferSide(baseWidth, h, baseHeight), h));
      InferSideProportional(baseWidth, h, baseHeight);
    }
  }

  /** The inferred side is the exact proportional length rounded to nearest, but never below 1. */
  lemma InferSideProportional(base: int, overridden: int, baseOther: int)
    requires baseOther > 0
    ensures Proportional(InferSide(base, overridden, baseOther), base as real * (overridden as real / baseOther as real))
  {
  }

  // ---------------------------------------------------------------- runtime settings

  /** The command-line options the configuration layer reads (`getattr` with its defaults). */
  datatype Args = Args(
    mode: Option<string>,
    logoTargetSize: Option<(int, int)>,
    thumbTargetSize: Option<(int, int)>,
    backdropTargetSize: Option<(int, int)>,
    profileTargetSize: Option<(int, int)>,
    thumbJpegQuality: Option<int>,
    backdropJpegQuality: Option<int>,
    profileWebpQuality: Option<int>,
    noUpscale: bool,
    noDownscale: bool,
    noPadding: bool,
    logoPadding: Option<string>,
    itemTypes: Option<string>)

  /** `getattr(args, f"{mode}_target_size", None)`. */
  function TargetSize(args: Args, mode: string): Option<(int, int)> {
    if mode == "logo" then args.logoTargetSize
    else if mode == "thumb" then args.thumbTargetSize
    else if mode == "backdrop" then args.backdropTargetSize
    else if mode == "profile" then args.profileTargetSize
    else None
  }

  datatype ModeRuntimeSettings = ModeRuntimeSettings(
    targetWidth: int,
    targetHeight: int,
    allowUpscale: bool,
    allowDownscale: bool,
    jpegQuality: int,
    webpQuality: int,
    noPadding: bool)

  function Clamp(n: int, lo: int, hi: int): int
    requires lo <= hi
  {
    if n < lo then lo else if n > hi then hi else n
  }

  function TargetSizeMessage(mode: string, w: int, h: int): string {
    mode + " target size must be positive integers (got (" + Text.IntToString(w) + ", " + Text.IntToString(h) + "))."
  }

  /** The configured JPEG quality before clamping, 85 when absent. */
  function JpegSetting(section: Section): Value {
    if "jpeg_quality" in section then section["jpeg_quality"] else Int(85)
  }

  /** The configured WebP quality before clamping, 80 when absent. */
  function WebpSetting(section: Section): Value {
    if "webp_quality" in section then section["webp_quality"] else Int(80)
  }

  /**
   * `build_mode_runtime_settings`. The section's width and height are integers, as the type
   * validation and the per-mode presence check establish before it is called.
   */
  function BuildModeRuntimeSettings(mode: string, section: Section, args: Args): (r: Result<ModeRuntimeSettings, string>)
    requires "width" in section && section["width"].Int?
    requires "height" in section && section["height"].Int?
    ensures r.Success? ==> 1 <= r.value.jpegQuality <= 95 && 1 <= r.value.webpQuality <= 100
    ensures r.Success? && TargetSize(args, mode).Some? ==>
      r.value.targetWidth > 0 && r.value.targetHeight > 0
      && (r.value.targetWidth, r.value.targetHeight) == TargetSize(args, mode).value
  {
    var baseWidth := section["width"].i;
    var baseHeight := section["height"].i;
    var target :=
      match TargetSize(args, mode)
      case Some((w, h)) => if w <= 0 || h <= 0 then Failure(TargetSizeMessage(mode, w, h)) else Success((w, h))
      case None => DeriveCanvasSize(baseWidth, baseHeight, None, None);
    if target.Failure? then Failure(target.error)
    else
      var allowUpscale := !(Flag(section, "no_upscale") || args.noUpscale);
      var allowDownscale := !(Flag(section, "no_downscale") || args.noDownscale);
      var noPadding := Flag(section, "no_padding") || (args.noPadding && mode == "logo");
      match IntOf(JpegSetting(section))
      case None => Failure(IntOfError(JpegSetting(section)))
      case Some(jpeg) =>
        match IntOf(WebpSetting(section))
        case None => Failure(IntOfError(WebpSetting(section)))
        case Some(webp) =>
          Success(ModeRuntimeSettings(target.value.0, target.value.1, allowUpscale, allowDownscale,
                                      Clamp(jpeg, 1, 95), Clamp(webp, 1, 100), noPadding))
  }

  /**
   * A non-positive size override is refused; otherwise the override (or the configured size)
   * is the canvas; qualities land in [1, 95] and [1, 100] and are kept when already inside;
   * scaling is allowed unless the section or the command line forbids it.
   */
  lemma BuildModeRuntimeSettingsFacts(mode: string, section: Section, args: Args)
    requires "width" in section && section["width"].Int?
    requires "height" in section && section["height"].Int?
    ensures var r := BuildModeRuntimeSettings(mode, section, args);
      && (TargetSize(args, mode).Some? && (TargetSize(args, mode).value.0 <= 0 || TargetSize(args, mode).value.1 <= 0) ==> r.Failure?)
      && (r.Success? <==>
            && (TargetSize(args, mode).Some? ==> TargetSize(args, mode).value.0 > 0 && TargetSize(args, mode).value.1 > 0)
            && IntOf(JpegSetting(section)).Some? && IntOf(WebpSetting(section)).Some?)
    ensures var r := BuildModeRuntimeSettings(mode, section, args);
      r.Success? ==>
        && (TargetSize(args, mode).Some? ==> (r.value.targetWidth, r.value.targetHeight) == TargetSize(args, mode).value)
        && (TargetSize(args, mode).None? ==> r.value.targetWidth == section["width"].i && r.value.targetHeight == section["height"].i)
        && 1 <= r.value.jpegQuality <= 95 && 1 <= r.value.webpQuality <= 100
        && (section.Keys !! {"jpeg_quality", "webp_quality"} ==> r.value.jpegQuality == 85 && r.value.webpQuality == 80)
        && (1 <= IntOf(JpegSetting(section)).value <= 95 ==> r.value.jpegQuality == IntOf(JpegSetting(section)).value)
        && (1 <= IntOf(WebpSetting(section)).value <= 100 ==> r.value.webpQuality == IntOf(WebpSetting(section)).value)
        && r.value.allowUpscale == !(Flag(section, "no_upscale") || args.noUpscale)
        && r.value.allowDownscale == !(Flag(section, "no_downscale") || args.noDownscale)
        && r.value.noPadding == (Flag(section, "no_padding") || (args.noPadding && mode == "logo"))
  {
    DeriveCanvasSizeFacts(section["width"].i, section["height"].i, None, None);
  }

  // ---------------------------------------------------------------- discovery settings

  datatype DiscoverySettings = DiscoverySettings(
    libraryNames: seq<string>,
    includeItemTypes: seq<string>,
    enableImageTypes: seq<string>,
    recursive: bool)

  /** The image types of the operations, in order, skipping modes without one. */
  function ImageTypesFor(operations: seq<string>): seq<string> {
    if operations == [] then []
    else
      var head := operations[0];
      (if head in Constants.ModeToImageType then [Constants.ModeToImageType[head]] else []) + ImageTypesFor(operations[1..])
  }

  /**
   * Each operation with an image type contributes it in order; for valid distinct operations
   * the types correspond one to one and are distinct.
   */
  lemma ImageTypesForFacts(operations: seq<string>)
    ensures |ImageTypesFor(operations)| <= |operations|
    ensures forall t :: t in ImageTypesFor(operations) <==>
      exists k :: 0 <= k < |operations| && operations[k] in Constants.ModeToImageType && Constants.ModeToImageType[operations[k]] == t
    ensures (forall k :: 0 <= k < |operations| ==> operations[k] in Constants.ModeToImageType) ==>
      |ImageTypesFor(operations)| == |operations| &&
      forall k :: 0 <= k < |operations| ==> ImageTypesFor(operations)[k] == Constants.ModeToImageType[operations[k]]
    ensures Distinct(operations) ==> Distinct(ImageTypesFor(operations))
  {
    ImageTypesForMembers(operations);
    ImageTypesForTotal(operations);
    ImageTypesForDistinct(operations);
  }

  /** The image types are exactly those of the operations that have one. */
  lemma {:induction false} ImageTypesForMembers(operations: seq<string>)
    ensures |ImageTypesFor(operations)| <= |operations|
    ensures forall t :: t in ImageTypesFor(operations) <==>
      exists k :: 0 <= k < |operations| && operations[k] in Constants.ModeToImageType && Constants.ModeToImageType[operations[k]] == t
  {
    if operations != [] {
      var rest := operations[1..];
      ImageTypesForMembers(rest);
      assert forall k :: 0 <= k < |rest| ==> rest[k] == operations[k + 1];
      forall t | exists k :: 0 <= k < |operations| && operations[k] in Constants.ModeToImageType && Constants.ModeToImageType[operations[k]] == t
        ensures t in ImageTypesFor(operations)
      {
        var k :| 0 <= k < |operations| && operations[k] in Constants.ModeToImageType && Constants.ModeToImageType[operations[k]] == t;
        if k > 0 {
          assert rest[k - 1] == operations[k];
        }
      }
    }
  }

  /** When every operation has an image type, the k-th type is that of the k-th operation. */
  lemma {:induction false} ImageTypesForTotal(operations: seq<string>)
    ensures (forall k :: 0 <= k < |operations| ==> operations[k] in Constants.ModeToImageType) ==>
      |ImageTypesFor(operations)| == |operations| &&
      forall k :: 0 <= k < |operations| ==> ImageTypesFor(operations)[k] == Constants.ModeToImageType[operations[k]]
  {
    if operations != [] {
      var rest := operations[1..];
      ImageTypesForTotal(rest);
      assert forall k :: 0 <= k < |rest| ==> rest[k] == operations[k + 1];
    }
  }

  /** Distinct operations give distinct image types, the mode table being one to one. */
  lemma {:induction false} ImageTypesForDistinct(operations: seq<string>)
    ensures Distinct(operations) ==> Distinct(ImageTypesFor(operations))
  {
    if operations != [] {
      var rest := operations[1..];
      ImageTypesForDistinct(rest);
      ImageTypesForMembers(rest);
      var head := operations[0];
      if Distinct(operations) {
        assert Distinct(rest) by {
          assert forall k :: 0 <= k < |rest| ==> rest[k] == operations[k + 1];
        }
        if head in Constants.ModeToImageType {
          var t := Constants.ModeToImageType[head];
          forall k | 0 <= k < |rest| && rest[k] in Constants.ModeToImageType
            ensures Constants.ModeToImageType[rest[k]] != t
          {
            assert rest[k] == operations[k + 1] != head;
            Constants.ModeTablesInverse();
          }
          DistinctCons(t, ImageTypesFor(rest));
        }
      }
    }
  }

  /** Prepending an element that does not occur keeps a sequence free of duplicates. */
  lemma DistinctCons<T>(x: T, s: seq<T>)
    requires Distinct(s) && x !in s
    ensures Distinct([x] + s)
  {
    forall i, j | 0 <= i < j < |[x] + s|
      ensures ([x] + s)[i] != ([x] + s)[j]
    {
      if i > 0 {
        assert ([x] + s)[i] == s[i - 1];
      }
      assert ([x] + s)[j] == s[j - 1];
    }
  }

  /** The library names: the `names` of a `libraries` table, or the value itself. */
  function LibraryNames(cfg: Section): seq<string> {
    match Get(cfg, "libraries")
    case Some(Table(t)) => Kept(RawParts(Get(t, "names")))
    case other => Kept(RawParts(other))
  }

  /** `build_discovery_settings`: fails only when the item-type filter does. */
  function BuildDiscoverySettings(cfg: Section, operations: seq<string>): (r: Result<DiscoverySettings, string>)
    ensures r.Failure? ==> ItemTypes(Get(cfg, "item_types")).Failure? && r.error == ItemTypes(Get(cfg, "item_types")).error
    ensures r.Success? ==> r.value.recursive && 1 <= |r.value.includeItemTypes| <= 2
  {
    ItemTypesFacts(Get(cfg, "item_types"));
    match ItemTypes(Get(cfg, "item_types"))
    case Failure(e) => Failure(e)
    case Success(types) => Success(DiscoverySettings(LibraryNames(cfg), types, ImageTypesFor(operations), true))
  }

  /**
   * The discovery settings name distinct clean libraries and one to two item types, always
   * search recursively, and enable one image type per valid operation, in order.
   */
  lemma BuildDiscoverySettingsFacts(cfg: Section, operations: seq<string>)
    ensures BuildDiscoverySettings(cfg, operations).Success? <==> ItemTypes(Get(cfg, "item_types")).Success?
    ensures BuildDiscoverySettings(cfg, operations).Success? ==>
      var d := BuildDiscoverySettings(cfg, operations).value;
      && d.recursive
      && Distinct(d.libraryNames) && (forall n :: n in d.libraryNames ==> Clean(n))
      && 1 <= |d.includeItemTypes| <= 2
      && ((forall k :: 0 <= k < |operations| ==> operations[k] in Constants.ValidModes) ==>
            |d.enableImageTypes| == |operations| &&
            forall k :: 0 <= k < |operations| ==> d.enableImageTypes[k] == Constants.ModeToImageType[operations[k]])
  {
    ItemTypesFacts(Get(cfg, "item_types"));
    ImageTypesForFacts(operations);
    Constants.ModesAreConfigured();
    match Get(cfg, "libraries")
    case Some(Table(t)) => KeptFacts(RawParts(Get(t, "names")));
    case other => KeptFacts(RawParts(other));
  }

  // ---------------------------------------------------------------- validate_config_types

  /** The type a configuration key must have when present. */
  datatype Kind = BoolKind | IntKind | NumberKind | StringKind

  /** A boolean is not an integer here, as the source checks `bool` before `int`. */
  predicate HasKind(v: Value, k: Kind) {
    match k
    case BoolKind => v.Bool?
    case IntKind => v.Int?
    case NumberKind => v.Int? || v.Float?
    case StringKind => v.Str?
  }

  function KindNoun(k: Kind): string {
    match k
    case BoolKind => "a boolean"
    case IntKind => "an integer"
    case NumberKind => "a number"
    case StringKind => "a string"
  }

  const RequiredKeys: seq<string> := ["jf_url", "jf_api_key"]

  const ScalarChecks: seq<(string, Kind)> := [
    ("timeout", NumberKind), ("jf_delay_ms", IntKind), ("api_retry_count", IntKind),
    ("api_retry_backoff_ms", IntKind), ("verify_tls", BoolKind), ("fail_fast", BoolKind),
    ("dry_run", BoolKind), ("backup", BoolKind), ("backup_mode", StringKind),
    ("backup_dir", StringKind), ("force_upload_noscale", BoolKind)]

  const LoggingChecks: seq<(string, Kind)> := [
    ("file_path", StringKind), ("file_enabled", BoolKind), ("file_level", StringKind),
    ("cli_level", StringKind), ("silent", BoolKind)]

  /** The sections checked, in order; `backdrop` is checked although it is not a mode. */
  const SectionModes: seq<string> := ["logo", "thumb", "profile", "backdrop"]

  predicate IsJpegMode(mode: string) {
    mode == "thumb" || mode == "backdrop"
  }

  function SectionChecks(mode: string): seq<(string, Kind)> {
    [("width", IntKind), ("height", IntKind), ("no_upscale", BoolKind), ("no_downscale", BoolKind)]
    + (if mode == "logo" then [("no_padding", BoolKind)] else [])
    + (if IsJpegMode(mode) then [("jpeg_quality", IntKind)] else [])
    + (if mode == "profile" then [("webp_quality", IntKind)] else [])
  }

  function RequiredMessage(key: string): string {
    key + " is required and must be a non-empty string."
  }

  const JpegRangeMessage := "jpeg_quality must be between 1 and 95."
  const WebpRangeMessage := "config.profile.webp_quality must be between 1 and 100."
  const LoggingShapeMessage := "config.logging must be a table/object."
  const LibrariesNamesMessage := "config.libraries.names is required when providing the libraries table."
  const LibrariesShapeMessage := "config.libraries must be a table/object or a list/string of library names."

  function PositiveMessage(mode: string, key: string): string {
    "config." + mode + "." + key + " must be greater than zero."
  }

  // The declarative reading of a well-typed configuration.

  /** Every listed key that is present has its kind. */
  predicate Conforms(t: Section, checks: seq<(string, Kind)>) {
    forall k :: 0 <= k < |checks| ==> (checks[k].0 in t ==> HasKind(t[checks[k].0], checks[k].1))
  }

  predicate NonEmptyString(cfg: Section, key: string) {
    key in cfg && cfg[key].Str? && cfg[key].s != ""
  }

  predicate IsStringList(v: Value) {
    v.Str? || (v.List? && forall k :: 0 <= k < |v.items| ==> v.items[k].Str?)
  }

  /** An integer setting, when it is an integer at all, lies in [lo, hi]. */
  predicate WithinIfInt(t: Section, key: string, lo: int, hi: int) {
    key in t && t[key].Int? ==> lo <= t[key].i <= hi
  }

  predicate PositiveIfInt(t: Section, key: string) {
    key in t && t[key].Int? ==> t[key].i > 0
  }

  predicate SectionOk(mode: string, v: Value) {
    && v.Table?
    && Conforms(v.entries, SectionChecks(mode))
    && PositiveIfInt(v.entries, "width") && PositiveIfInt(v.entries, "height")
    && (IsJpegMode(mode) ==> WithinIfInt(v.entries, "jpeg_quality", 1, 95))
    && (mode == "profile" ==> WithinIfInt(v.entries, "webp_quality", 1, 100))
  }

  predicate LoggingOk(cfg: Section) {
    "logging" in cfg ==> cfg["logging"].Table? && Conforms(cfg["logging"].entries, LoggingChecks)
  }

  predicate LibrariesOk(cfg: Section) {
    "libraries" in cfg ==>
      match cfg["libraries"]
      case Table(t) => if "names" in t then IsStringList(t["names"]) else t == map[]
      case List(_) => true
      case Str(_) => true
      case _ => false
  }

  predicate WellTyped(cfg: Section) {
    && NonEmptyString(cfg, "jf_url") && NonEmptyString(cfg, "jf_api_key")
    && Conforms(cfg, ScalarChecks)
    && ("operations" in cfg ==> IsStringList(cfg["operations"]))
    && ItemTypes(Get(cfg, "item_types")).Success?
    && LoggingOk(cfg)
    && LibrariesOk(cfg)
    && (forall mode :: mode in SectionModes && mode in cfg ==> SectionOk(mode, cfg[mode]))
  }

  // The errors, one helper per kind of check, in the order they are appended.

  function Expect(t: Section, key: string, context: string, k: Kind): seq<string> {
    if key in t && !HasKind(t[key], k) then [context + "." + key + " must be " + KindNoun(k) + "."] else []
  }

  function ExpectAll(t: Section, context: string, checks: seq<(string, Kind)>): seq<string> {
    if checks == [] then []
    else Expect(t, checks[0].0, context, checks[0].1) + ExpectAll(t, context, checks[1..])
  }

  function RequiredError(cfg: Section, key: string): seq<string> {
    if key !in cfg then [RequiredMessage(key)]
    else if !cfg[key].Str? then ["config." + key + " must be a string."]
    else if cfg[key].s == "" then ["config." + key + " must be a non-empty string."]
    else []
  }

  function RequiredErrors(cfg: Section, keys: seq<string>): seq<string> {
    if keys == [] then []
    else RequiredErrors(cfg, keys[..|keys| - 1]) + RequiredError(cfg, keys[|keys| - 1])
  }

  function StringListError(v: Value, context: string): seq<string> {
    if IsStringList(v) then [] else [context + " must be a string or a list of strings."]
  }

  function LoggingErrors(cfg: Section): seq<string> {
    match Get(cfg, "logging")
    case None => []
    case Some(Table(t)) => ExpectAll(t, "config.logging", LoggingChecks)
    case Some(_) => [LoggingShapeMessage]
  }

  function LibrariesErrors(cfg: Section): seq<string> {
    match Get(cfg, "libraries")
    case None => []
    case Some(Table(t)) =>
      if "names" in t then StringListError(t["names"], "config.libraries.names")
      else if t != map[] then [LibrariesNamesMessage]
      else []
    case Some(List(_)) => []
    case Some(Str(_)) => []
    case Some(_) => [LibrariesShapeMessage]
  }

  function RangeErrors(mode: string, t: Section): seq<string> {
    (if !PositiveIfInt(t, "width") then [PositiveMessage(mode, "width")] else [])
    + (if !PositiveIfInt(t, "height") then [PositiveMessage(mode, "height")] else [])
    + (if IsJpegMode(mode) && !WithinIfInt(t, "jpeg_quality", 1, 95) then [JpegRangeMessage] else [])
    + (if mode == "profile" && !WithinIfInt(t, "webp_quality", 1, 100) then [WebpRangeMessage] else [])
  }

  function SectionErrors(mode: string, v: Value): seq<string> {
    if !v.Table? then ["config." + mode + " must be a table/object."]
    else ExpectAll(v.entries, "config." + mode, SectionChecks(mode)) + RangeErrors(mode, v.entries)
  }

  function SectionsErrors(cfg: Section, modes: seq<string>): seq<string> {
    if modes == [] then []
    else
      var mode := modes[|modes| - 1];
      SectionsErrors(cfg, modes[..|modes| - 1]) + (if mode in cfg then SectionErrors(mode, cfg[mode]) else [])
  }

  function ItemTypeErrors(cfg: Section): seq<string> {
    match ItemTypes(Get(cfg, "item_types"))
    case Failure(e) => [e]
    case Success(_) => []
  }

  function OperationsErrors(cfg: Section): seq<string> {
    if "operations" in cfg then StringListError(cfg["operations"], "config.operations") else []
  }

  /** Every error `validate_config_types` accumulates, in order. */
  function ConfigErrors(cfg: Section): (errors: seq<string>)
    ensures errors == [] <==> WellTyped(cfg)
  {
    RequiredErrorsEmpty(cfg);
    ExpectAllEmpty(cfg, "config", ScalarChecks);
    OperationsErrorsEmpty(cfg);
    ItemTypeErrorsEmpty(cfg);
    LoggingErrorsEmpty(cfg);
    LibrariesErrorsEmpty(cfg);
    SectionsErrorsEmpty(cfg, SectionModes);
    RequiredErrors(cfg, RequiredKeys)
    + ExpectAll(cfg, "config", ScalarChecks)
    + OperationsErrors(cfg)
    + ItemTypeErrors(cfg)
    + LoggingErrors(cfg)
    + LibrariesErrors(cfg)
    + SectionsErrors(cfg, SectionModes)
  }

  const InvalidConfigPrefix := "Invalid configuration values: "

  /** `validate_config_types`: the `ConfigError` message, or `None` for a valid configuration. */
  method ValidateConfigTypes(cfg: Section) returns (failure: Option<string>)
    ensures failure.None? <==> WellTyped(cfg)
    ensures failure.Some? ==> failure.value == InvalidConfigPrefix + Text.Join(ConfigErrors(cfg), "; ")
  {
    var errors := CollectConfigErrors(cfg);
    if errors == [] {
      return None;
    }
    failure := Some(InvalidConfigPrefix + Text.Join(errors, "; "));
  }

  /** The checks of `validate_config_types` in their order, each appending its messages. */
  method CollectConfigErrors(cfg: Section) returns (errors: seq<string>)
    ensures errors == ConfigErrors(cfg)
  {
    var required := CheckRequired(cfg);
    var operations := [];
    if "operations" in cfg {
      operations := StringListError(cfg["operations"], "config.operations");
    }
    var itemTypes := ParseItemTypes(Get(cfg, "item_types"));
    var itemTypeErrors := [];
    if itemTypes.Failure? {
      itemTypeErrors := [itemTypes.error];
    }
    var sections := CheckSections(cfg);
    errors := required + ExpectAll(cfg, "config", ScalarChecks) + operations + itemTypeErrors
      + LoggingErrors(cfg) + LibrariesErrors(cfg) + sections;
  }

  /** The loop over the required keys: a missing key, or one that is not a non-empty string. */
  method CheckRequired(cfg: Section) returns (errors: seq<string>)
    ensures errors == RequiredErrors(cfg, RequiredKeys)
  {
    errors := [];
    for i := 0 to |RequiredKeys|
      invariant errors == RequiredErrors(cfg, RequiredKeys[..i])
    {
      var key := RequiredKeys[i];
      assert RequiredKeys[..i + 1][..i] == RequiredKeys[..i];
      if key !in cfg {
        errors := errors + [RequiredMessage(key)];
        continue;
      }
      errors := errors + RequiredError(cfg, key);
    }
    assert RequiredKeys[..|RequiredKeys|] == RequiredKeys;
  }

  /** The loop over the mode sections present in the configuration. */
  method CheckSections(cfg: Section) returns (errors: seq<string>)
    ensures errors == SectionsErrors(cfg, SectionModes)
  {
    errors := [];
    for j := 0 to |SectionModes|
      invariant errors == SectionsErrors(cfg, SectionModes[..j])
    {
      var mode := SectionModes[j];
      assert SectionModes[..j + 1][..j] == SectionModes[..j];
      if mode in cfg {
        errors := errors + SectionErrors(mode, cfg[mode]);
      }
    }
    assert SectionModes[..|SectionModes|] == SectionModes;
  }

  lemma {:induction false} ExpectAllEmpty(t: Section, context: string, checks: seq<(string, Kind)>)
    ensures ExpectAll(t, context, checks) == [] <==> Conforms(t, checks)
  {
    if checks != [] {
      ExpectAllEmpty(t, context, checks[1..]);
      assert forall k :: 0 <= k < |checks| - 1 ==> checks[1..][k] == checks[k + 1];
    }
  }

  lemma RequiredErrorsEmpty(cfg: Section)
    ensures RequiredErrors(cfg, RequiredKeys) == [] <==> NonEmptyString(cfg, "jf_url") && NonEmptyString(cfg, "jf_api_key")
  {
    var url: seq<string> := ["jf_url"];
    assert RequiredKeys[..1] == url && url[..0] == [];
    assert RequiredErrors(cfg, url) == RequiredError(cfg, "jf_url");
    assert RequiredErrors(cfg, RequiredKeys) == RequiredError(cfg, "jf_url") + RequiredError(cfg, "jf_api_key");
  }

  lemma SectionErrorsEmpty(mode: string, v: Value)
    ensures SectionErrors(mode, v) == [] <==> SectionOk(mode, v)
  {
    if v.Table? {
      ExpectAllEmpty(v.entries, "config." + mode, SectionChecks(mode));
    }
  }

  lemma {:induction false} SectionsErrorsEmpty(cfg: Section, modes: seq<string>)
    ensures SectionsErrors(cfg, modes) == [] <==> forall mode :: mode in modes && mode in cfg ==> SectionOk(mode, cfg[mode])
  {
    if modes != [] {
      var last := modes[|modes| - 1];
      SectionsErrorsEmpty(cfg, modes[..|modes| - 1]);
      if last in cfg {
        SectionErrorsEmpty(last, cfg[last]);
      }
      assert modes == modes[..|modes| - 1] + [last];
    }
  }

  /** The configuration is accepted exactly when it is well typed. */
  lemma OperationsErrorsEmpty(cfg: Section)
    ensures OperationsErrors(cfg) == [] <==> ("operations" in cfg ==> IsStringList(cfg["operations"]))
  {
  }

  lemma ItemTypeErrorsEmpty(cfg: Section)
    ensures ItemTypeErrors(cfg) == [] <==> ItemTypes(Get(cfg, "item_types")).Success?
  {
  }

  /** The logging table is accepted exactly when it is a table of the expected kinds. */
  lemma LoggingErrorsEmpty(cfg: Section)
    ensures LoggingErrors(cfg) == [] <==> LoggingOk(cfg)
  {
    match Get(cfg, "logging")
    case None =>
    case Some(v) =>
      if v.Table? {
        ExpectAllEmpty(v.entries, "config.logging", LoggingChecks);
      }
  }

  /** The libraries setting is accepted exactly when it has one of the accepted shapes. */
  lemma LibrariesErrorsEmpty(cfg: Section)
    ensures LibrariesErrors(cfg) == [] <==> LibrariesOk(cfg)
  {
  }

  /** Every error of a listed section is among the errors of the sections. */
  lemma {:induction false} SectionsErrorsInclude(cfg: Section, modes: seq<string>, mode: string)
    requires mode in modes && mode in cfg
    ensures forall e :: e in SectionErrors(mode, cfg[mode]) ==> e in SectionsErrors(cfg, modes)
  {
    var init := modes[..|modes| - 1];
    if mode != modes[|modes| - 1] {
      assert modes == init + [modes[|modes| - 1]];
      SectionsErrorsInclude(cfg, init, mode);
    }
  }

  /**
   * The errors the source promises to report: a missing required key, a width or height below
   * one, a JPEG quality outside [1, 95] and a WebP quality outside [1, 100].
   */
  lemma ConfigErrorsReport(cfg: Section)
    ensures forall key :: key in RequiredKeys && key !in cfg ==> RequiredMessage(key) in ConfigErrors(cfg)
    ensures forall mode, key ::
      (mode in SectionModes && mode in cfg && cfg[mode].Table? && key in {"width", "height"} &&
       !PositiveIfInt(cfg[mode].entries, key)) ==> PositiveMessage(mode, key) in ConfigErrors(cfg)
    ensures forall mode ::
      (mode in SectionModes && mode in cfg && cfg[mode].Table? && IsJpegMode(mode) &&
       !WithinIfInt(cfg[mode].entries, "jpeg_quality", 1, 95)) ==> JpegRangeMessage in ConfigErrors(cfg)
    ensures "profile" in cfg && cfg["profile"].Table? && !WithinIfInt(cfg["profile"].entries, "webp_quality", 1, 100)
      ==> WebpRangeMessage in ConfigErrors(cfg)
  {
    forall key | key in RequiredKeys && key !in cfg ensures RequiredMessage(key) in ConfigErrors(cfg) {
      assert RequiredKeys[..1] == ["jf_url"];
      if key == "jf_url" {
        assert RequiredErrors(cfg, RequiredKeys[..1]) == RequiredErrors(cfg, []) + RequiredError(cfg, "jf_url");
      }
    }
    forall mode | mode in SectionModes && mode in cfg
      ensures forall e :: e in SectionErrors(mode, cfg[mode]) ==> e in ConfigErrors(cfg)
    {
      SectionsErrorsInclude(cfg, SectionModes, mode);
    }
    assert "profile" in SectionModes;
  }
}

=== FILE: constants.dfy ===
/** The fixed tables every other part of the normaliser consults. */
module Constants {

  /** The modes with a configuration section; `VALID_MODES` is this key set. */
  const ModeConfigKeys: seq<string> := ["logo", "thumb", "profile"]
  const ValidModes: set<string> := set m | m in ModeConfigKeys

  /** Jellyfin image type to normalisation mode, and back. */
  const ImageTypeToMode: map<string, string> := map["Logo" := "logo", "Thumb" := "thumb", "Primary" := "profile"]
  const ModeToImageType: map<string, string> := map["logo" := "Logo", "thumb" := "Thumb", "profile" := "Primary"]

  const DefaultItemTypes: seq<string> := ["Movie", "Series"]
  const DefaultDiscoveryPageSize: int := 200

  /** Backup file stem per image type, in declaration order (the order a lookup scans it). */
  const FilenameConfig: seq<(string, string)> := [("Logo", "logo"), ("Thumb", "landscape"), ("Primary", "profile")]

  function FilenameStems(): (m: map<string, string>)
    ensures forall i :: 0 <= i < |FilenameConfig| ==> FilenameConfig[i].0 in m && m[FilenameConfig[i].0] == FilenameConfig[i].1
    ensures m.Keys == set i | 0 <= i < |FilenameConfig| :: FilenameConfig[i].0
  {
    map i | 0 <= i < |FilenameConfig| :: FilenameConfig[i].0 := FilenameConfig[i].1
  }

  /** The two mode tables are inverse to each other. */
  lemma ModeTablesInverse()
    ensures forall t :: t in ImageTypeToMode ==> ImageTypeToMode[t] in ModeToImageType && ModeToImageType[ImageTypeToMode[t]] == t
    ensures forall m :: m in ModeToImageType ==> ModeToImageType[m] in ImageTypeToMode && ImageTypeToMode[ModeToImageType[m]] == m
  {
  }

  /** Every mapped mode is a configured mode, and every configured mode has an image type. */
  lemma ModesAreConfigured()
    ensures ImageTypeToMode.Values == ValidModes == ModeToImageType.Keys
    ensures ValidModes == {"logo", "thumb", "profile"}
  {
    assert ImageTypeToMode.Values == {"logo", "thumb", "profile"} by {
      assert ImageTypeToMode["Logo"] == "logo" && ImageTypeToMode["Thumb"] == "thumb" && ImageTypeToMode["Primary"] == "profile";
    }
    assert ModeConfigKeys[0] == "logo" && ModeConfigKeys[1] == "thumb" && ModeConfigKeys[2] == "profile";
  }

  /** The stems are pairwise distinct, so a stem names at most one image type. */
  lemma StemsDistinct()
    ensures forall i, j :: 0 <= i < j < |FilenameConfig| ==> FilenameConfig[i].1 != FilenameConfig[j].1
    ensures forall i, j :: 0 <= i < j < |FilenameConfig| ==> FilenameConfig[i].0 != FilenameConfig[j].0
  {
  }

  /** The stem table covers exactly the image types that have a mode. */
  lemma StemDomainIsModeDomain()
    ensures FilenameStems().Keys == ImageTypeToMode.Keys
  {
    assert FilenameConfig[0].0 == "Logo" && FilenameConfig[1].0 == "Thumb" && FilenameConfig[2].0 == "Primary";
    assert FilenameStems().Keys == {"Logo", "Thumb", "Primary"};
  }
}

=== FILE: discovery.dfy ===
/**
 * Discovery: which libraries of the operator are scanned, and which of their items carry one
 * of the requested image types. Items are merged across result pages by id, taking the union
 * of the image types seen for each.
 */
module Discovery {
  import opened Wrappers
  import opened Text
  import Constants
  import State
  import Client

  // ---------------------------------------------------------------- library names

  predicate IsNameChar(c: char) {
    'a' <= c <= 'z' || '0' <= c <= '9'
  }

  /** `_normalize_library_name`: lower-case, then drop every character outside [a-z0-9]. */
  function NormalizeLibraryName(text: string): (r: string)
    ensures forall i :: 0 <= i < |r| ==> IsNameChar(r[i])
    ensures |r| <= |text|
  {
    if text == [] then []
    else
      var c := LowerChar(text[0]);
      (if IsNameChar(c) then [c] else []) + NormalizeLibraryName(text[1..])
  }

  lemma {:induction false} NormalizeConcat(a: string, b: string)
    ensures NormalizeLibraryName(a + b) == NormalizeLibraryName(a) + NormalizeLibraryName(b)
  {
    if a == [] {
      assert a + b == b;
    } else {
      assert (a + b)[0] == a[0] && (a + b)[1..] == a[1..] + b;
      NormalizeConcat(a[1..], b);
    }
  }

  /** A normalised name is its own normal form. */
  lemma {:induction false} NormalizeIdempotent(text: string)
    ensures NormalizeLibraryName(NormalizeLibraryName(text)) == NormalizeLibraryName(text)
  {
    if text != [] {
      var c := LowerChar(text[0]);
      var head := if IsNameChar(c) then [c] else [];
      NormalizeConcat(head, NormalizeLibraryName(text[1..]));
      NormalizeIdempotent(text[1..]);
      if IsNameChar(c) {
        assert LowerChar(c) == c;
        assert head[1..] == [];
      }
    }
  }

  /** Case and punctuation do not matter: names that differ only in them select the same library. */
  lemma {:induction false} NormalizeIgnoresCase(text: string)
    ensures NormalizeLibraryName(Lower(text)) == NormalizeLibraryName(text)
  {
    if text != [] {
      assert Lower(text)[1..] == Lower(text[1..]);
      NormalizeIgnoresCase(text[1..]);
    }
  }

  lemma {:induction false} NormalizeDropsSeparators(a: string, sep: string, b: string)
    requires forall i :: 0 <= i < |sep| ==> !IsNameChar(LowerChar(sep[i]))
    ensures NormalizeLibraryName(a + sep + b) == NormalizeLibraryName(a + b)
  {
    NormalizeConcat(a + sep, b);
    NormalizeConcat(a, sep);
    NormalizeConcat(a, b);
    NoNameChars(sep);
  }

  lemma {:induction false} NoNameChars(sep: string)
    requires forall i :: 0 <= i < |sep| ==> !IsNameChar(LowerChar(sep[i]))
    ensures NormalizeLibraryName(sep) == []
  {
    if sep != [] {
      NoNameChars(sep[1..]);
    }
  }

  // ---------------------------------------------------------------- users

  /** A user record as returned by the server; absent keys are None. */
  datatype User = User(name: Option<string>, id: Option<string>)

  /** Python's `x or default` on an optional string: absent and empty both give the default. */
  function OrDefault(s: Option<string>, default: string): (r: string)
    ensures s.Some? && s.value != "" ==> r == s.value
    ensures s.None? || s.value == "" ==> r == default
  {
    if s.Some? && s.value != "" then s.value else default
  }

  predicate NameMatches(user: User, username: string) {
    Lower(OrDefault(user.name, "")) == Lower(username)
  }

  /** `find_user_by_name`: the first user whose name equals `username` ignoring case. */
  function FindUserByName(users: seq<User>, username: string): (r: Option<User>)
    ensures r.Some? ==> r.value in users && NameMatches(r.value, username)
  {
    if users == [] then None
    else if NameMatches(users[0], username) then Some(users[0])
    else FindUserByName(users[1..], username)
  }

  /** The search finds a user exactly when one matches, and the one it finds is the first match. */
  lemma {:induction false} FindUserByNameFirst(users: seq<User>, username: string)
    ensures FindUserByName(users, username).Some? <==> exists i :: 0 <= i < |users| && NameMatches(users[i], username)
    ensures FindUserByName(users, username).Some? ==>
      exists i :: 0 <= i < |users| && users[i] == FindUserByName(users, username).value && NameMatches(users[i], username)
                  && forall j :: 0 <= j < i ==> !NameMatches(users[j], username)
  {
    if users != [] && !NameMatches(users[0], username) {
      FindUserByNameFirst(users[1..], username);
      assert forall i :: 1 <= i < |users| ==> users[i] == users[1..][i - 1];
      if FindUserByName(users, username).Some? {
        var i :| 0 <= i < |users[1..]| && users[1..][i] == FindUserByName(users, username).value && NameMatches(users[1..][i], username)
                  && forall j :: 0 <= j < i ==> !NameMatches(users[1..][j], username);
        assert users[i + 1] == users[1..][i];
        assert forall j :: 0 <= j < i + 1 ==> !NameMatches(users[j], username) by {
          forall j | 0 <= j < i + 1 ensures !NameMatches(users[j], username) {
            if j > 0 { assert users[j] == users[1..][j - 1]; }
          }
        }
      }
    } else if users != [] {
      assert users[0] == FindUserByName(users, username).value;
    }
  }

  /** `profile_display_name`: "name (id)" with "<unknown>" and "?" for missing parts. */
  function ProfileDisplayName(user: User): (s: string)
    ensures |s| >= 4 && s[|s| - 1] == ')'
  {
    OrDefault(user.name, "<unknown>") + " (" + OrDefault(user.id, "?") + ")"
  }

  /** Reads a label back: the text before its first "(" less the space, and the text after it less the ")". */
  function ParseDisplayName(s: string): Option<(string, string)> {
    match SplitFirst(s, '(')
    case None => None
    case Some((before, after)) =>
      if |before| >= 1 && before[|before| - 1] == ' ' && |after| >= 1 && after[|after| - 1] == ')'
      then Some((before[..|before| - 1], after[..|after| - 1]))
      else None
  }

  /** The label names the user: a name without "(" and any id are read back from it. */
  lemma DisplayNameReadBack(user: User)
    requires '(' !in OrDefault(user.name, "<unknown>")
    ensures ParseDisplayName(ProfileDisplayName(user)) == Some((OrDefault(user.name, "<unknown>"), OrDefault(user.id, "?")))
  {
    var name, id := OrDefault(user.name, "<unknown>"), OrDefault(user.id, "?");
    assert ProfileDisplayName(user) == (name + " ") + ['('] + (id + ")");
    SplitFirstAt(name + " ", '(', id + ")");
    assert (name + " ")[..|name|] == name && (id + ")")[..|id|] == id;
  }

  /**
   * `resolve_operator_user`: the named operator, or the first active user when no name is
   * configured; an empty user list or an unknown name records one error and ends the run.
   */
  method ResolveOperatorUser(stats: State.RunStats, users: seq<User>, username: string) returns (r: Result<User, string>)
    modifies stats
    ensures r.Success? ==> r.value in users
    ensures r.Success? && username != "" ==> FindUserByName(users, username) == Some(r.value)
    ensures r.Success? && username == "" ==> r.value == users[0]
    ensures r.Failure? <==> users == [] || (username != "" && FindUserByName(users, username).None?)
    ensures stats.Snapshot() == old(stats.Snapshot()).(errors := old(stats.errors) + if r.Failure? then 1 else 0)
    ensures stats.failedItems == old(stats.failedItems) +
      if r.Success? then []
      else if users == [] then [("discovery", "No active users returned from Jellyfin")]
      else [("discovery", "Configured operator username not found")]
    ensures stats.processedIds == old(stats.processedIds)
    ensures old(stats.Valid()) ==> stats.Valid()
  {
    if users == [] {
      stats.RecordError("discovery", "No active users returned from Jellyfin");
      return Failure("exit 1");
    }
    if username != "" {
      var user := FindUserByName(users, username);
      if user.Some? {
        return Success(user.value);
      }
      stats.RecordError("discovery", "Configured operator username not found");
      return Failure("exit 1");
    }
    return Success(users[0]);
  }

  // ---------------------------------------------------------------- libraries

  datatype LibraryRef = LibraryRef(id: string, name: string, collectionType: Option<string>)

  function NameFilter(libraryNames: seq<string>): (f: set<string>)
    ensures f == {} <==> libraryNames == []
  {
    if libraryNames == [] then {}
    else
      var f := set n | n in libraryNames :: NormalizeLibraryName(n);
      assert NormalizeLibraryName(libraryNames[0]) in f;
      f
  }

  /** Whether one top-level entry is selected as a library, and the reference kept for it. */
  function SelectLibrary(raw: Client.RawItem, filter: set<string>, allowedTypes: set<string>): (r: Option<LibraryRef>)
    ensures r.Some? <==>
      && raw.id.Some? && raw.id.value != ""
      && (filter != {} ==> NormalizeLibraryName(OrDefault(raw.name, "<unknown>")) in filter)
      && (raw.collectionType.Some? && raw.collectionType.value != "" ==> Lower(raw.collectionType.value) in allowedTypes)
    ensures r.Some? ==> r.value.id == raw.id.value && r.value.name == OrDefault(raw.name, "<unknown>")
    ensures r.Some? ==> (r.value.collectionType.Some? <==> raw.collectionType.Some? && raw.collectionType.value != "")
    ensures r.Some? && r.value.collectionType.Some? ==> r.value.collectionType.value == Lower(raw.collectionType.value)
  {
    if raw.id.None? || raw.id.value == "" then None
    else
      var name := OrDefault(raw.name, "<unknown>");
      var ct := if raw.collectionType.Some? && raw.collectionType.value != "" then Some(Lower(raw.collectionType.value)) else None;
      if filter != {} && NormalizeLibraryName(name) !in filter then None
      else if ct.Some? && ct.value !in allowedTypes then None
      else Some(LibraryRef(raw.id.value, name, ct))
  }

  /** The selected libraries of a listing, in listing order. */
  function SelectLibraries(raws: seq<Client.RawItem>, filter: set<string>, allowedTypes: set<string>): (libs: seq<LibraryRef>)
    ensures |libs| <= |raws|
    ensures forall l :: l in libs ==> l.id != "" && (filter != {} ==> NormalizeLibraryName(l.name) in filter)
                                       && (l.collectionType.Some? ==> l.collectionType.value in allowedTypes)
  {
    if raws == [] then []
    else
      var init := SelectLibraries(raws[..|raws| - 1], filter, allowedTypes);
      match SelectLibrary(raws[|raws| - 1], filter, allowedTypes)
      case None => init
      case Some(l) => init + [l]
  }

  /** No entry that passes the filters is dropped. */
  lemma {:induction false} SelectLibrariesComplete(raws: seq<Client.RawItem>, filter: set<string>, allowedTypes: set<string>, i: int)
    requires 0 <= i < |raws| && SelectLibrary(raws[i], filter, allowedTypes).Some?
    ensures SelectLibrary(raws[i], filter, allowedTypes).value in SelectLibraries(raws, filter, allowedTypes)
  {
    if i < |raws| - 1 {
      assert raws[..|raws| - 1][i] == raws[i];
      SelectLibrariesComplete(raws[..|raws| - 1], filter, allowedTypes, i);
    }
  }

  /**
   * `discover_libraries`: lists the user's top-level items and keeps the selected ones. A failed
   * listing, or name filters that select nothing, record one error and end the run.
   */
  method DiscoverLibraries(client: Client.MediaClient, stats: State.RunStats, userId: string,
                           libraryNames: seq<string>, allowedTypes: set<string>)
    returns (r: Result<seq<LibraryRef>, string>)
    modifies client, stats
    ensures client.log == old(client.log) + [Client.ListLibraries(userId)]
    ensures var reply := if old(client.libraryReplies) == [] then None else old(client.libraryReplies)[0];
      && (reply.None? ==> r.Failure?)
      && (reply.Some? ==> var libs := SelectLibraries(reply.value, NameFilter(libraryNames), allowedTypes);
            if libraryNames != [] && libs == [] then r.Failure? else r == Success(libs))
    ensures stats.Snapshot() == old(stats.Snapshot()).(errors := old(stats.errors) + if r.Failure? then 1 else 0)
    ensures stats.failedItems == old(stats.failedItems) +
      if r.Success? then []
      else if old(client.libraryReplies) == [] || old(client.libraryReplies)[0].None? then [("discovery", "Failed to list libraries")]
      else [("discovery", "Library filters did not match any library")]
    ensures stats.processedIds == old(stats.processedIds)
    ensures old(stats.Valid()) ==> stats.Valid()
    ensures client.libraryReplies == Client.Drop(old(client.libraryReplies), 1)
    ensures client.fetchReplies == old(client.fetchReplies) && client.queryReplies == old(client.queryReplies)
  {
    var resp := client.ListUserLibraries(userId);
    if resp.None? {
      stats.RecordError("discovery", "Failed to list libraries");
      return Failure("exit 1");
    }
    var items := resp.value;
    var filter := NameFilter(libraryNames);
    var libraries: seq<LibraryRef> := [];
    for i := 0 to |items|
      invariant libraries == SelectLibraries(items[..i], filter, allowedTypes)
    {
      assert items[..i + 1][..i] == items[..i];
      var lib := SelectLibrary(items[i], filter, allowedTypes);
      if lib.Some? {
        libraries := libraries + [lib.value];
      }
    }
    assert items[..|items|] == items;
    if libraryNames != [] && libraries == [] {
      stats.RecordError("discovery", "Library filters did not match any library");
      return Failure("exit 1");
    }
    return Success(libraries);
  }

  // ---------------------------------------------------------------- items

  /** A discovered item; `backdropCount` is what the pipeline reads as the item's backdrop count. */
  datatype DiscoveredItem = DiscoveredItem(id: string, name: string, itemType: string, parentId: Option<string>,
                                           libraryId: string, libraryName: string, imageTypes: set<string>,
                                           backdropCount: Option<int>)

  predicate ItemHasImageType(raw: Client.RawItem, imageType: string) {
    imageType in raw.imageTags
  }

  /** The enabled types an entry carries. */
  function MatchSet(raw: Client.RawItem, enabled: seq<string>): (m: set<string>)
    ensures forall t :: t in m <==> t in enabled && ItemHasImageType(raw, t)
  {
    set t | t in enabled && ItemHasImageType(raw, t)
  }

  /** The position of the item with `id`, if there is one. */
  function Find(found: seq<DiscoveredItem>, id: string): (r: Option<nat>)
    ensures r.Some? ==> r.value < |found| && found[r.value].id == id
    ensures r.None? <==> forall i :: 0 <= i < |found| ==> found[i].id != id
  {
    if found == [] then None
    else if found[0].id == id then Some(0)
    else match Find(found[1..], id)
      case None => None
      case Some(j) => Some(j + 1)
  }

  /** The image types recorded for `id` so far; empty when the id has not been seen. */
  function TypesOf(found: seq<DiscoveredItem>, id: string): set<string> {
    match Find(found, id)
    case None => {}
    case Some(i) => found[i].imageTypes
  }

  function Ids(found: seq<DiscoveredItem>): set<string> {
    set i | 0 <= i < |found| :: found[i].id
  }

  /** What one page entry adds: a new item, more image types for a known one, or nothing. */
  function MergeRaw(found: seq<DiscoveredItem>, raw: Client.RawItem, enabled: seq<string>, library: LibraryRef): (r: seq<DiscoveredItem>)
    ensures |r| == |found| || |r| == |found| + 1
    ensures forall i :: 0 <= i < |found| ==> r[i] == found[i].(imageTypes := r[i].imageTypes)
  {
    if raw.id.None? || raw.id.value == "" then found
    else
      var m := MatchSet(raw, enabled);
      if m == {} then found
      else match Find(found, raw.id.value)
        case None =>
          found + [DiscoveredItem(raw.id.value, OrDefault(raw.name, "<unknown>"), OrDefault(raw.itemType, "Unknown"),
                                  raw.parentId, library.id, library.name, m, None)]
        case Some(i) => found[i := found[i].(imageTypes := found[i].imageTypes + m)]
  }

  /** The types an entry contributes to `id`. */
  function Contribution(raw: Client.RawItem, enabled: seq<string>, id: string): set<string> {
    if raw.id == Some(id) && id != "" then MatchSet(raw, enabled) else {}
  }

  /** The entries of a page, merged in order. */
  function MergePage(found: seq<DiscoveredItem>, raws: seq<Client.RawItem>, enabled: seq<string>, library: LibraryRef)
    : (r: seq<DiscoveredItem>)
    ensures |found| <= |r| <= |found| + |raws|
    ensures forall i :: 0 <= i < |found| ==> r[i] == found[i].(imageTypes := r[i].imageTypes)
  {
    if raws == [] then found
    else MergeRaw(MergePage(found, raws[..|raws| - 1], enabled, library), raws[|raws| - 1], enabled, library)
  }

  /** The union of what a page's entries contribute to `id`. */
  function PageContribution(raws: seq<Client.RawItem>, enabled: seq<string>, id: string): set<string> {
    if raws == [] then {}
    else PageContribution(raws[..|raws| - 1], enabled, id) + Contribution(raws[|raws| - 1], enabled, id)
  }

  /** What a discovered list keeps true: one entry per id, each with some enabled type, all from `library`. */
  predicate WellFormed(found: seq<DiscoveredItem>, enabled: seq<string>, library: LibraryRef) {
    && (forall i, j :: 0 <= i < j < |found| ==> found[i].id != found[j].id)
    && (forall i :: 0 <= i < |found| ==> found[i].id != "" && found[i].imageTypes != {}
                                         && found[i].libraryId == library.id && found[i].libraryName == library.name
                                         && (forall t :: t in found[i].imageTypes ==> t in enabled))
  }

  lemma MergeRawWellFormed(found: seq<DiscoveredItem>, raw: Client.RawItem, enabled: seq<string>, library: LibraryRef)
    requires WellFormed(found, enabled, library)
    ensures WellFormed(MergeRaw(found, raw, enabled, library), enabled, library)
  {
    if raw.id.Some? && raw.id.value != "" && MatchSet(raw, enabled) != {} && Find(found, raw.id.value).None? {
      var r := MergeRaw(found, raw, enabled, library);
      assert r[|found|].id == raw.id.value;
    }
  }

  /** Merging one entry adds exactly its enabled types to its own id and changes no other id's types. */
  lemma MergeRawTypes(found: seq<DiscoveredItem>, raw: Client.RawItem, enabled: seq<string>, library: LibraryRef, id: string)
    ensures TypesOf(MergeRaw(found, raw, enabled, library), id) == TypesOf(found, id) + Contribution(raw, enabled, id)
  {
    var r := MergeRaw(found, raw, enabled, library);
    FindIgnoresTypes(found, r, id);
  }

  /** Merging one entry adds its id exactly when it contributes an enabled type. */
  lemma MergeRawIds(found: seq<DiscoveredItem>, raw: Client.RawItem, enabled: seq<string>, library: LibraryRef)
    ensures Ids(MergeRaw(found, raw, enabled, library)) == Ids(found) + (if Contribution(raw, enabled, raw.id.GetOr("")) != {} then {raw.id.value} else {})
  {
    var r := MergeRaw(found, raw, enabled, library);
    if Contribution(raw, enabled, raw.id.GetOr("")) != {} && Find(found, raw.id.value).None? {
      var x := raw.id.value;
      assert r[|found|].id == x;
      forall y | y in Ids(r) ensures y in Ids(found) + {x} {
        var k :| 0 <= k < |r| && r[k].id == y;
        if k < |found| { assert found[k].id == y; }
      }
      forall y | y in Ids(found) + {x} ensures y in Ids(r) {
        if y != x {
          var k :| 0 <= k < |found| && found[k].id == y;
          assert r[k].id == y;
        }
      }
    } else {
      forall y | y in Ids(r) ensures y in Ids(found) {
        var k :| 0 <= k < |r| && r[k].id == y;
        assert found[k].id == y;
      }
      forall y | y in Ids(found) ensures y in Ids(r) {
        var k :| 0 <= k < |found| && found[k].id == y;
        assert r[k].id == y;
      }
    }
  }

  /** Find only looks at ids: an unchanged prefix of ids gives the same answer. */
  lemma {:induction false} FindIgnoresTypes(found: seq<DiscoveredItem>, r: seq<DiscoveredItem>, id: string)
    requires |found| <= |r|
    requires forall i :: 0 <= i < |found| ==> r[i].id == found[i].id
    ensures Find(found, id).Some? ==> Find(r, id) == Find(found, id)
    ensures Find(found, id).None? && |r| == |found| + 1 && r[|found|].id == id ==> Find(r, id) == Some(|found|)
    ensures Find(found, id).None? && |r| == |found| ==> Find(r, id).None?
  {
    if found != [] && found[0].id != id {
      FindIgnoresTypes(found[1..], r[1..], id);
    }
  }

  /** Merging a page adds to each id exactly the union of its entries' enabled types. */
  lemma {:induction false} MergePageTypes(found: seq<DiscoveredItem>, raws: seq<Client.RawItem>, enabled: seq<string>, library: LibraryRef, id: string)
    ensures TypesOf(MergePage(found, raws, enabled, library), id) == TypesOf(found, id) + PageContribution(raws, enabled, id)
  {
    if raws != [] {
      MergePageTypes(found, raws[..|raws| - 1], enabled, library, id);
      MergeRawTypes(MergePage(found, raws[..|raws| - 1], enabled, library), raws[|raws| - 1], enabled, library, id);
    }
  }

  lemma {:induction false} MergePageWellFormed(found: seq<DiscoveredItem>, raws: seq<Client.RawItem>, enabled: seq<string>, library: LibraryRef)
    requires WellFormed(found, enabled, library)
    ensures WellFormed(MergePage(found, raws, enabled, library), enabled, library)
  {
    if raws != [] {
      MergePageWellFormed(found, raws[..|raws| - 1], enabled, library);
      MergeRawWellFormed(MergePage(found, raws[..|raws| - 1], enabled, library), raws[|raws| - 1], enabled, library);
    }
  }

  // ---------------------------------------------------------------- pagination

  /** Items seen before the page after `pages`: the next query's start index. */
  function Offset(pages: seq<Client.Page>): (n: nat) {
    if pages == [] then 0 else Offset(pages[..|pages| - 1]) + |pages[|pages| - 1].items|
  }

  /** The newest `TotalRecordCount` the server sent, if any. */
  function KnownTotal(pages: seq<Client.Page>): Option<int> {
    if pages == [] then None
    else if pages[|pages| - 1].totalRecordCount.Some? then pages[|pages| - 1].totalRecordCount
    else KnownTotal(pages[..|pages| - 1])
  }

  /** Whether the scan stops after these pages: an empty page, the known total reached, or a short page with no total. */
  predicate StopsAfter(pages: seq<Client.Page>, pageSize: int)
    requires pages != []
  {
    var last := pages[|pages| - 1].items;
    last == [] || (match KnownTotal(pages)
                   case Some(t) => Offset(pages) >= t
                   case None => |last| < pageSize)
  }

  /** Every query after the first followed a page that did not stop the scan. */
  predicate ScanContinued(pages: seq<Client.Page>, pageSize: int) {
    pages == [] ||
    var init := pages[..|pages| - 1];
    ScanContinued(init, pageSize) && (init == [] || !StopsAfter(init, pageSize))
  }

  lemma {:induction false} ScanContinuedPrefixes(pages: seq<Client.Page>, pageSize: int)
    requires ScanContinued(pages, pageSize)
    ensures forall k :: 0 < k < |pages| ==> !StopsAfter(pages[..k], pageSize)
  {
    if pages != [] {
      var init := pages[..|pages| - 1];
      ScanContinuedPrefixes(init, pageSize);
      forall k | 0 < k < |pages| ensures !StopsAfter(pages[..k], pageSize) {
        if k < |init| {
          assert init[..k] == pages[..k];
        } else {
          assert pages[..k] == init;
        }
      }
    }
  }

  /** The query log of a scan that received `pages` and, when `failed`, one more query that got no answer. */
  function QueryLog(userId: string, parentId: string, pages: seq<Client.Page>, failed: bool, pageSize: int): (log: seq<Client.Call>)
    ensures |log| == |pages| + (if failed then 1 else 0)
  {
    if pages == [] then (if failed then [Client.QueryItems(userId, parentId, 0, pageSize)] else [])
    else
      var init := pages[..|pages| - 1];
      QueryLog(userId, parentId, init, false, pageSize) + [Client.QueryItems(userId, parentId, Offset(init), pageSize)]
      + (if failed then [Client.QueryItems(userId, parentId, Offset(pages), pageSize)] else [])
  }

  /** The k-th query of a scan starts where the pages before it ended. */
  lemma {:induction false} QueryLogStarts(userId: string, parentId: string, pages: seq<Client.Page>, failed: bool, pageSize: int, k: int)
    requires 0 <= k < |pages| + (if failed then 1 else 0)
    ensures QueryLog(userId, parentId, pages, failed, pageSize)[k] == Client.QueryItems(userId, parentId, Offset(pages[..k]), pageSize)
  {
    if pages == [] {
    } else {
      var init := pages[..|pages| - 1];
      if k < |pages| - 1 {
        QueryLogStarts(userId, parentId, init, false, pageSize, k);
        assert init[..k] == pages[..k];
      } else if k == |pages| - 1 {
        assert pages[..k] == init;
      } else {
        assert pages[..k] == pages;
      }
    }
  }

  /** All pages merged in order. */
  function MergePages(found: seq<DiscoveredItem>, pages: seq<Client.Page>, enabled: seq<string>, library: LibraryRef)
    : (r: seq<DiscoveredItem>)
    ensures |found| <= |r|
    ensures forall i :: 0 <= i < |found| ==> r[i] == found[i].(imageTypes := r[i].imageTypes)
  {
    if pages == [] then found
    else MergePage(MergePages(found, pages[..|pages| - 1], enabled, library), pages[|pages| - 1].items, enabled, library)
  }

  lemma {:induction false} MergePagesWellFormed(found: seq<DiscoveredItem>, pages: seq<Client.Page>, enabled: seq<string>, library: LibraryRef)
    requires WellFormed(found, enabled, library)
    ensures WellFormed(MergePages(found, pages, enabled, library), enabled, library)
  {
    if pages != [] {
      MergePagesWellFormed(found, pages[..|pages| - 1], enabled, library);
      MergePageWellFormed(MergePages(found, pages[..|pages| - 1], enabled, library), pages[|pages| - 1].items, enabled, library);
    }
  }

  /** The bookkeeping of one more answered page. */
  lemma PageStep(userId: string, parentId: string, prev: seq<Client.Page>, p: Client.Page, pageSize: int)
    ensures (prev + [p])[..|prev|] == prev
    ensures Offset(prev + [p]) == Offset(prev) + |p.items|
    ensures KnownTotal(prev + [p]) == if p.totalRecordCount.Some? then p.totalRecordCount else KnownTotal(prev)
    ensures QueryLog(userId, parentId, prev + [p], false, pageSize) == QueryLog(userId, parentId, prev, false, pageSize) + [Client.QueryItems(userId, parentId, Offset(prev), pageSize)]
    ensures forall k :: 0 <= k <= |prev| ==> (prev + [p])[..k] == prev[..k]
    ensures (prev + [p])[..|prev| + 1] == prev + [p]
  {
    assert (prev + [p])[..|prev|] == prev;
  }

  /** A failed query adds one query to the log and no page. */
  lemma FailedStep(userId: string, parentId: string, pages: seq<Client.Page>, pageSize: int)
    ensures QueryLog(userId, parentId, pages, true, pageSize) == QueryLog(userId, parentId, pages, false, pageSize) + [Client.QueryItems(userId, parentId, Offset(pages), pageSize)]
    ensures pages[..|pages|] == pages
  {
  }

  // ---------------------------------------------------------------- the scan against the server's answers

  /** The pages are the first answers of the query script, in order. */
  predicate PagesFrom(replies: seq<Option<Client.Page>>, pages: seq<Client.Page>) {
    |pages| <= |replies| && forall k :: 0 <= k < |pages| ==> replies[k] == Some(pages[k])
  }

  /** The query after `pages` gets no answer: the script is exhausted or answers None there. */
  predicate NoAnswerAfter(replies: seq<Option<Client.Page>>, pages: seq<Client.Page>) {
    |pages| >= |replies| || replies[|pages|].None?
  }

  /**
   * A scan of one library that read `pages` from the query script `replies`; `failed` says the
   * next query got no answer. Answers are taken in order while no stop rule holds, and no query
   * is made when no image type is requested.
   */
  predicate ScanOf(replies: seq<Option<Client.Page>>, pages: seq<Client.Page>, failed: bool, enabled: seq<string>) {
    && PagesFrom(replies, pages)
    && ScanContinued(pages, Constants.DefaultDiscoveryPageSize)
    && (enabled == [] ==> pages == [] && !failed)
    && (enabled != [] && !failed ==> pages != [] && StopsAfter(pages, Constants.DefaultDiscoveryPageSize))
    && (failed ==> NoAnswerAfter(replies, pages) && (pages == [] || !StopsAfter(pages, Constants.DefaultDiscoveryPageSize)))
  }

  /** The answers decide the scan: two scans of the same script read the same pages and fail alike. */
  lemma ScanOfUnique(replies: seq<Option<Client.Page>>, p1: seq<Client.Page>, f1: bool, p2: seq<Client.Page>, f2: bool, enabled: seq<string>)
    requires ScanOf(replies, p1, f1, enabled) && ScanOf(replies, p2, f2, enabled)
    ensures p1 == p2 && f1 == f2
  {
    if |p1| <= |p2| {
      ScanOfPrefix(replies, p1, f1, p2, f2, enabled);
    } else {
      ScanOfPrefix(replies, p2, f2, p1, f1, enabled);
    }
  }

  lemma {:induction false} ScanOfPrefix(replies: seq<Option<Client.Page>>, p1: seq<Client.Page>, f1: bool, p2: seq<Client.Page>, f2: bool, enabled: seq<string>)
    requires ScanOf(replies, p1, f1, enabled) && ScanOf(replies, p2, f2, enabled)
    requires |p1| <= |p2|
    ensures p1 == p2 && f1 == f2
  {
    assert p2[..|p1|] == p1 by {
      forall k | 0 <= k < |p1| ensures p2[k] == p1[k] {
        assert replies[k] == Some(p1[k]) && replies[k] == Some(p2[k]);
      }
    }
    if |p1| < |p2| {
      assert replies[|p1|] == Some(p2[|p1|]);
      if !f1 && p1 != [] {
        ScanContinuedPrefixes(p2, Constants.DefaultDiscoveryPageSize);
      }
      assert false;
    }
    assert p1 == p2;
  }

  /** One more query of a scan that has read `before` from `replies` and not failed yet. */
  lemma ReplyStep(replies: seq<Option<Client.Page>>, before: seq<Client.Page>, rest: seq<Option<Client.Page>>,
                  pages: seq<Client.Page>, failed: bool)
    requires PagesFrom(replies, before) && rest == Client.Drop(replies, |before|)
    requires failed <==> rest == [] || rest[0].None?
    requires failed ==> pages == before
    requires !failed ==> pages == before + [rest[0].value]
    ensures PagesFrom(replies, pages) && (failed ==> NoAnswerAfter(replies, pages))
    ensures Client.Drop(rest, 1) == Client.Drop(replies, Scan(pages, failed).Used())
  {
    Client.DropTwice(replies, |before|, 1);
    if !failed {
      assert rest[0] == replies[|before|];
    }
  }

  /** The error recorded when the query at `start` gets no answer. */
  function QueryFailure(library: LibraryRef, enabled: seq<string>, start: int): (string, string) {
    (library.name, "Failed to query items for image types " + StrListRepr(enabled) + " (page start " + IntToString(start) + ")")
  }

  /** The inner loop of the scan: the entries of one page merged in order. */
  method MergeEntries(found: seq<DiscoveredItem>, raws: seq<Client.RawItem>, enabled: seq<string>, library: LibraryRef)
    returns (items: seq<DiscoveredItem>)
    ensures items == MergePage(found, raws, enabled, library)
    ensures forall id :: TypesOf(items, id) == TypesOf(found, id) + PageContribution(raws, enabled, id)
  {
    items := found;
    for j := 0 to |raws|
      invariant items == MergePage(found, raws[..j], enabled, library)
    {
      assert raws[..j + 1][..j] == raws[..j];
      items := MergeRaw(items, raws[j], enabled, library);
    }
    assert raws[..|raws|] == raws;
    forall id ensures TypesOf(items, id) == TypesOf(found, id) + PageContribution(raws, enabled, id) {
      MergePageTypes(found, raws, enabled, library, id);
    }
  }

  /**
   * One query of the scan at `Offset(pages)`. A missing answer records one error and ends the
   * scan; an answer is merged and ends the scan when a stop rule holds after it.
   */
  method ScanPage(client: Client.MediaClient, stats: State.RunStats, userId: string, library: LibraryRef,
                  enabled: seq<string>, items: seq<DiscoveredItem>, ghost pages: seq<Client.Page>,
                  startIndex: int, totalRecords: Option<int>, ghost replies: seq<Option<Client.Page>>)
    returns (items': seq<DiscoveredItem>, ghost pages': seq<Client.Page>, startIndex': int,
             totalRecords': Option<int>, done: bool, ghost failed: bool)
    modifies client, stats
    requires PagesFrom(replies, pages) && client.queryReplies == Client.Drop(replies, |pages|)
    requires items == MergePages([], pages, enabled, library)
    requires startIndex == Offset(pages) && totalRecords == KnownTotal(pages)
    requires ScanContinued(pages, Constants.DefaultDiscoveryPageSize)
    requires pages == [] || !StopsAfter(pages, Constants.DefaultDiscoveryPageSize)
    ensures items' == MergePages([], pages', enabled, library)
    ensures startIndex' == Offset(pages') && (!done ==> totalRecords' == KnownTotal(pages'))
    ensures client.log == old(client.log) + [Client.QueryItems(userId, library.id, startIndex, Constants.DefaultDiscoveryPageSize)]
    ensures QueryLog(userId, library.id, pages', failed, Constants.DefaultDiscoveryPageSize)
      == QueryLog(userId, library.id, pages, false, Constants.DefaultDiscoveryPageSize)
         + [Client.QueryItems(userId, library.id, startIndex, Constants.DefaultDiscoveryPageSize)]
    ensures ScanContinued(pages', Constants.DefaultDiscoveryPageSize)
    ensures failed ==> done && pages' == pages
    ensures !done ==> !failed && !StopsAfter(pages', Constants.DefaultDiscoveryPageSize)
    ensures done ==> failed || (pages' != [] && StopsAfter(pages', Constants.DefaultDiscoveryPageSize))
    ensures !done ==> |client.queryReplies| < old(|client.queryReplies|)
    ensures failed <==> old(client.queryReplies) == [] || old(client.queryReplies)[0].None?
    ensures !failed ==> pages' == pages + [old(client.queryReplies)[0].value]
    ensures client.queryReplies == Client.Drop(old(client.queryReplies), 1)
    ensures PagesFrom(replies, pages') && (failed ==> NoAnswerAfter(replies, pages'))
    ensures client.queryReplies == Client.Drop(replies, Scan(pages', failed).Used())
    ensures stats.Snapshot() == old(stats.Snapshot()).(errors := old(stats.errors) + if failed then 1 else 0)
    ensures stats.failedItems == old(stats.failedItems) + if failed then [QueryFailure(library, enabled, startIndex)] else []
    ensures stats.processedIds == old(stats.processedIds)
    ensures old(stats.Valid()) ==> stats.Valid()
    ensures client.fetchReplies == old(client.fetchReplies) && client.libraryReplies == old(client.libraryReplies)
  {
    var pageSize := Constants.DefaultDiscoveryPageSize;
    items', pages', startIndex', totalRecords' := items, pages, startIndex, totalRecords;
    var resp := client.QueryLibraryItems(userId, library.id, startIndex, pageSize);
    FailedStep(userId, library.id, pages, pageSize);
    if resp.None? {
      var (path, reason) := QueryFailure(library, enabled, startIndex);
      stats.RecordError(path, reason);
      failed, done := true, true;
    } else {
      failed := false;
      var raws := resp.value.items;
      items' := MergeEntries(items, raws, enabled, library);
      PageStep(userId, library.id, pages, resp.value, pageSize);
      pages' := pages + [resp.value];
      if raws == [] {
        done := true;
      } else {
        if resp.value.totalRecordCount.Some? {
          totalRecords' := resp.value.totalRecordCount;
        }
        startIndex' := startIndex + |raws|;
        done := if totalRecords'.Some? then startIndex' >= totalRecords'.value else |raws| < pageSize;
      }
    }
    ReplyStep(replies, pages, old(client.queryReplies), pages', failed);
  }

  /**
   * `discover_library_items`: pages through the library and merges the entries. `pages` are the
   * answers received; `failed` says a further query got none, which records one error and
   * keeps what was gathered. The scan continues exactly while no stop rule holds.
   */
  method DiscoverLibraryItems(client: Client.MediaClient, stats: State.RunStats, userId: string,
                              library: LibraryRef, enabled: seq<string>)
    returns (items: seq<DiscoveredItem>, ghost scan: Scan)
    modifies client, stats
    ensures ScanOf(old(client.queryReplies), scan.pages, scan.failed, enabled)
    ensures items == MergePages([], scan.pages, enabled, library)
    ensures WellFormed(items, enabled, library)
    ensures client.log == old(client.log) + QueryLog(userId, library.id, scan.pages, scan.failed, Constants.DefaultDiscoveryPageSize)
    ensures client.queryReplies == Client.Drop(old(client.queryReplies), scan.Used())
    ensures stats.Snapshot() == old(stats.Snapshot()).(errors := old(stats.errors) + if scan.failed then 1 else 0)
    ensures stats.failedItems == old(stats.failedItems) + ScanFailures(library, enabled, scan)
    ensures stats.processedIds == old(stats.processedIds)
    ensures old(stats.Valid()) ==> stats.Valid()
    ensures client.fetchReplies == old(client.fetchReplies) && client.libraryReplies == old(client.libraryReplies)
  {
    items := [];
    ghost var pages: seq<Client.Page>, failed := [], false;
    ghost var replies := client.queryReplies;
    if enabled == [] {
      scan := Scan(pages, failed);
      return;
    }
    var startIndex := 0;
    var totalRecords: Option<int> := None;
    var done := false;
    while !done
      invariant items == MergePages([], pages, enabled, library)
      invariant startIndex == Offset(pages) && (!done ==> totalRecords == KnownTotal(pages))
      invariant client.log == old(client.log) + QueryLog(userId, library.id, pages, failed, Constants.DefaultDiscoveryPageSize)
      invariant ScanContinued(pages, Constants.DefaultDiscoveryPageSize)
      invariant !done ==> !failed && (pages == [] || !StopsAfter(pages, Constants.DefaultDiscoveryPageSize))
      invariant done ==> failed || (pages != [] && StopsAfter(pages, Constants.DefaultDiscoveryPageSize))
      invariant failed ==> pages == [] || !StopsAfter(pages, Constants.DefaultDiscoveryPageSize)
      invariant PagesFrom(replies, pages) && (failed ==> NoAnswerAfter(replies, pages))
      invariant client.queryReplies == Client.Drop(replies, Scan(pages, failed).Used())
      invariant stats.Snapshot() == old(stats.Snapshot()).(errors := old(stats.errors) + if failed then 1 else 0)
      invariant stats.failedItems == old(stats.failedItems) + ScanFailures(library, enabled, Scan(pages, failed))
      invariant stats.processedIds == old(stats.processedIds)
      invariant old(stats.Valid()) ==> stats.Valid()
      invariant client.fetchReplies == old(client.fetchReplies) && client.libraryReplies == old(client.libraryReplies)
      decreases !done, |client.queryReplies|
    {
      items, pages, startIndex, totalRecords, done, failed :=
        ScanPage(client, stats, userId, library, enabled, items, pages, startIndex, totalRecords, replies);
    }
    scan := Scan(pages, failed);
    MergePagesWellFormed([], pages, enabled, library);
  }

  /** One library's scan: the pages it received and whether a further query got no answer. */
  datatype Scan = Scan(pages: seq<Client.Page>, failed: bool) {
    /** The replies of the query script the scan consumed: one per query. */
    function Used(): nat {
      |pages| + if failed then 1 else 0
    }
  }

  /** What a scan adds to the run's failure list: one entry for a query with no answer. */
  function ScanFailures(library: LibraryRef, enabled: seq<string>, scan: Scan): seq<(string, string)> {
    if scan.failed then [QueryFailure(library, enabled, Offset(scan.pages))] else []
  }

  /** The replies consumed by consecutive scans. */
  function Consumed(scans: seq<Scan>): nat {
    if scans == [] then 0 else Consumed(scans[..|scans| - 1]) + scans[|scans| - 1].Used()
  }

  /** Consecutive scans of one query script: each starts where the one before it stopped. */
  predicate ScansOf(replies: seq<Option<Client.Page>>, scans: seq<Scan>, enabled: seq<string>) {
    scans == [] ||
    var init := scans[..|scans| - 1];
    var last := scans[|scans| - 1];
    ScansOf(replies, init, enabled) && ScanOf(Client.Drop(replies, Consumed(init)), last.pages, last.failed, enabled)
  }

  /** The queries of consecutive scans, library after library. */
  function ScansLog(userId: string, libraries: seq<LibraryRef>, scans: seq<Scan>): seq<Client.Call>
    requires |scans| <= |libraries|
  {
    if scans == [] then []
    else
      var k := |scans| - 1;
      ScansLog(userId, libraries, scans[..k]) + QueryLog(userId, libraries[k].id, scans[k].pages, scans[k].failed, Constants.DefaultDiscoveryPageSize)
  }

  /** The failure entries of consecutive scans, library after library. */
  function ScansFailures(libraries: seq<LibraryRef>, enabled: seq<string>, scans: seq<Scan>): seq<(string, string)>
    requires |scans| <= |libraries|
  {
    if scans == [] then []
    else
      var k := |scans| - 1;
      ScansFailures(libraries, enabled, scans[..k]) + ScanFailures(libraries[k], enabled, scans[k])
  }

  /** One more library's scan continues the script where the scans before it stopped. */
  lemma ScansOfStep(replies: seq<Option<Client.Page>>, enabled: seq<string>, scans: seq<Scan>, scan: Scan)
    requires ScansOf(replies, scans, enabled)
    requires ScanOf(Client.Drop(replies, Consumed(scans)), scan.pages, scan.failed, enabled)
    ensures ScansOf(replies, scans + [scan], enabled)
    ensures Client.Drop(Client.Drop(replies, Consumed(scans)), scan.Used()) == Client.Drop(replies, Consumed(scans + [scan]))
  {
    assert (scans + [scan])[..|scans|] == scans;
    ConsumedStep(scans, scan);
    Client.DropTwice(replies, Consumed(scans), scan.Used());
  }

  lemma ConsumedStep(scans: seq<Scan>, scan: Scan)
    ensures Consumed(scans + [scan]) == Consumed(scans) + scan.Used()
  {
    assert (scans + [scan])[..|scans|] == scans;
  }

  /** The query log and failure entries of one more library's scan. */
  lemma ScansListsStep(userId: string, libraries: seq<LibraryRef>, enabled: seq<string>, scans: seq<Scan>, scan: Scan)
    requires |scans| < |libraries|
    ensures ScansLog(userId, libraries, scans + [scan]) == ScansLog(userId, libraries, scans)
      + QueryLog(userId, libraries[|scans|].id, scan.pages, scan.failed, Constants.DefaultDiscoveryPageSize)
    ensures ScansFailures(libraries, enabled, scans + [scan]) == ScansFailures(libraries, enabled, scans) + ScanFailures(libraries[|scans|], enabled, scan)
  {
    assert (scans + [scan])[..|scans|] == scans;
  }

  /** Each library's items, merged from the pages of its scan. */
  function Discovered(libraries: seq<LibraryRef>, scans: seq<Scan>, enabled: seq<string>): (parts: seq<seq<DiscoveredItem>>)
    requires |scans| <= |libraries|
    ensures |parts| == |scans|
  {
    if scans == [] then []
    else
      var k := |scans| - 1;
      Discovered(libraries, scans[..k], enabled) + [MergePages([], scans[k].pages, enabled, libraries[k])]
  }

  lemma {:induction false} DiscoveredAt(libraries: seq<LibraryRef>, scans: seq<Scan>, enabled: seq<string>, i: nat)
    requires |scans| <= |libraries| && i < |scans|
    ensures Discovered(libraries, scans, enabled)[i] == MergePages([], scans[i].pages, enabled, libraries[i])
  {
    var k := |scans| - 1;
    if i < k {
      DiscoveredAt(libraries, scans[..k], enabled, i);
    }
  }

  lemma DiscoveredStep(libraries: seq<LibraryRef>, scans: seq<Scan>, enabled: seq<string>, scan: Scan)
    requires |scans| < |libraries|
    ensures Discovered(libraries, scans + [scan], enabled)
      == Discovered(libraries, scans, enabled) + [MergePages([], scan.pages, enabled, libraries[|scans|])]
  {
    assert (scans + [scan])[..|scans|] == scans;
  }

  /** One library of `discover_all_library_items`, scanned where the libraries before it left the query script. */
  method DiscoverNext(client: Client.MediaClient, stats: State.RunStats, userId: string, library: LibraryRef,
                      enabled: seq<string>, ghost replies: seq<Option<Client.Page>>, ghost scans: seq<Scan>)
    returns (found: seq<DiscoveredItem>, ghost scan: Scan)
    requires ScansOf(replies, scans, enabled) && client.queryReplies == Client.Drop(replies, Consumed(scans))
    modifies client, stats
    ensures ScansOf(replies, scans + [scan], enabled) && client.queryReplies == Client.Drop(replies, Consumed(scans + [scan]))
    ensures found == MergePages([], scan.pages, enabled, library)
    ensures client.log == old(client.log) + QueryLog(userId, library.id, scan.pages, scan.failed, Constants.DefaultDiscoveryPageSize)
    ensures stats.failedItems == old(stats.failedItems) + ScanFailures(library, enabled, scan)
    ensures stats.Snapshot() == old(stats.Snapshot()).(errors := old(stats.errors) + |ScanFailures(library, enabled, scan)|)
    ensures stats.processedIds == old(stats.processedIds)
    ensures old(stats.Valid()) ==> stats.Valid()
    ensures client.fetchReplies == old(client.fetchReplies) && client.libraryReplies == old(client.libraryReplies)
  {
    found, scan := DiscoverLibraryItems(client, stats, userId, library, enabled);
    ScansOfStep(replies, enabled, scans, scan);
  }

  /** `discover_all_library_items`: the libraries' results, concatenated in library order. */
  method DiscoverAllLibraryItems(client: Client.MediaClient, stats: State.RunStats, userId: string,
                                 libraries: seq<LibraryRef>, enabled: seq<string>)
    returns (all: seq<DiscoveredItem>, ghost perLibrary: seq<seq<DiscoveredItem>>, ghost scans: seq<Scan>)
    modifies client, stats
    ensures |perLibrary| == |libraries| && |scans| == |libraries|
    ensures all == Flatten(perLibrary)
    ensures ScansOf(old(client.queryReplies), scans, enabled)
    ensures forall k :: 0 <= k < |libraries| ==>
      perLibrary[k] == MergePages([], scans[k].pages, enabled, libraries[k]) && WellFormed(perLibrary[k], enabled, libraries[k])
    ensures client.log == old(client.log) + ScansLog(userId, libraries, scans)
    ensures client.queryReplies == Client.Drop(old(client.queryReplies), Consumed(scans))
    ensures stats.failedItems == old(stats.failedItems) + ScansFailures(libraries, enabled, scans)
    ensures stats.Snapshot() == old(stats.Snapshot()).(errors := old(stats.errors) + |ScansFailures(libraries, enabled, scans)|)
    ensures stats.processedIds == old(stats.processedIds)
    ensures old(stats.Valid()) ==> stats.Valid()
    ensures client.fetchReplies == old(client.fetchReplies) && client.libraryReplies == old(client.libraryReplies)
  {
    all, perLibrary, scans := [], [], [];
    ghost var replies := client.queryReplies;
    for k := 0 to |libraries|
      invariant |perLibrary| == k && |scans| == k && all == Flatten(perLibrary)
      invariant ScansOf(replies, scans, enabled)
      invariant perLibrary == Discovered(libraries, scans, enabled)
      invariant client.log == old(client.log) + ScansLog(userId, libraries, scans)
      invariant client.queryReplies == Client.Drop(replies, Consumed(scans))
      invariant stats.failedItems == old(stats.failedItems) + ScansFailures(libraries, enabled, scans)
      invariant stats.Snapshot() == old(stats.Snapshot()).(errors := old(stats.errors) + |ScansFailures(libraries, enabled, scans)|)
      invariant stats.processedIds == old(stats.processedIds)
      invariant old(stats.Valid()) ==> stats.Valid()
      invariant client.fetchReplies == old(client.fetchReplies) && client.libraryReplies == old(client.libraryReplies)
    {
      var found, scan := DiscoverNext(client, stats, userId, libraries[k], enabled, replies, scans);
      FlattenAppend(perLibrary, found);
      ScansListsStep(userId, libraries, enabled, scans, scan);
      State.AppendAssoc(old(stats.failedItems), ScansFailures(libraries, enabled, scans), ScanFailures(libraries[k], enabled, scan));
      State.AppendAssoc(old(client.log), ScansLog(userId, libraries, scans),
                        QueryLog(userId, libraries[k].id, scan.pages, scan.failed, Constants.DefaultDiscoveryPageSize));
      DiscoveredStep(libraries, scans, enabled, scan);
      all := all + found;
      perLibrary := perLibrary + [found];
      scans := scans + [scan];
    }
    forall k | 0 <= k < |libraries|
      ensures perLibrary[k] == MergePages([], scans[k].pages, enabled, libraries[k]) && WellFormed(perLibrary[k], enabled, libraries[k])
    {
      DiscoveredAt(libraries, scans, enabled, k);
      MergePagesWellFormed([], scans[k].pages, enabled, libraries[k]);
    }
  }

  function Flatten<T>(parts: seq<seq<T>>): seq<T> {
    if parts == [] then [] else Flatten(parts[..|parts| - 1]) + parts[|parts| - 1]
  }

  lemma FlattenAppend<T>(parts: seq<seq<T>>, last: seq<T>)
    ensures Flatten(parts + [last]) == Flatten(parts) + last
  {
    assert (parts + [last])[..|parts|] == parts;
  }
}

=== FILE: driver.dfy ===
/**
 * The run driver: `normalize_item_image_api` routes one image type of an item to the backdrop
 * protocol or to the single-image path, and `process_discovered_items` counts the images the
 * enabled types select, then visits every matching item in order and, within it, every enabled
 * image type in ascending order.
 */
module Driver {
  import opened Wrappers
  import opened Backup
  import State
  import Client
  import Discovery
  import Pipeline
  import Imaging
  import Backdrops
  import Text
  import Constants

  type Item = Discovery.DiscoveredItem

  // ---------------------------------------------------------------- routing one image type

  /** `"{name} ({type}) [{image_type}]"`, the identifier errors are recorded under. */
  function ItemLabel(item: Item, imageType: string): string {
    item.name + " (" + item.itemType + ") [" + imageType + "]"
  }

  /** Where an image type goes: the backdrop protocol, a warning, or the single-image path. */
  datatype Route = ToBackdrops | Unsupported | NoSettings | Single(mode: string, settings: Pipeline.Settings)

  /** A type without a mode, or with an empty one, is unsupported; a mode without settings has none. */
  function RouteOf(imageType: string, modeTable: map<string, string>, settingsByMode: map<string, Pipeline.Settings>)
    : (r: Route)
    ensures r.ToBackdrops? <==> imageType == Backdrops.BackdropType
    ensures r.Unsupported? <==> imageType != Backdrops.BackdropType && (imageType !in modeTable || modeTable[imageType] == "")
    ensures r.NoSettings? <==>
      imageType != Backdrops.BackdropType && imageType in modeTable && modeTable[imageType] != "" && modeTable[imageType] !in settingsByMode
    ensures r.Single? ==>
      imageType in modeTable && r.mode == modeTable[imageType] && r.mode in settingsByMode && r.settings == settingsByMode[r.mode]
  {
    if imageType == Backdrops.BackdropType then ToBackdrops
    else if imageType !in modeTable || modeTable[imageType] == "" then Unsupported
    else if modeTable[imageType] !in settingsByMode then NoSettings
    else Single(modeTable[imageType], settingsByMode[modeTable[imageType]])
  }

  /**
   * Under the shipped mode table and settings for every configured mode, each mapped image type
   * takes the single-image path and every other type but "Backdrop" is unsupported; the shipped
   * table has no "Backdrop" entry, so the backdrop protocol finds no configuration.
   */
  lemma StandardRoutes(imageType: string, settingsByMode: map<string, Pipeline.Settings>)
    requires Constants.ValidModes <= settingsByMode.Keys
    ensures imageType in Constants.ImageTypeToMode <==> RouteOf(imageType, Constants.ImageTypeToMode, settingsByMode).Single?
    ensures imageType != Backdrops.BackdropType && imageType !in Constants.ImageTypeToMode ==>
      RouteOf(imageType, Constants.ImageTypeToMode, settingsByMode).Unsupported?
    ensures Backdrops.Configuration(Constants.ImageTypeToMode, settingsByMode).None?
  {
    Constants.ModesAreConfigured();
    if imageType in Constants.ImageTypeToMode {
      assert Constants.ImageTypeToMode[imageType] in Constants.ImageTypeToMode.Values;
    }
  }

  /** The calls one visited image type may leave in the log. */
  ghost predicate Fits(visit: (Item, string), seg: seq<Client.Call>,
                       modeTable: map<string, string>, settingsByMode: map<string, Pipeline.Settings>) {
    var item, imageType := visit.0, visit.1;
    match RouteOf(imageType, modeTable, settingsByMode)
    case ToBackdrops => exists t :: seg == Backdrops.ProtocolCalls(item.id, t)
    case Single(_, _) => SingleSeg(item, imageType, seg)
    case _ => seg == []
  }

  /** The single-image path's calls: the fetch, then at most one upload of the same image without an index. */
  predicate SingleSeg(item: Item, imageType: string, seg: seq<Client.Call>) {
    && 1 <= |seg| <= 2 && seg[0] == Client.FetchImage(item.id, imageType, None)
    && (|seg| == 2 ==> seg[1].UploadImage? && seg[1].itemId == item.id && seg[1].imageType == imageType
                       && seg[1].uploadIndex.None?)
  }

  /** The parts of a run's state that processing one image changes. */
  datatype Observed = Observed(counters: State.Counters, failedItems: seq<(string, string)>,
                               apiFailures: seq<State.ApiFailure>, files: map<Path, Bytes>,
                               upscaled: seq<State.ScaleRecord>, downscaled: seq<State.ScaleRecord>)

  ghost function ObservedOf(g: State.Globals, fs: FileSystem): Observed
    reads g, g.stats, fs
  {
    Observed(g.stats.Snapshot(), g.stats.failedItems, g.apiFailures, fs.files, g.upscaled, g.downscaled)
  }

  /**
   * What `_process_item_image_payload` does with a fetched `image` under the item's label and
   * without a backdrop index, from state `before` to state `after`: the upload calls its
   * normalisation leads to, the outcome counted (after the padding warning, if any), the error
   * entry and API failure it records, the backup it writes, and the scale report of its plan.
   */
  ghost predicate Processed(codec: Pipeline.Codec, item: Item, imageType: string, mode: string, settings: Pipeline.Settings,
                            image: Client.Image, dryRun: bool, forceUpload: bool, makeBackup: bool, root: Path,
                            backupMode: string, uploadReplies: seq<Option<string>>, before: Observed, after: Observed,
                            ok: bool, calls: seq<Client.Call>) {
    var data := image.data;
    var ct := Some(image.contentType);
    var n := Pipeline.NormalizeResult(codec, data, ct, mode, settings);
    var reply := Pipeline.NextUploadReply(uploadReplies);
    var o := Pipeline.ImageOutcome(n, mode, dryRun, forceUpload, reply);
    var warned := if Pipeline.PaddingWarning(codec, data, mode, settings) then 1 else 0;
    var plan := Pipeline.PlanOf(codec, data, mode, settings);
    var name := ItemLabel(item, imageType);
    && calls == Pipeline.UploadCallsFor(n, item.id, imageType, None, data, ct, dryRun, forceUpload)
    && after.counters == Pipeline.Count(before.counters.(warnings := before.counters.warnings + warned), o)
    && after.failedItems == Pipeline.Failed(before.failedItems, name, o)
    && after.apiFailures == Pipeline.FailuresAfter(before.apiFailures, calls, item.id, imageType, reply)
    && (ok <==> !o.Errored?)
    && after.files == Pipeline.AfterBackup(before.files, plan, makeBackup, dryRun, backupMode, root, item.id, imageType, data, ct)
    && after.upscaled == Pipeline.Reported(before.upscaled, name, plan, Imaging.ScaleUp)
    && after.downscaled == Pipeline.Reported(before.downscaled, name, plan, Imaging.ScaleDown)
  }

  /** What the single-image path does with fetched bytes: `_process_item_image_payload`, under the item's label. */
  method NormalizeFetched(codec: Pipeline.Codec, g: State.Globals, fs: FileSystem, client: Client.MediaClient,
                          item: Item, imageType: string, mode: string, settings: Pipeline.Settings, image: Client.Image,
                          dryRun: bool, forceUpload: bool, makeBackup: bool, root: Path, backupMode: string)
    returns (ok: bool, ghost calls: seq<Client.Call>)
    modifies g, g.stats, fs, client
    ensures g.stats == old(g.stats) && g.stats.processedIds == old(g.stats.processedIds) && g.dryRun == old(g.dryRun)
    ensures client.log == old(client.log) + calls
    ensures Processed(codec, item, imageType, mode, settings, image, dryRun, forceUpload, makeBackup, root, backupMode,
                      old(client.uploadReplies), old(ObservedOf(g, fs)), ObservedOf(g, fs), ok, calls)
  {
    ok := Pipeline.ProcessItemImagePayload(codec, g, fs, client, item.id, ItemLabel(item, imageType), imageType, image.data,
                                           Some(image.contentType), mode, settings, dryRun, forceUpload,
                                           makeBackup, root, backupMode, None);
    calls := Pipeline.UploadCallsFor(Pipeline.NormalizeResult(codec, image.data, Some(image.contentType), mode, settings),
                                     item.id, imageType, None, image.data, Some(image.contentType), dryRun, forceUpload);
  }

  /**
   * The outcome of normalising fetched bytes as the type loop sees it: exactly one of the
   * success, skip and error counters moves, and the calls made follow the fetch.
   */
  method SettleFetched(codec: Pipeline.Codec, g: State.Globals, fs: FileSystem, client: Client.MediaClient,
                       item: Item, imageType: string, mode: string, settings: Pipeline.Settings, image: Client.Image,
                       dryRun: bool, forceUpload: bool, makeBackup: bool, root: Path, backupMode: string)
    returns (ok: bool, ghost calls: seq<Client.Call>)
    modifies g, g.stats, fs, client
    ensures g.stats == old(g.stats) && g.stats.processedIds == old(g.stats.processedIds) && g.dryRun == old(g.dryRun)
    ensures client.log == old(client.log) + calls
    ensures SingleSeg(item, imageType, [Client.FetchImage(item.id, imageType, None)] + calls)
    ensures Processed(codec, item, imageType, mode, settings, image, dryRun, forceUpload, makeBackup, root, backupMode,
                      old(client.uploadReplies), old(ObservedOf(g, fs)), ObservedOf(g, fs), ok, calls)
    ensures var c, c0 := g.stats.Snapshot(), old(g.stats.Snapshot());
      && c.successes + c.skipped + c.errors == c0.successes + c0.skipped + c0.errors + 1
      && c.processed == c0.processed && c.imagesFound == c0.imagesFound
      && (ok <==> c.errors == c0.errors)
  {
    ghost var c0 := g.stats.Snapshot();
    ghost var replies := client.uploadReplies;
    ok, calls := NormalizeFetched(codec, g, fs, client, item, imageType, mode, settings, image, dryRun, forceUpload,
                                  makeBackup, root, backupMode);
    ghost var data, ct := image.data, Some(image.contentType);
    ghost var n := Pipeline.NormalizeResult(codec, data, ct, mode, settings);
    UploadSeg(item, imageType, calls, n, data, ct, dryRun, forceUpload);
    CountedOnce(c0, if Pipeline.PaddingWarning(codec, data, mode, settings) then 1 else 0,
                Pipeline.ImageOutcome(n, mode, dryRun, forceUpload, Pipeline.NextUploadReply(replies)));
  }

  /**
   * The single-image half of `normalize_item_image_api`: fetch the image; a failed fetch is one
   * error; otherwise the bytes go through `_process_item_image_payload`. Either way exactly one
   * success, skip or error is counted, and the result is false exactly when it was an error.
   */
  method NormalizeSingleImage(codec: Pipeline.Codec, g: State.Globals, fs: FileSystem, client: Client.MediaClient,
                              item: Item, imageType: string, mode: string, settings: Pipeline.Settings,
                              dryRun: bool, forceUpload: bool, makeBackup: bool, root: Path, backupMode: string)
    returns (ok: bool, ghost seg: seq<Client.Call>)
    modifies g, g.stats, fs, client
    ensures g.stats == old(g.stats) && g.stats.processedIds == old(g.stats.processedIds) && g.dryRun == old(g.dryRun)
    ensures client.log == old(client.log) + seg && SingleSeg(item, imageType, seg)
    ensures var c, c0 := g.stats.Snapshot(), old(g.stats.Snapshot());
      && c.successes + c.skipped + c.errors == c0.successes + c0.skipped + c0.errors + 1
      && c.processed == c0.processed && c.imagesFound == c0.imagesFound
      && (ok <==> c.errors == c0.errors)
    ensures old(client.fetchReplies) == [] || old(client.fetchReplies)[0].None? ==>
      && !ok && seg == [Client.FetchImage(item.id, imageType, None)] && fs.files == old(fs.files)
      && g.stats.failedItems == old(g.stats.failedItems) + [(ItemLabel(item, imageType), "Failed to fetch image bytes")]
      && g.apiFailures == old(g.apiFailures) && g.upscaled == old(g.upscaled) && g.downscaled == old(g.downscaled)
    ensures old(client.fetchReplies) != [] && old(client.fetchReplies)[0].Some? ==>
      Processed(codec, item, imageType, mode, settings, old(client.fetchReplies)[0].value, dryRun, forceUpload, makeBackup,
                root, backupMode, old(client.uploadReplies), old(ObservedOf(g, fs)), ObservedOf(g, fs), ok, seg[1..])
  {
    var payload := client.Fetch(item.id, imageType, None);
    if payload.None? {
      g.stats.RecordError(ItemLabel(item, imageType), "Failed to fetch image bytes");
      return false, [Client.FetchImage(item.id, imageType, None)];
    }
    ghost var calls;
    ok, calls := SettleFetched(codec, g, fs, client, item, imageType, mode, settings, payload.value, dryRun, forceUpload,
                               makeBackup, root, backupMode);
    seg := [Client.FetchImage(item.id, imageType, None)] + calls;
  }

  lemma UploadSeg(item: Item, imageType: string, calls: seq<Client.Call>, n: Result<Pipeline.Normalization, string>,
                  data: Bytes, ct: Option<string>, dryRun: bool, forceUpload: bool)
    requires calls == Pipeline.UploadCallsFor(n, item.id, imageType, None, data, ct, dryRun, forceUpload)
    ensures SingleSeg(item, imageType, [Client.FetchImage(item.id, imageType, None)] + calls)
  {
  }

  lemma CountedOnce(c0: State.Counters, warned: int, o: Pipeline.Outcome)
    ensures var c := Pipeline.Count(c0.(warnings := c0.warnings + warned), o);
      && c.successes + c.skipped + c.errors == c0.successes + c0.skipped + c0.errors + 1
      && c.processed == c0.processed && c.imagesFound == c0.imagesFound
      && (c.errors == c0.errors <==> !o.Errored?)
  {
  }

  /**
   * `normalize_item_image_api`: backdrops go to their protocol; a type without a mode or
   * without settings is one warning; any other type takes the single-image path, which counts
   * exactly one success, skip or error and reports false exactly when it counted an error.
   */
  method NormalizeItemImage(codec: Pipeline.Codec, g: State.Globals, fs: FileSystem, client: Client.MediaClient,
                            item: Item, imageType: string, settingsByMode: map<string, Pipeline.Settings>,
                            modeTable: map<string, string>, dryRun: bool, forceUpload: bool, makeBackup: bool,
                            root: Path, backupMode: string)
    returns (ok: bool, ghost seg: seq<Client.Call>)
    modifies g, g.stats, fs, client
    ensures client.log == old(client.log) + seg && Fits((item, imageType), seg, modeTable, settingsByMode)
    ensures g.stats == old(g.stats) && g.stats.processedIds == old(g.stats.processedIds) && g.dryRun == old(g.dryRun)
    ensures g.stats.processed == old(g.stats.processed) && g.stats.imagesFound == old(g.stats.imagesFound)
    ensures ok ==> g.stats.errors == old(g.stats.errors)
    ensures var r := RouteOf(imageType, modeTable, settingsByMode);
      r.Unsupported? || r.NoSettings? ==>
        && !ok && fs.files == old(fs.files) && g.stats.failedItems == old(g.stats.failedItems)
        && g.stats.Snapshot() == old(g.stats.Snapshot()).(warnings := old(g.stats.warnings) + 1)
        && g.apiFailures == old(g.apiFailures) && g.upscaled == old(g.upscaled) && g.downscaled == old(g.downscaled)
    ensures var c, c0 := g.stats.Snapshot(), old(g.stats.Snapshot());
      RouteOf(imageType, modeTable, settingsByMode).Single? ==>
        && c.successes + c.skipped + c.errors == c0.successes + c0.skipped + c0.errors + 1
        && (ok <==> c.errors == c0.errors)
    ensures var r := RouteOf(imageType, modeTable, settingsByMode);
      r.Single? && (old(client.fetchReplies) == [] || old(client.fetchReplies)[0].None?) ==>
        && !ok && seg == [Client.FetchImage(item.id, imageType, None)] && fs.files == old(fs.files)
        && g.stats.failedItems == old(g.stats.failedItems) + [(ItemLabel(item, imageType), "Failed to fetch image bytes")]
        && g.apiFailures == old(g.apiFailures) && g.upscaled == old(g.upscaled) && g.downscaled == old(g.downscaled)
    ensures var r := RouteOf(imageType, modeTable, settingsByMode);
      r.Single? && old(client.fetchReplies) != [] && old(client.fetchReplies)[0].Some? ==>
        Processed(codec, item, imageType, r.mode, r.settings, old(client.fetchReplies)[0].value, dryRun, forceUpload,
                  makeBackup, root, backupMode, old(client.uploadReplies), old(ObservedOf(g, fs)), ObservedOf(g, fs), ok, seg[1..])
    ensures var cfg := Backdrops.Configuration(modeTable, settingsByMode);
      RouteOf(imageType, modeTable, settingsByMode).ToBackdrops? && (cfg.None? || Backdrops.Total(item) == 0) ==>
        && !ok && seg == [] && fs.files == old(fs.files)
        && g.stats.failedItems == old(g.stats.failedItems) && g.apiFailures == old(g.apiFailures)
        && g.upscaled == old(g.upscaled) && g.downscaled == old(g.downscaled)
        && g.stats.Snapshot() == (if cfg.None? then old(g.stats.Snapshot()).(warnings := old(g.stats.warnings) + 1)
                                  else old(g.stats.Snapshot()).(skipped := old(g.stats.skipped) + 1))
    ensures var cfg := Backdrops.Configuration(modeTable, settingsByMode);
      RouteOf(imageType, modeTable, settingsByMode).ToBackdrops? && cfg.Some? && Backdrops.Total(item) != 0 ==>
        var e := Backdrops.ProtocolEffect(codec, item, cfg.value.0, cfg.value.1, dryRun, old(client.fetchReplies),
                                          old(client.deleteReplies), old(client.headReplies), old(client.uploadReplies));
        && (ok <==> e.failures == [])
        && Backdrops.Applied(old(g.stats.Snapshot()), old(g.stats.failedItems), old(g.apiFailures), e,
                             g.stats.Snapshot(), g.stats.failedItems, g.apiFailures)
        && Backdrops.TriedOutside(codec, item, Backdrops.Fetched(old(client.fetchReplies), Backdrops.Count(item)),
                                  cfg.value.0, cfg.value.1, makeBackup, backupMode, root,
                                  Backdrops.Prepared(codec, item, cfg.value.0, cfg.value.1, dryRun, old(client.fetchReplies)),
                                  old(fs.files), old(g.upscaled), old(g.downscaled), fs.files, g.upscaled, g.downscaled)
  {
    var route := RouteOf(imageType, modeTable, settingsByMode);
    match route
    case ToBackdrops =>
      ghost var t;
      ok, t := Backdrops.NormalizeItemBackdrops(codec, g, fs, client, item, settingsByMode, modeTable, dryRun,
                                                makeBackup, root, backupMode);
      seg := Backdrops.ProtocolCalls(item.id, t);
    case Unsupported =>
      g.stats.RecordWarning();
      ok, seg := false, [];
    case NoSettings =>
      g.stats.RecordWarning();
      ok, seg := false, [];
    case Single(mode, settings) =>
      ok, seg := NormalizeSingleImage(codec, g, fs, client, item, imageType, mode, settings, dryRun, forceUpload,
                                      makeBackup, root, backupMode);
  }

  // ---------------------------------------------------------------- counting the images of a run

  function EnabledSet(types: seq<string>): (s: set<string>)
    ensures forall t :: t in s <==> t in types
  {
    set t | t in types
  }

  /** `(item.backdrop_count or 1)` for backdrops, 1 for every other type; never zero. */
  function Increment(item: Item, imageType: string): (n: int)
    ensures n != 0
    ensures imageType != Backdrops.BackdropType ==> n == 1
    ensures imageType == Backdrops.BackdropType && Backdrops.Total(item) > 0 ==> n == Backdrops.Total(item)
  {
    if imageType != Backdrops.BackdropType then 1
    else if item.backdropCount.None? || item.backdropCount.value == 0 then 1
    else item.backdropCount.value
  }

  /** The images a set of an item's types stands for: one per type, `Increment` for the backdrops. */
  function ItemWeight(item: Item, types: set<string>): int {
    |types - {Backdrops.BackdropType}| + if Backdrops.BackdropType in types then Increment(item, Backdrops.BackdropType) else 0
  }

  /** Adding one more type adds its increment, whatever order the types come in. */
  lemma ItemWeightStep(item: Item, types: set<string>, t: string)
    requires t !in types
    ensures ItemWeight(item, types + {t}) == ItemWeight(item, types) + Increment(item, t)
  {
    var b := Backdrops.BackdropType;
    if t == b {
      assert (types + {t}) - {b} == types - {b};
    } else {
      assert (types + {t}) - {b} == (types - {b}) + {t};
    }
  }

  /** `total_images`: the weights of every item's enabled types. */
  function TotalImages(items: seq<Item>, enabled: set<string>): int {
    if items == [] then 0
    else TotalImages(items[..|items| - 1], enabled) + ItemWeight(items[|items| - 1], items[|items| - 1].imageTypes * enabled)
  }

  /**
   * With no negative backdrop count, the total is zero exactly when no item has an enabled
   * type, which is when the run reports that nothing matched.
   */
  lemma {:induction false} NothingMatched(items: seq<Item>, enabled: set<string>)
    requires forall i :: 0 <= i < |items| ==> Backdrops.Total(items[i]) >= 0
    ensures TotalImages(items, enabled) >= 0
    ensures TotalImages(items, enabled) == 0 <==> forall i :: 0 <= i < |items| ==> items[i].imageTypes * enabled == {}
  {
    if items != [] {
      var init, last := items[..|items| - 1], items[|items| - 1];
      NothingMatched(init, enabled);
      var m := last.imageTypes * enabled;
      var b := Backdrops.BackdropType;
      if m != {} {
        if m - {b} == {} {
          assert b in m;
        } else {
          assert |m - {b}| > 0;
        }
      }
      assert forall i :: 0 <= i < |init| ==> init[i] == items[i];
    }
  }

  /** Moving one element from `remaining` to `seen` keeps them a partition of the same set. */
  lemma MoveOne<T>(seen: set<T>, remaining: set<T>, t: T)
    requires seen !! remaining && t in remaining
    ensures t !in seen && (seen + {t}) !! (remaining - {t}) && (seen + {t}) + (remaining - {t}) == seen + remaining
    ensures |remaining - {t}| < |remaining|
  {
    assert remaining == (remaining - {t}) + {t};
  }

  method ItemImageCount(item: Item, enabled: set<string>) returns (n: int)
    ensures n == ItemWeight(item, item.imageTypes * enabled)
  {
    n := 0;
    var remaining := item.imageTypes * enabled;
    ghost var seen: set<string> := {};
    while remaining != {}
      invariant seen !! remaining && seen + remaining == item.imageTypes * enabled
      invariant n == ItemWeight(item, seen)
      decreases |remaining|
    {
      var t :| t in remaining;
      n := n + Increment(item, t);
      ItemWeightStep(item, seen, t);
      MoveOne(seen, remaining, t);
      seen, remaining := seen + {t}, remaining - {t};
    }
  }

  /** The counting loops of `process_discovered_items`: `total_images`. */
  method CountImages(items: seq<Item>, enabled: set<string>) returns (total: int)
    ensures total == TotalImages(items, enabled)
  {
    total := 0;
    for i := 0 to |items|
      invariant total == TotalImages(items[..i], enabled)
    {
      var n := ItemImageCount(items[i], enabled);
      total := total + n;
      assert items[..i + 1][..i] == items[..i];
    }
    assert items[..|items|] == items;
  }

  // ---------------------------------------------------------------- visiting the images of a run

  /** The enabled types among `types`, in the order given, paired with their item. */
  function TypeVisits(item: Item, types: seq<string>, enabled: set<string>): seq<(Item, string)> {
    if types == [] then []
    else
      var last := types[|types| - 1];
      TypeVisits(item, types[..|types| - 1], enabled) + if last in enabled then [(item, last)] else []
  }

  predicate Increasing(types: seq<string>) {
    forall i, j :: 0 <= i < j < |types| ==> Text.LexLess(types[i], types[j])
  }

  lemma {:induction false} TypeVisitsMembers(item: Item, types: seq<string>, enabled: set<string>)
    ensures forall v :: v in TypeVisits(item, types, enabled) <==> v.0 == item && v.1 in types && v.1 in enabled
  {
    if types != [] {
      var init := types[..|types| - 1];
      TypeVisitsMembers(item, init, enabled);
      assert types == init + [types[|types| - 1]];
    }
  }

  /** The visited types are strictly ascending. */
  predicate VisitsIncreasing(visits: seq<(Item, string)>) {
    forall i, j :: 0 <= i < j < |visits| ==> Text.LexLess(visits[i].1, visits[j].1)
  }

  lemma {:induction false} TypeVisitsOrdered(item: Item, types: seq<string>, enabled: set<string>)
    requires Increasing(types)
    ensures VisitsIncreasing(TypeVisits(item, types, enabled))
  {
    if types != [] {
      var init, last := types[..|types| - 1], types[|types| - 1];
      assert Increasing(init) by {
        forall i, j | 0 <= i < j < |init| ensures Text.LexLess(init[i], init[j]) {
          assert init[i] == types[i] && init[j] == types[j];
        }
      }
      TypeVisitsOrdered(item, init, enabled);
      TypeVisitsMembers(item, init, enabled);
      var before := TypeVisits(item, init, enabled);
      var vs := TypeVisits(item, types, enabled);
      if last in enabled {
        assert vs == before + [(item, last)];
        forall i, j | 0 <= i < j < |vs| ensures Text.LexLess(vs[i].1, vs[j].1) {
          if j == |before| {
            assert vs[i] == before[i] && vs[j] == (item, last);
            assert before[i] in before;
            var k :| 0 <= k < |init| && init[k] == vs[i].1;
            assert types[k] == vs[i].1 && k < |types| - 1;
            assert Text.LexLess(types[k], types[|types| - 1]);
          } else {
            assert vs[i] == before[i] && vs[j] == before[j];
          }
        }
      } else {
        assert vs == before;
      }
    }
  }

  /**
   * The types visited for one item are its enabled types, each once, in ascending order:
   * `for image_type in sorted(item.image_types)`, skipping the types not enabled.
   */
  lemma ItemVisitsSorted(item: Item, enabled: set<string>)
    ensures var vs := TypeVisits(item, Text.Sorted(item.imageTypes), enabled);
      && (forall v :: v in vs <==> v.0 == item && v.1 in item.imageTypes * enabled)
      && VisitsIncreasing(vs)
  {
    Text.SortedMembers(item.imageTypes);
    Text.SortedAscending(item.imageTypes);
    TypeVisitsMembers(item, Text.Sorted(item.imageTypes), enabled);
    TypeVisitsOrdered(item, Text.Sorted(item.imageTypes), enabled);
  }

  /** Every (item, type) a run visits, in order; items without an enabled type are passed over. */
  ghost function Visits(items: seq<Item>, enabled: set<string>): seq<(Item, string)> {
    if items == [] then []
    else
      var last := items[|items| - 1];
      Visits(items[..|items| - 1], enabled)
      + if last.imageTypes * enabled == {} then [] else TypeVisits(last, Text.Sorted(last.imageTypes), enabled)
  }

  /** The id an item adds to the processed set: its own, when it has an enabled type and is not empty. */
  function NewId(item: Item, enabled: set<string>): set<string> {
    if item.imageTypes * enabled != {} && item.id != "" then {item.id} else {}
  }

  /** The ids a run counts as processed: those of the items with an enabled type, bar the empty id. */
  function ProcessedIds(items: seq<Item>, enabled: set<string>): (ids: set<string>)
    ensures "" !in ids
  {
    if items == [] then {}
    else ProcessedIds(items[..|items| - 1], enabled) + NewId(items[|items| - 1], enabled)
  }

  /** The processed ids are exactly the non-empty ids of the items with an enabled type. */
  lemma {:induction false} ProcessedIdsMembers(items: seq<Item>, enabled: set<string>, id: string)
    ensures id in ProcessedIds(items, enabled) <==>
      id != "" && exists i :: 0 <= i < |items| && items[i].id == id && items[i].imageTypes * enabled != {}
  {
    if items != [] {
      var init := items[..|items| - 1];
      ProcessedIdsMembers(init, enabled, id);
      assert forall i :: 0 <= i < |init| ==> init[i] == items[i];
    }
  }

  /** One more item adds its own id, if any. */
  lemma ProcessedIdsStep(items: seq<Item>, i: nat, enabled: set<string>, ids0: set<string>, ids: set<string>,
                         ids': set<string>)
    requires i < |items|
    requires ids == ids0 + ProcessedIds(items[..i], enabled) && ids' == ids + NewId(items[i], enabled)
    ensures ids' == ids0 + ProcessedIds(items[..i + 1], enabled)
  {
    assert items[..i + 1][..i] == items[..i] && items[..i + 1][i] == items[i];
  }

  lemma Reassociate<T>(a: seq<T>, b: seq<T>, c: seq<T>)
    ensures a + (b + c) == (a + b) + c
  {
  }

  lemma AddOne(s: set<string>, x: string)
    ensures |s + {x}| == |s| + if x in s then 0 else 1
  {
    if x in s {
      assert s + {x} == s;
    }
  }

  /** Each visit left exactly its own segment of the log. */
  ghost predicate AllFit(visits: seq<(Item, string)>, segs: seq<seq<Client.Call>>,
                         modeTable: map<string, string>, settingsByMode: map<string, Pipeline.Settings>)
    decreases |visits|
  {
    && |segs| == |visits|
    && (visits != [] ==>
          && AllFit(visits[..|visits| - 1], segs[..|segs| - 1], modeTable, settingsByMode)
          && Fits(visits[|visits| - 1], segs[|segs| - 1], modeTable, settingsByMode))
  }

  /** Visit `k` left segment `k`. */
  lemma {:induction false} AllFitAt(visits: seq<(Item, string)>, segs: seq<seq<Client.Call>>,
                                    modeTable: map<string, string>, settingsByMode: map<string, Pipeline.Settings>, k: nat)
    requires AllFit(visits, segs, modeTable, settingsByMode) && k < |visits|
    ensures Fits(visits[k], segs[k], modeTable, settingsByMode)
    decreases |visits|
  {
    if k < |visits| - 1 {
      AllFitAt(visits[..|visits| - 1], segs[..|segs| - 1], modeTable, settingsByMode, k);
    }
  }

  lemma AllFitSnoc(visits: seq<(Item, string)>, segs: seq<seq<Client.Call>>, v: (Item, string), seg: seq<Client.Call>,
                   modeTable: map<string, string>, settingsByMode: map<string, Pipeline.Settings>)
    requires AllFit(visits, segs, modeTable, settingsByMode) && Fits(v, seg, modeTable, settingsByMode)
    ensures AllFit(visits + [v], segs + [seg], modeTable, settingsByMode)
  {
    SnocParts(visits, v);
    SnocParts(segs, seg);
  }

  lemma {:induction false} AllFitAppend(v1: seq<(Item, string)>, s1: seq<seq<Client.Call>>,
                                        v2: seq<(Item, string)>, s2: seq<seq<Client.Call>>,
                                        modeTable: map<string, string>, settingsByMode: map<string, Pipeline.Settings>)
    requires AllFit(v1, s1, modeTable, settingsByMode) && AllFit(v2, s2, modeTable, settingsByMode)
    ensures AllFit(v1 + v2, s1 + s2, modeTable, settingsByMode)
    decreases |v2|
  {
    if v2 == [] {
      assert v1 + v2 == v1 && s1 + s2 == s1;
    } else {
      var vi, si := v2[..|v2| - 1], s2[..|s2| - 1];
      AllFitAppend(v1, s1, vi, si, modeTable, settingsByMode);
      SplitLast(v1, v2);
      SplitLast(s1, s2);
      AllFitSnoc(v1 + vi, s1 + si, v2[|v2| - 1], s2[|s2| - 1], modeTable, settingsByMode);
    }
  }

  lemma SnocParts<T>(a: seq<T>, x: T)
    ensures (a + [x])[..|a|] == a && (a + [x])[|a|] == x && |a + [x]| == |a| + 1
  {
  }

  lemma SplitLast<T>(a: seq<T>, b: seq<T>)
    requires b != []
    ensures a + b == (a + b[..|b| - 1]) + [b[|b| - 1]]
  {
    assert b == b[..|b| - 1] + [b[|b| - 1]];
  }

  lemma {:induction false} FlattenConcat<T>(a: seq<seq<T>>, b: seq<seq<T>>)
    ensures Discovery.Flatten(a + b) == Discovery.Flatten(a) + Discovery.Flatten(b)
    decreases |b|
  {
    if b == [] {
      assert a + b == a;
    } else {
      var init, last := b[..|b| - 1], b[|b| - 1];
      assert a + b == (a + init) + [last];
      assert b == init + [last];
      FlattenConcat(a, init);
      Discovery.FlattenAppend(a + init, last);
      Discovery.FlattenAppend(init, last);
    }
  }

  /** Where the visit of one item's types stands: `done` visited in order, `remaining` still to come. */
  ghost predicate ItemProgress(item: Item, enabled: set<string>, remaining: set<string>, done: seq<string>, weight: int,
                               visits: seq<(Item, string)>, segs: seq<seq<Client.Call>>, log0: seq<Client.Call>,
                               log: seq<Client.Call>, modeTable: map<string, string>,
                               settingsByMode: map<string, Pipeline.Settings>) {
    && remaining <= item.imageTypes
    && Text.Sorted(item.imageTypes) == done + Text.Sorted(remaining)
    && weight == ItemWeight(item, (item.imageTypes - remaining) * enabled)
    && visits == TypeVisits(item, done, enabled)
    && log == log0 + Discovery.Flatten(segs) && AllFit(visits, segs, modeTable, settingsByMode)
  }

  /** One turn of the type loop: take the least remaining type and normalise it when it is enabled. */
  method VisitLeast(codec: Pipeline.Codec, g: State.Globals, fs: FileSystem, client: Client.MediaClient,
                    item: Item, enabled: set<string>, settingsByMode: map<string, Pipeline.Settings>,
                    modeTable: map<string, string>, dryRun: bool, forceUpload: bool, makeBackup: bool,
                    root: Path, backupMode: string, remaining: set<string>, weight: int,
                    ghost done: seq<string>, ghost visits: seq<(Item, string)>, ghost segs: seq<seq<Client.Call>>,
                    ghost log0: seq<Client.Call>)
    returns (remaining': set<string>, weight': int, ghost done': seq<string>, ghost visits': seq<(Item, string)>,
             ghost segs': seq<seq<Client.Call>>)
    requires remaining != {}
    requires ItemProgress(item, enabled, remaining, done, weight, visits, segs, log0, client.log, modeTable, settingsByMode)
    modifies g, g.stats, fs, client
    ensures ItemProgress(item, enabled, remaining', done', weight', visits', segs', log0, client.log, modeTable, settingsByMode)
    ensures |remaining'| < |remaining|
    ensures g.stats == old(g.stats) && g.stats.processedIds == old(g.stats.processedIds) && g.dryRun == old(g.dryRun)
    ensures g.stats.processed == old(g.stats.processed) && g.stats.imagesFound == old(g.stats.imagesFound)
  {
    Text.LeastExists(remaining);
    var t :| t in remaining && Text.IsLeast(t, remaining);
    ghost var seg: seq<Client.Call> := [];
    if t in enabled {
      var ok;
      ok, seg := NormalizeItemImage(codec, g, fs, client, item, t, settingsByMode, modeTable, dryRun, forceUpload,
                                   makeBackup, root, backupMode);
      weight', visits', segs' := weight + Increment(item, t), visits + [(item, t)], segs + [seg];
    } else {
      weight', visits', segs' := weight, visits, segs;
    }
    VisitStep(item, enabled, remaining, done, weight, visits, segs, log0, old(client.log), t, seg, modeTable, settingsByMode);
    done', remaining' := done + [t], remaining - {t};
  }

  /** Visiting the least remaining type keeps the progress of the type loop. */
  lemma VisitStep(item: Item, enabled: set<string>, remaining: set<string>, done: seq<string>, weight: int,
                  visits: seq<(Item, string)>, segs: seq<seq<Client.Call>>, log0: seq<Client.Call>, log: seq<Client.Call>,
                  t: string, seg: seq<Client.Call>, modeTable: map<string, string>,
                  settingsByMode: map<string, Pipeline.Settings>)
    requires ItemProgress(item, enabled, remaining, done, weight, visits, segs, log0, log, modeTable, settingsByMode)
    requires t in remaining && Text.IsLeast(t, remaining)
    requires t in enabled ==> Fits((item, t), seg, modeTable, settingsByMode)
    requires t !in enabled ==> seg == []
    ensures t in enabled ==>
      ItemProgress(item, enabled, remaining - {t}, done + [t], weight + Increment(item, t), visits + [(item, t)],
                   segs + [seg], log0, log + seg, modeTable, settingsByMode)
    ensures t !in enabled ==>
      ItemProgress(item, enabled, remaining - {t}, done + [t], weight, visits, segs, log0, log + seg, modeTable, settingsByMode)
  {
    SortedProgress(item.imageTypes, remaining, done, t);
    WeightProgress(item, enabled, remaining, t);
    TypeVisitsSnoc(item, done, t, enabled);
    if t in enabled {
      LogProgress(log0, log, segs, seg);
      AllFitSnoc(visits, segs, (item, t), seg, modeTable, settingsByMode);
    } else {
      assert log + seg == log;
    }
  }

  lemma TypeVisitsSnoc(item: Item, done: seq<string>, t: string, enabled: set<string>)
    ensures TypeVisits(item, done + [t], enabled) == TypeVisits(item, done, enabled) + if t in enabled then [(item, t)] else []
  {
    SnocParts(done, t);
  }

  lemma SortedProgress(types: set<string>, remaining: set<string>, done: seq<string>, t: string)
    requires Text.Sorted(types) == done + Text.Sorted(remaining)
    requires t in remaining && Text.IsLeast(t, remaining)
    ensures Text.Sorted(types) == (done + [t]) + Text.Sorted(remaining - {t})
  {
    Text.SortedStep(remaining, t);
    Reassociate(done, [t], Text.Sorted(remaining - {t}));
  }

  lemma WeightProgress(item: Item, enabled: set<string>, remaining: set<string>, t: string)
    requires t in remaining && remaining <= item.imageTypes
    ensures ItemWeight(item, (item.imageTypes - (remaining - {t})) * enabled)
            == ItemWeight(item, (item.imageTypes - remaining) * enabled) + if t in enabled then Increment(item, t) else 0
  {
    var before := (item.imageTypes - remaining) * enabled;
    if t in enabled {
      ItemWeightStep(item, before, t);
      assert (item.imageTypes - (remaining - {t})) * enabled == before + {t};
    } else {
      assert (item.imageTypes - (remaining - {t})) * enabled == before;
    }
  }

  lemma LogProgress(log0: seq<Client.Call>, log: seq<Client.Call>, segs: seq<seq<Client.Call>>, seg: seq<Client.Call>)
    requires log == log0 + Discovery.Flatten(segs)
    ensures log + seg == log0 + Discovery.Flatten(segs + [seg])
  {
    Discovery.FlattenAppend(segs, seg);
    Reassociate(log0, Discovery.Flatten(segs), seg);
  }

  /**
   * The body of the item loop of `process_discovered_items` for an item with an enabled type:
   * count the item once, then normalise its enabled types in ascending order. `weight` is what
   * the item adds to the processed-image count.
   */
  method ProcessItem(codec: Pipeline.Codec, g: State.Globals, fs: FileSystem, client: Client.MediaClient,
                     item: Item, enabled: set<string>, settingsByMode: map<string, Pipeline.Settings>,
                     modeTable: map<string, string>, dryRun: bool, forceUpload: bool, makeBackup: bool,
                     root: Path, backupMode: string)
    returns (weight: int, ghost visits: seq<(Item, string)>, ghost segs: seq<seq<Client.Call>>)
    requires item.imageTypes * enabled != {}
    modifies g, g.stats, fs, client
    ensures weight == ItemWeight(item, item.imageTypes * enabled)
    ensures visits == TypeVisits(item, Text.Sorted(item.imageTypes), enabled)
    ensures client.log == old(client.log) + Discovery.Flatten(segs) && AllFit(visits, segs, modeTable, settingsByMode)
    ensures g.stats == old(g.stats) && g.stats.imagesFound == old(g.stats.imagesFound) && g.dryRun == old(g.dryRun)
    ensures g.stats.processedIds == old(g.stats.processedIds) + if item.id == "" then {} else {item.id}
    ensures g.stats.processed - |g.stats.processedIds| == old(g.stats.processed - |g.stats.processedIds|)
  {
    if item.id != "" {
      AddOne(g.stats.processedIds, item.id);
    }
    g.stats.RecordItemProcessed(item.id);
    weight, visits, segs := VisitTypes(codec, g, fs, client, item, enabled, settingsByMode, modeTable, dryRun,
                                       forceUpload, makeBackup, root, backupMode);
  }

  /** The type loop of one item: every type, ascending, with the enabled ones normalised. */
  method VisitTypes(codec: Pipeline.Codec, g: State.Globals, fs: FileSystem, client: Client.MediaClient,
                    item: Item, enabled: set<string>, settingsByMode: map<string, Pipeline.Settings>,
                    modeTable: map<string, string>, dryRun: bool, forceUpload: bool, makeBackup: bool,
                    root: Path, backupMode: string)
    returns (weight: int, ghost visits: seq<(Item, string)>, ghost segs: seq<seq<Client.Call>>)
    modifies g, g.stats, fs, client
    ensures weight == ItemWeight(item, item.imageTypes * enabled)
    ensures visits == TypeVisits(item, Text.Sorted(item.imageTypes), enabled)
    ensures client.log == old(client.log) + Discovery.Flatten(segs) && AllFit(visits, segs, modeTable, settingsByMode)
    ensures g.stats == old(g.stats) && g.stats.imagesFound == old(g.stats.imagesFound) && g.dryRun == old(g.dryRun)
    ensures g.stats.processedIds == old(g.stats.processedIds) && g.stats.processed == old(g.stats.processed)
  {
    weight, visits, segs := 0, [], [];
    var remaining := item.imageTypes;
    ghost var done: seq<string> := [];
    ghost var log0 := client.log;
    while remaining != {}
      invariant ItemProgress(item, enabled, remaining, done, weight, visits, segs, log0, client.log, modeTable, settingsByMode)
      invariant g.stats == old(g.stats) && g.stats.imagesFound == old(g.stats.imagesFound) && g.dryRun == old(g.dryRun)
      invariant g.stats.processedIds == old(g.stats.processedIds) && g.stats.processed == old(g.stats.processed)
      decreases |remaining|
    {
      remaining, weight, done, visits, segs := VisitLeast(codec, g, fs, client, item, enabled, settingsByMode, modeTable,
                                                          dryRun, forceUpload, makeBackup, root, backupMode,
                                                          remaining, weight, done, visits, segs, log0);
    }
    ItemProgressDone(item, enabled, done, weight, visits, segs, log0, client.log, modeTable, settingsByMode);
  }

  /** Once no type remains, the type loop has visited every type and added the whole weight. */
  lemma ItemProgressDone(item: Item, enabled: set<string>, done: seq<string>, weight: int,
                         visits: seq<(Item, string)>, segs: seq<seq<Client.Call>>, log0: seq<Client.Call>,
                         log: seq<Client.Call>, modeTable: map<string, string>,
                         settingsByMode: map<string, Pipeline.Settings>)
    requires ItemProgress(item, enabled, {}, done, weight, visits, segs, log0, log, modeTable, settingsByMode)
    ensures weight == ItemWeight(item, item.imageTypes * enabled)
    ensures visits == TypeVisits(item, Text.Sorted(item.imageTypes), enabled)
  {
    assert Text.Sorted({}) == [] && done + Text.Sorted({}) == done;
    assert item.imageTypes - {} == item.imageTypes;
  }

  /** Where the item loop stands after the first `i` items. */
  ghost predicate RunProgress(items: seq<Item>, i: nat, enabled: set<string>, processedImages: int,
                              visits: seq<(Item, string)>, segs: seq<seq<Client.Call>>, log0: seq<Client.Call>,
                              log: seq<Client.Call>, modeTable: map<string, string>,
                              settingsByMode: map<string, Pipeline.Settings>)
    requires i <= |items|
  {
    && processedImages == TotalImages(items[..i], enabled)
    && visits == Visits(items[..i], enabled)
    && log == log0 + Discovery.Flatten(segs) && AllFit(visits, segs, modeTable, settingsByMode)
  }

  /** One turn of the item loop: pass over an item without enabled types, otherwise process it. */
  method VisitItem(codec: Pipeline.Codec, g: State.Globals, fs: FileSystem, client: Client.MediaClient,
                   items: seq<Item>, i: nat, enabled: set<string>, settingsByMode: map<string, Pipeline.Settings>,
                   modeTable: map<string, string>, dryRun: bool, forceUpload: bool, makeBackup: bool,
                   root: Path, backupMode: string, processedImages: int,
                   ghost visits: seq<(Item, string)>, ghost segs: seq<seq<Client.Call>>, ghost log0: seq<Client.Call>,
                   ghost ids0: set<string>)
    returns (processedImages': int, ghost visits': seq<(Item, string)>, ghost segs': seq<seq<Client.Call>>)
    requires i < |items|
    requires RunProgress(items, i, enabled, processedImages, visits, segs, log0, client.log, modeTable, settingsByMode)
    requires g.stats.processedIds == ids0 + ProcessedIds(items[..i], enabled)
    modifies g, g.stats, fs, client
    ensures RunProgress(items, i + 1, enabled, processedImages', visits', segs', log0, client.log, modeTable, settingsByMode)
    ensures g.stats == old(g.stats) && g.stats.imagesFound == old(g.stats.imagesFound) && g.dryRun == old(g.dryRun)
    ensures g.stats.processedIds == ids0 + ProcessedIds(items[..i + 1], enabled)
    ensures g.stats.processed - |g.stats.processedIds| == old(g.stats.processed - |g.stats.processedIds|)
  {
    var w, vs, ss := ItemContribution(codec, g, fs, client, items[i], enabled, settingsByMode, modeTable, dryRun,
                                      forceUpload, makeBackup, root, backupMode);
    RunStep(items, i, enabled, processedImages, visits, segs, log0, old(client.log), client.log, w, vs, ss,
            modeTable, settingsByMode);
    ProcessedIdsStep(items, i, enabled, ids0, old(g.stats.processedIds), g.stats.processedIds);
    processedImages', visits', segs' := processedImages + w, visits + vs, segs + ss;
  }

  /** What one item adds to the run: nothing without an enabled type, otherwise its weight and visits. */
  method ItemContribution(codec: Pipeline.Codec, g: State.Globals, fs: FileSystem, client: Client.MediaClient,
                          item: Item, enabled: set<string>, settingsByMode: map<string, Pipeline.Settings>,
                          modeTable: map<string, string>, dryRun: bool, forceUpload: bool, makeBackup: bool,
                          root: Path, backupMode: string)
    returns (w: int, ghost vs: seq<(Item, string)>, ghost ss: seq<seq<Client.Call>>)
    modifies g, g.stats, fs, client
    ensures item.imageTypes * enabled == {} ==> w == 0 && vs == [] && ss == [] && client.log == old(client.log)
    ensures item.imageTypes * enabled != {} ==>
      && w == ItemWeight(item, item.imageTypes * enabled)
      && vs == TypeVisits(item, Text.Sorted(item.imageTypes), enabled)
      && client.log == old(client.log) + Discovery.Flatten(ss) && AllFit(vs, ss, modeTable, settingsByMode)
    ensures g.stats == old(g.stats) && g.stats.imagesFound == old(g.stats.imagesFound) && g.dryRun == old(g.dryRun)
    ensures g.stats.processedIds == old(g.stats.processedIds) + NewId(item, enabled)
    ensures g.stats.processed - |g.stats.processedIds| == old(g.stats.processed - |g.stats.processedIds|)
  {
    w, vs, ss := 0, [], [];
    if item.imageTypes * enabled != {} {
      w, vs, ss := ProcessItem(codec, g, fs, client, item, enabled, settingsByMode, modeTable, dryRun, forceUpload,
                               makeBackup, root, backupMode);
    }
  }

  /** Adding what one item contributed keeps the progress of the item loop. */
  lemma RunStep(items: seq<Item>, i: nat, enabled: set<string>, processedImages: int,
                visits: seq<(Item, string)>, segs: seq<seq<Client.Call>>, log0: seq<Client.Call>,
                log: seq<Client.Call>, log': seq<Client.Call>, w: int, vs: seq<(Item, string)>,
                ss: seq<seq<Client.Call>>, modeTable: map<string, string>,
                settingsByMode: map<string, Pipeline.Settings>)
    requires i < |items|
    requires RunProgress(items, i, enabled, processedImages, visits, segs, log0, log, modeTable, settingsByMode)
    requires items[i].imageTypes * enabled == {} ==> w == 0 && vs == [] && ss == [] && log' == log
    requires items[i].imageTypes * enabled != {} ==>
      && w == ItemWeight(items[i], items[i].imageTypes * enabled)
      && vs == TypeVisits(items[i], Text.Sorted(items[i].imageTypes), enabled)
      && log' == log + Discovery.Flatten(ss) && AllFit(vs, ss, modeTable, settingsByMode)
    ensures RunProgress(items, i + 1, enabled, processedImages + w, visits + vs, segs + ss, log0, log', modeTable, settingsByMode)
  {
    var item := items[i];
    TotalStep(items, i, enabled);
    VisitsStep(items, i, enabled);
    if item.imageTypes * enabled == {} {
      assert |(item.imageTypes * enabled) - {Backdrops.BackdropType}| == 0;
      assert visits + vs == visits && segs + ss == segs;
    } else {
      FlattenConcat(segs, ss);
      Reassociate(log0, Discovery.Flatten(segs), Discovery.Flatten(ss));
      AllFitAppend(visits, segs, vs, ss, modeTable, settingsByMode);
    }
  }

  lemma TotalStep(items: seq<Item>, i: nat, enabled: set<string>)
    requires i < |items|
    ensures TotalImages(items[..i + 1], enabled) == TotalImages(items[..i], enabled) + ItemWeight(items[i], items[i].imageTypes * enabled)
  {
    assert items[..i + 1][..i] == items[..i] && items[..i + 1][i] == items[i];
  }

  lemma VisitsStep(items: seq<Item>, i: nat, enabled: set<string>)
    requires i < |items|
    ensures Visits(items[..i + 1], enabled) == Visits(items[..i], enabled)
      + if items[i].imageTypes * enabled == {} then [] else TypeVisits(items[i], Text.Sorted(items[i].imageTypes), enabled)
  {
    assert items[..i + 1][..i] == items[..i] && items[..i + 1][i] == items[i];
  }

  /** The item loop of `process_discovered_items`, once the run has found images to process. */
  method ProcessItems(codec: Pipeline.Codec, g: State.Globals, fs: FileSystem, client: Client.MediaClient,
                      items: seq<Item>, enabled: set<string>, settingsByMode: map<string, Pipeline.Settings>,
                      modeTable: map<string, string>, dryRun: bool, forceUpload: bool, makeBackup: bool,
                      root: Path, backupMode: string)
    returns (processedImages: int, ghost visits: seq<(Item, string)>, ghost segs: seq<seq<Client.Call>>)
    modifies g, g.stats, fs, client
    ensures processedImages == TotalImages(items, enabled)
    ensures visits == Visits(items, enabled)
    ensures client.log == old(client.log) + Discovery.Flatten(segs) && AllFit(visits, segs, modeTable, settingsByMode)
    ensures g.stats == old(g.stats) && g.stats.imagesFound == old(g.stats.imagesFound) && g.dryRun == old(g.dryRun)
    ensures g.stats.processedIds == old(g.stats.processedIds) + ProcessedIds(items, enabled)
    ensures g.stats.processed - |g.stats.processedIds| == old(g.stats.processed - |g.stats.processedIds|)
  {
    processedImages, visits, segs := 0, [], [];
    ghost var log0 := client.log;
    for i := 0 to |items|
      invariant RunProgress(items, i, enabled, processedImages, visits, segs, log0, client.log, modeTable, settingsByMode)
      invariant g.stats == old(g.stats) && g.stats.imagesFound == old(g.stats.imagesFound) && g.dryRun == old(g.dryRun)
      invariant g.stats.processedIds == old(g.stats.processedIds) + ProcessedIds(items[..i], enabled)
      invariant g.stats.processed - |g.stats.processedIds| == old(g.stats.processed - |g.stats.processedIds|)
    {
      processedImages, visits, segs := VisitItem(codec, g, fs, client, items, i, enabled, settingsByMode, modeTable,
                                                 dryRun, forceUpload, makeBackup, root, backupMode,
                                                 processedImages, visits, segs, log0, old(g.stats.processedIds));
    }
    assert items[..|items|] == items;
  }

  /**
   * `process_discovered_items`: record the number of images the enabled types select; when it
   * is zero nothing else happens; otherwise every selected image is visited, items in order and
   * each item's types ascending, and the processed-image count ends at the total.
   */
  method ProcessDiscoveredItems(codec: Pipeline.Codec, g: State.Globals, fs: FileSystem, client: Client.MediaClient,
                                items: seq<Item>, settingsByMode: map<string, Pipeline.Settings>,
                                modeTable: map<string, string>, dryRun: bool, forceUpload: bool,
                                enabledTypes: seq<string>, makeBackup: bool, root: Path, backupMode: string)
    returns (processedImages: int, ghost visits: seq<(Item, string)>, ghost segs: seq<seq<Client.Call>>)
    modifies g, g.stats, fs, client
    ensures var total := TotalImages(items, EnabledSet(enabledTypes));
      g.stats.imagesFound == old(g.stats.imagesFound) + (if total < 0 then 0 else total)
    ensures TotalImages(items, EnabledSet(enabledTypes)) == 0 ==>
      && processedImages == 0 && visits == [] && client.log == old(client.log) && fs.files == old(fs.files)
      && g.stats.Snapshot() == old(g.stats.Snapshot()) && g.stats.processedIds == old(g.stats.processedIds)
      && g.stats.failedItems == old(g.stats.failedItems) && g.apiFailures == old(g.apiFailures)
      && g.upscaled == old(g.upscaled) && g.downscaled == old(g.downscaled)
    ensures TotalImages(items, EnabledSet(enabledTypes)) != 0 ==>
      && processedImages == TotalImages(items, EnabledSet(enabledTypes))
      && visits == Visits(items, EnabledSet(enabledTypes))
      && g.stats.processedIds == old(g.stats.processedIds) + ProcessedIds(items, EnabledSet(enabledTypes))
    ensures client.log == old(client.log) + Discovery.Flatten(segs) && AllFit(visits, segs, modeTable, settingsByMode)
    ensures g.stats == old(g.stats) && g.dryRun == old(g.dryRun)
    ensures g.stats.processed - |g.stats.processedIds| == old(g.stats.processed - |g.stats.processedIds|)
  {
    var enabled := EnabledSet(enabledTypes);
    var total := CountImages(items, enabled);
    g.stats.RecordImagesFound(total);
    if total == 0 {
      return 0, [], [];
    }
    processedImages, visits, segs := ProcessItems(codec, g, fs, client, items, enabled, settingsByMode, modeTable,
                                                  dryRun, forceUpload, makeBackup, root, backupMode);
  }
}

=== FILE: imaging.dfy ===
/**
 * Resize planning and the NO_SCALE policy. Pixels are not modelled: an image is its size,
 * its colour mode and its EXIF orientation tag, and only sizes, offsets and dispatch tags
 * are computed here.
 */
module Imaging {
  import opened Wrappers
  import opened Numbers
  import State
  import Text

  // ---------------------------------------------------------------- scale plans

  datatype Decision = ScaleUp | ScaleDown | NoScale

  function DecisionName(d: Decision): (s: string)
    ensures s in {"SCALE_UP", "SCALE_DOWN", "NO_SCALE"}
    ensures (s == "NO_SCALE") <==> d == NoScale
  {
    match d
    case ScaleUp => "SCALE_UP"
    case ScaleDown => "SCALE_DOWN"
    case NoScale => "NO_SCALE"
  }

  datatype ScalePlan = ScalePlan(decision: Decision, scale: real, newWidth: int, newHeight: int, origWidth: int, origHeight: int)
  {
    predicate IsNoScale() { decision == NoScale }
  }

  /** The unclamped ratio: the smaller axis ratio for "fit", the larger for "cover". */
  function RawScale(origW: int, origH: int, targetW: int, targetH: int, cover: bool): (s: real)
    requires origW > 0 && origH > 0
    ensures !cover ==> origW as real * s <= targetW as real && origH as real * s <= targetH as real
    ensures cover ==> origW as real * s >= targetW as real && origH as real * s >= targetH as real
    ensures origW as real * s == targetW as real || origH as real * s == targetH as real
  {
    var sw := targetW as real / origW as real;
    var sh := targetH as real / origH as real;
    if cover then (if sw >= sh then sw else sh) else (if sw <= sh then sw else sh)
  }

  /** Clamps a ratio to 1 in a direction that is not allowed. */
  function Clamp(raw: real, allowUp: bool, allowDown: bool): (s: real)
    ensures !allowUp ==> s <= 1.0
    ensures !allowDown ==> s >= 1.0
    ensures s == raw || s == 1.0
    ensures (allowUp || raw <= 1.0) && (allowDown || raw >= 1.0) ==> s == raw
  {
    var a := if !allowUp && raw > 1.0 then 1.0 else raw;
    if !allowDown && a < 1.0 then 1.0 else a
  }

  datatype Scaled = Scaled(scale: real, newWidth: int, newHeight: int)

  /** `int(round(n * scale))` for one axis. */
  function ScaleAxis(n: int, scale: real): int {
    RoundHalfEven(n as real * scale)
  }

  /** An axis scaled to at most (at least) an integer bound stays at most (at least) that bound. */
  lemma ScaleAxisBounds(n: int, scale: real, bound: int)
    ensures n as real * scale <= bound as real ==> ScaleAxis(n, scale) <= bound
    ensures bound as real <= n as real * scale ==> bound <= ScaleAxis(n, scale)
  {
    RoundBounds(n as real * scale, bound);
  }

  lemma MulMonotone(n: real, a: real, b: real)
    requires n >= 0.0 && a <= b
    ensures n * a <= n * b
  {
  }

  /** The scale and the rounded new size of an image for a fit mode; any other fit mode is an error. */
  function ComputeScaledSize(origW: int, origH: int, targetW: int, targetH: int, fitMode: string,
                             allowUp: bool, allowDown: bool): (r: Result<Scaled, string>)
    requires origW > 0 && origH > 0
    ensures r.Failure? <==> fitMode != "fit" && fitMode != "cover"
    ensures r.Success? ==>
      && r.value.scale == Clamp(RawScale(origW, origH, targetW, targetH, fitMode == "cover"), allowUp, allowDown)
      && r.value.newWidth == ScaleAxis(origW, r.value.scale)
      && r.value.newHeight == ScaleAxis(origH, r.value.scale)
    ensures r.Failure? ==> r.error == "Invalid fit_mode: '" + fitMode + "'"
  {
    if fitMode != "fit" && fitMode != "cover" then Failure("Invalid fit_mode: '" + fitMode + "'")
    else
      var scale := Clamp(RawScale(origW, origH, targetW, targetH, fitMode == "cover"), allowUp, allowDown);
      Success(Scaled(scale, ScaleAxis(origW, scale), ScaleAxis(origH, scale)))
  }

  function MakeScalePlan(origW: int, origH: int, targetW: int, targetH: int, fitMode: string,
                         allowUp: bool, allowDown: bool): (r: Result<ScalePlan, string>)
    requires origW > 0 && origH > 0
    ensures r.Failure? <==> fitMode != "fit" && fitMode != "cover"
    ensures r.Success? ==>
      && r.value.origWidth == origW && r.value.origHeight == origH
      && (r.value.decision == ScaleUp <==> r.value.scale > 1.0)
      && (r.value.decision == ScaleDown <==> r.value.scale < 1.0)
      && (r.value.IsNoScale() <==> r.value.scale == 1.0)
  {
    match ComputeScaledSize(origW, origH, targetW, targetH, fitMode, allowUp, allowDown)
    case Failure(e) => Failure(e)
    case Success(s) =>
      var decision := if s.scale > 1.0 then ScaleUp else if s.scale < 1.0 then ScaleDown else NoScale;
      Success(ScalePlan(decision, s.scale, s.newWidth, s.newHeight, origW, origH))
  }

  /** A successful plan carries the scale and the new size that `ComputeScaledSize` computes. */
  lemma PlanSizes(origW: int, origH: int, targetW: int, targetH: int, fitMode: string, allowUp: bool, allowDown: bool)
    requires origW > 0 && origH > 0
    requires MakeScalePlan(origW, origH, targetW, targetH, fitMode, allowUp, allowDown).Success?
    ensures var p := MakeScalePlan(origW, origH, targetW, targetH, fitMode, allowUp, allowDown).value;
      var s := ComputeScaledSize(origW, origH, targetW, targetH, fitMode, allowUp, allowDown);
      && s.Success? && p.scale == s.value.scale
      && p.newWidth == s.value.newWidth && p.newHeight == s.value.newHeight
  {
  }

  /** Under NO_SCALE the new size is the original size. */
  lemma NoScaleKeepsSize(origW: int, origH: int, targetW: int, targetH: int, fitMode: string, allowUp: bool, allowDown: bool)
    requires origW > 0 && origH > 0
    requires MakeScalePlan(origW, origH, targetW, targetH, fitMode, allowUp, allowDown).Success?
    requires MakeScalePlan(origW, origH, targetW, targetH, fitMode, allowUp, allowDown).value.IsNoScale()
    ensures MakeScalePlan(origW, origH, targetW, targetH, fitMode, allowUp, allowDown).value.newWidth == origW
    ensures MakeScalePlan(origW, origH, targetW, targetH, fitMode, allowUp, allowDown).value.newHeight == origH
  {
    var p := MakeScalePlan(origW, origH, targetW, targetH, fitMode, allowUp, allowDown).value;
    assert p.scale == 1.0;
    ScaleAxisBounds(origW, 1.0, origW);
    ScaleAxisBounds(origH, 1.0, origH);
  }

  /** With neither direction allowed every image is NO_SCALE. */
  lemma NeitherDirectionMeansNoScale(origW: int, origH: int, targetW: int, targetH: int, fitMode: string)
    requires origW > 0 && origH > 0 && (fitMode == "fit" || fitMode == "cover")
    ensures MakeScalePlan(origW, origH, targetW, targetH, fitMode, false, false).value.IsNoScale()
  {
  }

  /** SCALE_DOWN never grows an axis and SCALE_UP never shrinks one. */
  lemma DecisionBoundsSize(origW: int, origH: int, targetW: int, targetH: int, fitMode: string, allowUp: bool, allowDown: bool)
    requires origW > 0 && origH > 0
    requires MakeScalePlan(origW, origH, targetW, targetH, fitMode, allowUp, allowDown).Success?
    ensures var p := MakeScalePlan(origW, origH, targetW, targetH, fitMode, allowUp, allowDown).value;
      && (p.decision == ScaleDown ==> p.newWidth <= origW && p.newHeight <= origH)
      && (p.decision == ScaleUp ==> p.newWidth >= origW && p.newHeight >= origH)
  {
    var p := MakeScalePlan(origW, origH, targetW, targetH, fitMode, allowUp, allowDown).value;
    if p.decision == ScaleDown {
      MulMonotone(origW as real, p.scale, 1.0);
      MulMonotone(origH as real, p.scale, 1.0);
    }
    if p.decision == ScaleUp {
      MulMonotone(origW as real, 1.0, p.scale);
      MulMonotone(origH as real, 1.0, p.scale);
    }
    ScaleAxisBounds(origW, p.scale, origW);
    ScaleAxisBounds(origH, p.scale, origH);
  }

  /** One axis of a "fit" plan: if the unclamped ratio keeps it inside `bound`, so does the clamped one. */
  lemma FitAxisInside(n: int, raw: real, bound: int, allowUp: bool)
    requires n > 0 && n as real * raw <= bound as real
    ensures ScaleAxis(n, Clamp(raw, allowUp, true)) <= bound
  {
    var s := Clamp(raw, allowUp, true);
    if s != raw {
      // clamped to 1 because the ratio was above 1: the original already fits
      MulMonotone(n as real, 1.0, raw);
    }
    ScaleAxisBounds(n, s, bound);
  }

  /** One axis of a "cover" plan: if the unclamped ratio reaches `bound`, so does the clamped one. */
  lemma CoverAxisReaches(n: int, raw: real, bound: int, allowDown: bool)
    requires n > 0 && bound as real <= n as real * raw
    ensures bound <= ScaleAxis(n, Clamp(raw, true, allowDown))
  {
    var s := Clamp(raw, true, allowDown);
    if s != raw {
      // clamped to 1 because the ratio was below 1: the original already covers
      MulMonotone(n as real, raw, 1.0);
    }
    ScaleAxisBounds(n, s, bound);
  }

  /** "fit" with downscaling allowed lands inside the target box. */
  lemma FitStaysInsideTarget(origW: int, origH: int, targetW: int, targetH: int, allowUp: bool)
    requires origW > 0 && origH > 0
    ensures var p := MakeScalePlan(origW, origH, targetW, targetH, "fit", allowUp, true).value;
      p.newWidth <= targetW && p.newHeight <= targetH
  {
    var raw := RawScale(origW, origH, targetW, targetH, false);
    FitAxisInside(origW, raw, targetW, allowUp);
    FitAxisInside(origH, raw, targetH, allowUp);
  }

  /** "cover" with upscaling allowed covers the whole target box. */
  lemma CoverFillsTarget(origW: int, origH: int, targetW: int, targetH: int, allowDown: bool)
    requires origW > 0 && origH > 0
    ensures var p := MakeScalePlan(origW, origH, targetW, targetH, "cover", true, allowDown).value;
      p.newWidth >= targetW && p.newHeight >= targetH
  {
    var raw := RawScale(origW, origH, targetW, targetH, true);
    CoverAxisReaches(origW, raw, targetW, allowDown);
    CoverAxisReaches(origH, raw, targetH, allowDown);
  }

  /** Appends an upscaled or downscaled plan to the run's report lists; NO_SCALE is not reported. */
  method RecordScaleDecision(g: State.Globals, name: string, plan: ScalePlan)
    modifies g
    ensures var rec := State.ScaleRecord(name, plan.origWidth, plan.origHeight, plan.newWidth, plan.newHeight);
      && g.upscaled == (if plan.decision == ScaleUp then old(g.upscaled) + [rec] else old(g.upscaled))
      && g.downscaled == (if plan.decision == ScaleDown then old(g.downscaled) + [rec] else old(g.downscaled))
    ensures g.stats == old(g.stats) && g.apiFailures == old(g.apiFailures) && g.dryRun == old(g.dryRun)
  {
    var rec := State.ScaleRecord(name, plan.origWidth, plan.origHeight, plan.newWidth, plan.newHeight);
    if plan.decision == ScaleUp {
      g.upscaled := g.upscaled + [rec];
    } else if plan.decision == ScaleDown {
      g.downscaled := g.downscaled + [rec];
    }
  }

  // ---------------------------------------------------------------- the NO_SCALE handler

  /** What the optional upload callback returns when it is called: success and an error text. */
  type UploadResult = (bool, Option<string>)

  /** Which counter the NO_SCALE handler bumps, or that it lets processing continue. */
  datatype NoScaleOutcome = Continue | CountSkip | CountSuccess | CountError(reason: string)

  /** The handler calls the upload callback only for a NO_SCALE plan outside dry-run with a forced upload and a callback. */
  predicate NoScaleCallsUpload(plan: ScalePlan, dryRun: bool, forceUpload: bool, hasUpload: bool) {
    plan.IsNoScale() && !dryRun && forceUpload && hasUpload
  }

  function NoScaleRule(plan: ScalePlan, dryRun: bool, forceUpload: bool, upload: Option<UploadResult>,
                       defaultError: string, skipWhenNoScale: bool): (o: NoScaleOutcome)
    ensures o.Continue? <==> !plan.IsNoScale()
    ensures o.CountError? <==> NoScaleCallsUpload(plan, dryRun, forceUpload, upload.Some?) && !upload.value.0
    ensures o.CountError? ==> o.reason == (if upload.value.1.Some? && upload.value.1.value != "" then upload.value.1.value else defaultError)
    ensures o.CountSkip? <==> plan.IsNoScale() && skipWhenNoScale && !o.CountError?
    ensures o.CountSuccess? <==> plan.IsNoScale() && !skipWhenNoScale && !o.CountError?
  {
    if !plan.IsNoScale() then Continue
    else
      var counted := if skipWhenNoScale then CountSkip else CountSuccess;
      if dryRun then counted
      else if !forceUpload || upload.None? then counted
      else if upload.value.0 then counted
      else
        var err := upload.value.1;
        CountError(if err.Some? && err.value != "" then err.value else defaultError)
  }

  /** Dry-run never uploads and always reports success for a NO_SCALE plan. */
  lemma DryRunNoScaleSucceeds(plan: ScalePlan, forceUpload: bool, upload: Option<UploadResult>, defaultError: string, skip: bool)
    requires plan.IsNoScale()
    ensures !NoScaleCallsUpload(plan, true, forceUpload, upload.Some?)
    ensures !NoScaleRule(plan, true, forceUpload, upload, defaultError, skip).CountError?
    ensures !NoScaleRule(plan, true, forceUpload, upload, defaultError, skip).Continue?
  {
  }

  /**
   * The common NO_SCALE handler. `upload` is what the callback returns when called (None: no
   * callback); `called` reports whether the handler called it. Returns None to let processing continue.
   */
  method HandleNoScale(stats: State.RunStats, plan: ScalePlan, dryRun: bool, forceUpload: bool,
                       upload: Option<UploadResult>, recordLabel: string, defaultError: string, skipWhenNoScale: bool)
    returns (result: Option<bool>, called: bool)
    modifies stats
    ensures called == NoScaleCallsUpload(plan, dryRun, forceUpload, upload.Some?)
    ensures var o := NoScaleRule(plan, dryRun, forceUpload, upload, defaultError, skipWhenNoScale);
      && (result == None <==> o.Continue?)
      && (result == Some(false) <==> o.CountError?)
      && (result == Some(true) <==> o.CountSkip? || o.CountSuccess?)
      && stats.Snapshot() == (match o
          case Continue => old(stats.Snapshot())
          case CountSkip => old(stats.Snapshot()).(skipped := old(stats.skipped) + 1)
          case CountSuccess => old(stats.Snapshot()).(successes := old(stats.successes) + 1)
          case CountError(_) => old(stats.Snapshot()).(errors := old(stats.errors) + 1))
      && stats.failedItems == (if o.CountError? then old(stats.failedItems) + [(recordLabel, o.reason)] else old(stats.failedItems))
      && stats.processedIds == old(stats.processedIds)
  {
    called := false;
    if !plan.IsNoScale() {
      return None, called;
    }
    if dryRun || !forceUpload || upload.None? {
      if skipWhenNoScale {
        stats.RecordSkip();
      } else {
        stats.RecordSuccess();
      }
      return Some(true), called;
    }
    called := true;
    var (ok, err) := upload.value;
    if ok {
      if skipWhenNoScale {
        stats.RecordSkip();
      } else {
        stats.RecordSuccess();
      }
      return Some(true), called;
    }
    stats.RecordError(recordLabel, if err.Some? && err.value != "" then err.value else defaultError);
    return Some(false), called;
  }

  // ---------------------------------------------------------------- images

  /** What the model keeps of a decoded image. `orientation` is the EXIF Orientation tag (274), if readable. */
  datatype ImageInfo = ImageInfo(width: int, height: int, pilMode: string, orientation: Option<int>)

  /** Orientations 5 to 8 of EXIF 2.3 (tag 274) rotate by a quarter turn. */
  predicate QuarterTurn(orientation: Option<int>) {
    orientation.Some? && 5 <= orientation.value <= 8
  }

  /**
   * The size after `apply_exif_orientation`: a quarter-turn tag on an image that is already
   * portrait or square is treated as already applied and the image is returned untouched;
   * otherwise the tag is applied, which swaps the axes for a quarter turn.
   */
  function ApplyExifOrientation(img: ImageInfo): (r: ImageInfo)
    ensures QuarterTurn(img.orientation) && img.height >= img.width ==> r == img
    ensures QuarterTurn(img.orientation) && img.height < img.width ==> r.width == img.height && r.height == img.width
    ensures !QuarterTurn(img.orientation) ==> r.width == img.width && r.height == img.height
    ensures r.pilMode == img.pilMode
  {
    if QuarterTurn(img.orientation) && img.height >= img.width then img
    else if QuarterTurn(img.orientation) then ImageInfo(img.height, img.width, img.pilMode, None)
    else img.(orientation := None)
  }

  /** After orientation handling, an image tagged with a quarter turn is never landscape. */
  lemma QuarterTurnEndsPortrait(img: ImageInfo)
    requires QuarterTurn(img.orientation)
    ensures ApplyExifOrientation(img).height >= ApplyExifOrientation(img).width
  {
  }

  /** `get_palette_color_count`: the number of distinct colours, capped at 256; None when PIL gives none. */
  function PaletteColorCount(colors: Option<nat>): (r: Option<int>)
    ensures r.Some? <==> colors.Some?
    ensures r.Some? ==> r.value <= 256 && (colors.value <= 256 ==> r.value == colors.value)
    ensures r.Some? && colors.value > 256 ==> r.value == 256
  {
    match colors
    case None => None
    case Some(n) => Some(if n < 256 then n else 256)
  }

  /** The palette size for a re-quantised logo: 256 when unknown or zero, else the count clamped into [2, 256]. */
  function PaletteColors(origColorCount: Option<int>): (c: int)
    ensures 2 <= c <= 256
    ensures origColorCount.Some? && 2 <= origColorCount.value <= 256 ==> c == origColorCount.value
    ensures origColorCount.None? || origColorCount.value == 0 ==> c == 256
    ensures origColorCount.Some? && origColorCount.value != 0 ==>
      c == (if origColorCount.value < 2 then 2 else if origColorCount.value > 256 then 256 else origColorCount.value)
  {
    var colors := if origColorCount.None? || origColorCount.value == 0 then 256 else origColorCount.value;
    var capped := if colors < 256 then colors else 256;
    if 2 < capped then capped else 2
  }

  // ---------------------------------------------------------------- geometry

  /** Python's `(a - b) // 2`: Dafny's `/` with a positive divisor rounds toward minus infinity too. */
  function HalfGap(outer: int, inner: int): (g: int)
    ensures g <= (outer - inner) - g <= g + 1
  {
    (outer - inner) / 2
  }

  /** Where a `newW` x `newH` logo is pasted on the transparent `targetW` x `targetH` canvas. */
  function PadOffsets(targetW: int, targetH: int, newW: int, newH: int): (off: (int, int))
    ensures newW <= targetW ==> 0 <= off.0 && off.0 + newW <= targetW
    ensures newH <= targetH ==> 0 <= off.1 && off.1 + newH <= targetH
    ensures off.0 <= targetW - (off.0 + newW) <= off.0 + 1
    ensures off.1 <= targetH - (off.1 + newH) <= off.1 + 1
  {
    (HalfGap(targetW, newW), HalfGap(targetH, newH))
  }

  /** Size of the logo canvas: the target with padding, the resized image without. */
  function LogoCanvasSize(targetW: int, targetH: int, newW: int, newH: int, noPadding: bool): (size: (int, int))
    ensures !noPadding ==> size == (targetW, targetH)
    ensures noPadding ==> size == (newW, newH)
  {
    if noPadding then (newW, newH) else (targetW, targetH)
  }

  datatype Box = Box(left: int, top: int, right: int, bottom: int)

  /** The centred crop box of `cover_and_crop_image` on a `newW` x `newH` resized image. */
  function CropBox(targetW: int, targetH: int, newW: int, newH: int): (b: Box)
    ensures b.right - b.left == targetW && b.bottom - b.top == targetH
    ensures b.left >= 0 && b.top >= 0
    ensures newW >= targetW ==> b.right <= newW && b.left <= newW - b.right <= b.left + 1
    ensures newH >= targetH ==> b.bottom <= newH && b.top <= newH - b.bottom <= b.top + 1
    ensures newW <= targetW ==> b.left == 0
    ensures newH <= targetH ==> b.top == 0
  {
    var left := if HalfGap(newW, targetW) > 0 then HalfGap(newW, targetW) else 0;
    var top := if HalfGap(newH, targetH) > 0 then HalfGap(newH, targetH) else 0;
    Box(left, top, left + targetW, top + targetH)
  }

  /** A cover-planned image is cropped to a box lying inside it. */
  lemma CoverCropInsideImage(origW: int, origH: int, targetW: int, targetH: int, allowDown: bool)
    requires origW > 0 && origH > 0
    ensures var p := MakeScalePlan(origW, origH, targetW, targetH, "cover", true, allowDown).value;
      var b := CropBox(targetW, targetH, p.newWidth, p.newHeight);
      0 <= b.left && b.right <= p.newWidth && 0 <= b.top && b.bottom <= p.newHeight
  {
    CoverFillsTarget(origW, origH, targetW, targetH, allowDown);
  }

  // ---------------------------------------------------------------- dispatch

  /** How an image is rebuilt: padded logo, or cover-and-crop forced to RGB or RGBA. */
  datatype Builder = PadLogo | CropRgb | CropRgba

  datatype Normalized = Normalized(builder: Builder, width: int, height: int, contentType: string, format: string)

  /** `build_normalized_image` without the pixels: builder, output size, content type and format per mode. */
  function BuildNormalizedImage(mode: string, targetW: int, targetH: int, newW: int, newH: int, noPadding: bool): (r: Result<Normalized, string>)
    ensures r.Failure? <==> mode !in {"logo", "thumb", "profile", "backdrop"}
    ensures r.Success? && mode != "logo" ==> r.value.width == targetW && r.value.height == targetH
    ensures r.Success? && mode == "logo" ==> (r.value.width, r.value.height) == LogoCanvasSize(targetW, targetH, newW, newH, noPadding)
    ensures r.Success? ==> r.value.contentType == "image/" + Text.Lower(r.value.format)
    ensures mode == "logo" ==> r.Success? && r.value.builder == PadLogo && r.value.format == "PNG" && r.value.contentType == "image/png"
    ensures mode == "thumb" || mode == "backdrop" ==>
      r.Success? && r.value.builder == CropRgb && r.value.format == "JPEG" && r.value.contentType == "image/jpeg"
    ensures mode == "profile" ==> r.Success? && r.value.builder == CropRgba && r.value.format == "WEBP" && r.value.contentType == "image/webp"
    ensures r.Failure? ==> r.error == "Unsupported mode: " + mode
  {
    if mode == "logo" then
      var size := LogoCanvasSize(targetW, targetH, newW, newH, noPadding);
      Success(Normalized(PadLogo, size.0, size.1, "image/png", "PNG"))
    else if mode == "thumb" then Success(Normalized(CropRgb, targetW, targetH, "image/jpeg", "JPEG"))
    else if mode == "profile" then Success(Normalized(CropRgba, targetW, targetH, "image/webp", "WEBP"))
    else if mode == "backdrop" then Success(Normalized(CropRgb, targetW, targetH, "image/jpeg", "JPEG"))
    else Failure("Unsupported mode: " + mode)
  }

  /** The encoder options `encode_image_to_bytes` passes to the PIL writer. */
  datatype EncodeOptions = PngOptions(optimize: bool) | JpegOptions(quality: int, optimize: bool, progressive: bool)
                         | WebpOptions(quality: int, compressionMethod: int)

  function EncodeOptionsFor(format: string, jpegQuality: int, webpQuality: int): (r: Result<EncodeOptions, string>)
    ensures r.Failure? <==> format !in {"PNG", "JPEG", "WEBP"}
    ensures r.Success? && r.value.JpegOptions? ==> format == "JPEG" && r.value.quality == jpegQuality
    ensures r.Success? && r.value.WebpOptions? ==> format == "WEBP" && r.value.quality == webpQuality
    ensures r.Success? && r.value.PngOptions? ==> format == "PNG" && r.value.optimize
    ensures r.Success? && r.value.JpegOptions? ==> r.value.optimize && r.value.progressive
    ensures r.Success? && r.value.WebpOptions? ==> r.value.compressionMethod == 6
    ensures r.Failure? ==> r.error == "Unsupported format: '" + format + "'"
  {
    if format == "PNG" then Success(PngOptions(true))
    else if format == "JPEG" then Success(JpegOptions(jpegQuality, true, true))
    else if format == "WEBP" then Success(WebpOptions(webpQuality, 6))
    else Failure("Unsupported format: '" + format + "'")
  }

  /** Every mode the builder accepts yields a format the encoder accepts. */
  lemma BuiltFormatsEncode(mode: string, targetW: int, targetH: int, newW: int, newH: int, noPadding: bool, jq: int, wq: int)
    requires BuildNormalizedImage(mode, targetW, targetH, newW, newH, noPadding).Success?
    ensures EncodeOptionsFor(BuildNormalizedImage(mode, targetW, targetH, newW, newH, noPadding).value.format, jq, wq).Success?
  {
  }
}

=== FILE: numbers.dfy ===
/**
 * Python's `round()` on an exact rational value: the nearest integer, ties to the even one.
 * The sizes the normaliser computes are `round(orig * scale)` and `round(base * ratio)`.
 */
module Numbers {

  function RoundHalfEven(x: real): (r: int)
    ensures r as real - x <= 0.5 && x - r as real <= 0.5
    ensures (r as real - x == 0.5 || x - r as real == 0.5) ==> r % 2 == 0
  {
    var f := x.Floor;
    var d := x - f as real;
    if d < 0.5 then f
    else if d > 0.5 then f + 1
    else if f % 2 == 0 then f
    else f + 1
  }

  /** Rounding never reverses the order of two values. */
  lemma RoundMonotone(x: real, y: real)
    requires x <= y
    ensures RoundHalfEven(x) <= RoundHalfEven(y)
  {
  }

  /** An integer rounds to itself. */
  lemma RoundOfInt(n: int)
    ensures RoundHalfEven(n as real) == n
  {
    var r := RoundHalfEven(n as real);
    assert -0.5 <= (r - n) as real <= 0.5;
  }

  /** A value at most (at least) an integer rounds to at most (at least) that integer. */
  lemma RoundBounds(x: real, n: int)
    ensures x <= n as real ==> RoundHalfEven(x) <= n
    ensures n as real <= x ==> n <= RoundHalfEven(x)
  {
    RoundOfInt(n);
    if x <= n as real { RoundMonotone(x, n as real); }
    if n as real <= x { RoundMonotone(n as real, x); }
  }
}

=== FILE: pipeline.dfy ===
/**
 * The single-image path of the processing pipeline: one fetched image is planned, backed up,
 * normalised and uploaded (or skipped under NO_SCALE). The backdrop protocol is in `Backdrops`
 * and the run over all discovered items in `Driver`. Pixels are produced by an abstract `Codec`.
 */
module Pipeline {
  import opened Wrappers
  import opened Imaging
  import State
  import opened Backup
  import Client
  import Discovery
  import Text

  /** The per-mode settings the pipeline reads; `logoPadding` is "add", "remove" or anything else. */
  datatype Settings = Settings(targetWidth: int, targetHeight: int, allowUpscale: bool, allowDownscale: bool,
                               jpegQuality: int, webpQuality: int, logoPadding: string)

  /**
   * The image library as the pipeline uses it: decode (None when the bytes are not an image),
   * the palette's colour list length, whether any pixel is above the alpha threshold, the
   * padding trim (the trimmed image and whether it cropped), and rendering plus encoding.
   */
  datatype Codec = Codec(decode: Bytes -> Option<ImageInfo>,
                         paletteColors: ImageInfo -> Option<nat>,
                         hasOpaquePixels: ImageInfo -> bool,
                         trimPadding: ImageInfo -> (ImageInfo, bool),
                         encode: (ImageInfo, Normalized, string, Option<int>, EncodeOptions) -> Bytes)

  /** `content_type or "application/octet-stream"`. */
  function OrOctet(contentType: Option<string>): (ct: string)
    ensures ct != ""
    ensures contentType.Some? && contentType.value != "" ==> ct == contentType.value
  {
    if contentType.Some? && contentType.value != "" then contentType.value else OctetStream
  }

  function FitMode(mode: string): (f: string)
    ensures f == "fit" <==> mode == "logo"
    ensures f == "fit" || f == "cover"
  {
    if mode == "logo" then "fit" else "cover"
  }

  predicate RemovesPadding(mode: string, settings: Settings) {
    mode == "logo" && settings.logoPadding == "remove"
  }

  // ---------------------------------------------------------------- one image, as a value

  /** A decoded image after orientation and padding removal, and what was learnt on the way. */
  datatype Prepared = Prepared(img: ImageInfo, origMode: string, colorCount: Option<int>, cropped: bool, warn: bool)

  /**
   * Decoding, EXIF orientation, the palette count of paletted logos, and the padding trim of
   * logos set to remove padding. `warn` is set for a fully transparent logo, and for a logo the
   * trim left uncropped at exactly the target size.
   */
  function Prepare(codec: Codec, data: Bytes, mode: string, settings: Settings): (r: Option<Prepared>)
    ensures r.None? <==> codec.decode(data).None?
    ensures r.Some? ==> r.value.origMode == codec.decode(data).value.pilMode
    ensures r.Some? && !RemovesPadding(mode, settings) ==>
      r.value.img == ApplyExifOrientation(codec.decode(data).value) && !r.value.cropped && !r.value.warn
    ensures r.Some? && (mode != "logo" || r.value.origMode != "P") ==> r.value.colorCount.None?
    ensures r.Some? && r.value.colorCount.Some? ==> r.value.colorCount.value <= 256
  {
    match codec.decode(data)
    case None => None
    case Some(decoded) =>
      var img := ApplyExifOrientation(decoded);
      var origMode := img.pilMode;
      var colorCount := if mode == "logo" && origMode == "P" then PaletteColorCount(codec.paletteColors(img)) else None;
      if !RemovesPadding(mode, settings) then Some(Prepared(img, origMode, colorCount, false, false))
      else
        var fullyTransparent := !codec.hasOpaquePixels(img);
        var trim := codec.trimPadding(img);
        var trimmed := trim.0;
        var cropped := trim.1;
        var untouched := !cropped && trimmed.width == img.width && trimmed.height == img.height
                         && trimmed.width == settings.targetWidth && trimmed.height == settings.targetHeight;
        Some(Prepared(trimmed, origMode, colorCount, cropped, fullyTransparent || untouched))
  }

  /** The resize plan; a zero-sized image fails as the ratio's division by zero does. */
  function PlanImage(img: ImageInfo, fitMode: string, settings: Settings): (r: Result<ScalePlan, string>)
    ensures r.Failure? <==> img.width <= 0 || img.height <= 0 || (fitMode != "fit" && fitMode != "cover")
    ensures r.Success? ==> r == MakeScalePlan(img.width, img.height, settings.targetWidth, settings.targetHeight,
                                              fitMode, settings.allowUpscale, settings.allowDownscale)
  {
    if img.width <= 0 || img.height <= 0 then Failure("division by zero")
    else MakeScalePlan(img.width, img.height, settings.targetWidth, settings.targetHeight, fitMode,
                       settings.allowUpscale, settings.allowDownscale)
  }

  datatype Normalization = Normalization(plan: ScalePlan, payload: Bytes, contentType: string)

  /** The payload for a planned image: the original bytes when nothing changes, else the rebuilt image. */
  function Render(codec: Codec, p: Prepared, plan: ScalePlan, data: Bytes, contentType: Option<string>,
                  mode: string, settings: Settings): (r: Result<Normalization, string>)
    ensures r.Success? ==> r.value.plan == plan
  {
    if plan.IsNoScale() && !p.cropped then Success(Normalization(plan, data, OrOctet(contentType)))
    else
      match BuildNormalizedImage(mode, settings.targetWidth, settings.targetHeight, plan.newWidth, plan.newHeight,
                                 settings.logoPadding != "add")
      case Failure(e) => Failure(e)
      case Success(n) =>
        BuiltFormatsEncode(mode, settings.targetWidth, settings.targetHeight, plan.newWidth, plan.newHeight,
                           settings.logoPadding != "add", settings.jpegQuality, settings.webpQuality);
        var options := EncodeOptionsFor(n.format, settings.jpegQuality, settings.webpQuality).value;
        Success(Normalization(plan, codec.encode(p.img, n, p.origMode, p.colorCount, options), n.contentType))
  }

  /** `_normalize_image_bytes` as a value: its result, or the text of the exception it raises. */
  function NormalizeResult(codec: Codec, data: Bytes, contentType: Option<string>, mode: string, settings: Settings)
    : (r: Result<Normalization, string>)
    ensures Prepare(codec, data, mode, settings).None? ==> r == Failure("cannot identify image file")
    ensures r.Success? ==> PlanOf(codec, data, mode, settings) == Some(r.value.plan)
  {
    match Prepare(codec, data, mode, settings)
    case None => Failure("cannot identify image file")
    case Some(p) =>
      match PlanImage(p.img, FitMode(mode), settings)
      case Failure(e) => Failure(e)
      case Success(plan) => Render(codec, p, plan, data, contentType, mode, settings)
  }

  /** The plan `NormalizeResult` computes, when decoding and planning succeed. */
  function PlanOf(codec: Codec, data: Bytes, mode: string, settings: Settings): Option<ScalePlan> {
    match Prepare(codec, data, mode, settings)
    case None => None
    case Some(p) =>
      match PlanImage(p.img, FitMode(mode), settings)
      case Failure(_) => None
      case Success(plan) => Some(plan)
  }

  /** A scale report list after one image: its record is appended when its plan made decision `d`. */
  function Reported(list: seq<State.ScaleRecord>, name: string, plan: Option<ScalePlan>, d: Decision): seq<State.ScaleRecord> {
    if plan.Some? && plan.value.decision == d
    then list + [State.ScaleRecord(name, plan.value.origWidth, plan.value.origHeight, plan.value.newWidth, plan.value.newHeight)]
    else list
  }

  /** Whether the padding step records a warning for these bytes. */
  predicate PaddingWarning(codec: Codec, data: Bytes, mode: string, settings: Settings) {
    Prepare(codec, data, mode, settings).Some? && Prepare(codec, data, mode, settings).value.warn
  }

  /** A NO_SCALE image that the padding trim did not crop is passed through byte for byte. */
  lemma NoScaleKeepsOriginalBytes(codec: Codec, data: Bytes, contentType: Option<string>, mode: string, settings: Settings)
    requires PlanOf(codec, data, mode, settings).Some? && PlanOf(codec, data, mode, settings).value.IsNoScale()
    requires !RemovesPadding(mode, settings)
    ensures NormalizeResult(codec, data, contentType, mode, settings).Success?
    ensures NormalizeResult(codec, data, contentType, mode, settings).value.payload == data
    ensures NormalizeResult(codec, data, contentType, mode, settings).value.contentType == OrOctet(contentType)
  {
  }

  /** Whatever the plan, a rebuilt image carries the content type of its mode: PNG for logos, WEBP for profiles, JPEG otherwise. */
  lemma RebuiltContentType(codec: Codec, data: Bytes, contentType: Option<string>, mode: string, settings: Settings)
    requires mode in {"logo", "thumb", "profile", "backdrop"}
    requires PlanOf(codec, data, mode, settings).Some? && !PlanOf(codec, data, mode, settings).value.IsNoScale()
    ensures NormalizeResult(codec, data, contentType, mode, settings).Success?
    ensures NormalizeResult(codec, data, contentType, mode, settings).value.contentType ==
      if mode == "logo" then "image/png" else if mode == "profile" then "image/webp" else "image/jpeg"
  {
  }

  /** Undecodable bytes fail, and so does a mode the builder does not know once the image must be rebuilt. */
  lemma NormalizeFailures(codec: Codec, data: Bytes, contentType: Option<string>, mode: string, settings: Settings)
    ensures codec.decode(data).None? ==> NormalizeResult(codec, data, contentType, mode, settings).Failure?
    ensures (PlanOf(codec, data, mode, settings).Some? && !PlanOf(codec, data, mode, settings).value.IsNoScale()
             && mode !in {"logo", "thumb", "profile", "backdrop"}) ==> NormalizeResult(codec, data, contentType, mode, settings).Failure?
    ensures NormalizeResult(codec, data, contentType, mode, settings).Success? ==> PlanOf(codec, data, mode, settings).Some?
  {
  }

  // ---------------------------------------------------------------- one image, step by step

  /** Whether `_plan_and_backup_image` writes a backup of the original for this plan. */
  predicate BackupGate(plan: ScalePlan, makeBackup: bool, dryRun: bool, backupMode: string) {
    makeBackup && !dryRun && ShouldBackupForPlan(plan.decision, backupMode)
  }

  /** The backup store after a (possible) backup of `data`. */
  function AfterBackup(files: map<Path, Bytes>, plan: Option<ScalePlan>, makeBackup: bool, dryRun: bool, backupMode: string,
                       root: Path, itemId: string, imageType: string, data: Bytes, contentType: Option<string>): map<Path, Bytes> {
    if plan.Some? && BackupGate(plan.value, makeBackup, dryRun, backupMode)
    then StoreBackup(files, BackupPath(root, itemId, imageType, GuessExtension(contentType)), data, true)
    else files
  }

  /** A backup only ever adds or replaces the one backup file: every other path keeps its contents. */
  lemma AfterBackupKeepsPaths(files: map<Path, Bytes>, plan: Option<ScalePlan>, makeBackup: bool, dryRun: bool, backupMode: string,
                              root: Path, itemId: string, imageType: string, data: Bytes, contentType: Option<string>)
    ensures files.Keys <= AfterBackup(files, plan, makeBackup, dryRun, backupMode, root, itemId, imageType, data, contentType).Keys
    ensures dryRun || !makeBackup ==> AfterBackup(files, plan, makeBackup, dryRun, backupMode, root, itemId, imageType, data, contentType) == files
    ensures forall q :: q != BackupPath(root, itemId, imageType, GuessExtension(contentType)) ==>
      var after := AfterBackup(files, plan, makeBackup, dryRun, backupMode, root, itemId, imageType, data, contentType);
      (q in after <==> q in files) && (q in files ==> after[q] == files[q])
  {
  }

  /** `_plan_and_backup_image`: plan, back up the original when the gate allows, report the decision. */
  method PlanAndBackup(g: State.Globals, fs: FileSystem, img: ImageInfo, name: string, fitMode: string, settings: Settings,
                       itemId: string, imageType: string, raw: Bytes, contentType: Option<string>,
                       makeBackup: bool, root: Path, backupMode: string, dryRun: bool)
    returns (r: Result<ScalePlan, string>)
    modifies g, fs
    ensures r == PlanImage(img, fitMode, settings)
    ensures fs.files == AfterBackup(old(fs.files), if r.Success? then Some(r.value) else None, makeBackup, dryRun, backupMode,
                                    root, itemId, imageType, raw, contentType)
    ensures r.Failure? ==> g.upscaled == old(g.upscaled) && g.downscaled == old(g.downscaled)
    ensures r.Success? ==> var rec := State.ScaleRecord(name, r.value.origWidth, r.value.origHeight, r.value.newWidth, r.value.newHeight);
      && g.upscaled == (if r.value.decision == ScaleUp then old(g.upscaled) + [rec] else old(g.upscaled))
      && g.downscaled == (if r.value.decision == ScaleDown then old(g.downscaled) + [rec] else old(g.downscaled))
    ensures g.stats == old(g.stats) && g.apiFailures == old(g.apiFailures) && g.dryRun == old(g.dryRun)
  {
    r := PlanImage(img, fitMode, settings);
    if r.Failure? {
      return;
    }
    BackupIfNeeded(fs, r.value, makeBackup, dryRun, backupMode, root, itemId, imageType, raw, contentType);
    RecordScaleDecision(g, name, r.value);
  }

  /** The backup step of `_plan_and_backup_image`: the original is saved, overwriting, when the gate allows. */
  method BackupIfNeeded(fs: FileSystem, plan: ScalePlan, makeBackup: bool, dryRun: bool, backupMode: string,
                        root: Path, itemId: string, imageType: string, raw: Bytes, contentType: Option<string>)
    modifies fs
    ensures fs.files == AfterBackup(old(fs.files), Some(plan), makeBackup, dryRun, backupMode, root, itemId, imageType, raw, contentType)
  {
    if BackupGate(plan, makeBackup, dryRun, backupMode) {
      var _ := fs.SaveBackup(root, itemId, imageType, raw, contentType, true);
    }
  }

  /**
   * `_normalize_image_bytes`: the result is `NormalizeResult`; on the way it records the padding
   * warning, the backup and the scale decision, in that order.
   */
  method NormalizeImageBytes(codec: Codec, g: State.Globals, fs: FileSystem, itemId: string, name: string, imageType: string,
                             data: Bytes, contentType: Option<string>, mode: string, settings: Settings,
                             makeBackup: bool, root: Path, backupMode: string, dryRun: bool)
    returns (r: Result<Normalization, string>)
    modifies g, g.stats, fs
    ensures r == NormalizeResult(codec, data, contentType, mode, settings)
    ensures g.stats == old(g.stats) && g.apiFailures == old(g.apiFailures)
    ensures g.stats.Snapshot() == old(g.stats.Snapshot()).(warnings := old(g.stats.warnings) + if PaddingWarning(codec, data, mode, settings) then 1 else 0)
    ensures g.stats.failedItems == old(g.stats.failedItems) && g.stats.processedIds == old(g.stats.processedIds)
    ensures fs.files == AfterBackup(old(fs.files), PlanOf(codec, data, mode, settings), makeBackup, dryRun, backupMode,
                                    root, itemId, imageType, data, contentType)
    ensures g.upscaled == Reported(old(g.upscaled), name, PlanOf(codec, data, mode, settings), ScaleUp)
    ensures g.downscaled == Reported(old(g.downscaled), name, PlanOf(codec, data, mode, settings), ScaleDown)
    ensures g.dryRun == old(g.dryRun)
  {
    var p := Prepare(codec, data, mode, settings);
    if p.None? {
      return Failure("cannot identify image file");
    }
    if p.value.warn {
      g.stats.RecordWarning();
    }
    var planned := PlanAndBackup(g, fs, p.value.img, name, FitMode(mode), settings, itemId, imageType, data, contentType,
                                 makeBackup, root, backupMode, dryRun);
    if planned.Failure? {
      return Failure(planned.error);
    }
    r := Render(codec, p.value, planned.value, data, contentType, mode, settings);
  }

  /** The NO_SCALE policy of a mode: logos and thumbs are skipped unless uploads are forced; backdrops never are. */
  function SkipWhenNoScale(mode: string, forceUpload: bool): (skip: bool)
    ensures skip ==> mode != "backdrop"
    ensures skip <==> (mode == "logo" || mode == "thumb") && !forceUpload
  {
    if mode == "backdrop" then false else (mode == "logo" || mode == "thumb") && !forceUpload
  }

  /** The upload one image issues, if any: the original under a forced NO_SCALE, otherwise the payload. */
  function UploadCallsFor(n: Result<Normalization, string>, itemId: string, imageType: string, index: Option<int>,
                          data: Bytes, contentType: Option<string>, dryRun: bool, forceUpload: bool): (calls: seq<Client.Call>)
    ensures |calls| <= 1
    ensures dryRun || n.Failure? ==> calls == []
  {
    if n.Failure? || dryRun then []
    else if n.value.plan.IsNoScale() then
      (if forceUpload then [Client.UploadImage(itemId, imageType, index, data, OrOctet(contentType))] else [])
    else [Client.UploadImage(itemId, imageType, index, n.value.payload, n.value.contentType)]
  }

  /** How one image ends: counted as a success, as a skip, or as an error with its reason. */
  datatype Outcome = Succeeded | Skipped | Errored(reason: string)

  /** The counters after one outcome is recorded. */
  function Count(c: State.Counters, o: Outcome): (r: State.Counters)
    ensures r.successes + r.skipped + r.errors == c.successes + c.skipped + c.errors + 1
    ensures r.processed == c.processed && r.imagesFound == c.imagesFound && r.warnings == c.warnings
    ensures r.errors == c.errors <==> !o.Errored?
  {
    match o
    case Succeeded => c.(successes := c.successes + 1)
    case Skipped => c.(skipped := c.skipped + 1)
    case Errored(_) => c.(errors := c.errors + 1)
  }

  /** The error list after one outcome is recorded. */
  function Failed(failed: seq<(string, string)>, name: string, o: Outcome): seq<(string, string)> {
    if o.Errored? then failed + [(name, o.reason)] else failed
  }

  /** The reply the next upload receives: the scripted one, or a failure once the script is exhausted. */
  function NextUploadReply(replies: seq<Option<string>>): Option<string> {
    if replies == [] then Some("Unknown error") else replies[0]
  }

  /**
   * The outcome of one image, given its normalisation and the reply its upload would receive:
   * a failed normalisation is an error carrying the exception text; a NO_SCALE plan follows the
   * NO_SCALE rule (a forced upload that is rejected is an error); a dry run succeeds; otherwise
   * the upload decides, a rejection being an error that carries the API's text when it has one.
   */
  function ImageOutcome(n: Result<Normalization, string>, mode: string, dryRun: bool, forceUpload: bool, reply: Option<string>)
    : (o: Outcome)
    ensures n.Failure? ==> o == Errored(n.error)
    ensures o == Skipped ==> SkipWhenNoScale(mode, forceUpload) && n.Success? && n.value.plan.IsNoScale()
    ensures n.Success? && dryRun ==> !o.Errored?
    ensures n.Success? && reply.None? ==> !o.Errored?
    ensures o.Errored? && n.Success? ==> UploadCallsFor(n, "", "", None, [], None, dryRun, forceUpload) != [] && reply.Some?
  {
    if n.Failure? then Errored(n.error)
    else if n.value.plan.IsNoScale() then
      var text := if reply.Some? && reply.value != "" then reply else None;
      match NoScaleRule(n.value.plan, dryRun, forceUpload, Some((reply.None?, text)),
                        "API upload failed for NO_SCALE image", SkipWhenNoScale(mode, forceUpload))
      case CountSkip => Skipped
      case CountSuccess => Succeeded
      case CountError(e) => Errored(e)
      case Continue => assert false; Succeeded
    else if dryRun || reply.None? then Succeeded
    else Errored(if reply.value != "" then reply.value else "API upload failed")
  }

  /** The API failure list after the image's upload, if it made one and it was rejected. */
  function FailuresAfter(failures: seq<State.ApiFailure>, calls: seq<Client.Call>, itemId: string, imageType: string,
                         reply: Option<string>): seq<State.ApiFailure> {
    if calls != [] && reply.Some? then failures + [State.ApiFailure(itemId, imageType, reply)] else failures
  }

  /** The delivery half of `_process_item_image_payload`, once normalisation has succeeded. */
  method Deliver(g: State.Globals, client: Client.MediaClient, nv: Normalization, itemId: string, name: string, imageType: string,
                 data: Bytes, contentType: Option<string>, mode: string, dryRun: bool, forceUpload: bool, index: Option<int>)
    returns (ok: bool)
    modifies g, g.stats, client
    ensures g.stats == old(g.stats) && g.upscaled == old(g.upscaled) && g.downscaled == old(g.downscaled) && g.dryRun == old(g.dryRun)
    ensures var calls := UploadCallsFor(Success(nv), itemId, imageType, index, data, contentType, dryRun, forceUpload);
      var reply := NextUploadReply(old(client.uploadReplies));
      var o := ImageOutcome(Success(nv), mode, dryRun, forceUpload, reply);
      && client.log == old(client.log) + calls
      && g.stats.Snapshot() == Count(old(g.stats.Snapshot()), o)
      && g.stats.failedItems == Failed(old(g.stats.failedItems), name, o)
      && g.apiFailures == FailuresAfter(old(g.apiFailures), calls, itemId, imageType, reply)
      && (ok <==> !o.Errored?)
    ensures g.stats.processedIds == old(g.stats.processedIds)
  {
    var plan := nv.plan;
    var upload: Option<UploadResult> := Some((false, None));
    if NoScaleCallsUpload(plan, dryRun, forceUpload, true) {
      var before := |g.apiFailures|;
      var sent := client.Upload(g, itemId, imageType, index, data, OrOctet(contentType));
      upload := Some((sent, State.LatestApiError(g.apiFailures, before)));
    }
    var handled, _ := HandleNoScale(g.stats, plan, dryRun, forceUpload, upload, name,
                                    "API upload failed for NO_SCALE image", SkipWhenNoScale(mode, forceUpload));
    if handled.Some? {
      return handled.value;
    }
    if dryRun {
      g.stats.RecordSuccess();
      return true;
    }
    var before := |g.apiFailures|;
    var sent := client.Upload(g, itemId, imageType, index, nv.payload, nv.contentType);
    if sent {
      g.stats.RecordSuccess();
      return true;
    }
    var err := State.LatestApiError(g.apiFailures, before);
    g.stats.RecordError(name, if err.Some? then err.value else "API upload failed");
    return false;
  }

  /**
   * `_process_item_image_payload`: normalise, apply the NO_SCALE policy (whose forced upload
   * sends the original bytes), else upload the payload. Every call counts exactly one success,
   * skip or error, as `ImageOutcome` says; the result is false exactly when it counted an error.
   */
  method ProcessItemImagePayload(codec: Codec, g: State.Globals, fs: FileSystem, client: Client.MediaClient,
                                 itemId: string, name: string, imageType: string, data: Bytes, contentType: Option<string>,
                                 mode: string, settings: Settings, dryRun: bool, forceUpload: bool,
                                 makeBackup: bool, root: Path, backupMode: string, index: Option<int>)
    returns (ok: bool)
    modifies g, g.stats, fs, client
    ensures g.stats == old(g.stats)
    ensures var n := NormalizeResult(codec, data, contentType, mode, settings);
      var calls := UploadCallsFor(n, itemId, imageType, index, data, contentType, dryRun, forceUpload);
      var reply := NextUploadReply(old(client.uploadReplies));
      var o := ImageOutcome(n, mode, dryRun, forceUpload, reply);
      var warned := if PaddingWarning(codec, data, mode, settings) then 1 else 0;
      && client.log == old(client.log) + calls
      && g.stats.Snapshot() == Count(old(g.stats.Snapshot()).(warnings := old(g.stats.warnings) + warned), o)
      && g.stats.failedItems == Failed(old(g.stats.failedItems), name, o)
      && g.apiFailures == FailuresAfter(old(g.apiFailures), calls, itemId, imageType, reply)
      && (ok <==> !o.Errored?)
    ensures g.stats.processedIds == old(g.stats.processedIds)
    ensures fs.files == AfterBackup(old(fs.files), PlanOf(codec, data, mode, settings), makeBackup, dryRun, backupMode,
                                    root, itemId, imageType, data, contentType)
    ensures g.upscaled == Reported(old(g.upscaled), name, PlanOf(codec, data, mode, settings), ScaleUp)
    ensures g.downscaled == Reported(old(g.downscaled), name, PlanOf(codec, data, mode, settings), ScaleDown)
    ensures g.dryRun == old(g.dryRun)
  {
    var n := NormalizeImageBytes(codec, g, fs, itemId, name, imageType, data, contentType, mode, settings,
                                 makeBackup, root, backupMode, dryRun);
    if n.Failure? {
      g.stats.RecordError(name, n.error);
      return false;
    }
    ok := Deliver(g, client, n.value, itemId, name, imageType, data, contentType, mode, dryRun, forceUpload, index);
  }
}

=== FILE: state.dfy ===
/**
 * Per-run bookkeeping: the `RunStats` counter object and the module-level lists the
 * rest of the normaliser appends to (API failures, upscaled and downscaled images).
 */
module State {
  import opened Wrappers

  /** A snapshot of the six counters of a `RunStats`. */
  datatype Counters = Counters(processed: int, imagesFound: int, successes: int, skipped: int, warnings: int, errors: int)

  const Zero := Counters(0, 0, 0, 0, 0, 0)

  class RunStats {
    var processed: int
    var imagesFound: int
    var successes: int
    var skipped: int
    var warnings: int
    var errors: int
    /** (identifier, reason) of every recorded error, in order. */
    var failedItems: seq<(string, string)>
    var processedIds: set<string>

    function Snapshot(): Counters
      reads this
    {
      Counters(processed, imagesFound, successes, skipped, warnings, errors)
    }

    /** What a run started from a fresh object keeps true: one count per distinct id, one entry per error. */
    predicate Valid()
      reads this
    {
      && processed == |processedIds| && "" !in processedIds
      && errors == |failedItems|
      && imagesFound >= 0 && successes >= 0 && skipped >= 0 && warnings >= 0
    }

    constructor()
      ensures Snapshot() == Zero && failedItems == [] && processedIds == {}
      ensures Valid()
    {
      processed, imagesFound, successes, skipped, warnings, errors := 0, 0, 0, 0, 0, 0;
      failedItems := [];
      processedIds := {};
    }

    /** Counts an item once per run; an empty id is ignored. */
    method RecordItemProcessed(itemId: string)
      modifies this
      ensures processedIds == if itemId == "" then old(processedIds) else old(processedIds) + {itemId}
      ensures Snapshot() == old(Snapshot()).(processed := old(processed) + if itemId == "" || itemId in old(processedIds) then 0 else 1)
      ensures failedItems == old(failedItems)
      ensures old(Valid()) ==> Valid()
    {
      if itemId == "" {
        return;
      }
      if itemId in processedIds {
        return;
      }
      processedIds := processedIds + {itemId};
      processed := processed + 1;
    }

    method RecordSuccess()
      modifies this
      ensures Snapshot() == old(Snapshot()).(successes := old(successes) + 1)
      ensures failedItems == old(failedItems) && processedIds == old(processedIds)
      ensures old(Valid()) ==> Valid()
    {
      successes := successes + 1;
    }

    method RecordWarning()
      modifies this
      ensures Snapshot() == old(Snapshot()).(warnings := old(warnings) + 1)
      ensures failedItems == old(failedItems) && processedIds == old(processedIds)
      ensures old(Valid()) ==> Valid()
    {
      warnings := warnings + 1;
    }

    method RecordSkip()
      modifies this
      ensures Snapshot() == old(Snapshot()).(skipped := old(skipped) + 1)
      ensures failedItems == old(failedItems) && processedIds == old(processedIds)
      ensures old(Valid()) ==> Valid()
    {
      skipped := skipped + 1;
    }

    /** Adds a discovered-image count; a negative count is ignored. */
    method RecordImagesFound(count: int)
      modifies this
      ensures Snapshot() == old(Snapshot()).(imagesFound := old(imagesFound) + if count < 0 then 0 else count)
      ensures failedItems == old(failedItems) && processedIds == old(processedIds)
      ensures old(Valid()) ==> Valid()
    {
      if count < 0 {
        return;
      }
      imagesFound := imagesFound + count;
    }

    method RecordError(path: string, reason: string)
      modifies this
      ensures Snapshot() == old(Snapshot()).(errors := old(errors) + 1)
      ensures failedItems == old(failedItems) + [(path, reason)] && processedIds == old(processedIds)
      ensures old(Valid()) ==> Valid()
    {
      errors := errors + 1;
      failedItems := failedItems + [(path, reason)];
    }
  }

  /** Appending to a run list in two steps or in one gives the same list. */
  lemma AppendAssoc<T>(a: seq<T>, b: seq<T>, c: seq<T>)
    ensures a + b + c == a + (b + c)
  {
  }

  /** One entry of the API failure list; `error` is absent when the client did not set it. */
  datatype ApiFailure = ApiFailure(itemId: string, imageType: string, error: Option<string>)

  /** One upscaled or downscaled image: its label, original size and new size. */
  datatype ScaleRecord = ScaleRecord(name: string, origWidth: int, origHeight: int, newWidth: int, newHeight: int)

  /** The error text of the newest failure, if the list grew past `prevLen` and that text is non-empty. */
  function LatestApiError(failures: seq<ApiFailure>, prevLen: int): (r: Option<string>)
    requires prevLen >= 0
    ensures r.Some? <==> |failures| > prevLen && failures[|failures| - 1].error.Some? && failures[|failures| - 1].error.value != ""
    ensures r.Some? ==> r == failures[|failures| - 1].error
  {
    if |failures| > prevLen then
      match failures[|failures| - 1].error
      case Some(e) => if e == "" then None else Some(e)
      case None => None
    else None
  }

  /** The module-level state of a run. */
  class Globals {
    var stats: RunStats
    var apiFailures: seq<ApiFailure>
    var upscaled: seq<ScaleRecord>
    var downscaled: seq<ScaleRecord>
    var dryRun: bool

    constructor()
      ensures fresh(stats) && stats.Snapshot() == Zero && stats.failedItems == [] && stats.Valid()
      ensures apiFailures == [] && upscaled == [] && downscaled == [] && !dryRun
    {
      stats := new RunStats();
      apiFailures, upscaled, downscaled, dryRun := [], [], [], false;
    }

    /** Rebinds `stats` to a fresh object and empties the lists; an old `stats` reference keeps its counts. */
    method Reset()
      modifies this
      ensures fresh(stats) && stats.Snapshot() == Zero && stats.failedItems == [] && stats.processedIds == {} && stats.Valid()
      ensures apiFailures == [] && upscaled == [] && downscaled == [] && !dryRun
    {
      stats := new RunStats();
      apiFailures := [];
      upscaled := [];
      downscaled := [];
      dryRun := false;
    }
  }
}

=== FILE: text.dfy ===
/**
 * Python string primitives the core relies on: `lower`/`casefold` (ASCII letters only),
 * `strip`, substring tests, `split`, decimal `int()`/`str()` and code-point ordering.
 */
module Text {
  import opened Wrappers

  // ---------------------------------------------------------------- case

  function LowerChar(c: char): char {
    if 'A' <= c <= 'Z' then (c as int + 32) as char else c
  }

  /** `s.lower()` restricted to ASCII upper-case letters. */
  function Lower(s: string): (r: string)
    ensures |r| == |s|
    ensures forall i :: 0 <= i < |s| ==> r[i] == LowerChar(s[i])
  {
    seq(|s|, i requires 0 <= i < |s| => LowerChar(s[i]))
  }

  lemma LowerIdempotent(s: string)
    ensures Lower(Lower(s)) == Lower(s)
  {
  }

  // ---------------------------------------------------------------- whitespace

  /** The characters Python's `str.isspace` accepts, which `str.strip()` removes. */
  predicate IsSpace(c: char) {
    || c == ' ' || '\t' <= c <= '\r' || '\U{1c}' <= c <= '\U{1f}'
    || c == '\U{85}' || c == '\U{a0}' || c == '\U{1680}' || '\U{2000}' <= c <= '\U{200a}'
    || c == '\U{2028}' || c == '\U{2029}' || c == '\U{202f}' || c == '\U{205f}' || c == '\U{3000}'
  }

  function StripLeft(s: string): (r: string)
    ensures |r| <= |s| && r == s[|s| - |r|..]
    ensures r == [] || !IsSpace(r[0])
    ensures forall i :: 0 <= i < |s| - |r| ==> IsSpace(s[i])
  {
    if s != [] && IsSpace(s[0]) then StripLeft(s[1..]) else s
  }

  function StripRight(s: string): (r: string)
    ensures |r| <= |s| && r == s[..|r|]
    ensures r == [] || !IsSpace(r[|r| - 1])
    ensures forall i :: |r| <= i < |s| ==> IsSpace(s[i])
  {
    if s != [] && IsSpace(s[|s| - 1]) then StripRight(s[..|s| - 1]) else s
  }

  /** `s.strip()`: the longest infix of `s` that neither starts nor ends with whitespace. */
  function Strip(s: string): (r: string)
    ensures |r| <= |s|
    ensures r == [] || (!IsSpace(r[0]) && !IsSpace(r[|r| - 1]))
  {
    StripRight(StripLeft(s))
  }

  /** Stripping only removes characters. */
  lemma StripChars(s: string)
    ensures forall c :: c in Strip(s) ==> c in s
  {
    var l := StripLeft(s);
    var r := Strip(s);
    forall c | c in r ensures c in s {
      var i :| 0 <= i < |r| && r[i] == c;
      assert r[i] == l[i];
      assert l[i] == s[|s| - |l| + i];
    }
  }

  /** A string that starts and ends with non-whitespace is its own strip. */
  lemma StripNoop(s: string)
    requires s == [] || (!IsSpace(s[0]) && !IsSpace(s[|s| - 1]))
    ensures Strip(s) == s
  {
  }

  /** One space on each side of a word is stripped away. */
  lemma StripSpaced(core: string)
    requires core != [] && !IsSpace(core[0]) && !IsSpace(core[|core| - 1])
    ensures Strip([' '] + core + [' ']) == core
  {
    var s := [' '] + core + [' '];
    assert s[1..] == core + [' '];
    assert StripLeft(s) == core + [' '];
    assert (core + [' '])[..|core|] == core;
  }

  // ---------------------------------------------------------------- substrings

  predicate StartsWith(s: string, prefix: string) {
    |prefix| <= |s| && s[..|prefix|] == prefix
  }

  /** Python's `sub in s`. */
  predicate Contains(s: string, sub: string) {
    StartsWith(s, sub) || (s != [] && Contains(s[1..], sub))
  }

  /** `s.replace(a, b).split(b)` for single-character separators: split at every char of `seps`. */
  function SplitOn(s: string, seps: set<char>): (parts: seq<string>)
    ensures |parts| >= 1
  {
    if s == [] then [""]
    else
      var rest := SplitOn(s[1..], seps);
      if s[0] in seps then [""] + rest else [[s[0]] + rest[0]] + rest[1..]
  }

  /** No part of a split holds a separator. */
  lemma {:induction false} SplitOnParts(s: string, seps: set<char>)
    ensures forall p, c :: p in SplitOn(s, seps) && c in p ==> c !in seps
  {
    if s != [] {
      SplitOnParts(s[1..], seps);
    }
  }

  /** Splitting text that starts with a separator-free word and a separator peels that word off. */
  lemma {:induction false} SplitOnAfterWord(a: string, c: char, b: string, seps: set<char>)
    requires c in seps
    requires forall x :: x in a ==> x !in seps
    ensures SplitOn(a + [c] + b, seps) == [a] + SplitOn(b, seps)
  {
    if a == [] {
      assert (a + [c] + b)[1..] == b;
    } else {
      assert (a + [c] + b)[1..] == a[1..] + [c] + b;
      SplitOnAfterWord(a[1..], c, b, seps);
      assert [a[0]] + a[1..] == a;
    }
  }

  /** A separator-free word is a single part. */
  lemma {:induction false} SplitOnWord(a: string, seps: set<char>)
    requires forall x :: x in a ==> x !in seps
    ensures SplitOn(a, seps) == [a]
  {
    if a != [] {
      SplitOnWord(a[1..], seps);
      assert [a[0]] + a[1..] == a;
    }
  }

  /** Joining separator-free words with a separator and splitting again gives the words back. */
  lemma {:induction false} SplitOnJoin(parts: seq<string>, c: char, seps: set<char>)
    requires |parts| >= 1 && c in seps
    requires forall p, x :: p in parts && x in p ==> x !in seps
    ensures SplitOn(Join(parts, [c]), seps) == parts
  {
    if |parts| == 1 {
      SplitOnWord(parts[0], seps);
    } else {
      SplitOnJoin(parts[1..], c, seps);
      assert parts[0] in parts;
      SplitOnAfterWord(parts[0], c, Join(parts[1..], [c]), seps);
      assert [parts[0]] + parts[1..] == parts;
    }
  }

  /** `s.split(c, 1)`: the text before and after the first `c`, if there is one. */
  function SplitFirst(s: string, c: char): (r: Option<(string, string)>)
    ensures r.None? <==> c !in s
    ensures r.Some? ==> s == r.value.0 + [c] + r.value.1 && c !in r.value.0
  {
    if s == [] then None
    else if s[0] == c then Some(([], s[1..]))
    else match SplitFirst(s[1..], c)
      case None => None
      case Some((a, b)) => Some(([s[0]] + a, b))
  }

  /** Splitting at the first `c` finds the text before it when that text has no `c`. */
  lemma {:induction false} SplitFirstAt(a: string, c: char, b: string)
    requires c !in a
    ensures SplitFirst(a + [c] + b, c) == Some((a, b))
  {
    if a != [] {
      assert (a + [c] + b)[1..] == a[1..] + [c] + b;
      SplitFirstAt(a[1..], c, b);
      assert [a[0]] + a[1..] == a;
    }
  }

  function Join(parts: seq<string>, sep: string): string {
    if parts == [] then ""
    else if |parts| == 1 then parts[0]
    else parts[0] + sep + Join(parts[1..], sep)
  }

  /** Python's `repr` of a string without escapes: the text between single quotes. */
  function Quote(s: string): (r: string)
    ensures |r| == |s| + 2 && r[0] == '\'' && r[|r| - 1] == '\'' && r[1..|r| - 1] == s
  {
    "'" + s + "'"
  }

  /** Python's `str` of a list of strings: the quoted items, comma-separated, in brackets. */
  function StrListRepr(xs: seq<string>): string {
    "[" + Join(seq(|xs|, k requires 0 <= k < |xs| => Quote(xs[k])), ", ") + "]"
  }

  // ---------------------------------------------------------------- decimal numbers

  predicate IsDigit(c: char) { '0' <= c <= '9' }

  predicate AllDigits(s: string) {
    forall i :: 0 <= i < |s| ==> IsDigit(s[i])
  }

  function DigitChar(d: nat): (c: char)
    requires d < 10
    ensures IsDigit(c)
  {
    ('0' as int + d) as char
  }

  /** `str(n)` for a natural number. */
  function NatToString(n: nat): (r: string)
    ensures |r| >= 1 && IsDigit(r[0]) && IsDigit(r[|r| - 1]) && AllDigits(r)
  {
    if n < 10 then [DigitChar(n)] else NatToString(n / 10) + [DigitChar(n % 10)]
  }

  /** `str(n)` for an integer. */
  function IntToString(n: int): (r: string)
    ensures r != [] && 'x' !in r && !IsSpace(r[0]) && !IsSpace(r[|r| - 1])
  {
    if n < 0 then "-" + NatToString(-n) else NatToString(n)
  }

  function DigitsValue(s: string): nat
    requires AllDigits(s)
  {
    if s == [] then 0
    else
      assert IsDigit(s[|s| - 1]) && AllDigits(s[..|s| - 1]);
      DigitsValue(s[..|s| - 1]) * 10 + (s[|s| - 1] as int - '0' as int)
  }

  predicate DigitsOrUnderscores(b: string) {
    forall i :: 0 <= i < |b| ==> IsDigit(b[i]) || b[i] == '_'
  }

  predicate NoDoubleUnderscore(b: string) {
    forall i :: 0 <= i < |b| - 1 && b[i] == '_' ==> b[i + 1] != '_'
  }

  /** Digits with single underscores between them, as Python's `int()` accepts. */
  predicate ValidDigitBody(b: string) {
    |b| >= 1 && IsDigit(b[0]) && IsDigit(b[|b| - 1]) && DigitsOrUnderscores(b) && NoDoubleUnderscore(b)
  }

  function RemoveUnderscores(b: string): (r: string)
    requires DigitsOrUnderscores(b)
    ensures AllDigits(r)
    ensures AllDigits(b) ==> r == b
  {
    if b == [] then []
    else
      assert DigitsOrUnderscores(b[..|b| - 1]);
      if b[|b| - 1] == '_' then RemoveUnderscores(b[..|b| - 1])
      else RemoveUnderscores(b[..|b| - 1]) + [b[|b| - 1]]
  }

  function BodyValue(b: string): nat
    requires ValidDigitBody(b)
  {
    DigitsValue(RemoveUnderscores(b))
  }

  /** `int(s)` on a string: surrounding whitespace, an optional sign, ASCII digits. */
  function ParseInt(s: string): (r: Option<int>)
  {
    var t := Strip(s);
    if t != [] && (t[0] == '-' || t[0] == '+') then
      var body := t[1..];
      if ValidDigitBody(body) then
        var v: int := BodyValue(body);
        Some(if t[0] == '-' then -v else v)
      else None
    else if ValidDigitBody(t) then Some(BodyValue(t))
    else None
  }

  lemma {:induction false} DigitsOfNatToString(n: nat)
    ensures DigitsValue(NatToString(n)) == n
  {
    if n >= 10 {
      DigitsOfNatToString(n / 10);
      var s := NatToString(n);
      assert s[..|s| - 1] == NatToString(n / 10);
    }
  }

  lemma DigitsAreBody(body: string)
    requires |body| >= 1 && AllDigits(body)
    ensures ValidDigitBody(body) && BodyValue(body) == DigitsValue(body)
  {
  }

  /** `int()` of an unsigned run of digits. */
  lemma ParseIntOfDigits(body: string)
    requires |body| >= 1 && AllDigits(body)
    ensures ParseInt(body) == Some(DigitsValue(body) as int)
  {
    DigitsAreBody(body);
    assert IsDigit(body[0]) && IsDigit(body[|body| - 1]);
    StripNoop(body);
    assert body[0] != '-' && body[0] != '+';
  }

  /** `int()` of a run of digits after a minus sign. */
  lemma ParseIntOfNegDigits(neg: string)
    requires |neg| >= 2 && neg[0] == '-' && AllDigits(neg[1..])
    ensures ParseInt(neg) == Some(-(DigitsValue(neg[1..]) as int))
  {
    DigitsAreBody(neg[1..]);
    assert neg[|neg| - 1] == neg[1..][|neg| - 2];
    StripNoop(neg);
    var t := Strip(neg);
    assert t == neg && t[0] == '-' && t[1..] == neg[1..];
  }

  /** `int(str(n)) == n`. */
  lemma ParseIntOfIntToString(n: int)
    ensures ParseInt(IntToString(n)) == Some(n)
  {
    var m: nat := if n < 0 then -n else n;
    DigitsOfNatToString(m);
    if n < 0 {
      var r := IntToString(n);
      assert r[1..] == NatToString(m);
      ParseIntOfNegDigits(r);
    } else {
      ParseIntOfDigits(NatToString(m));
    }
  }

  // ---------------------------------------------------------------- ordering

  /** Python's `<` on strings: code-point lexicographic order. */
  predicate LexLess(a: string, b: string) {
    b != [] && (a == [] || a[0] < b[0] || (a[0] == b[0] && LexLess(a[1..], b[1..])))
  }

  lemma {:induction false} LexLessIrreflexive(a: string)
    ensures !LexLess(a, a)
  {
    if a != [] { LexLessIrreflexive(a[1..]); }
  }

  lemma {:induction false} LexLessTransitive(a: string, b: string, c: string)
    requires LexLess(a, b) && LexLess(b, c)
    ensures LexLess(a, c)
  {
    if a != [] && a[0] == b[0] && b[0] == c[0] {
      LexLessTransitive(a[1..], b[1..], c[1..]);
    }
  }

  lemma {:induction false} LexLessTotal(a: string, b: string)
    requires a != b
    ensures LexLess(a, b) || LexLess(b, a)
  {
    if a != [] && b != [] && a[0] == b[0] {
      assert a == [a[0]] + a[1..] && b == [b[0]] + b[1..];
      LexLessTotal(a[1..], b[1..]);
    }
  }

  predicate IsLeast(m: string, s: set<string>) {
    m in s && forall x :: x in s && x != m ==> LexLess(m, x)
  }

  lemma LeastOfInsert(m: string, s: set<string>, y: string)
    requires IsLeast(m, s)
    ensures IsLeast(m, s + {y}) || IsLeast(y, s + {y})
  {
    if y != m && !LexLess(m, y) {
      LexLessTotal(m, y);
      forall x | x in s + {y} && x != y ensures LexLess(y, x) {
        if x != m { LexLessTransitive(y, m, x); }
      }
    }
  }

  /** Every non-empty set of strings has a least element, so `sorted()` is well defined. */
  lemma {:induction false} LeastExists(s: set<string>)
    requires s != {}
    ensures exists m :: IsLeast(m, s)
  {
    var y :| y in s;
    if s == {y} {
      assert IsLeast(y, s);
    } else {
      LeastExists(s - {y});
      var m :| IsLeast(m, s - {y});
      LeastOfInsert(m, s - {y}, y);
      assert s - {y} + {y} == s;
    }
  }

  /** Two least elements of one set are the same string. */
  lemma LeastUnique(m1: string, m2: string, s: set<string>)
    requires IsLeast(m1, s) && IsLeast(m2, s)
    ensures m1 == m2
  {
    if m1 != m2 {
      LexLessTransitive(m1, m2, m1);
      LexLessIrreflexive(m1);
    }
  }

  /** `sorted(s)`: the strings of `s` in ascending code-point order. */
  ghost function Sorted(s: set<string>): seq<string>
    decreases |s|
  {
    if s == {} then []
    else
      LeastExists(s);
      var m :| IsLeast(m, s);
      [m] + Sorted(s - {m})
  }

  /** Sorting starts with the least element and goes on with the rest. */
  lemma SortedStep(s: set<string>, m: string)
    requires IsLeast(m, s)
    ensures Sorted(s) == [m] + Sorted(s - {m})
  {
    var c := Sorted(s)[0];
    assert IsLeast(c, s) && Sorted(s) == [c] + Sorted(s - {c});
    LeastUnique(m, c, s);
  }

  /** `sorted(s)` lists every element of `s` once. */
  lemma {:induction false} SortedMembers(s: set<string>)
    ensures |Sorted(s)| == |s|
    ensures forall x :: x in Sorted(s) <==> x in s
    decreases |s|
  {
    if s != {} {
      LeastExists(s);
      var m :| IsLeast(m, s);
      SortedStep(s, m);
      SortedMembers(s - {m});
    }
  }

  /** `sorted(s)` is strictly ascending. */
  lemma {:induction false} SortedAscending(s: set<string>)
    ensures forall i, j :: 0 <= i < j < |Sorted(s)| ==> LexLess(Sorted(s)[i], Sorted(s)[j])
    decreases |s|
  {
    if s != {} {
      LeastExists(s);
      var m :| IsLeast(m, s);
      var rest := s - {m};
      SortedStep(s, m);
      SortedAscending(rest);
      SortedMembers(rest);
      var r, t := Sorted(s), Sorted(rest);
      assert r == [m] + t;
      forall i, j | 0 <= i < j < |r| ensures LexLess(r[i], r[j]) {
        if i == 0 {
          assert r[j] == t[j - 1] && t[j - 1] in rest;
        } else {
          assert r[i] == t[i - 1] && r[j] == t[j - 1];
        }
      }
    }
  }
}

=== FILE: wrappers.dfy ===
/** Option and Result, the model's stand-ins for Python's `None` and for raised exceptions. */
module Wrappers {

  datatype Option<+T> = None | Some(value: T) {
    /** The value, or `default` when absent (Python's `x or default` on a present/absent value). */
    function GetOr(default: T): T {
      match this
      case Some(v) => v
      case None => default
    }
  }

  datatype Result<+T, +E> = Success(value: T) | Failure(error: E)
}
